=== FILE: README.md ===
# Campus collections, modelled in Dafny

This project models a Java teaching library of collections and the campus classes built on it:

- **Linked lists:** doubly linked, singly linked and sorted doubly linked lists, with their node classes and cursor iterators.
- **Array list:** a list in an array that doubles when it is full (`ListInArray`), with its iterator.
- **Stack and queue:** a stack over the array list and a queue over the linked list.
- **Hash maps:** a map kept as a singly linked list of entries (`MapSinglyList`); a separate-chaining hash table with its iterator; and an open-addressing table with linear probing, tombstones and rehash (`ClosedHashTable`). Table sizes are primes, chosen by `nextPrime`/`isPrime`.
- **Iterator wrappers:** filter, key and value iterators.
- **Ordered maps:** a binary-search-tree map; the rotation and tri-node restructure layer (`AdvancedBSTree`); AVL and red-black maps on top of that layer; and the in-order iterator that climbs parent links.
- **Campus domain:** locations and their arithmetic, the price comparator, the command keywords, and services and students. A student moves between services and changes home according to their kind (thrifty, bookish, outgoing). Rooms and seats keep occupancy counters.

How the model represents the Java program:

- **Tree nodes** live in an index arena (`nodes: seq<Node<V>>`, with `NIL = -1` standing for `null`). Each map keeps a ghost `Tree` shape that matches the arena. In-order entries, the search order, and the map the tree stands for (`AsMap`) are defined on that shape in module `BinaryTree`.
- **Linear collections** keep a ghost `Contents` sequence.
- **Hash tables** keep a ghost `Contents` map.
- **Java exceptions** become `Result`/`Outcome` values carrying an error kind. A `NullPointerException` that the code as written would raise is an error value too, so the crash is visible in the contracts.
- **The Iterator interface** is the class `SeqIterator`, a cursor over a sequence. Its constructor, `HasNext`, `Next` and `Rewind` give every wrapper iterator its meaning, and each wrapper's contract is stated against it.

## Model

| member | source | states |
|---|---|---|
| CommandType.ToString | system/CommandType.java:42-44 | the stored token is the constant's upper-case name for every constant except CMD_STUDENTS, whose stored token differs from "STUDENTS" |
| CommandType.GetEnum | system/CommandType.java:53-99 | a found constant is one whose token equals the input exactly (case-sensitive); anything else gives no constant (null) |
| CommandType.TokenRoundTrip | system/CommandType.java:53-99 | each of the 21 tokens maps back to its own constant, and a string maps to a constant exactly when it is that constant's token |
| CommandType.StudentsTokenDoesNotRoundTrip | system/CommandType.java:14 | getEnum(CMD_STUDENTS.toString()) is null, because the stored token is "SETUDENTS" |
| CommandType.ToStringRoundTrip | system/CommandType.java:42-44 | getEnum(c.toString()) == c for every constant other than CMD_STUDENTS |
| Location.DistanceTo | system/LocationClass.java:42-45 | the Manhattan distance is zero exactly from a location to itself and is at least each coordinate's absolute difference |
| Location.DistanceSymmetric | system/LocationClass.java:44 | the distance is symmetric |
| Location.DistanceTriangle | system/LocationClass.java:44 | the distance satisfies the triangle inequality |
| PlaneOfLocation.Contains | system/PlaneOfLocationClass.java:34-43 | a location is contained iff each coordinate lies between the two vertices' coordinates, inclusive, in either order |
| PlaneOfLocation.CornersContained | system/PlaneOfLocationClass.java:20-43 | both vertices are contained, and containment does not depend on which corner was passed first |
| PriceComparator.Compare | system/PriceComparator.java:21-27 | the result is -1 exactly when the first price is lower and 1 exactly when it is higher or equal |
| PriceComparator.CompareNeverZero | system/PriceComparator.java:21-27 | compare never returns 0 |
| PriceComparator.CompareIsStrictWeakOrder | system/PriceComparator.java:21-27 | compare(a, a) is positive, "less" is transitive and asymmetric, and "not less" is transitive |
| PriceComparator.PriceOrderIsTotalPreorder | system/PriceComparator.java:21-27 | the comparator is a total preorder, as the sorted list requires |
| PriceComparator.PriceNeverMatches | system/PriceComparator.java:26 | no element of a sorted list is ever comparator-equal to a query under this comparator, so a lookup by comparator-equality never finds anything |
| Campus.Service.constructor | system/LodgingServiceClass.java:25-30 | a new lodging or eating service stores no students and has nothing occupied |
| Campus.Service.HasFreeRooms | system/LodgingServiceClass.java:38-40 | a free room exists iff the occupied rooms are fewer than the single rooms |
| Campus.Service.HasFreeSeats | system/EatingServiceClass.java:39-41 | a free seat exists iff the occupied seats are fewer than the seats |
| Campus.Service.AddStudent | system/LodgingServiceClass.java:59-62 | the student is appended to the stored list and the counter goes up by one with no capacity check (eating services alike, system/EatingServiceClass.java:60-63); the counter stays in step with the list length |
| Campus.Service.RemoveStudent | system/LodgingServiceClass.java:71-74 | the first occurrence of the student is removed and the counter goes down by one; an absent student makes the list reject position -1 and nothing changes; the counter stays in step with the list length |
| Campus.Service.SetStudents | system/StudentsStoringServiceClass.java:75-77 | the stored list is replaced by the given one and nothing else changes |
| Campus.Student.constructor | system/StudentClass.java:26-32 | a new student is at home; an outgoing student has visited only home, a bookish one nothing; a thrifty one caches the home price and Integer.MAX_VALUE |
| Campus.Student.InsertService | system/LocationStoringStudentClass.java:46-48 | a service is appended to the visited list only when absent, so the list never holds duplicates and keeps the order of first visit |
| Campus.Student.ListVisited | system/LocationStoringStudentClass.java:36-38 | the iterator yields the visited list from its start, in order |
| Campus.Student.MoveTo | system/StudentClass.java:105-115 | a lodging target raises InvalidServiceException and a full eating service EatingServiceFullException, both changing nothing; otherwise only the location changes |
| Campus.Student.ChangeLocation | system/ThriftyStudentClass.java:42-57 | the thrifty rules (eating: move first, a higher price adds the student to the service and raises DistractedStudentException with the cache unchanged, else the cache takes the price; leisure: move; lodging: a higher price raises MoreExpensiveLodgingException, else the cache takes it, never moving); the bookish rules (system/BookishStudentClass.java:34-42: lodging ignored, a successful leisure move recorded); the outgoing rules (system/OutgoingStudentClass.java:34-41: lodging recorded without moving, other targets recorded after a successful move); both caches never increase and the visited list never holds duplicates |
| Campus.Student.ChangeHome | system/StudentClass.java:126-133 | no free room raises FullLodgingServiceException and changes nothing; otherwise home and location become the new lodging before the type's changeLocation runs, so a thrifty student's MoreExpensiveLodgingException leaves the new home in place |
| HashTable.IsPrime | dataStructures/HashTable.java:83-92 | the answer is true exactly when the number is prime (false below 2, true for 2, false for other even numbers, otherwise no odd divisor up to the square root) |
| HashTable.NextPrime | dataStructures/HashTable.java:58-74 | 2 for numbers up to 2; otherwise the least prime not below the number and within int range, or 0 exactly when there is none |
| HashTable.Wrap32 | dataStructures/HashTable.java:44 | Java's 32-bit int overflow: the result is in int range and congruent to the exact value modulo 2^32 |
| HashTable.JavaRem | dataStructures/HashTable.java:44 | Java's `%`: the remainder keeps the dividend's sign and is smaller than the divisor in magnitude |
| HashTable.Hash | dataStructures/HashTable.java:38-46 | the loop computes the fold of the characters with multiplier 127, overflow and remainder by 2147483647 at each step, and the result lies strictly between -2147483647 and 2147483647 |
| HashTable.HashBounded | dataStructures/HashTable.java:43-45 | the string hash always lies strictly between -2147483647 and 2147483647 |
| HashTable.HashIsPolynomialWithoutOverflow | dataStructures/HashTable.java:38-46 | when the exact polynomial stays below 2147483647, the hash is that polynomial in base 127 |
| MapSinglyList.KeyIndex | dataStructures/MapSinglyList.java:56-60 | the search index is the first position holding the key, or -1 when no entry has it |
| MapSinglyList.AsMapKeys | dataStructures/MapSinglyList.java:15 | a key is in the map a list stands for exactly when some entry holds it |
| MapSinglyList.LookupIsMapLookup | dataStructures/MapSinglyList.java:53-62 | the list search answers the same as the map the list stands for |
| MapSinglyList.SizeIsCardinality | dataStructures/MapSinglyList.java:17 | with distinct keys, the number of entries is the number of keys of the map |
| MapSinglyList.AsMapReplace | dataStructures/MapSinglyList.java:82 | replacing an entry's value in place updates that key in the map |
| MapSinglyList.AsMapDelete | dataStructures/MapSinglyList.java:109-113 | unlinking an entry removes its key from the map |
| MapSinglyList.DeleteKeepsDistinct | dataStructures/MapSinglyList.java:109-113 | unlinking an entry keeps the keys distinct |
| MapSinglyList.PutEntryIsUpdate | dataStructures/MapSinglyList.java:76-90 | put keeps keys distinct, updates the map at the key, and grows the list by one exactly when the key was absent |
| MapSinglyList.RemoveKeyIsRemoval | dataStructures/MapSinglyList.java:101-121 | remove keeps keys distinct, deletes the key from the map, and shrinks the list by one exactly when the key was present |
| MapSinglyList.LookupAfterPut | dataStructures/MapSinglyList.java:76-90 | after put(k, v), get(k) is v and every other key answers as before |
| MapSinglyList.LookupAfterRemove | dataStructures/MapSinglyList.java:101-121 | after remove(k), get(k) is null and every other key answers as before |
| MapSinglyList.PutEntryEntries | dataStructures/MapSinglyList.java:76-90 | put introduces no entry other than the new one |
| MapSinglyList.RemoveKeyEntries | dataStructures/MapSinglyList.java:101-121 | remove introduces no entry |
| MapSinglyList.MapSinglyList.constructor | dataStructures/MapSinglyList.java:19-22 | a new list map is empty |
| MapSinglyList.MapSinglyList.IsEmpty | dataStructures/MapSinglyList.java:30-32 | empty iff the map has no keys |
| MapSinglyList.MapSinglyList.Size | dataStructures/MapSinglyList.java:40-42 | the size field is the number of keys |
| MapSinglyList.MapSinglyList.Get | dataStructures/MapSinglyList.java:53-62 | the loop returns the value of the entry whose key equals the argument, or null, which is the map's lookup |
| MapSinglyList.MapSinglyList.Put | dataStructures/MapSinglyList.java:76-90 | returns the previous value or null; an existing key's entry is replaced in place and size is unchanged, a new key is prepended at the head; the map is updated at the key and keys stay distinct |
| MapSinglyList.MapSinglyList.Replace | dataStructures/MapSinglyList.java:81-83 | the entry at the found position is replaced and nothing else changes |
| MapSinglyList.MapSinglyList.PushHead | dataStructures/MapSinglyList.java:87-88 | the new entry becomes the head and the size goes up by one |
| MapSinglyList.MapSinglyList.Remove | dataStructures/MapSinglyList.java:101-121 | returns the previous value or null; the matching entry is unlinked and size goes down exactly when the key was present; the map loses the key |
| MapSinglyList.MapSinglyList.Unlink | dataStructures/MapSinglyList.java:109-114 | the head moves on, or the predecessor skips the node; exactly that entry leaves the list |
| MapSinglyList.MapSinglyList.Iterator | dataStructures/MapSinglyList.java:128-130 | an iterator over the entries from the head, in list order |
| SepChainHashTable.BucketIndex | dataStructures/SepChainHashTable.java:39-41 | the bucket index |hashCode| mod length always lies in the table |
| SepChainHashTable.IndexAsWritten | dataStructures/SepChainHashTable.java:39-41 | Java's Math.abs and `%` as written: for every hash except the least int it agrees with the bucket index |
| SepChainHashTable.LeastHashIndexIsNegative | dataStructures/SepChainHashTable.java:40 | a key whose hashCode is -2147483648 gets index -22 in a table of 37 buckets, outside the table |
| SepChainHashTable.PutKeeps | dataStructures/SepChainHashTable.java:68-77 | putting into the key's bucket answers the key's old value and keeps every entry in its hash bucket, with the table now standing for the map updated at the key |
| SepChainHashTable.RemoveKeeps | dataStructures/SepChainHashTable.java:118-123 | removing from the key's bucket answers the key's old value and leaves the table standing for the map without the key |
| SepChainHashTable.RehashStart | dataStructures/SepChainHashTable.java:88 | an empty new table is the start of the redistribution |
| SepChainHashTable.RehashStep | dataStructures/SepChainHashTable.java:94-101 | moving one entry to bucket |hashCode| mod new length keeps the partial new table standing for exactly the entries moved so far |
| SepChainHashTable.RehashNextBucket | dataStructures/SepChainHashTable.java:90-103 | finishing an old bucket moves on to the next |
| SepChainHashTable.RehashDone | dataStructures/SepChainHashTable.java:90-105 | after all old buckets, the new table stands for the same map, each entry in its hash bucket |
| SepChainHashTable.IterationYieldsContents | dataStructures/SepChainHashTable.java:132-134 | the entries of the buckets, taken in index order, are exactly the map's entries |
| SepChainHashTable.GrowthRaisesLimit | dataStructures/SepChainHashTable.java:83-106 | the new 9/10 limit of a table at least doubled (at least 3) is above the old one, so the table is no longer full after a rehash |
| SepChainHashTable.MoveBucket | dataStructures/SepChainHashTable.java:91-102 | the inner loop moves every entry of one old bucket into its new bucket |
| SepChainHashTable.Redistribute | dataStructures/SepChainHashTable.java:88-104 | the new table of the given length stands for the same map with every entry in its new hash bucket |
| SepChainHashTable.SepChainHashTable.constructor | dataStructures/SepChainHashTable.java:27-30 | a new table is empty with (int)(capacity * 0.75) buckets and maxSize 0, which is never set |
| SepChainHashTable.SepChainHashTable.Default | dataStructures/SepChainHashTable.java:21-24 | the default table has (int)(50 * 0.75) buckets and is empty, with maxSize 0 |
| SepChainHashTable.SepChainHashTable.IsEmpty | dataStructures/HashTable.java:105-107 | empty iff the map has no keys |
| SepChainHashTable.SepChainHashTable.Size | dataStructures/HashTable.java:115-117 | currentSize is the number of keys |
| SepChainHashTable.SepChainHashTable.IsFull | dataStructures/HashTable.java:95-97 | full iff the number of keys equals maxSize |
| SepChainHashTable.SepChainHashTable.Get | dataStructures/SepChainHashTable.java:49-55 | the lookup answers the map's value for the key, or null; a table of length 0 throws ArithmeticException |
| SepChainHashTable.SepChainHashTable.Put | dataStructures/SepChainHashTable.java:65-78 | returns the previous value or null and the map is updated at the key, so currentSize grows only for a new key; a full table is rehashed first, to a longer table |
| SepChainHashTable.SepChainHashTable.Rehash | dataStructures/SepChainHashTable.java:81-107 | the map and currentSize are kept, the new length is at least 3 and at least double, and maxSize becomes 9/10 of it, so the table is no longer full |
| SepChainHashTable.SepChainHashTable.Remove | dataStructures/SepChainHashTable.java:116-124 | returns the removed value or null, and the map loses the key, so currentSize drops only when a value was removed; a table of length 0 throws ArithmeticException |
| SepChainHashTable.SepChainHashTable.Iterator | dataStructures/SepChainHashTable.java:132-134 | an iterator over the buckets in index order, nothing emitted yet |
| SepChainHashTableIterator.Flatten | dataStructures/SepChainHashTableIterator.java:41-52 | the entries of a table taken bucket by bucket; an empty table gives none |
| SepChainHashTableIterator.FlattenAppend | dataStructures/SepChainHashTableIterator.java:79-86 | finishing one more bucket appends exactly that bucket's entries |
| SepChainHashTableIterator.FlattenSkip | dataStructures/SepChainHashTableIterator.java:44-51 | skipping empty buckets adds no entries |
| SepChainHashTableIterator.FlattenPrefix | dataStructures/SepChainHashTableIterator.java:41-52 | the entries of the first buckets are a prefix of those of more buckets |
| SepChainHashTableIterator.FlattenIndex | dataStructures/SepChainHashTableIterator.java:79-86 | the p-th entry of bucket i comes at its place in the bucket-by-bucket order |
| SepChainHashTableIterator.FlattenMembers | dataStructures/SepChainHashTableIterator.java:41-52 | an entry is visited exactly when some bucket holds it |
| SepChainHashTableIterator.SepChainHashTableIterator.constructor | dataStructures/SepChainHashTableIterator.java:29-34 | a new iterator is on the first non-empty bucket and has emitted nothing |
| SepChainHashTableIterator.SepChainHashTableIterator.AdvanceToNextBucket | dataStructures/SepChainHashTableIterator.java:41-52 | the index moves forward past empty buckets only, stopping at a non-empty bucket with a fresh bucket iterator at its start, or past the end with no bucket iterator |
| SepChainHashTableIterator.SepChainHashTableIterator.HasNext | dataStructures/SepChainHashTableIterator.java:60-70 | true exactly when some entry of the bucket-by-bucket order has not been emitted |
| SepChainHashTableIterator.SepChainHashTableIterator.Next | dataStructures/SepChainHashTableIterator.java:79-86 | throws NoSuchElementException exactly when every entry was emitted; otherwise returns the next entry in bucket-by-bucket order and emits one more |
| SepChainHashTableIterator.SepChainHashTableIterator.Rewind | dataStructures/SepChainHashTableIterator.java:93-97 | back on the first non-empty bucket, nothing emitted |
| ClosedHashTable.ProbeAsWritten | dataStructures/ClosedHashTable.java:55-57 | Java's Math.abs(hashCode + i) % length with 32-bit overflow, as written; it agrees with the linear probe whenever hashCode + i is a non-negative int |
| ClosedHashTable.ProbeAsWrittenMissesCells | dataStructures/ClosedHashTable.java:55-57 | a key hashing to -3 in a table of 7 cells probes only cells 0 to 3, so the as-written probe sequence does not cover the table |
| ClosedHashTable.Probe | dataStructures/ClosedHashTable.java:55-57 | probe i of a key is (hashCode + i) mod length, always a cell of the table |
| ClosedHashTable.Offset | dataStructures/ClosedHashTable.java:55-57 | the probe step at which a cell is reached lies in [0, length) |
| ClosedHashTable.ProbeCoversTable | dataStructures/ClosedHashTable.java:67-68 | every cell is probe Offset(s) of every key, so linear probing visits the whole table |
| ClosedHashTable.OffsetOfProbe | dataStructures/ClosedHashTable.java:67-68 | the step of probe i's cell is i, so the probe steps of one key visit distinct cells |
| ClosedHashTable.FullEntries | dataStructures/ClosedHashTable.java:229-232 | the entries of the live cells in index order, never more than the cells |
| ClosedHashTable.FullEntriesAppend | dataStructures/ClosedHashTable.java:229-232 | one more cell adds its entry exactly when it is live |
| ClosedHashTable.FullEntriesSkip | dataStructures/ClosedHashTable.java:244-245 | null cells and tombstones add no entries |
| ClosedHashTable.FullEntriesPrefix | dataStructures/ClosedHashTable.java:229-232 | the live entries of a prefix of the table are a prefix of the table's |
| ClosedHashTable.FullEntriesIndex | dataStructures/ClosedHashTable.java:229-232 | a live cell's entry sits at its place in the index-order sequence |
| ClosedHashTable.FullEntriesMembers | dataStructures/ClosedHashTable.java:229-232 | an entry is iterated exactly when some cell holds it |
| ClosedHashTable.CountFull | dataStructures/ClosedHashTable.java:16 | the number of live cells, never more than the cells |
| ClosedHashTable.CountFullUpdate | dataStructures/ClosedHashTable.java:110-111 | writing one cell changes the live count by what that cell loses and gains |
| ClosedHashTable.NotFullCell | dataStructures/ClosedHashTable.java:104-113 | a table with fewer live cells than cells has a cell that is null or a tombstone |
| ClosedHashTable.NoneFull | dataStructures/ClosedHashTable.java:41-43 | a table of null cells has no entries |
| ClosedHashTable.ClearAt | dataStructures/ClosedHashTable.java:66-75 | no probe before the stopping step of a stored key meets a null cell |
| ClosedHashTable.ClearIntro | dataStructures/ClosedHashTable.java:66-75 | probe paths that meet no null cell are clear |
| ClosedHashTable.ClearKeep | dataStructures/ClosedHashTable.java:114-116 | filling or tombstoning cells keeps clear probe paths clear |
| ClosedHashTable.KeyPath | dataStructures/ClosedHashTable.java:66-75 | a stored key sits at some probe step with no null cell at any earlier step |
| ClosedHashTable.AbsentWhenNotMet | dataStructures/ClosedHashTable.java:66-75 | a search that reaches a null cell or runs out of steps without meeting the key proves the key absent |
| ClosedHashTable.InsertKeeps | dataStructures/ClosedHashTable.java:108-113 | storing a new key in the first free cell (null or tombstone) of its probe path keeps every key findable and adds it to the map |
| ClosedHashTable.ReplaceKeeps | dataStructures/ClosedHashTable.java:118-122 | overwriting a key's cell updates the map at the key and keeps every key findable |
| ClosedHashTable.RemoveKeeps | dataStructures/ClosedHashTable.java:175-179 | a tombstone in place of the key's cell removes the key from the map and keeps every other key findable |
| ClosedHashTable.UptoNext | dataStructures/ClosedHashTable.java:147-149 | scanning one more old cell adds its entry, if live, to the entries moved so far |
| ClosedHashTable.UptoCount | dataStructures/ClosedHashTable.java:147-157 | the entries moved so far are as many as the live cells scanned |
| ClosedHashTable.UptoBound | dataStructures/ClosedHashTable.java:147-157 | the entries moved so far never outnumber the map |
| ClosedHashTable.UptoEnds | dataStructures/ClosedHashTable.java:147-157 | the scan starts with nothing moved and ends with the whole map |
| ClosedHashTable.FullEntriesAreContents | dataStructures/ClosedHashTable.java:197-246 | the live cells in index order are exactly the map's entries, one per key |
| ClosedHashTable.NextAsWritten | dataStructures/ClosedHashTable.java:228-235 | next as written returns the first live cell from the index and moves past it, or throws when none is left |
| ClosedHashTable.HasNextButNoNext | dataStructures/ClosedHashTable.java:216-235 | in the table [entry, null, null], after one next, hasNext is true and next throws NoSuchElementException |
| ClosedHashTable.ClosedHashTable.constructor | dataStructures/ClosedHashTable.java:38-45 | a new table is empty, of nextPrime(capacity / 0.5) null cells, with maxSize (int)(0.8 * length) |
| ClosedHashTable.ClosedHashTable.Default | dataStructures/ClosedHashTable.java:27-29 | the default table is an empty table for capacity DEFAULT_CAPACITY |
| ClosedHashTable.ClosedHashTable.IsEmpty | dataStructures/HashTable.java:105-107 | empty iff the map has no keys |
| ClosedHashTable.ClosedHashTable.Size | dataStructures/HashTable.java:115-117 | currentSize is the number of keys |
| ClosedHashTable.ClosedHashTable.IsFull | dataStructures/HashTable.java:95-97 | full iff the number of keys equals maxSize |
| ClosedHashTable.ClosedHashTable.SearchLinearProbing | dataStructures/ClosedHashTable.java:66-75 | NOT_FOUND exactly when the key is absent; otherwise the index of the cell holding the key |
| ClosedHashTable.ClosedHashTable.ProbeFor | dataStructures/ClosedHashTable.java:67-74 | the probe loop returns a cell holding the key, or NOT_FOUND after steps that skip tombstones and end at a null cell or the table's end without meeting the key |
| ClosedHashTable.ClosedHashTable.Get | dataStructures/ClosedHashTable.java:85-89 | the stored value of a present key, else null |
| ClosedHashTable.ClosedHashTable.FindSlot | dataStructures/ClosedHashTable.java:103-129 | the probe loop of put finds the key's cell, or else the first tombstone on its path, or else the null cell that ends the path |
| ClosedHashTable.ClosedHashTable.Put | dataStructures/ClosedHashTable.java:100-132 | returns the previous value or null, and the map is updated at the key, so size grows only for a new key; a full table is rehashed first |
| ClosedHashTable.ClosedHashTable.Overwrite | dataStructures/ClosedHashTable.java:118-122 | the key's cell takes the new entry and the old value is returned; size is unchanged |
| ClosedHashTable.ClosedHashTable.Fill | dataStructures/ClosedHashTable.java:108-113 | a free cell on the key's probe path takes the new entry and size grows by one |
| ClosedHashTable.ClosedHashTable.FirstEmpty | dataStructures/ClosedHashTable.java:150-156 | the reinsertion loop stops at the first null cell on the key's probe path |
| ClosedHashTable.ClosedHashTable.Reinsert | dataStructures/ClosedHashTable.java:149-156 | one entry is moved into the first null cell of its probe path in the new table, which keeps every moved key findable |
| ClosedHashTable.ClosedHashTable.MoveAll | dataStructures/ClosedHashTable.java:147-157 | every live entry of the old table is moved into the new table, which then stores the same map and holds no removed-cell markers |
| ClosedHashTable.ClosedHashTable.MoveCell | dataStructures/ClosedHashTable.java:148-156 | one old cell is moved if live; null cells and tombstones are skipped |
| ClosedHashTable.ClosedHashTable.Rehash | dataStructures/ClosedHashTable.java:138-161 | the new table stores the same map and holds no removed-cell markers, currentSize is unchanged, the length is at least 3 and maxSize becomes (int)(0.8 * length), so the table is no longer full |
| ClosedHashTable.ClosedHashTable.Remove | dataStructures/ClosedHashTable.java:171-181 | returns the old value or null; a present key's cell becomes the tombstone and size drops by one; an absent key changes nothing |
| ClosedHashTable.ClosedHashTable.MarkRemoved | dataStructures/ClosedHashTable.java:175-180 | the key's cell becomes the tombstone, its value is returned and size drops by one |
| ClosedHashTable.ClosedHashTable.Iterator | dataStructures/ClosedHashTable.java:190-192 | a new iterator over this table, nothing emitted |
| ClosedHashTable.ClosedHashTableIterator.constructor | dataStructures/ClosedHashTable.java:205-207 | a new iterator is rewound: nothing emitted |
| ClosedHashTable.ClosedHashTableIterator.SkipToFull | dataStructures/ClosedHashTable.java:244-245 | the index moves past null cells and tombstones only |
| ClosedHashTable.ClosedHashTableIterator.HasNext | dataStructures/ClosedHashTable.java:216-218 | true exactly when some live entry has not been emitted (the corrected hasNext, since the index always rests on a live cell or the end) |
| ClosedHashTable.ClosedHashTableIterator.Next | dataStructures/ClosedHashTable.java:228-235 | throws NoSuchElementException exactly when every live entry was emitted; otherwise returns the next live entry in index order |
| ClosedHashTable.ClosedHashTableIterator.Rewind | dataStructures/ClosedHashTable.java:242-246 | the index goes to the first live cell, nothing emitted |
| DoublyLinkedList.DoublyListNode.constructor | dataStructures/DoublyListNode.java:47-53 | the three-argument constructor stores element, previous and next as given |
| DoublyLinkedList.DoublyListNode.Single | dataStructures/DoublyListNode.java:62-65 | the one-argument constructor leaves both links null |
| DoublyLinkedList.DoublyListNode.SetElement | dataStructures/DoublyListNode.java:107-110 | only the element changes |
| DoublyLinkedList.DoublyListNode.SetPrevious | dataStructures/DoublyListNode.java:119-122 | only the previous link changes |
| DoublyLinkedList.DoublyListNode.SetNext | dataStructures/DoublyListNode.java:131-134 | only the next link changes |
| DoublyLinkedList.SpliceLinked | dataStructures/DoublyLinkedList.java:234-237 | a node linked both ways between two neighbours leaves the node sequence mutually linked, with null ends |
| DoublyLinkedList.Splice | dataStructures/DoublyLinkedList.java:234-239 | after the middle insertion the nodes are mutually linked, hold the elements with the new one at its position, and keep both ends |
| DoublyLinkedList.Append | dataStructures/DoublyLinkedList.java:115-125 | a node added after the tail leaves the nodes mutually linked and holding the elements plus the new last one |
| DoublyLinkedList.Prepend | dataStructures/DoublyLinkedList.java:97-107 | a node added before the head leaves the nodes mutually linked and holding the new first element plus the rest |
| DoublyLinkedList.Cut | dataStructures/DoublyLinkedList.java:315-316 | bypassing an inner node leaves the rest mutually linked and holding the elements without that one, ends unchanged |
| DoublyLinkedList.Link | dataStructures/DoublyLinkedList.java:236-237 | the predecessor's next and the current node's previous point at the new node, and the list is the old one with the element inserted |
| DoublyLinkedList.Bypass | dataStructures/DoublyLinkedList.java:315-316 | the neighbours of an inner node point at each other, and the list is the old one without that element |
| DoublyLinkedList.DoublyLinkedList.constructor | dataStructures/DoublyLinkedList.java:44-48 | a new list is empty, with null head and tail |
| DoublyLinkedList.DoublyLinkedList.IsEmpty | dataStructures/DoublyLinkedList.java:56-58 | empty iff it holds no elements |
| DoublyLinkedList.DoublyLinkedList.Size | dataStructures/DoublyLinkedList.java:66-68 | currentSize is the number of elements |
| DoublyLinkedList.DoublyLinkedList.AddFirst | dataStructures/DoublyLinkedList.java:97-107 | the element goes in front of the rest, in order; links stay mutually inverse with null ends |
| DoublyLinkedList.DoublyLinkedList.AddLast | dataStructures/DoublyLinkedList.java:115-125 | the element goes after the rest, in order; links stay mutually inverse with null ends |
| DoublyLinkedList.DoublyLinkedList.GetFirst | dataStructures/DoublyLinkedList.java:134-139 | throws NoSuchElementException exactly when empty, else the first element |
| DoublyLinkedList.DoublyLinkedList.GetLast | dataStructures/DoublyLinkedList.java:148-153 | throws NoSuchElementException exactly when empty, else the last element |
| DoublyLinkedList.DoublyLinkedList.Get | dataStructures/DoublyLinkedList.java:167-185 | throws InvalidPositionException exactly outside [0, size), else the element at the position, whether walked from head or tail |
| DoublyLinkedList.DoublyLinkedList.IndexOf | dataStructures/DoublyLinkedList.java:196-207 | the first position holding an equal element, or -1 exactly when none does |
| DoublyLinkedList.DoublyLinkedList.Add | dataStructures/DoublyLinkedList.java:221-241 | throws InvalidPositionException exactly outside [0, size] and changes nothing; otherwise the element sits at the position and later elements shift by one |
| DoublyLinkedList.DoublyLinkedList.WalkForward | dataStructures/DoublyLinkedList.java:230-232 | the walk from the head reaches the node at the position |
| DoublyLinkedList.DoublyLinkedList.InsertBefore | dataStructures/DoublyLinkedList.java:234-239 | a new node goes before the node at an inner position and the size grows by one |
| DoublyLinkedList.DoublyLinkedList.RemoveFirst | dataStructures/DoublyLinkedList.java:250-264 | throws NoSuchElementException exactly when empty; otherwise removes and returns the first element, and a one-element list becomes empty with null head and tail |
| DoublyLinkedList.DoublyLinkedList.RemoveLast | dataStructures/DoublyLinkedList.java:273-287 | throws NoSuchElementException exactly when empty; otherwise removes and returns the last element, and a one-element list becomes empty with null head and tail |
| DoublyLinkedList.DoublyLinkedList.Remove | dataStructures/DoublyLinkedList.java:301-321 | throws InvalidPositionException exactly outside [0, size) and changes nothing; otherwise removes and returns the element at the position |
| DoublyLinkedList.DoublyLinkedList.Unlink | dataStructures/DoublyLinkedList.java:310-319 | an inner node is bypassed and its element returned; the size drops by one |
| DoublyLinkedList.DoublyLinkedList.Iterator | dataStructures/DoublyLinkedList.java:87-89 | a forward iterator over the elements from the head |
| DoublyLinkedList.DoublyLinkedList.TwoWayIterator | dataStructures/DoublyLinkedList.java:77-79 | a two-way iterator over the elements, at the start |
| DoublyLinkedList.DoublyIterator.constructor | dataStructures/DoublyIterator.java:35-39 | the iterator starts at the first node |
| DoublyLinkedList.DoublyIterator.HasNext | dataStructures/DoublyIterator.java:74-76 | the cursor is a node exactly when elements remain |
| DoublyLinkedList.DoublyIterator.Next | dataStructures/DoublyIterator.java:48-55 | throws NoSuchElementException exactly when exhausted; otherwise returns the current element and moves to its successor |
| DoublyLinkedList.DoublyIterator.Rewind | dataStructures/DoublyIterator.java:62-65 | the cursor returns to the first node |
| DoublyLinkedList.TwoWayDoublyIterator.constructor | dataStructures/TwoWayDoublyIterator.java:30-34 | the iterator starts at the first node with nothing to go back to |
| DoublyLinkedList.TwoWayDoublyIterator.HasNext | dataStructures/DoublyIterator.java:74-76 | elements remain ahead of the cursor |
| DoublyLinkedList.TwoWayDoublyIterator.HasPrevious | dataStructures/TwoWayDoublyIterator.java:43-45 | a previous element exists exactly when the cursor has moved past one |
| DoublyLinkedList.TwoWayDoublyIterator.Next | dataStructures/TwoWayDoublyIterator.java:54-62 | throws when exhausted; otherwise returns the current element and records its node as the previous one |
| DoublyLinkedList.TwoWayDoublyIterator.Previous | dataStructures/TwoWayDoublyIterator.java:71-79 | throws when there is no previous element; otherwise returns the element just before the cursor and steps back, so next then previous returns the same element and restores the position |
| DoublyLinkedList.TwoWayDoublyIterator.FullForward | dataStructures/TwoWayDoublyIterator.java:88-91 | the cursor goes past the last element, so hasNext is false and previous yields the list from last to first |
| DoublyLinkedList.TwoWayDoublyIterator.Rewind | dataStructures/TwoWayDoublyIterator.java:98-101 | back to the forward start with nothing to go back to |
| SortedDoublyLinkedList.InsertPos | dataStructures/SortedDoublyLinkedList.java:153-156 | the insertion point is after every element the new one is not below, and before the first element it is strictly below |
| SortedDoublyLinkedList.FindEqual | dataStructures/SortedDoublyLinkedList.java:107-115 | the index of the first element the comparator calls equal, or -1 when none is |
| SortedDoublyLinkedList.AfterLastGoesAtEnd | dataStructures/SortedDoublyLinkedList.java:145-149 | an element not below the last one is inserted at the end, so the tail shortcut agrees with the general rule |
| SortedDoublyLinkedList.InsertKeepsSorted | dataStructures/SortedDoublyLinkedList.java:130-163 | inserting at the insertion point keeps the list sorted under a total preorder |
| SortedDoublyLinkedList.SortedInsert | dataStructures/SortedDoublyLinkedList.java:130-163 | an element placed after everything not above it and before everything not below it keeps a sorted list sorted |
| SortedDoublyLinkedList.InsertIsStable | dataStructures/SortedDoublyLinkedList.java:130-131 | the new element goes after every equal element and before every greater one |
| SortedDoublyLinkedList.SortedWithout | dataStructures/SortedDoublyLinkedList.java:173-207 | removing any element keeps the list sorted |
| SortedDoublyLinkedList.SortedDoublyLinkedList.constructor | dataStructures/SortedDoublyLinkedList.java:38-43 | a new list is empty and keeps the given comparator |
| SortedDoublyLinkedList.SortedDoublyLinkedList.IsEmpty | dataStructures/SortedDoublyLinkedList.java:51-53 | empty iff it holds no elements |
| SortedDoublyLinkedList.SortedDoublyLinkedList.Size | dataStructures/SortedDoublyLinkedList.java:61-63 | currentSize is the number of elements |
| SortedDoublyLinkedList.SortedDoublyLinkedList.GetMin | dataStructures/SortedDoublyLinkedList.java:82-87 | throws NoSuchElementException exactly when empty; otherwise the head element, which no element is below |
| SortedDoublyLinkedList.SortedDoublyLinkedList.GetMax | dataStructures/SortedDoublyLinkedList.java:95-100 | throws NoSuchElementException exactly when empty; otherwise the tail element, which no element is above |
| SortedDoublyLinkedList.SortedDoublyLinkedList.Get | dataStructures/SortedDoublyLinkedList.java:107-115 | the first element the comparator calls equal to the argument, or null when there is none |
| SortedDoublyLinkedList.SortedDoublyLinkedList.Contains | dataStructures/SortedDoublyLinkedList.java:125-127 | true exactly when some element compares equal to the argument |
| SortedDoublyLinkedList.SortedDoublyLinkedList.Add | dataStructures/SortedDoublyLinkedList.java:136-164 | the element is inserted at its insertion point (after equal ones) in all four branches, and the list stays sorted |
| SortedDoublyLinkedList.SortedDoublyLinkedList.LinkFirst | dataStructures/SortedDoublyLinkedList.java:139-144 | the new node becomes the head in front of the old nodes |
| SortedDoublyLinkedList.SortedDoublyLinkedList.LinkLast | dataStructures/SortedDoublyLinkedList.java:145-149 | the new node becomes the tail after the old nodes |
| SortedDoublyLinkedList.SortedDoublyLinkedList.LinkBefore | dataStructures/SortedDoublyLinkedList.java:157-161 | the new node is spliced in before the node at an inner position |
| SortedDoublyLinkedList.SortedDoublyLinkedList.FirstAfter | dataStructures/SortedDoublyLinkedList.java:151-156 | the walk stops at the first node strictly above the element, which is the insertion point |
| SortedDoublyLinkedList.SortedDoublyLinkedList.Remove | dataStructures/SortedDoublyLinkedList.java:173-207 | returns null and changes nothing when no element compares equal; otherwise removes and returns the first equal element and the list stays sorted |
| SortedDoublyLinkedList.SortedDoublyLinkedList.Unlink | dataStructures/SortedDoublyLinkedList.java:182-203 | the node at the position is removed from the chain in the head, tail and middle cases |
| SortedDoublyLinkedList.SortedDoublyLinkedList.UnlinkHead | dataStructures/SortedDoublyLinkedList.java:182-188 | the head is dropped, and a one-node list becomes empty with null ends |
| SortedDoublyLinkedList.SortedDoublyLinkedList.UnlinkTail | dataStructures/SortedDoublyLinkedList.java:189-195 | the tail is dropped from a list of at least two nodes |
| SortedDoublyLinkedList.SortedDoublyLinkedList.Iterator | dataStructures/SortedDoublyLinkedList.java:71-73 | a forward iterator over the elements in sorted order |
| SinglyLinkedList.SinglyListNode.constructor | dataStructures/SinglyListNode.java:27-30 | the two-argument constructor stores the element and the next link |
| SinglyLinkedList.SinglyListNode.Single | dataStructures/SinglyListNode.java:37-39 | the one-argument constructor leaves the next link null |
| SinglyLinkedList.SinglyListNode.SetElement | dataStructures/SinglyListNode.java:64-66 | only the element changes |
| SinglyLinkedList.SinglyListNode.SetNext | dataStructures/SinglyListNode.java:73-75 | only the next link changes |
| SinglyLinkedList.Splice | dataStructures/SinglyLinkedList.java:176-178 | a node linked in after the predecessor of an inner position leaves the chain linked, holding the elements with the new one at that position, ends unchanged |
| SinglyLinkedList.Cut | dataStructures/SinglyLinkedList.java:234-236 | bypassing a node leaves the chain linked and holding the elements without that one |
| SinglyLinkedList.SinglyLinkedList.constructor | dataStructures/SinglyLinkedList.java:26-30 | a new list is empty, with null head and tail |
| SinglyLinkedList.SinglyLinkedList.IsEmpty | dataStructures/SinglyLinkedList.java:38-40 | empty iff it holds no elements |
| SinglyLinkedList.SinglyLinkedList.Size | dataStructures/SinglyLinkedList.java:48-50 | currentSize is the number of elements |
| SinglyLinkedList.SinglyLinkedList.GetFirst | dataStructures/SinglyLinkedList.java:70-73 | throws NoSuchElementException exactly when empty, else the first element |
| SinglyLinkedList.SinglyLinkedList.GetLast | dataStructures/SinglyLinkedList.java:83-86 | throws NoSuchElementException exactly when empty, else the last element |
| SinglyLinkedList.SinglyLinkedList.WalkTo | dataStructures/SinglyLinkedList.java:102-103 | walking position links from the head reaches the node at that position |
| SinglyLinkedList.SinglyLinkedList.Get | dataStructures/SinglyLinkedList.java:97-105 | throws InvalidPositionException exactly outside [0, size); otherwise the element at the position, through the first, last and walking branches alike |
| SinglyLinkedList.SinglyLinkedList.IndexOf | dataStructures/SinglyLinkedList.java:115-125 | the first position holding an equal element, or -1 exactly when the element is absent |
| SinglyLinkedList.SinglyLinkedList.AddFirst | dataStructures/SinglyLinkedList.java:134-139 | the element goes in front of the rest; the tail is set when the list was empty |
| SinglyLinkedList.SinglyLinkedList.AddLast | dataStructures/SinglyLinkedList.java:148-155 | the element goes after the rest |
| SinglyLinkedList.SinglyLinkedList.Add | dataStructures/SinglyLinkedList.java:167-179 | throws InvalidPositionException exactly outside [0, size] and changes nothing; otherwise the element sits at the position and later elements shift |
| SinglyLinkedList.SinglyLinkedList.InsertAfter | dataStructures/SinglyLinkedList.java:172-178 | at an inner position the new node follows the walked-to predecessor |
| SinglyLinkedList.SinglyLinkedList.RemoveFirst | dataStructures/SinglyLinkedList.java:187-194 | throws NoSuchElementException exactly when empty; otherwise removes and returns the first element, the tail cleared when the list empties |
| SinglyLinkedList.SinglyLinkedList.RemoveLast | dataStructures/SinglyLinkedList.java:203-214 | throws NoSuchElementException exactly when empty; otherwise removes and returns the last element, the walk stopping at the node before the tail |
| SinglyLinkedList.SinglyLinkedList.Remove | dataStructures/SinglyLinkedList.java:225-238 | throws InvalidPositionException exactly outside [0, size) and changes nothing; otherwise removes and returns the element at the position |
| SinglyLinkedList.SinglyLinkedList.RemoveInner | dataStructures/SinglyLinkedList.java:230-237 | an inner node is bypassed and its element returned |
| SinglyLinkedList.SinglyLinkedList.Iterator | dataStructures/SinglyLinkedList.java:58-60 | an iterator over the elements from the head |
| SinglyLinkedList.SinglyIterator.constructor | dataStructures/SinglyIterator.java:28-31 | the iterator starts at the first node |
| SinglyLinkedList.SinglyIterator.HasNext | dataStructures/SinglyIterator.java:40-42 | the cursor is a node exactly when elements remain |
| SinglyLinkedList.SinglyIterator.Next | dataStructures/SinglyIterator.java:52-58 | throws NoSuchElementException exactly when exhausted; otherwise returns the current element and moves on by one |
| SinglyLinkedList.SinglyIterator.Rewind | dataStructures/SinglyIterator.java:66-68 | the cursor returns to the first node |
| ListInArray.ListInArray.constructor | dataStructures/ListInArray.java:29-32 | a new list is empty over an array of the requested dimension |
| ListInArray.ListInArray.IsEmpty | dataStructures/ListInArray.java:40-42 | empty iff it holds no elements |
| ListInArray.ListInArray.Size | dataStructures/ListInArray.java:51-53 | counter is the number of elements |
| ListInArray.ListInArray.GetFirst | dataStructures/ListInArray.java:74-77 | throws NoSuchElementException exactly when empty, else slot 0 |
| ListInArray.ListInArray.GetLast | dataStructures/ListInArray.java:87-90 | throws NoSuchElementException exactly when empty, else the last occupied slot |
| ListInArray.ListInArray.Get | dataStructures/ListInArray.java:104-109 | throws InvalidPositionException exactly outside [0, size), else the element at the position |
| ListInArray.ListInArray.IndexOf | dataStructures/ListInArray.java:121-128 | the first position holding an equal element, or -1 exactly when the element is absent |
| ListInArray.ListInArray.EnsureCapacity | dataStructures/ListInArray.java:131-137 | a full array is replaced by one FACTOR times as long holding the same elements; otherwise nothing changes |
| ListInArray.ListInArray.ShiftRight | dataStructures/ListInArray.java:181-183 | the slots from the position to the last element move one place right, the rest unchanged |
| ListInArray.ListInArray.ShiftLeft | dataStructures/ListInArray.java:238-240 | the slots after a position move one place left, the rest unchanged |
| ListInArray.ListInArray.AddFirst | dataStructures/ListInArray.java:146-153 | the element goes in front of the rest, growing the array when full |
| ListInArray.ListInArray.AddLast | dataStructures/ListInArray.java:162-165 | the element goes after the rest, growing the array when full |
| ListInArray.ListInArray.Add | dataStructures/ListInArray.java:179-187 | throws InvalidPositionException exactly outside [0, size] and changes nothing; otherwise the element sits at the position and later elements shift right |
| ListInArray.ListInArray.RemoveFirst | dataStructures/ListInArray.java:197-205 | throws NoSuchElementException exactly when empty; otherwise removes and returns slot 0, shifts the rest left and nulls the freed slot |
| ListInArray.ListInArray.RemoveLast | dataStructures/ListInArray.java:215-220 | throws NoSuchElementException exactly when empty; otherwise removes and returns the last element and nulls its slot |
| ListInArray.ListInArray.Remove | dataStructures/ListInArray.java:234-246 | throws InvalidPositionException exactly outside [0, size) and changes nothing; otherwise removes and returns the element at the position, later ones shifting left |
| ListInArray.ListInArray.Iterator | dataStructures/ListInArray.java:62-64 | an iterator over the array and the current count, yielding the elements in order |
| ListInArray.ArrayIterator.Items | dataStructures/ArrayIterator.java:29-33 | the iterated elements are the first counter slots of the array |
| ListInArray.ArrayIterator.constructor | dataStructures/ArrayIterator.java:29-33 | the iterator keeps the array and count and starts at slot 0 |
| ListInArray.ArrayIterator.Rewind | dataStructures/ArrayIterator.java:41-43 | the cursor returns to slot 0 |
| ListInArray.ArrayIterator.HasNext | dataStructures/ArrayIterator.java:53-55 | true exactly while the cursor is below the count |
| ListInArray.ArrayIterator.Next | dataStructures/ArrayIterator.java:66-70 | throws NoSuchElementException exactly when exhausted; otherwise returns the slot at the cursor and advances it |
| StackWithListInArray.StackWithListInArray.constructor | dataStructures/StackWithListInArray.java:21-24 | a new stack is empty with the given capacity |
| StackWithListInArray.StackWithListInArray.Default | dataStructures/StackWithListInArray.java:26-28 | the no-argument constructor uses a capacity of 1000 |
| StackWithListInArray.StackWithListInArray.IsEmpty | dataStructures/StackWithListInArray.java:38-40 | empty iff it holds no elements |
| StackWithListInArray.StackWithListInArray.Size | dataStructures/StackWithListInArray.java:50-52 | the number of elements, never above the capacity |
| StackWithListInArray.StackWithListInArray.Top | dataStructures/StackWithListInArray.java:63-67 | throws EmptyStackException exactly when empty, else the most recently pushed element |
| StackWithListInArray.StackWithListInArray.Push | dataStructures/StackWithListInArray.java:78-83 | throws FullStackException exactly when size equals capacity and changes nothing; otherwise the element goes on top |
| StackWithListInArray.StackWithListInArray.Pop | dataStructures/StackWithListInArray.java:94-99 | throws EmptyStackException exactly when empty and changes nothing; otherwise removes and returns the top |
| StackWithListInArray.PushThenPop | dataStructures/StackWithListInArray.java:78-99 | on a stack that is not full, a push followed by a pop returns the pushed element and restores the contents |
| QueueInList.QueueInList.constructor | dataStructures/QueueInList.java:17-19 | a new queue is empty |
| QueueInList.QueueInList.IsEmpty | dataStructures/QueueInList.java:28-30 | empty iff it holds no elements |
| QueueInList.QueueInList.Size | dataStructures/QueueInList.java:39-41 | the number of elements |
| QueueInList.QueueInList.Enqueue | dataStructures/QueueInList.java:52-54 | the element joins the back |
| QueueInList.QueueInList.Dequeue | dataStructures/QueueInList.java:64-69 | throws EmptyQueueException exactly when empty and changes nothing; otherwise removes and returns the front |
| QueueInList.QueueInList.Peek | dataStructures/QueueInList.java:79-84 | throws EmptyQueueException exactly when empty, else the front |
| QueueInList.FirstInFirstOut | dataStructures/QueueInList.java:52-69 | on any queue, enqueue(y) followed by dequeue returns the old front (y itself on an empty queue), and the queue is left holding the rest of the old contents followed by y |
| FilterIterator.Filter | dataStructures/FilterIterator.java:55-64 | the elements the filter lets through, in source order, never more than the source holds |
| FilterIterator.FilterMembers | dataStructures/FilterIterator.java:58-60 | an element is produced exactly when it is in the source and passes the filter |
| FilterIterator.FilterIterator.constructor | dataStructures/FilterIterator.java:40-44 | the iterator keeps the source and the filter and starts rewound, with nothing buffered |
| FilterIterator.FilterIterator.HasNext | dataStructures/FilterIterator.java:55-64 | pulls from the source until an element passes or the source ends; true exactly when filtered elements remain, and then the buffer holds the next one |
| FilterIterator.FilterIterator.Next | dataStructures/FilterIterator.java:74-79 | throws NoSuchElementException exactly when nothing is buffered; otherwise returns the buffered element and empties the buffer |
| FilterIterator.FilterIterator.Rewind | dataStructures/FilterIterator.java:87-90 | rewinds the source and empties the buffer |
| FilterIterator.HasNextThenNext | dataStructures/FilterIterator.java:55-79 | while filtered elements remain, hasNext followed by next yields the next filtered element in order |
| KeysIterator.Keys | dataStructures/KeysIterator.java:48-51 | the keys of the entries, position by position |
| KeysIterator.KeysIterator.constructor | dataStructures/KeysIterator.java:24-26 | wraps the entry iterator |
| KeysIterator.KeysIterator.HasNext | dataStructures/KeysIterator.java:36-38 | true exactly when the entry iterator has entries left |
| KeysIterator.KeysIterator.Next | dataStructures/KeysIterator.java:48-51 | throws NoSuchElementException exactly when exhausted; otherwise the key of the next entry |
| KeysIterator.KeysIterator.Rewind | dataStructures/KeysIterator.java:60-62 | rewinds the entry iterator |
| ValuesIterator.Values | dataStructures/ValuesIterator.java:49-53 | the values of the entries, position by position |
| ValuesIterator.ValuesIterator.constructor | dataStructures/ValuesIterator.java:24-26 | wraps the entry iterator |
| ValuesIterator.ValuesIterator.HasNext | dataStructures/ValuesIterator.java:36-38 | true exactly when the entry iterator has entries left |
| ValuesIterator.ValuesIterator.Next | dataStructures/ValuesIterator.java:49-53 | throws NoSuchElementException exactly when exhausted; otherwise the value of the next entry |
| ValuesIterator.ValuesIterator.Rewind | dataStructures/ValuesIterator.java:62-64 | rewinds the entry iterator |
| BstSortedMap.BstSortedMap.constructor | dataStructures/Tree.java:30-33 | a new map has a null root, size 0 and no entries |
| BstSortedMap.BstSortedMap.ContentsSize | dataStructures/Tree.java:53-55 | the map has as many keys as the tree has nodes |
| BstSortedMap.BstSortedMap.QueriesWhenCounted | dataStructures/Tree.java:42-55 | while the size field counts the nodes, size() is the number of keys and isEmpty holds exactly when there are none and the root is null |
| BstSortedMap.BstSortedMap.SetLabel | dataStructures/AVLNode.java:77-83 | rewriting a node's height or colour changes no link and no entry |
| BstSortedMap.BstSortedMap.LeafIffAlone | dataStructures/BTNode.java:87-89 | isLeaf holds exactly when both children are null |
| BstSortedMap.BstSortedMap.RootIffTop | dataStructures/BTNode.java:129-131 | isRoot holds exactly when the parent is null, which is exactly the tree's root |
| BstSortedMap.BstSortedMap.SetElement | dataStructures/BTNode.java:95-97 | only the node's entry changes; links and node identity stay |
| BstSortedMap.BstSortedMap.SetLeftChild | dataStructures/BTNode.java:103-106 | stores the left child and, when it is non-null, points its parent back; the right child and the entry are untouched |
| BstSortedMap.BstSortedMap.SetRightChild | dataStructures/BTNode.java:112-115 | stores the right child and, when it is non-null, points its parent back; the left child and the entry are untouched |
| BstSortedMap.BstSortedMap.SetParent | dataStructures/BTNode.java:121-123 | only the parent link changes |
| BstSortedMap.BstSortedMap.NewNode | dataStructures/BTNode.java:45-52 | the four-argument constructor stores all four fields and makes its children point back to the new node (null children skipped) |
| BstSortedMap.BstSortedMap.CreateNode | dataStructures/BSTSortedMap.java:76-78 | a fresh node with the entry and parent and no children |
| BstSortedMap.BstSortedMap.NewNodeAsWritten | dataStructures/BTNode.java:45-52 | the constructor as written throws NullPointerException whenever a child is null, after having updated a non-null left child |
| BstSortedMap.BstSortedMap.CreateNodeAsWritten | dataStructures/BTNode.java:35-37 | the two-argument constructor as written always throws NullPointerException |
| BstSortedMap.BstSortedMap.Transplant | dataStructures/BTree.java:94-108 | v takes u's place: as root with a null parent when u is the root, else in the child slot of u's parent that held u; u's own fields are not written |
| BstSortedMap.BstSortedMap.NodeHeight | dataStructures/BTNode.java:138-148 | a node's height is the height of its subtree, a leaf counting 1 |
| BstSortedMap.BstSortedMap.GetHeight | dataStructures/BTree.java:19-23 | 0 when the size field is 0, else the root's height; with the size counted, the height never exceeds the number of entries |
| BstSortedMap.BstSortedMap.FurtherLeftFrom | dataStructures/BTree.java:62-69 | null exactly for a null start, else the end of the start's left spine, which has no left child |
| BstSortedMap.BstSortedMap.FurtherRightFrom | dataStructures/BTree.java:78-85 | null exactly for a null start, else the end of the start's right spine, which has no right child |
| BstSortedMap.BstSortedMap.FurtherLeft | dataStructures/BTree.java:31-38 | null when the size field is 0, else the end of the root's left spine |
| BstSortedMap.BstSortedMap.FurtherRight | dataStructures/BTree.java:46-53 | null when the size field is 0, else the end of the root's right spine |
| BstSortedMap.BstSortedMap.MinEntry | dataStructures/BSTSortedMap.java:27-32 | throws EmptyMapException when isEmpty; otherwise an entry of the map whose key is the smallest |
| BstSortedMap.BstSortedMap.MaxEntry | dataStructures/BSTSortedMap.java:40-45 | throws EmptyMapException when isEmpty; otherwise an entry of the map whose key is the largest |
| BstSortedMap.BstSortedMap.GetNode | dataStructures/BSTSortedMap.java:59-67 | the descent finds a node exactly when the key is in the map, and that node holds the key and its value |
| BstSortedMap.BstSortedMap.Get | dataStructures/BSTSortedMap.java:53-57 | the value mapped to the key, or null when it is absent |
| BstSortedMap.BstSortedMap.Put | dataStructures/BSTSortedMap.java:87-122 | as written: with the size field 0 the new node becomes the root and the map holds only the new entry; otherwise the key maps to the value and the old value (or null) is returned; the size field never changes and search-tree order is kept |
| BstSortedMap.BstSortedMap.Attach | dataStructures/BSTSortedMap.java:116-119 | a new leaf under the last visited node, left after a negative comparison and right otherwise, adds the entry and keeps the order |
| BstSortedMap.BstSortedMap.PutCounted | dataStructures/BSTSortedMap.java:87-122 | put with the size kept: the key maps to the value, the old value or null is returned, and the size grows exactly for a new key; an existing key keeps the shape, a new key hangs as a new leaf in the empty place where the search ended, and no stored height changes |
| BstSortedMap.BstSortedMap.Remove | dataStructures/BSTSortedMap.java:130-158 | the key leaves the map and its old value (or null, changing nothing) is returned; order is kept and the size field is unchanged |
| BstSortedMap.BstSortedMap.RemoveNode | dataStructures/BSTSortedMap.java:136-155 | removing a found node drops exactly its key; the successor takes its place exactly when it had two children, adopting its left subtree |
| BstSortedMap.BstSortedMap.RemoveCounted | dataStructures/BSTSortedMap.java:130-158 | remove with the size kept: the key leaves the map and the size drops exactly when it was present |
| BstSortedMap.BstSortedMap.Splice | dataStructures/BSTSortedMap.java:136-143 | a node with at most one child is replaced by that child, possibly null, with entries and order kept |
| BstSortedMap.BstSortedMap.RemoveFar | dataStructures/BSTSortedMap.java:146-154 | a successor deeper than the right child is cut out of its place, takes the removed node's slot and adopts both subtrees |
| BstSortedMap.BstSortedMap.SucceedAdjacent | dataStructures/BSTSortedMap.java:152-154 | a successor that is the right child moves up and adopts the left subtree |
| BstSortedMap.BstSortedMap.SucceedFar | dataStructures/BSTSortedMap.java:149-154 | the detached successor takes the removed node's slot and adopts both of its subtrees |
| BstSortedMap.BstSortedMap.Adopt | dataStructures/BSTSortedMap.java:149-150 | the successor takes the removed node's right subtree, linked both ways |
| BstSortedMap.BstSortedMap.TakePlace | dataStructures/BSTSortedMap.java:152-154 | the successor is transplanted into the removed node's place and takes its left subtree, linked both ways |
| BstSortedMap.SecondPutForgetsFirst | dataStructures/BSTSortedMap.java:91-94 | as written, after put(1, 10) and put(2, 20) on a new map, get(1) is null |
| BstSortedMap.SecondPutKeepsFirst | dataStructures/BSTSortedMap.java:87-122 | with the size counted, the same two puts leave get(1) at 10 |
| AdvancedBsTree.RotateLeftLocal | dataStructures/AdvancedBSTree.java:20-31 | relinking z, y and y's left subtree as a left rotation turns z(a, y(b, d)) into y(z(a, b), d) with the same in-order entries and search-tree order |
| AdvancedBsTree.RotateRightLocal | dataStructures/AdvancedBSTree.java:41-52 | the mirror: z(y(a, b), d) becomes y(a, z(b, d)) with the same in-order entries and order |
| AdvancedBsTree.RotateLeftKeeps | dataStructures/AdvancedBSTree.java:13-31 | a left rotation anywhere in the tree keeps the whole tree well linked and ordered, with the in-order entry sequence unchanged |
| AdvancedBsTree.RotateRightKeeps | dataStructures/AdvancedBSTree.java:33-52 | a right rotation anywhere in the tree keeps the whole tree well linked and ordered, with the in-order entry sequence unchanged |
| AdvancedBsTree.RotateHelper | dataStructures/AdvancedBSTree.java:63-75 | y takes z's slot: the root with a null parent when z's parent is null, else the child slot of that parent that held z; no other node changes |
| AdvancedBsTree.RotateLeft | dataStructures/AdvancedBSTree.java:20-31 | throws NullPointerException and changes nothing when z has no right child; otherwise y rises in z's place, z becomes y's left child and takes y's old left subtree, every parent link is updated, only those nodes and z's parent change, and the in-order entries are unchanged |
| AdvancedBsTree.RotateRight | dataStructures/AdvancedBSTree.java:41-52 | the mirror of RotateLeft, throwing when z has no left child |
| AdvancedBsTree.RelinkLeft | dataStructures/AdvancedBSTree.java:24-30 | the link writes of rotateLeft change exactly y, z, y's old left child and z's parent, as a left rotation |
| AdvancedBsTree.RelinkRight | dataStructures/AdvancedBSTree.java:45-51 | the link writes of rotateRight change exactly y, z, y's old right child and z's parent, as a right rotation |
| AdvancedBsTree.TriNode | dataStructures/AdvancedBSTree.java:78-93 | the result puts the middle node at the top with two child nodes below it |
| AdvancedBsTree.Restructure | dataStructures/AdvancedBSTree.java:94-116 | throws NullPointerException and changes nothing when x has no parent or grandparent; otherwise returns y for a left-left or right-right triple and x for a zig-zag, that node now roots the tri-node arrangement in z's former place, and the in-order entries and order are unchanged |
| AvlSortedMap.ExactHeightOf | dataStructures/AVLNode.java:37-40 | where heights are exact, height() of a subtree root is the number of levels less one, and -1 for a missing node |
| AvlSortedMap.ExactFrame | dataStructures/AVLNode.java:77-83 | whether a subtree stores exact heights depends only on the heights stored at its own nodes |
| AvlSortedMap.ExactCtxFrame | dataStructures/AVLNode.java:77-83 | whether the subtrees beside a path store exact heights depends only on their own nodes |
| AvlSortedMap.RefreshExact | dataStructures/AVLNode.java:77-95 | updateHeight on a node whose children store exact heights makes its own height exact, and its balance factor is then the left height less the right height |
| AvlSortedMap.TallerChild | dataStructures/AVLSortedMap.java:57-62 | one of the two children, of the larger height, and the left one when the heights tie |
| AvlSortedMap.TallerChildAsWritten | dataStructures/AVLSortedMap.java:57-62 | as written it throws NullPointerException exactly when a child is null, and otherwise agrees with TallerChild |
| AvlSortedMap.TallerChildCrashesOnAChain | dataStructures/AVLSortedMap.java:57-62 | on the chain 1, 2, 3 with exact heights the root is out of balance, its taller child is 2, and the code as written dereferences the missing left child |
| AvlSortedMap.TallerExact | dataStructures/AVLSortedMap.java:73-76 | at an unbalanced node with exact subtrees, the taller child and its taller child both exist, and comparing stored heights picks the same side as comparing true heights |
| AvlSortedMap.TriParts | dataStructures/AdvancedBSTree.java:78-93 | the four subtrees t1..t4 hung under the restructured triple are those of the original, so they keep exact heights |
| AvlSortedMap.TriExact | dataStructures/AVLSortedMap.java:80-86 | updating the heights of the new subtree root's two children and then of the root leaves the whole triple with exact heights |
| AvlSortedMap.RestructuredExact | dataStructures/AVLSortedMap.java:78-86 | after restructure and the three height updates, the new subtree and the subtrees beside its path store exact heights |
| AvlSortedMap.BalancedPlug | dataStructures/AVLSortedMap.java:64-66 | every subtree of an AVL-balanced tree is AVL-balanced |
| AvlSortedMap.SettleKeep | dataStructures/AVLSortedMap.java:90-92 | a regrown node whose balance factor is within one needs no restructure: it is balanced and at most one level taller than before, leaning when taller |
| AvlSortedMap.GrownSide | dataStructures/AVLSortedMap.java:73 | a node out of balance after one insertion has a child two levels taller than the other, whose own children differ in height by exactly one |
| AvlSortedMap.TriBalanced | dataStructures/AdvancedBSTree.java:78-93 | the tri-node arrangement over four balanced subtrees of heights h or h - 1, each pair reaching h, is balanced and of height h + 2 |
| AvlSortedMap.SettleLeft | dataStructures/AVLSortedMap.java:73-86 | an insertion that puts the left child two levels above the right is undone by one restructure: the result is balanced and as tall as the subtree before the insertion |
| AvlSortedMap.SettleRight | dataStructures/AVLSortedMap.java:73-86 | the mirror case, for the right child |
| AvlSortedMap.SettleRotate | dataStructures/AVLSortedMap.java:73-86 | at a node unbalanced by one insertion, the restructure of the node, its taller child and that child's taller child is balanced and exactly as tall as before the insertion |
| AvlSortedMap.Climb | dataStructures/AVLSortedMap.java:88-92 | once a subtree has settled, its parent has regrown, so the walk's invariant moves one level up |
| AvlSortedMap.ExactPlug | dataStructures/AVLNode.java:77-83 | exact heights in a whole tree mean exact heights in each subtree and beside each path |
| AvlSortedMap.ExactExtend | dataStructures/AVLNode.java:18-24 | appending a node to the arena and keeping the other stored heights keeps a subtree exact |
| AvlSortedMap.ExactCtxExtend | dataStructures/AVLNode.java:18-24 | the same for the subtrees beside a path |
| AvlSortedMap.NewLeafFound | dataStructures/AVLSortedMap.java:22 | locateNode after inserting a new key finds the new leaf itself |
| AvlSortedMap.UpdateHeight | dataStructures/AVLNode.java:77-83 | sets the node's height to one more than the larger child height, a missing child counting -1, and changes nothing else |
| AvlSortedMap.NewAvlNode | dataStructures/AVLNode.java:18-24 | the four-argument constructor derives the height from its two children |
| AvlSortedMap.SetLeftChildAvl | dataStructures/AVLNode.java:56-60 | links the left child both ways and recomputes this node's height from the new child and the right one |
| AvlSortedMap.SetRightChildAvl | dataStructures/AVLNode.java:67-71 | links the right child both ways and recomputes this node's height from the left child and the new one |
| AvlSortedMap.RefreshAt | dataStructures/AVLSortedMap.java:71-72 | updateHeight at the current node keeps the map, and with exact subtrees makes the node exact and its balance factor the height difference |
| AvlSortedMap.FindTriple | dataStructures/AVLSortedMap.java:75-76 | y is the taller child of the unbalanced node and x the taller child of y; with exact heights both exist and are the taller child and grandchild of the true subtree |
| AvlSortedMap.RestructureAt | dataStructures/AVLSortedMap.java:78 | restructure at x puts the tri-node arrangement in the unbalanced node's place, keeps the map and order, and keeps exact heights below |
| AvlSortedMap.RefreshTriple | dataStructures/AVLSortedMap.java:81-86 | the new subtree root's children and then the root get updateHeight, with nothing else changed |
| AvlSortedMap.Rebalance | dataStructures/AVLSortedMap.java:73-89 | an unbalanced node is restructured and the heights refreshed, keeping the map; with exact heights it cannot fail, leaves exact heights, and the new subtree is the tri-node restructure of the node, its taller child and that child's taller child |
| AvlSortedMap.SettleAt | dataStructures/AVLSortedMap.java:71-93 | one round of the walk keeps the map; with exact heights it succeeds and leaves exact heights, and a subtree regrown by one insertion in a balanced tree comes out balanced, as tall as before or one level taller and leaning |
| AvlSortedMap.RebalanceUp | dataStructures/AVLSortedMap.java:67-95 | walks from the node to the root keeping the map, the order and the size; when the heights below and beside the path are exact, it succeeds and every node stores its true height; when besides the tree was AVL-balanced before one insertion below the node, the whole tree is AVL-balanced afterwards |
| AvlSortedMap.AvlSortedMap.constructor | dataStructures/AVLSortedMap.java:14-16 | a new map is empty, stores exact heights and is AVL-balanced |
| AvlSortedMap.AvlSortedMap.Put | dataStructures/AVLSortedMap.java:19-25 | the key maps to the value afterwards; the result is what the search-tree put returns, or the null dereference of a failed rebalancing walk; on a tree with exact heights it cannot fail and keeps them exact, and on an AVL-balanced one it keeps every node's subtrees within one level of each other |
| AvlSortedMap.AvlSortedMap.Remove | dataStructures/AVLSortedMap.java:28-41 | an absent key throws NoSuchElementException before any change; otherwise the key leaves the map and its old value is returned, or the null dereference of a failed walk |
| RedBlackSortedMap.Flipped | dataStructures/RBNode.java:26-28 | flipping always yields the other colour |
| RedBlackSortedMap.IsLeftChildAt | dataStructures/RBNode.java:20-24 | isLeftChild holds exactly when the node hangs in its parent's left slot, and is false for the root |
| RedBlackSortedMap.SetColor | dataStructures/RBNode.java:34-36 | only the node's colour changes; links, entries and the map stay |
| RedBlackSortedMap.FlipColor | dataStructures/RBNode.java:26-28 | the node's colour becomes the other one and nothing else changes |
| RedBlackSortedMap.FixupStartsAsWritten | dataStructures/RedBlackSortedMap.java:41-43 | as written the guard throws NullPointerException exactly when the node has no parent, and otherwise agrees with the intended guard |
| RedBlackSortedMap.FixupStarts | dataStructures/RedBlackSortedMap.java:43 | the fix-up starts exactly when the node has a parent and that parent is RED |
| RedBlackSortedMap.RootGuardThrows | dataStructures/RedBlackSortedMap.java:36-43 | on the root of any non-empty tree the guard as written throws, where the intended guard simply does not start |
| RedBlackSortedMap.RecolorAndRotate | dataStructures/RedBlackSortedMap.java:41-56 | keeps a valid search tree with the same in-order entries and size; on success the root is BLACK; when no fix-up is due only the root is painted BLACK; a missing grandparent is a null dereference |
| RedBlackSortedMap.Recoloring | dataStructures/RedBlackSortedMap.java:58-64 | flipping uncle, parent and grandparent and continuing from the grandparent keeps the entries and ends with a BLACK root |
| RedBlackSortedMap.HandleLeftSituation | dataStructures/RedBlackSortedMap.java:66-76 | with the parent a left child: an optional left rotation at the parent, two flips, a right rotation at the grandparent and a further fix-up keep the entries and order and end with a BLACK root |
| RedBlackSortedMap.HandleRightSituation | dataStructures/RedBlackSortedMap.java:78-88 | the mirror image for a right-child parent |
| RedBlackSortedMap.RedSiblingLeft | dataStructures/RedBlackSortedMap.java:170-176 | case 1 on the left: the sibling turns BLACK, the parent RED, and after the left rotation the parent is one level lower with a new right sibling |
| RedBlackSortedMap.RedSiblingRight | dataStructures/RedBlackSortedMap.java:204-210 | case 1 on the right, the mirror image |
| RedBlackSortedMap.RotateNephewLeft | dataStructures/RedBlackSortedMap.java:186-192 | case 3 on the left: the near nephew turns BLACK, the sibling RED, and the sibling is rotated right under it |
| RedBlackSortedMap.RotateNephewRight | dataStructures/RedBlackSortedMap.java:220-226 | case 3 on the right, the mirror image |
| RedBlackSortedMap.BlackSiblingLeft | dataStructures/RedBlackSortedMap.java:185-199 | cases 3 and 4 on the left keep the entries and order; they throw exactly when the sibling is missing, and otherwise leave the parent BLACK |
| RedBlackSortedMap.FarNephewLeft | dataStructures/RedBlackSortedMap.java:193-196 | case 4 on the left: the sibling takes the parent's colour, the parent and far nephew turn BLACK and the parent is rotated left; a missing sibling is a null dereference |
| RedBlackSortedMap.BlackSiblingRight | dataStructures/RedBlackSortedMap.java:219-233 | cases 3 and 4 on the right, the mirror image |
| RedBlackSortedMap.FarNephewRight | dataStructures/RedBlackSortedMap.java:227-230 | case 4 on the right, the mirror image |
| RedBlackSortedMap.BlackSibling | dataStructures/RedBlackSortedMap.java:181-184 | case 2: only the sibling changes, to RED, and x moves up to the parent, whose parent is closer to the root |
| RedBlackSortedMap.AtRoot | dataStructures/RedBlackSortedMap.java:197-198 | after case 4 x is the root and its parent is null |
| RedBlackSortedMap.FixLeft | dataStructures/RedBlackSortedMap.java:166-199 | one round with x on the left keeps the entries and order and either ends the loop or moves the parent closer to the root |
| RedBlackSortedMap.FixRight | dataStructures/RedBlackSortedMap.java:200-234 | one round with x on the right, likewise; with no parent at all it throws before changing anything |
| RedBlackSortedMap.DeleteFixup | dataStructures/RedBlackSortedMap.java:163-237 | terminates, keeps a valid search tree with the same entries and size, and on success leaves x BLACK or missing |
| RedBlackSortedMap.Unlink | dataStructures/RedBlackSortedMap.java:107-148 | exactly the key of z leaves the map; y is z when z has at most one child, else the successor, which takes z's colour; the colour y had is returned |
| RedBlackSortedMap.FixupFrom | dataStructures/RedBlackSortedMap.java:150-154 | deleteFixup from x with x's parent, or the root when x is null or has no parent, keeps the map and the size |
| RedBlackSortedMap.RedBlackSortedMap.constructor | dataStructures/RedBlackSortedMap.java:18-20 | a new map is empty |
| RedBlackSortedMap.RedBlackSortedMap.Put | dataStructures/RedBlackSortedMap.java:29-39 | the key maps to the value with the size kept; on success the previous value or null is returned and the root is BLACK; a failed fix-up is a null dereference |
| RedBlackSortedMap.RedBlackSortedMap.Remove | dataStructures/RedBlackSortedMap.java:97-161 | an absent key throws NoSuchElementException before any change; otherwise the key leaves the map; on success the old value is returned, the size drops by one and the root is BLACK; a null dereference in the fix-up leaves the size unchanged |
| BinaryTree.HeightBounds | dataStructures/BTNode.java:138-148 | a tree of height h, a leaf counting 1, has at least h and fewer than 2^h nodes |
| BinaryTree.PlugEntries | dataStructures/InOrderIterator.java:5-7 | the in-order (left, root, right) entries of a tree are those before a subtree's position, then the subtree's, then those after |
| BinaryTree.OrderedEntries | dataStructures/BSTSortedMap.java:59-67 | in a tree whose keys follow search order, the in-order entries have strictly increasing keys within the bounds |
| BinaryTree.EntriesOrdered | dataStructures/BSTSortedMap.java:59-67 | conversely, strictly increasing in-order keys within the bounds make the tree follow search order |
| BinaryTree.IncreasingCard | dataStructures/Tree.java:53-55 | with increasing keys the map has exactly as many keys as there are entries |
| BinaryTree.FirstIsMin | dataStructures/BSTSortedMap.java:27-32 | the first in-order entry is in the map and has the smallest key |
| BinaryTree.LastIsMax | dataStructures/BSTSortedMap.java:40-45 | the last in-order entry is in the map and has the largest key |
| BinaryTree.TransplantEffect | dataStructures/BTree.java:100-107 | transplant writes v into the slot of u's parent that held u and makes that parent v's parent |
| BinaryTree.TransplantKeepsEntries | dataStructures/BTree.java:94-108 | transplant changes no node's entry |
| InOrderIterator.AfterCompose | dataStructures/InOrderIterator.java:73-79 | the entries after a nested position are those after the inner step followed by those after the outer path |
| InOrderIterator.LeftSpineNothingBefore | dataStructures/InOrderIterator.java:89-94 | no entry comes before the end of the left spine from the root |
| InOrderIterator.FirstAt | dataStructures/InOrderIterator.java:89-94 | the cursor at the end of the root's left spine has every entry still to come |
| InOrderIterator.DescendAt | dataStructures/InOrderIterator.java:66-71 | moving to the leftmost node of the right subtree leaves the right subtree's entries and those after the old node still to come |
| InOrderIterator.InOrderIterator.constructor | dataStructures/InOrderIterator.java:27-30 | a new iterator is rewound: nothing returned and every entry of the tree to come |
| InOrderIterator.InOrderIterator.Rewind | dataStructures/InOrderIterator.java:89-94 | null for an empty tree, else the leftmost node; every entry is to come again |
| InOrderIterator.InOrderIterator.HasNext | dataStructures/InOrderIterator.java:40-42 | true exactly when entries remain |
| InOrderIterator.InOrderIterator.Next | dataStructures/InOrderIterator.java:52-58 | throws NoSuchElementException exactly when no entry remains; otherwise returns the next entry in key order and moves past it |
| InOrderIterator.InOrderIterator.Advance | dataStructures/InOrderIterator.java:65-81 | moves the cursor to the in-order successor: the current entry moves from the remaining to the returned ones, and the cursor becomes null exactly when it was the last |
| InOrderIterator.InOrderIterator.Descend | dataStructures/InOrderIterator.java:66-71 | with a right child the cursor goes to the leftmost node of the right subtree |
| InOrderIterator.InOrderIterator.Climb | dataStructures/InOrderIterator.java:73-79 | without a right child the cursor climbs while it is a right child and stops at the first ancestor it reaches from the left, or null exactly when no entry follows |
| InOrderIterator.InOrderIterator.NoRightSubtree | dataStructures/InOrderIterator.java:72 | a null right link means an empty right subtree |
| InOrderIterator.InOrderIterator.ClimbStep | dataStructures/InOrderIterator.java:75 | the node is its parent's right child exactly when it hangs to the right |
| InOrderIterator.InOrderIterator.Exhausted | dataStructures/InOrderIterator.java:5-7 | once hasNext is false the iterator has returned every entry exactly once, with strictly increasing keys, and they make up the map |
| InOrderIterator.Iterator | dataStructures/BSTSortedMap.java:165-168 | iterator() starts at the first of the map's entries in increasing key order |

## Left out

- Main.java and the command loop: console input, printing, file checks and save/load through object streams are I/O. CommandDescription.java is help text only.
- system/AreaClass.java is not part of this model. It orchestrates the collections, and it also rests on float price checks and a double-valued nearest-service search.
- Float arithmetic: EvaluationClass.java (running averages and regular-expression tag search), the rounding in ServiceClass.java and the discount in LeisureServiceClass.java are left out. Prices are integers here.
- AlphOrderComparator.java wraps `String.compareToIgnoreCase`, and case folding is not modelled.
- `writeObject`/`readObject` in the two linked lists are Java serialisation and are left out.
- `hashCode`, `equals` and `compareTo` are foreign calls. `hashCode` is a function the hash tables receive at construction. Equality is Dafny equality. Keys of the sorted maps are `int`, ordered by `<`.
- Null keys and null elements are not modelled: every key and value is present.
- Float load factors become integer sizes: the floor of the exact rational product (2/1, 4/5, 3/4, 9/10). Java computes that product in float32, which can land above the exact floor for sizes above about 4.6 million: `(int)(4660341 * 0.9f)` is 4194307 where `SepChainHashTable.MaxEntries` gives 4194306, and `(int)(16777002 * 0.75f)` is 12582752 where `SepChainHashTable.IdealLength` gives 12582751. `Math.sqrt` in `isPrime` becomes `i * i <= n`.
- HashTable.Hash: folds Unicode scalar values (Dafny `char`), where Java's `charAt` (HashTable.java:44) folds UTF-16 code units. The two agree only on strings within the Basic Multilingual Plane; a character outside it is one step here and two (its surrogate pair) in Java, and keys holding lone surrogates cannot be expressed.
- Interfaces, the service and student type enums, and the exception classes have no behaviour. They appear as datatypes, a `kind` field and error kinds.
- Services and students are single classes tagged by kind, because the model has no inheritance. The bookish and outgoing rules live in the same `ChangeLocation` method as the thrifty ones.
- The collections and iterators are written against the Java Iterator interface, which appears here as the cursor class `SeqIterator`. The key and value iterators of the sorted map are projections over that cursor.
- `super.locateNode(root, key)` in RedBlackSortedMap (RedBlackSortedMap.java:36 and :100) names no method of its superclass chain. AdvancedBSTree, BSTSortedMap, BTree and Tree define no `locateNode`, and the only one, in AVLSortedMap.java:46-55, is private to that unrelated class. So RedBlackSortedMap does not compile as given. The model uses the map's `getNode` (BSTSortedMap.java:59-67) in its place. That is the same key search AVLSortedMap's `locateNode` does: go left on a smaller key, right on a larger one, and return the node holding the key or null.
- Java casts to AVLNode: AVLSortedMap does not override `createNode`, so Java creates plain BTNodes and casts them to AVLNode (AVLSortedMap.java:22 and :30). In the model every arena node carries a height, so that cast always succeeds. RedBlackSortedMap does override `createNode` (RedBlackSortedMap.java:90-95) and creates real RED RBNodes; their constructor (RBNode.java:16-18) goes through the four-argument BTNode constructor, which is the BTNode.java:45-52 finding below. The model creates them RED with `CreateNode`, which goes through the corrected `NewNode`.
- The in-order iterator assumes the tree is not changed while it runs, as the Java one does.
- Separate-chaining buckets are sequences of entries, not MapSinglyList objects. The bucket operations are the MapSinglyList functions on those sequences.
- AvlSortedMap.AvlSortedMap.Put: runs on the counted search-tree put (`BstSortedMap.BstSortedMap.PutCounted`), the corrected put of the BSTSortedMap.java:91-94 finding below. As written, `super.put` never raises currentSize, so on the AVL map too every put makes the new entry the only one. The model does not reproduce that; the balance and exact-height guarantees are stated for the corrected put.
- AvlSortedMap.AvlSortedMap.Remove: lowers currentSize after the search-tree removal, which `super.remove` as written does not do. This is the counterpart of the counted put, and keeps the size equal to the number of entries.
- AvlSortedMap.AvlSortedMap.Remove: the exact-height invariant is not carried across calls. Removal starts the rebalancing walk at the removed node's old parent, so after `put 2, 1, 4, 3; remove 2; remove 1` the stored heights on the successor's path are stale. The contracts state the search-tree order, the entries and the size, and exact heights only where the walk restores them (`RebalanceUp`). AVL balance after a removal is not stated.
- RedBlackSortedMap.RedBlackSortedMap.Put: the red-black colour invariants are not stated. The zig-zag recolouring is modelled as written, and `put 3, 1, 2` reaches a null grandparent even with the corrected root guard. Such a crash is an error outcome, not a broken tree.
- RedBlackSortedMap.RedBlackSortedMap.Remove: the red-black colour invariants (no RED node with a RED child, the same number of BLACK nodes on every path) are not stated either. deleteFixup is modelled step by step as written, with its null dereferences as error outcomes. The contracts state the map, the search-tree order, the size and a BLACK root.
- Location.DistanceTo: coordinates are unbounded integers and the distance an exact natural number. Java subtracts and adds `long`s with 64-bit wrap-around, `Math.abs(Long.MIN_VALUE)` stays negative, and the sum is widened to a `double`. Neither the wrap-around nor the rounding of large sums is modelled.
- SepChainHashTable.SepChainHashTable.Put: requires `table.Length <= MAX_INT / 2`, so that the doubled prime size of a rehash still fits in an `int`.
- SepChainHashTable.SepChainHashTable.Rehash: the same size bound as Put.
- ClosedHashTable.ClosedHashTable.Put: requires `table.Length <= MAX_INT / 2` for the same reason.
- ClosedHashTable.ClosedHashTable.Rehash: the same size bound as Put.
- ClosedHashTable.ClosedHashTable.constructor: requires `capacity <= MAX_INT / 2`. It states only that the table is empty or at least twice the capacity, not which prime is chosen.
- ListInArray.ListInArray.constructor: requires a non-negative dimension, where Java would throw on a negative one. Array slots are `Option`s, `None` standing for Java's null.
- ListInArray.ListInArray.Add: requires a non-empty array. With dimension 0, Java doubles a zero-length array and the first add throws. AddFirst and AddLast require the same.
- ListInArray.ListInArray.AddFirst: requires a non-empty array, as Add does.
- ListInArray.ListInArray.AddLast: requires a non-empty array, as Add does.

## Findings

| source | as written | input that shows it | evidently intended | confidence | as-written member | corrected member |
|---|---|---|---|---|---|---|
| system/CommandType.java:14 | CMD_STUDENTS stores the token "SETUDENTS", which getEnum does not recognise | `getEnum(CMD_STUDENTS.toString())` is null | the token "STUDENTS", which round-trips like every other command | not executed | CommandType.StudentsTokenDoesNotRoundTrip | CommandType.TokenRoundTrip |
| dataStructures/SepChainHashTable.java:39-41 | the bucket index is `Math.abs(hashCode) % length`, and `Math.abs(-2147483648)` is negative | a key whose hash is -2147483648, with 37 buckets, gets index -22 | an index inside the table for every hash | not executed | SepChainHashTable.LeastHashIndexIsNegative | SepChainHashTable.BucketIndex |
| dataStructures/ClosedHashTable.java:55-57 | probe i is `Math.abs(hashCode + i) % length`, so a negative hash walks back towards 0 and then forwards again. put then calls itself on an unchanged table (ClosedHashTable.java:131) and recurses without end; rehash (ClosedHashTable.java:150-155) leaves behind an entry whose probed cells are all taken | a key hashing to -3 in a table of 7 cells probes only cells 0 to 3; with those four cells full, 4 entries and maxSize 5, put of that key recurses forever | linear probing that visits every cell of the table | not executed | ClosedHashTable.ProbeAsWrittenMissesCells | ClosedHashTable.ProbeCoversTable |
| dataStructures/ClosedHashTable.java:216-235 | hasNext compares the index with the table length, but next skips empty and removed cells | the table [entry, null, null] after one next: hasNext is true and next throws NoSuchElementException | hasNext true exactly when a live entry is left | not executed | ClosedHashTable.HasNextButNoNext | ClosedHashTable.ClosedHashTableIterator.HasNext |
| dataStructures/BTNode.java:45-52 | the four-argument constructor calls setParent on both children without checking for null | any node built with a null child, including every new leaf from the two-argument constructor | children that are present point back to the new node, and absent ones are skipped | not executed | BstSortedMap.BstSortedMap.NewNodeAsWritten | BstSortedMap.BstSortedMap.NewNode |
| dataStructures/BSTSortedMap.java:91-94 | put never increases currentSize, and the empty-size test makes every put a new root | put(1, 10) then put(2, 20) on a new map leaves get(1) null | a new key increases the size and keeps the earlier entries | not executed | BstSortedMap.SecondPutForgetsFirst | BstSortedMap.SecondPutKeepsFirst |
| dataStructures/AVLSortedMap.java:57-62 | tallerChild reads the height of both children without a null check | the chain 1, 2, 3: the out-of-balance root has no left child | an absent child counts as height -1 | not executed | AvlSortedMap.TallerChildCrashesOnAChain | AvlSortedMap.TallerChild |
| dataStructures/RedBlackSortedMap.java:41-43 | the fix-up guard reads the parent's colour without checking that the parent exists | the first put into an empty map: its root has no parent | the fix-up starts only when a parent exists and is RED | not executed | RedBlackSortedMap.RootGuardThrows | RedBlackSortedMap.FixupStarts |

=== FILE: advanced_bs_tree.dfy ===
/**
 * AdvancedBSTree: the single rotations and the tri-node restructuring that the AVL and
 * red-black maps build on, as operations on a BstSortedMap object. A rotation rewires
 * three records and the parent link of one re-hung subtree; it keeps the tree linked and
 * in search-tree order and keeps the in-order sequence of entries, hence the map.
 */
module AdvancedBsTree {
  import opened Wrappers
  import opened MapEntry
  import opened BinaryTree
  import opened BstSortedMap

  // ---------------------------------------------------------------- record updates

  /** Records hold the same entry, height and colour; only links may differ. */
  ghost predicate SameData<V>(nodes: seq<Node<V>>, nodes': seq<Node<V>>) {
    |nodes| == |nodes'| &&
    forall x :: 0 <= x < |nodes| ==>
      nodes'[x].entry == nodes[x].entry && nodes'[x].height == nodes[x].height && nodes'[x].color == nodes[x].color
  }

  /**
   * The records after a left rotation at `z` whose right child `y` has left subtree `b`,
   * `z` hanging from the path `c`: `y` takes z's place under z's former parent, `z`
   * becomes y's left child, and `b` moves to z's right slot. Nothing else changes.
   */
  ghost predicate RotatedLeft<V>(n: seq<Node<V>>, n': seq<Node<V>>, c: Ctx, z: int, b: Tree, y: int) {
    |n'| == |n| && 0 <= z < |n| && 0 <= y < |n| &&
    n'[y] == n[y].(parent := HoleParent(c), left := z) &&
    n'[z] == n[z].(parent := y, right := RootPtr(b)) &&
    (b.Branch? ==> 0 <= b.ptr < |n| && n'[b.ptr] == n[b.ptr].(parent := z)) &&
    (c != Top ==> 0 <= HoleParent(c) < |n| && n'[HoleParent(c)] == Relink(n[HoleParent(c)], c, y)) &&
    forall x :: 0 <= x < |n| && x != z && x != y && x != RootPtr(b) && x != HoleParent(c) ==> n'[x] == n[x]
  }

  /** The mirror image: a right rotation at `z` whose left child `y` has right subtree `b`. */
  ghost predicate RotatedRight<V>(n: seq<Node<V>>, n': seq<Node<V>>, c: Ctx, z: int, b: Tree, y: int) {
    |n'| == |n| && 0 <= z < |n| && 0 <= y < |n| &&
    n'[y] == n[y].(parent := HoleParent(c), right := z) &&
    n'[z] == n[z].(parent := y, left := RootPtr(b)) &&
    (b.Branch? ==> 0 <= b.ptr < |n| && n'[b.ptr] == n[b.ptr].(parent := z)) &&
    (c != Top ==> 0 <= HoleParent(c) < |n| && n'[HoleParent(c)] == Relink(n[HoleParent(c)], c, y)) &&
    forall x :: 0 <= x < |n| && x != z && x != y && x != RootPtr(b) && x != HoleParent(c) ==> n'[x] == n[x]
  }

  lemma Reassociate<T>(a: seq<T>, z: seq<T>, b: seq<T>, y: seq<T>, d: seq<T>)
    ensures a + z + (b + y + d) == (a + z + b) + y + d
  {
  }

  /** Every record but the four named ones is as it was, and record keys are unchanged. */
  ghost predicate OnlyFour<V>(n: seq<Node<V>>, n': seq<Node<V>>, p: int, q: int, u: int, w: int) {
    |n'| == |n| &&
    (forall x :: 0 <= x < |n| ==> Key(n', x) == Key(n, x)) &&
    forall x :: 0 <= x < |n| && x != p && x != q && x != u && x != w ==> n'[x] == n[x]
  }

  /** The subtree part of a left rotation: z's subtree a z (b y d) becomes (a z b) y d. */
  lemma RotateLeftLocal<V>(n: seq<Node<V>>, n': seq<Node<V>>, zp: int, lo: Option<int>, hi: Option<int>,
                           a: Tree, z: int, b: Tree, y: int, d: Tree)
    requires Matches(n, Branch(a, z, Branch(b, y, d)), zp) && Ordered(n, Branch(a, z, Branch(b, y, d)), lo, hi)
    requires zp == NIL || !Inside(Key(n, zp), lo, hi)
    requires OnlyFour(n, n', z, y, RootPtr(b), zp) && 0 <= y < |n| && (b.Branch? ==> 0 <= b.ptr < |n|)
    requires n'[y] == n[y].(parent := zp, left := z) && n'[z] == n[z].(parent := y, right := RootPtr(b))
    requires b.Branch? ==> n'[b.ptr] == n[b.ptr].(parent := z)
    ensures Matches(n', Branch(Branch(a, z, b), y, d), zp) && Ordered(n', Branch(Branch(a, z, b), y, d), lo, hi)
    ensures Entries(n', Branch(Branch(a, z, b), y, d)) == Entries(n, Branch(a, z, Branch(b, y, d)))
    ensures Inside(Key(n, z), lo, hi) && Inside(Key(n, y), lo, hi) && (b.Branch? ==> Inside(Key(n, b.ptr), lo, hi))
  {
    var kz, ky := Key(n, z), Key(n, y);
    assert Matches(n, Branch(b, y, d), z);
    assert Ordered(n, Branch(b, y, d), Some(kz), hi);
    assert Ordered(n, b, Some(kz), Some(ky));
    assert b.Branch? ==> Inside(Key(n, b.ptr), Some(kz), Some(ky));
    SubtreeSame(n, n', a, z, lo, Some(kz));
    SubtreeReparent(n, n', b, y, z, Some(kz), Some(ky));
    SubtreeSame(n, n', d, y, Some(ky), hi);
    assert EntryAt(n', z) == EntryAt(n, z) && EntryAt(n', y) == EntryAt(n, y);
    Reassociate(Entries(n, a), EntryAt(n, z), Entries(n, b), EntryAt(n, y), Entries(n, d));
  }

  /** The subtree part of a right rotation: z's subtree (a y b) z d becomes a y (b z d). */
  lemma RotateRightLocal<V>(n: seq<Node<V>>, n': seq<Node<V>>, zp: int, lo: Option<int>, hi: Option<int>,
                            a: Tree, y: int, b: Tree, z: int, d: Tree)
    requires Matches(n, Branch(Branch(a, y, b), z, d), zp) && Ordered(n, Branch(Branch(a, y, b), z, d), lo, hi)
    requires zp == NIL || !Inside(Key(n, zp), lo, hi)
    requires OnlyFour(n, n', z, y, RootPtr(b), zp) && 0 <= y < |n| && (b.Branch? ==> 0 <= b.ptr < |n|)
    requires n'[y] == n[y].(parent := zp, right := z) && n'[z] == n[z].(parent := y, left := RootPtr(b))
    requires b.Branch? ==> n'[b.ptr] == n[b.ptr].(parent := z)
    ensures Matches(n', Branch(a, y, Branch(b, z, d)), zp) && Ordered(n', Branch(a, y, Branch(b, z, d)), lo, hi)
    ensures Entries(n', Branch(a, y, Branch(b, z, d))) == Entries(n, Branch(Branch(a, y, b), z, d))
    ensures Inside(Key(n, z), lo, hi) && Inside(Key(n, y), lo, hi) && (b.Branch? ==> Inside(Key(n, b.ptr), lo, hi))
  {
    var kz, ky := Key(n, z), Key(n, y);
    assert Matches(n, Branch(a, y, b), z);
    assert Ordered(n, Branch(a, y, b), lo, Some(kz));
    assert Ordered(n, b, Some(ky), Some(kz));
    assert b.Branch? ==> Inside(Key(n, b.ptr), Some(ky), Some(kz));
    SubtreeSame(n, n', a, y, lo, Some(ky));
    SubtreeReparent(n, n', b, y, z, Some(ky), Some(kz));
    SubtreeSame(n, n', d, z, Some(kz), hi);
    assert EntryAt(n', z) == EntryAt(n, z) && EntryAt(n', y) == EntryAt(n, y);
    Reassociate(Entries(n, a), EntryAt(n, y), Entries(n, b), EntryAt(n, z), Entries(n, d));
  }

  /** A subtree replaced by one over the same entries leaves the whole tree's entries as they were. */
  lemma PlugSwap<V>(n: seq<Node<V>>, n': seq<Node<V>>, c: Ctx, s: Tree, s': Tree)
    requires Matches(n, Plug(c, s), NIL) && Ordered(n, Plug(c, s), None, None) && |n| <= |n'|
    requires forall x :: (0 <= x < |n| && x != HoleParent(c) &&
                          !Inside(Key(n, x), HoleLo(n, c), HoleHi(n, c))) ==> n'[x] == n[x]
    requires c != Top ==> 0 <= HoleParent(c) < |n| && n'[HoleParent(c)] == Relink(n[HoleParent(c)], c, RootPtr(s'))
    requires Matches(n', s', HoleParent(c)) && Ordered(n', s', HoleLo(n, c), HoleHi(n, c))
    requires Entries(n', s') == Entries(n, s)
    ensures Matches(n', Plug(c, s'), NIL) && Ordered(n', Plug(c, s'), None, None)
    ensures Entries(n', Plug(c, s')) == Entries(n, Plug(c, s))
  {
    PlugReplace(n, n', c, s, s');
    PlugEntries(n, c, s);
  }

  /** A left rotation keeps the tree linked and ordered, and keeps its in-order entries. */
  lemma RotateLeftKeeps<V>(n: seq<Node<V>>, n': seq<Node<V>>, c: Ctx, a: Tree, z: int, b: Tree, y: int, d: Tree)
    requires Matches(n, Plug(c, Branch(a, z, Branch(b, y, d))), NIL)
    requires Ordered(n, Plug(c, Branch(a, z, Branch(b, y, d))), None, None)
    requires RotatedLeft(n, n', c, z, b, y)
    ensures Matches(n', Plug(c, Branch(Branch(a, z, b), y, d)), NIL)
    ensures Ordered(n', Plug(c, Branch(Branch(a, z, b), y, d)), None, None)
    ensures Entries(n', Plug(c, Branch(Branch(a, z, b), y, d))) == Entries(n, Plug(c, Branch(a, z, Branch(b, y, d))))
  {
    var s := Branch(a, z, Branch(b, y, d));
    HoleView(n, c, s);
    RotateLeftLocal(n, n', HoleParent(c), HoleLo(n, c), HoleHi(n, c), a, z, b, y, d);
    PlugSwap(n, n', c, s, Branch(Branch(a, z, b), y, d));
  }

  /** A right rotation keeps the tree linked and ordered, and keeps its in-order entries. */
  lemma RotateRightKeeps<V>(n: seq<Node<V>>, n': seq<Node<V>>, c: Ctx, a: Tree, y: int, b: Tree, z: int, d: Tree)
    requires Matches(n, Plug(c, Branch(Branch(a, y, b), z, d)), NIL)
    requires Ordered(n, Plug(c, Branch(Branch(a, y, b), z, d)), None, None)
    requires RotatedRight(n, n', c, z, b, y)
    ensures Matches(n', Plug(c, Branch(a, y, Branch(b, z, d))), NIL)
    ensures Ordered(n', Plug(c, Branch(a, y, Branch(b, z, d))), None, None)
    ensures Entries(n', Plug(c, Branch(a, y, Branch(b, z, d)))) == Entries(n, Plug(c, Branch(Branch(a, y, b), z, d)))
  {
    var s := Branch(Branch(a, y, b), z, d);
    HoleView(n, c, s);
    RotateRightLocal(n, n', HoleParent(c), HoleLo(n, c), HoleHi(n, c), a, y, b, z, d);
    PlugSwap(n, n', c, s, Branch(a, y, Branch(b, z, d)));
  }

  /**
   * What a rotation at `z` with child subtree `r` reads from a valid tree: the links
   * around `z` and the child, and that the records involved are all different.
   */
  lemma RotationFacts<V>(n: seq<Node<V>>, c: Ctx, a: Tree, z: int, r: Tree)
    requires Matches(n, Plug(c, Branch(a, z, r)), NIL) && Ordered(n, Plug(c, Branch(a, z, r)), None, None)
    requires r.Branch?
    ensures 0 <= z < |n| && n[z].parent == HoleParent(c) && n[z].left == RootPtr(a) && n[z].right == r.ptr
    ensures 0 <= r.ptr < |n| && r.ptr != z && r.ptr != HoleParent(c)
    ensures n[r.ptr].left == RootPtr(r.left) && n[r.ptr].right == RootPtr(r.right)
    ensures c != Top ==> 0 <= HoleParent(c) < |n| && HoleParent(c) != z && (n[HoleParent(c)].left == z <==> c.InLeft?)
    ensures r.left.Branch? ==> 0 <= r.left.ptr < |n| && r.left.ptr != z && r.left.ptr != r.ptr && r.left.ptr != HoleParent(c)
    ensures r.right.Branch? ==> 0 <= r.right.ptr < |n| && r.right.ptr != z && r.right.ptr != r.ptr && r.right.ptr != HoleParent(c)
    ensures a.Branch? ==> 0 <= a.ptr < |n| && a.ptr != z && a.ptr != r.ptr && a.ptr != HoleParent(c)
  {
    var s := Branch(a, z, r);
    HoleLinks(n, c, a, z, r);
    HoleView(n, c, s);
    var lo, hi := HoleLo(n, c), HoleHi(n, c);
    var kz, ky := Key(n, z), Key(n, r.ptr);
    assert Matches(n, r, z) && Ordered(n, r, Some(kz), hi);
    assert Ordered(n, r.left, Some(kz), Some(ky)) && Ordered(n, r.right, Some(ky), hi);
    assert Matches(n, r.left, r.ptr) && Matches(n, r.right, r.ptr);
    assert Ordered(n, a, lo, Some(kz)) && Matches(n, a, z);
  }

  /** The mirror image: the same facts for a left child subtree `l` of `z`. */
  lemma RotationFactsLeft<V>(n: seq<Node<V>>, c: Ctx, l: Tree, z: int, d: Tree)
    requires Matches(n, Plug(c, Branch(l, z, d)), NIL) && Ordered(n, Plug(c, Branch(l, z, d)), None, None)
    requires l.Branch?
    ensures 0 <= z < |n| && n[z].parent == HoleParent(c) && n[z].left == l.ptr && n[z].right == RootPtr(d)
    ensures 0 <= l.ptr < |n| && l.ptr != z && l.ptr != HoleParent(c)
    ensures n[l.ptr].left == RootPtr(l.left) && n[l.ptr].right == RootPtr(l.right)
    ensures c != Top ==> 0 <= HoleParent(c) < |n| && HoleParent(c) != z && (n[HoleParent(c)].left == z <==> c.InLeft?)
    ensures l.left.Branch? ==> 0 <= l.left.ptr < |n| && l.left.ptr != z && l.left.ptr != l.ptr && l.left.ptr != HoleParent(c)
    ensures l.right.Branch? ==> 0 <= l.right.ptr < |n| && l.right.ptr != z && l.right.ptr != l.ptr && l.right.ptr != HoleParent(c)
    ensures d.Branch? ==> 0 <= d.ptr < |n| && d.ptr != z && d.ptr != l.ptr && d.ptr != HoleParent(c)
  {
    var s := Branch(l, z, d);
    HoleLinks(n, c, l, z, d);
    HoleView(n, c, s);
    var lo, hi := HoleLo(n, c), HoleHi(n, c);
    var kz, ky := Key(n, z), Key(n, l.ptr);
    assert Matches(n, l, z) && Ordered(n, l, lo, Some(kz));
    assert Ordered(n, l.left, lo, Some(ky)) && Ordered(n, l.right, Some(ky), Some(kz));
    assert Matches(n, l.left, l.ptr) && Matches(n, l.right, l.ptr);
    assert Ordered(n, d, Some(kz), hi) && Matches(n, d, z);
  }

  // ---------------------------------------------------------------- rotations

  /**
   * rotateHelper(z, y, zParent): with no parent `y` becomes the root with a null parent;
   * otherwise `y` takes the child slot of `zParent` that held `z` and gets `zParent` as
   * its parent.
   */
  method RotateHelper<V>(t: BstSortedMap<V>, z: int, y: int, zParent: int)
    requires 0 <= y < |t.nodes| && y != zParent && (zParent == NIL || 0 <= zParent < |t.nodes|)
    modifies t
    ensures |t.nodes| == |old(t.nodes)|
    ensures t.root == if zParent == NIL then y else old(t.root)
    ensures t.nodes[y] == old(t.nodes)[y].(parent := zParent)
    ensures zParent != NIL ==>
      t.nodes[zParent] == if old(t.nodes)[zParent].left == z then old(t.nodes)[zParent].(left := y)
                          else old(t.nodes)[zParent].(right := y)
    ensures forall x :: 0 <= x < |t.nodes| && x != y && x != zParent ==> t.nodes[x] == old(t.nodes)[x]
    ensures t.currentSize == old(t.currentSize) && t.shape == old(t.shape)
  {
    if zParent == NIL {
      t.root := y;
      t.SetParent(y, NIL);
    } else {
      if t.nodes[zParent].left == z {
        t.SetLeftChild(zParent, y);
      } else {
        t.SetRightChild(zParent, y);
      }
      t.SetParent(y, zParent);
    }
  }

  /**
   * rotateLeft(z): `z` must have a right child `y`, whose left child is read first, so a
   * missing one is a null dereference that changes nothing. Otherwise `y` takes z's
   * place, `z` becomes y's left child and y's former left subtree becomes z's right
   * subtree. The tree stays valid and its in-order entries stay as they were.
   */
  method RotateLeft<V>(t: BstSortedMap<V>, z: int, ghost c: Ctx, ghost a: Tree, ghost r: Tree) returns (o: Outcome)
    requires t.Valid() && t.shape == Plug(c, Branch(a, z, r))
    modifies t
    ensures t.Valid() && t.currentSize == old(t.currentSize)
    ensures SameData(old(t.nodes), t.nodes)
    ensures Entries(t.nodes, t.shape) == old(Entries(t.nodes, t.shape))
    ensures r == Leaf ==> o == Fail(NullPointer) && t.nodes == old(t.nodes) && t.root == old(t.root) && t.shape == old(t.shape)
    ensures r.Branch? ==> o == Pass && RotatedLeft(old(t.nodes), t.nodes, c, z, r.left, r.ptr) &&
                          t.shape == Plug(c, Branch(Branch(a, z, r.left), r.ptr, r.right)) &&
                          t.root == if c == Top then r.ptr else old(t.root)
  {
    if r.Branch? {
      RotationFacts(t.nodes, c, a, z, r);
    } else {
      HoleLinks(t.nodes, c, a, z, r);
    }
    var y := t.nodes[z].right;
    if y == NIL {
      return Fail(NullPointer);
    }
    ghost var n0 := t.nodes;
    ghost var b, d := r.left, r.right;
    var zParent := t.nodes[z].parent;
    var yLeft := t.nodes[y].left;
    RelinkLeft(t, z, y, zParent, yLeft, c, b);
    RotateLeftKeeps(n0, t.nodes, c, a, z, b, y, d);
    if c != Top {
      PlugRoot(c, Branch(a, z, r), Branch(Branch(a, z, b), y, d));
    }
    t.shape := Plug(c, Branch(Branch(a, z, b), y, d));
    o := Pass;
  }

  /**
   * rotateRight(z), the mirror image of rotateLeft: `z` must have a left child `y`;
   * `y` takes z's place, `z` becomes y's right child and y's former right subtree
   * becomes z's left subtree.
   */
  method RotateRight<V>(t: BstSortedMap<V>, z: int, ghost c: Ctx, ghost l: Tree, ghost d: Tree) returns (o: Outcome)
    requires t.Valid() && t.shape == Plug(c, Branch(l, z, d))
    modifies t
    ensures t.Valid() && t.currentSize == old(t.currentSize)
    ensures SameData(old(t.nodes), t.nodes)
    ensures Entries(t.nodes, t.shape) == old(Entries(t.nodes, t.shape))
    ensures l == Leaf ==> o == Fail(NullPointer) && t.nodes == old(t.nodes) && t.root == old(t.root) && t.shape == old(t.shape)
    ensures l.Branch? ==> o == Pass && RotatedRight(old(t.nodes), t.nodes, c, z, l.right, l.ptr) &&
                          t.shape == Plug(c, Branch(l.left, l.ptr, Branch(l.right, z, d))) &&
                          t.root == if c == Top then l.ptr else old(t.root)
  {
    if l.Branch? {
      RotationFactsLeft(t.nodes, c, l, z, d);
    } else {
      HoleLinks(t.nodes, c, l, z, d);
    }
    var y := t.nodes[z].left;
    if y == NIL {
      return Fail(NullPointer);
    }
    ghost var n0 := t.nodes;
    ghost var a, b := l.left, l.right;
    var zParent := t.nodes[z].parent;
    var yRight := t.nodes[y].right;
    RelinkRight(t, z, y, zParent, yRight, c, b);
    RotateRightKeeps(n0, t.nodes, c, a, y, b, z, d);
    if c != Top {
      PlugRoot(c, Branch(l, z, d), Branch(a, y, Branch(b, z, d)));
    }
    t.shape := Plug(c, Branch(a, y, Branch(b, z, d)));
    o := Pass;
  }

  // ---------------------------------------------------------------- restructure

  /** The path above the grandparent of the hole. */
  function Grand(c: Ctx): Ctx
    requires c != Top && c.up != Top
  {
    c.up.up
  }

  /**
   * The tri-node restructuring of the subtree `s` = x, its parent y and grandparent z,
   * as drawn in AdvancedBSTree: the node with the middle key of the three becomes the
   * root, with the other two as its children and the four subtrees t1..t4 hung below
   * them from left to right.
   */
  function TriNode(c: Ctx, s: Tree): (r: Tree)
    requires c != Top && c.up != Top && s.Branch?
    ensures r.Branch? && r.left.Branch? && r.right.Branch?
  {
    match c
    case InLeft(InLeft(_, z, t4), y, t3) => Branch(s, y, Branch(t3, z, t4))
    case InRight(InRight(_, t1, z), t2, y) => Branch(Branch(t1, z, t2), y, s)
    case InRight(InLeft(_, z, t4), t1, y) => Branch(Branch(t1, y, s.left), s.ptr, Branch(s.right, z, t4))
    case InLeft(InRight(_, t1, z), y, t4) => Branch(Branch(t1, z, s.left), s.ptr, Branch(s.right, y, t4))
  }

  /**
   * restructure(x): y is x's parent and z is y's parent, and a missing one is a null
   * dereference that changes nothing. When x and y are children on the same side one
   * rotation at z lifts y; otherwise a rotation at y and one at z lift x. The node
   * returned is the root of TriNode, in z's former place; the tree stays valid and its
   * in-order entries stay as they were.
   */
  method Restructure<V>(t: BstSortedMap<V>, x: int, ghost c: Ctx, ghost l: Tree, ghost r: Tree) returns (res: Result<int>)
    requires t.Valid() && t.shape == Plug(c, Branch(l, x, r))
    modifies t
    ensures t.Valid() && t.currentSize == old(t.currentSize)
    ensures SameData(old(t.nodes), t.nodes)
    ensures Entries(t.nodes, t.shape) == old(Entries(t.nodes, t.shape))
    ensures (c == Top || c.up == Top) ==>
      res == Err(NullPointer) && t.nodes == old(t.nodes) && t.root == old(t.root) && t.shape == old(t.shape)
    ensures c != Top && c.up != Top ==>
      res == Ok(RootPtr(TriNode(c, Branch(l, x, r)))) && t.shape == Plug(Grand(c), TriNode(c, Branch(l, x, r))) &&
      res.value == (if c.InLeft? == c.up.InLeft? then c.ptr else x)
  {
    ghost var s := Branch(l, x, r);
    HoleLinks(t.nodes, c, l, x, r);
    var y := t.nodes[x].parent;
    if y == NIL {
      return Err(NullPointer);
    }
    ghost var up := c.up;
    ghost var ys := if c.InLeft? then Branch(s, y, c.right) else Branch(c.left, y, s);
    assert t.shape == Plug(up, ys);
    HoleLinks(t.nodes, up, ys.left, y, ys.right);
    var z := t.nodes[y].parent;
    if z == NIL {
      return Err(NullPointer);
    }
    var yIsLeft := t.nodes[z].left == y;
    var xIsLeft := t.nodes[y].left == x;
    ghost var zs := if up.InLeft? then Branch(ys, z, up.right) else Branch(up.left, z, ys);
    assert t.shape == Plug(up.up, zs);
    if yIsLeft && xIsLeft {
      var _ := RotateRight(t, z, up.up, ys, up.right);
      res := Ok(y);
    } else if !yIsLeft && !xIsLeft {
      var _ := RotateLeft(t, z, up.up, up.left, ys);
      res := Ok(y);
    } else if yIsLeft {
      var _ := RotateLeft(t, y, up, c.left, s);
      var _ := RotateRight(t, z, up.up, Branch(Branch(c.left, y, l), x, r), up.right);
      res := Ok(x);
    } else {
      var _ := RotateRight(t, y, up, s, c.right);
      var _ := RotateLeft(t, z, up.up, up.left, Branch(l, x, Branch(r, y, c.right)));
      res := Ok(x);
    }
  }

  /**
   * The writes of rotateLeft once y, zParent and yLeft have been read:
   * rotateHelper(z, y, zParent), y.setLeftChild(z), z.setParent(y), z.setRightChild(yLeft)
   * and, for a non-null yLeft, yLeft.setParent(z).
   */
  method RelinkLeft<V>(t: BstSortedMap<V>, z: int, y: int, zParent: int, yLeft: int, ghost c: Ctx, ghost b: Tree)
    requires 0 <= z < |t.nodes| && 0 <= y < |t.nodes|
    requires zParent == HoleParent(c) && yLeft == RootPtr(b)
    requires c != Top ==> 0 <= zParent < |t.nodes| && (t.nodes[zParent].left == z <==> c.InLeft?)
    requires b.Branch? ==> 0 <= yLeft < |t.nodes|
    requires z != y && zParent != z && zParent != y && yLeft != z && yLeft != y && (yLeft == NIL || yLeft != zParent)
    modifies t
    ensures RotatedLeft(old(t.nodes), t.nodes, c, z, b, y)
    ensures t.root == (if zParent == NIL then y else old(t.root))
    ensures t.currentSize == old(t.currentSize) && t.shape == old(t.shape)
  {
    RotateHelper(t, z, y, zParent);
    t.SetLeftChild(y, z);
    t.SetParent(z, y);
    t.SetRightChild(z, yLeft);
    if yLeft != NIL {
      t.SetParent(yLeft, z);
    }
  }

  /**
   * The writes of rotateRight once y, zParent and yRight have been read:
   * rotateHelper(z, y, zParent), y.setRightChild(z), z.setParent(y), z.setLeftChild(yRight)
   * and, for a non-null yRight, yRight.setParent(z).
   */
  method RelinkRight<V>(t: BstSortedMap<V>, z: int, y: int, zParent: int, yRight: int, ghost c: Ctx, ghost b: Tree)
    requires 0 <= z < |t.nodes| && 0 <= y < |t.nodes|
    requires zParent == HoleParent(c) && yRight == RootPtr(b)
    requires c != Top ==> 0 <= zParent < |t.nodes| && (t.nodes[zParent].left == z <==> c.InLeft?)
    requires b.Branch? ==> 0 <= yRight < |t.nodes|
    requires z != y && zParent != z && zParent != y && yRight != z && yRight != y && (yRight == NIL || yRight != zParent)
    modifies t
    ensures RotatedRight(old(t.nodes), t.nodes, c, z, b, y)
    ensures t.root == (if zParent == NIL then y else old(t.root))
    ensures t.currentSize == old(t.currentSize) && t.shape == old(t.shape)
  {
    RotateHelper(t, z, y, zParent);
    t.SetRightChild(y, z);
    t.SetParent(z, y);
    t.SetLeftChild(z, yRight);
    if yRight != NIL {
      t.SetParent(yRight, z);
    }
  }
}

=== FILE: avl_sorted_map.dfy ===
/**
 * The AVL sorted map: a binary search tree whose nodes store their heights (a leaf
 * has height 0, a missing child -1) and which, after each put and remove, walks up
 * from the changed node recomputing heights and restructuring every node whose two
 * children differ in height by more than one.
 */
module AvlSortedMap {
  import opened Wrappers
  import opened MapEntry
  import opened BinaryTree
  import opened BstSortedMap
  import opened AdvancedBsTree

  function Max(a: int, b: int): int {
    if a >= b then a else b
  }

  // ---------------------------------------------------------------- AVLNode

  /** AVLNode.height: -1 for a missing node, else the height the node stores. */
  function HeightOf<V>(nodes: seq<Node<V>>, p: int): int {
    if 0 <= p < |nodes| then nodes[p].height else -1
  }

  /** The height updateHeight computes for `p`: one more than that of its taller child. */
  function FreshHeight<V>(nodes: seq<Node<V>>, p: int): int
    requires 0 <= p < |nodes|
  {
    1 + Max(HeightOf(nodes, nodes[p].left), HeightOf(nodes, nodes[p].right))
  }

  /** The arena after updateHeight on `p`. */
  function Refreshed<V>(nodes: seq<Node<V>>, p: int): seq<Node<V>> {
    if 0 <= p < |nodes| then nodes[p := nodes[p].(height := FreshHeight(nodes, p))] else nodes
  }

  /** getBalanceFactor: the height of the left child less that of the right child. */
  function BalanceFactor<V>(nodes: seq<Node<V>>, p: int): int
    requires 0 <= p < |nodes|
  {
    HeightOf(nodes, nodes[p].left) - HeightOf(nodes, nodes[p].right)
  }

  /**
   * Every node of `t` stores the true height of its subtree, counted in AVLNode's
   * convention: one less than the number of levels, so that a leaf stores 0.
   */
  ghost predicate Exact<V>(nodes: seq<Node<V>>, t: Tree) {
    match t
    case Leaf => true
    case Branch(l, p, r) =>
      0 <= p < |nodes| && nodes[p].height == Height(t) - 1 && Exact(nodes, l) && Exact(nodes, r)
  }

  /** The subtrees hanging off a path all store true heights (the path's own nodes need not). */
  ghost predicate ExactCtx<V>(nodes: seq<Node<V>>, c: Ctx) {
    match c
    case Top => true
    case InLeft(up, _, r) => Exact(nodes, r) && ExactCtx(nodes, up)
    case InRight(up, l, _) => Exact(nodes, l) && ExactCtx(nodes, up)
  }

  /** With true heights stored, AVLNode.height of a subtree's root is its height less one. */
  lemma ExactHeightOf<V>(nodes: seq<Node<V>>, t: Tree)
    requires Exact(nodes, t)
    ensures HeightOf(nodes, RootPtr(t)) == Height(t) - 1
  {
  }

  /** Exactness of a subtree depends only on the heights stored in its own nodes. */
  lemma {:induction false} ExactFrame<V>(nodes: seq<Node<V>>, nodes': seq<Node<V>>, t: Tree)
    requires |nodes'| == |nodes|
    requires forall x :: x in Ptrs(t) && 0 <= x < |nodes| ==> nodes'[x].height == nodes[x].height
    ensures Exact(nodes', t) <==> Exact(nodes, t)
  {
    if t.Branch? {
      ExactFrame(nodes, nodes', t.left);
      ExactFrame(nodes, nodes', t.right);
    }
  }

  /** The same for the subtrees hanging off a path. */
  lemma {:induction false} ExactCtxFrame<V>(nodes: seq<Node<V>>, nodes': seq<Node<V>>, c: Ctx)
    requires |nodes'| == |nodes|
    requires forall x :: x in CtxPtrs(c) && 0 <= x < |nodes| ==> nodes'[x].height == nodes[x].height
    ensures ExactCtx(nodes', c) <==> ExactCtx(nodes, c)
  {
    match c
    case Top =>
    case InLeft(up, _, r) =>
      ExactCtxFrame(nodes, nodes', up);
      ExactFrame(nodes, nodes', r);
    case InRight(up, l, _) =>
      ExactCtxFrame(nodes, nodes', up);
      ExactFrame(nodes, nodes', l);
  }

  /** In an ordered subtree the root lies in neither child subtree, and the two are disjoint. */
  lemma BranchDistinct<V>(nodes: seq<Node<V>>, l: Tree, p: int, r: Tree, parent: int, lo: Option<int>, hi: Option<int>)
    requires Matches(nodes, Branch(l, p, r), parent) && Ordered(nodes, Branch(l, p, r), lo, hi)
    ensures p !in Ptrs(l) && p !in Ptrs(r) && Ptrs(l) !! Ptrs(r)
  {
    var kp := Key(nodes, p);
    OrderedPtrs(nodes, l, p, lo, Some(kp));
    OrderedPtrs(nodes, r, p, Some(kp), hi);
    forall x | x in Ptrs(l)
      ensures x != p && x !in Ptrs(r)
    {
      assert Key(nodes, x) < kp;
    }
    forall x | x in Ptrs(r)
      ensures x != p
    {
      assert Key(nodes, x) > kp;
    }
  }

  /**
   * updateHeight on a node whose children store true heights makes the node's own
   * height true, and its balance factor is then the difference of the children's heights.
   */
  lemma {:induction false} RefreshExact<V>(nodes: seq<Node<V>>, l: Tree, p: int, r: Tree, parent: int)
    requires Matches(nodes, Branch(l, p, r), parent) && p !in Ptrs(l) && p !in Ptrs(r)
    requires Exact(nodes, l) && Exact(nodes, r)
    ensures Exact(Refreshed(nodes, p), Branch(l, p, r))
    ensures BalanceFactor(Refreshed(nodes, p), p) == Height(l) - Height(r)
  {
    var n' := Refreshed(nodes, p);
    ExactHeightOf(nodes, l);
    ExactHeightOf(nodes, r);
    ExactFrame(nodes, n', l);
    ExactFrame(nodes, n', r);
    ExactHeightOf(n', l);
    ExactHeightOf(n', r);
  }

  /**
   * tallerChild: the child of greater stored height, the left one on a tie, a missing
   * child counting -1.
   */
  function TallerChild<V>(nodes: seq<Node<V>>, p: int): (c: int)
    requires 0 <= p < |nodes|
    ensures c == nodes[p].left || c == nodes[p].right
    ensures HeightOf(nodes, c) == Max(HeightOf(nodes, nodes[p].left), HeightOf(nodes, nodes[p].right))
    ensures HeightOf(nodes, nodes[p].left) == HeightOf(nodes, nodes[p].right) ==> c == nodes[p].left
  {
    var left := nodes[p].left;
    var right := nodes[p].right;
    if HeightOf(nodes, left) >= HeightOf(nodes, right) then left else right
  }

  /**
   * tallerChild as written: it asks each child for its height without testing it for
   * null, so a node lacking either child fails.
   */
  function TallerChildAsWritten<V>(nodes: seq<Node<V>>, p: int): (r: Result<int>)
    requires 0 <= p < |nodes|
    ensures r.Err? <==> nodes[p].left == NIL || nodes[p].right == NIL
    ensures r.Err? ==> r.error == NullPointer
    ensures r.Ok? ==> r.value == TallerChild(nodes, p)
  {
    var left := nodes[p].left;
    var right := nodes[p].right;
    if left == NIL || right == NIL then Err(NullPointer)
    else if HeightOf(nodes, left) >= HeightOf(nodes, right) then Ok(left) else Ok(right)
  }

  /**
   * The tree that put(1), put(2), put(3) build before rebalancing: 2 hangs right of 1
   * and 3 right of 2, with true heights stored. Node 1 is out of balance, and the
   * tallerChild it calls fails on its missing left child where the evident intent is
   * its right child 2.
   */
  lemma TallerChildCrashesOnAChain()
    ensures var nodes := [Node(Entry(1, 10), NIL, NIL, 1, 2, Red),
                          Node(Entry(2, 20), 0, NIL, 2, 1, Red),
                          Node(Entry(3, 30), 1, NIL, NIL, 0, Red)];
            Exact(nodes, Branch(Leaf, 0, Branch(Leaf, 1, Branch(Leaf, 2, Leaf)))) &&
            BalanceFactor(nodes, 0) == -2 &&
            TallerChildAsWritten(nodes, 0) == Err(NullPointer) && TallerChild(nodes, 0) == 1
  {
  }

  /**
   * With true heights below an unbalanced node, rebalanceUp's two tallerChild calls
   * find real nodes: the taller child has a child of its own.
   */
  lemma {:induction false} TallerExact<V>(nodes: seq<Node<V>>, l: Tree, p: int, r: Tree, parent: int)
    requires Matches(nodes, Branch(l, p, r), parent) && Exact(nodes, l) && Exact(nodes, r)
    requires BalanceFactor(nodes, p) > 1 || BalanceFactor(nodes, p) < -1
    ensures var y := TallerChild(nodes, p);
            var ys := Taller(Branch(l, p, r));
            (HeightOf(nodes, nodes[p].left) >= HeightOf(nodes, nodes[p].right) <==> Height(l) >= Height(r)) &&
            y != NIL && y == RootPtr(ys) && ys.Branch? && 0 <= y < |nodes| &&
            TallerChild(nodes, y) != NIL &&
            (HeightOf(nodes, nodes[y].left) >= HeightOf(nodes, nodes[y].right) <==> Height(ys.left) >= Height(ys.right))
  {
    ExactHeightOf(nodes, l);
    ExactHeightOf(nodes, r);
    var y := TallerChild(nodes, p);
    var ys := Taller(Branch(l, p, r));
    assert Height(ys) >= 2;
    ExactHeightOf(nodes, ys.left);
    ExactHeightOf(nodes, ys.right);
  }

  /** The subtree beside the hole of a one-step path. */
  function Side(c: Ctx): Tree
    requires c != Top
  {
    if c.InLeft? then c.right else c.left
  }

  /** The four subtrees t1..t4 of a restructured triple are those hung around x, y and z. */
  lemma TriParts<V>(nodes: seq<Node<V>>, c: Ctx, s: Tree)
    requires c != Top && c.up != Top && s.Branch?
    requires Exact(nodes, s.left) && Exact(nodes, s.right) && Exact(nodes, Side(c)) && Exact(nodes, Side(c.up))
    ensures var u := TriNode(c, s);
            Exact(nodes, u.left.left) && Exact(nodes, u.left.right) &&
            Exact(nodes, u.right.left) && Exact(nodes, u.right.right)
  {
  }

  /**
   * Updating the heights of the two children of a restructured subtree and then of its
   * root, as rebalanceUp does, stores true heights throughout it when t1..t4 had them.
   */
  lemma {:induction false} TriExact<V>(n1: seq<Node<V>>, u: Tree, parent: int, lo: Option<int>, hi: Option<int>)
    requires u.Branch? && u.left.Branch? && u.right.Branch?
    requires Matches(n1, u, parent) && Ordered(n1, u, lo, hi)
    requires Exact(n1, u.left.left) && Exact(n1, u.left.right) && Exact(n1, u.right.left) && Exact(n1, u.right.right)
    ensures var n2 := Refreshed(n1, u.left.ptr);
            var n3 := Refreshed(n2, u.right.ptr);
            Exact(Refreshed(n3, u.ptr), u)
  {
    var Branch(a, b, c) := u;
    var kb := Key(n1, b);
    BranchDistinct(n1, a, b, c, parent, lo, hi);
    BranchDistinct(n1, a.left, a.ptr, a.right, b, lo, Some(kb));
    BranchDistinct(n1, c.left, c.ptr, c.right, b, Some(kb), hi);
    var n2 := Refreshed(n1, a.ptr);
    RefreshExact(n1, a.left, a.ptr, a.right, b);
    assert SameLinks(n1, n2);
    SameLinksTree(n1, n2, c, b);
    ExactFrame(n1, n2, c.left);
    ExactFrame(n1, n2, c.right);
    var n3 := Refreshed(n2, c.ptr);
    RefreshExact(n2, c.left, c.ptr, c.right, b);
    ExactFrame(n2, n3, a);
    assert SameLinks(n2, n3);
    SameLinksTree(n2, n3, a, b);
    SameLinksTree(n1, n2, u, parent);
    SameLinksTree(n2, n3, u, parent);
    RefreshExact(n3, a, b, c, parent);
  }

  /**
   * The heights rebalanceUp leaves after a restructure: the new subtree and the subtrees
   * hanging off the path above it store true heights.
   */
  lemma {:induction false} RestructuredExact<V>(n0: seq<Node<V>>, n1: seq<Node<V>>, c: Ctx, s: Tree)
    requires c != Top && c.up != Top && s.Branch?
    requires Exact(n0, s.left) && Exact(n0, s.right) && Exact(n0, Side(c)) && Exact(n0, Side(c.up))
    requires ExactCtx(n0, Grand(c)) && SameData(n0, n1)
    requires Matches(n1, Plug(Grand(c), TriNode(c, s)), NIL) && Ordered(n1, Plug(Grand(c), TriNode(c, s)), None, None)
    ensures var u := TriNode(c, s);
            var n4 := Refreshed(Refreshed(Refreshed(n1, u.left.ptr), u.right.ptr), u.ptr);
            Exact(n4, u) && ExactCtx(n4, Grand(c))
  {
    var u := TriNode(c, s);
    ExactFrame(n0, n1, s.left);
    ExactFrame(n0, n1, s.right);
    ExactFrame(n0, n1, Side(c));
    ExactFrame(n0, n1, Side(c.up));
    ExactCtxFrame(n0, n1, Grand(c));
    TriParts(n1, c, s);
    PlugDisjoint(n1, Grand(c), u);
    TriExact(n1, u, HoleParent(Grand(c)), HoleLo(n1, Grand(c)), HoleHi(n1, Grand(c)));
    var n4 := Refreshed(Refreshed(Refreshed(n1, u.left.ptr), u.right.ptr), u.ptr);
    InPlug(Top, u, u.ptr);
    InPlug(Top, u, u.left.ptr);
    InPlug(Top, u, u.right.ptr);
    ExactCtxFrame(n1, n4, Grand(c));
  }

  // ---------------------------------------------------------------- the AVL balance

  /** The AVL property: at every node the two subtrees differ in height by at most one. */
  ghost predicate AvlBalanced(t: Tree) {
    match t
    case Leaf => true
    case Branch(l, _, r) => -1 <= Height(l) - Height(r) <= 1 && AvlBalanced(l) && AvlBalanced(r)
  }

  /**
   * `s` has taken the place of the subtree `s0` after one insertion below it and the
   * rebalancing of every node down there: it is balanced, and it is either as tall as
   * `s0` or one level taller, in which case it is the new leaf itself or its root leans
   * to one side.
   */
  ghost predicate Settled(s: Tree, s0: Tree) {
    AvlBalanced(s) &&
    (Height(s) == Height(s0) ||
     (Height(s) == Height(s0) + 1 && s.Branch? && (Height(s) == 1 || Height(s.left) != Height(s.right))))
  }

  /**
   * The state rebalanceUp finds at a node: `s` is the subtree `s0` after an insertion,
   * with every node below the root of `s` already rebalanced. Either `s` is the new leaf
   * where `s0` was empty, or one child of `s` has settled and the other is unchanged.
   */
  ghost predicate Regrown(s: Tree, s0: Tree) {
    s.Branch? &&
    match s0
    case Leaf => s.left == Leaf && s.right == Leaf
    case Branch(l0, _, r0) =>
      (Settled(s.left, l0) && s.right == r0) || (s.left == l0 && Settled(s.right, r0))
  }

  /** tallerChild on the shape: the child subtree of greater height, the left one on a tie. */
  function Taller(s: Tree): Tree {
    if s.Leaf? then Leaf
    else if Height(s.left) >= Height(s.right) then s.left else s.right
  }

  /**
   * The path from the hole of `c` down to the taller child of the taller child of `s`:
   * the triple z, y, x that rebalanceUp restructures at the root z of `s`.
   */
  function TripleCtx(c: Ctx, s: Tree): Ctx {
    if s.Leaf? then c
    else
      var y := Taller(s);
      var yc := if Height(s.left) >= Height(s.right) then InLeft(c, s.ptr, s.right) else InRight(c, s.left, s.ptr);
      if y.Leaf? then yc
      else if Height(y.left) >= Height(y.right) then InLeft(yc, y.ptr, y.right) else InRight(yc, y.left, y.ptr)
  }

  /** Every subtree of a balanced tree is balanced. */
  lemma {:induction false} BalancedPlug(c: Ctx, s: Tree)
    requires AvlBalanced(Plug(c, s))
    ensures AvlBalanced(s)
    decreases c
  {
    match c
    case Top =>
    case InLeft(up, p, r) => BalancedPlug(up, Branch(s, p, r));
    case InRight(up, l, p) => BalancedPlug(up, Branch(l, p, s));
  }

  /** A regrown subtree that is balanced at its root has settled. */
  lemma SettleKeep(s: Tree, s0: Tree)
    requires Regrown(s, s0) && AvlBalanced(s0)
    requires -1 <= Height(s.left) - Height(s.right) <= 1
    ensures Settled(s, s0)
  {
  }

  /**
   * A regrown subtree out of balance at its root, on the side of the child that
   * settled: that child grew by one level to two more than its sibling, and its root
   * leans to one side. The subtree was two levels taller than the sibling before.
   */
  lemma GrownSide(g: Tree, g0: Tree, o: Tree)
    requires Settled(g, g0) && AvlBalanced(o) && -1 <= Height(g0) - Height(o) <= 1
    requires !(-1 <= Height(g) - Height(o) <= 1)
    ensures g.Branch? && Height(g) == Height(o) + 2 && Height(g0) == Height(o) + 1
    ensures AvlBalanced(g.left) && AvlBalanced(g.right)
    ensures Height(g.left) == Height(o) + 1 || Height(g.right) == Height(o) + 1
    ensures Height(o) <= Height(g.left) <= Height(o) + 1 && Height(o) <= Height(g.right) <= Height(o) + 1
    ensures Height(g.left) != Height(g.right)
  {
    assert Height(g) == Height(g0) + 1 && g.Branch?;
    var Branch(gl, _, gr) := g;
    assert AvlBalanced(gl) && AvlBalanced(gr) && -1 <= Height(gl) - Height(gr) <= 1;
    assert Height(g) == Height(o) + 2;
  }

  /**
   * The shape every restructure produces: two subtrees under a new root, each over two
   * of t1..t4. With t1..t4 balanced, each of height h or h - 1 and each pair reaching h,
   * the result is balanced and of height h + 2.
   */
  lemma TriBalanced(t1: Tree, p: int, t2: Tree, q: int, t3: Tree, w: int, t4: Tree, h: int)
    requires AvlBalanced(t1) && AvlBalanced(t2) && AvlBalanced(t3) && AvlBalanced(t4)
    requires h - 1 <= Height(t1) <= h && h - 1 <= Height(t2) <= h && h - 1 <= Height(t3) <= h && h - 1 <= Height(t4) <= h
    requires (Height(t1) == h || Height(t2) == h) && (Height(t3) == h || Height(t4) == h)
    ensures AvlBalanced(Branch(Branch(t1, p, t2), q, Branch(t3, w, t4)))
    ensures Height(Branch(Branch(t1, p, t2), q, Branch(t3, w, t4))) == h + 2
  {
  }

  /**
   * A subtree z whose left child y settled and grew two levels above its right one: the
   * tri-node restructure of z, y and the taller child x of y is balanced and as tall as
   * the subtree was before the insertion.
   */
  lemma SettleLeft(c: Ctx, l: Tree, z: int, r: Tree, l0: Tree, z0: int)
    requires Settled(l, l0) && AvlBalanced(Branch(l0, z0, r))
    requires !(-1 <= Height(l) - Height(r) <= 1)
    ensures Taller(Branch(l, z, r)) == l && l.Branch? && Taller(l).Branch?
    ensures Settled(TriNode(TripleCtx(c, Branch(l, z, r)), Taller(l)), Branch(l0, z0, r))
  {
    GrownSide(l, l0, r);
    var h := Height(r);
    assert Height(Branch(l0, z0, r)) == h + 2;
    var Branch(a, y, b) := l;
    if Height(a) > Height(b) {
      var Branch(a1, x, a2) := a;
      assert TripleCtx(c, Branch(l, z, r)) == InLeft(InLeft(c, z, r), y, b);
      assert TriNode(InLeft(InLeft(c, z, r), y, b), a) == Branch(Branch(a1, x, a2), y, Branch(b, z, r));
      TriBalanced(a1, x, a2, y, b, z, r, h);
    } else {
      var Branch(b1, x, b2) := b;
      assert TripleCtx(c, Branch(l, z, r)) == InRight(InLeft(c, z, r), a, y);
      assert TriNode(InRight(InLeft(c, z, r), a, y), b) == Branch(Branch(a, y, b1), x, Branch(b2, z, r));
      TriBalanced(a, y, b1, x, b2, z, r, h);
    }
  }

  /** The mirror image of SettleLeft: the right child y of z settled and grew too tall. */
  lemma SettleRight(c: Ctx, l: Tree, z: int, r: Tree, r0: Tree, z0: int)
    requires Settled(r, r0) && AvlBalanced(Branch(l, z0, r0))
    requires !(-1 <= Height(l) - Height(r) <= 1)
    ensures Taller(Branch(l, z, r)) == r && r.Branch? && Taller(r).Branch?
    ensures Settled(TriNode(TripleCtx(c, Branch(l, z, r)), Taller(r)), Branch(l, z0, r0))
  {
    GrownSide(r, r0, l);
    var h := Height(l);
    assert Height(Branch(l, z0, r0)) == h + 2;
    var Branch(a, y, b) := r;
    if Height(a) > Height(b) {
      var Branch(a1, x, a2) := a;
      assert TripleCtx(c, Branch(l, z, r)) == InLeft(InRight(c, l, z), y, b);
      assert TriNode(InLeft(InRight(c, l, z), y, b), a) == Branch(Branch(l, z, a1), x, Branch(a2, y, b));
      TriBalanced(l, z, a1, x, a2, y, b, h);
    } else {
      var Branch(b1, x, b2) := b;
      assert TripleCtx(c, Branch(l, z, r)) == InRight(InRight(c, l, z), a, y);
      assert TriNode(InRight(InRight(c, l, z), a, y), b) == Branch(Branch(l, z, a), y, Branch(b1, x, b2));
      TriBalanced(l, z, a, y, b1, x, b2, h);
    }
  }

  /**
   * A regrown subtree out of balance at its root z: the taller child y of z grew by one
   * level and leans towards its taller child x, and the tri-node restructure of z, y and
   * x is balanced and exactly as tall as the subtree was before the insertion.
   */
  lemma SettleRotate(c: Ctx, s: Tree, s0: Tree)
    requires Regrown(s, s0) && AvlBalanced(s0)
    requires !(-1 <= Height(s.left) - Height(s.right) <= 1)
    ensures Taller(s).Branch? && Taller(Taller(s)).Branch?
    ensures Settled(TriNode(TripleCtx(c, s), Taller(Taller(s))), s0)
  {
    var Branch(l, z, r) := s;
    var Branch(l0, z0, r0) := s0;
    if Settled(l, l0) && r == r0 {
      SettleLeft(c, l, z, r, l0, z0);
    } else {
      SettleRight(c, l, z, r, r0, z0);
    }
  }

  /**
   * One step up the walk: once the subtree in the hole of `c` has settled, the node
   * above it has regrown, and the tree before the insertion is still `t0`.
   */
  lemma Climb(c: Ctx, s: Tree, s0: Tree, t0: Tree)
    requires c != Top && Plug(c, s0) == t0 && Settled(s, s0)
    ensures var up0 := if c.InLeft? then Branch(s0, c.ptr, c.right) else Branch(c.left, c.ptr, s0);
            var up := if c.InLeft? then Branch(s, c.ptr, c.right) else Branch(c.left, c.ptr, s);
            Plug(c.up, up0) == t0 && Regrown(up, up0)
  {
  }

  /** Stored heights are true in a tree exactly when they are in its subtrees and along its path. */
  lemma {:induction false} ExactPlug<V>(nodes: seq<Node<V>>, c: Ctx, s: Tree)
    requires Exact(nodes, Plug(c, s))
    ensures Exact(nodes, s) && ExactCtx(nodes, c)
    decreases c
  {
    match c
    case Top =>
    case InLeft(up, p, r) => ExactPlug(nodes, up, Branch(s, p, r));
    case InRight(up, l, p) => ExactPlug(nodes, up, Branch(l, p, s));
  }

  /** Appending records and keeping the old heights keeps a subtree's heights true. */
  lemma {:induction false} ExactExtend<V>(nodes: seq<Node<V>>, nodes': seq<Node<V>>, t: Tree)
    requires |nodes| <= |nodes'| && forall x :: 0 <= x < |nodes| ==> nodes'[x].height == nodes[x].height
    requires Exact(nodes, t)
    ensures Exact(nodes', t)
  {
    if t.Branch? {
      ExactExtend(nodes, nodes', t.left);
      ExactExtend(nodes, nodes', t.right);
    }
  }

  /** The same for the subtrees hanging off a path. */
  lemma {:induction false} ExactCtxExtend<V>(nodes: seq<Node<V>>, nodes': seq<Node<V>>, c: Ctx)
    requires |nodes| <= |nodes'| && forall x :: 0 <= x < |nodes| ==> nodes'[x].height == nodes[x].height
    requires ExactCtx(nodes, c)
    ensures ExactCtx(nodes', c)
  {
    match c
    case Top =>
    case InLeft(up, _, r) =>
      ExactCtxExtend(nodes, nodes', up);
      ExactExtend(nodes, nodes', r);
    case InRight(up, l, _) =>
      ExactCtxExtend(nodes, nodes', up);
      ExactExtend(nodes, nodes', l);
  }

  /**
   * In a search tree the node holding a key is unique: the node getNode finds after an
   * insertion is the new leaf.
   */
  lemma NewLeafFound<V>(nodes: seq<Node<V>>, gc: Ctx, q: int, c: Ctx, l: Tree, p: int, r: Tree)
    requires Matches(nodes, Plug(gc, Branch(Leaf, q, Leaf)), NIL) && Ordered(nodes, Plug(gc, Branch(Leaf, q, Leaf)), None, None)
    requires Plug(c, Branch(l, p, r)) == Plug(gc, Branch(Leaf, q, Leaf))
    requires Key(nodes, p) == Key(nodes, q)
    ensures p == q
  {
    PlugDisjoint(nodes, gc, Branch(Leaf, q, Leaf));
    HoleLinks(nodes, c, l, p, r);
    PlugPtrs(gc, Branch(Leaf, q, Leaf));
  }

  /**
   * updateHeight: the node's stored height becomes one more than that of its taller
   * child; nothing else changes.
   */
  method UpdateHeight<V>(t: BstSortedMap<V>, p: int)
    requires 0 <= p < |t.nodes|
    modifies t
    ensures t.nodes == Refreshed(old(t.nodes), p)
    ensures t.root == old(t.root) && t.currentSize == old(t.currentSize) && t.shape == old(t.shape)
    ensures Entries(t.nodes, t.shape) == old(Entries(t.nodes, t.shape))
    ensures old(t.Valid()) ==> t.Valid()
  {
    var leftH := HeightOf(t.nodes, t.nodes[p].left);
    var rightH := HeightOf(t.nodes, t.nodes[p].right);
    t.SetLabel(p, 1 + Max(leftH, rightH), t.nodes[p].color);
  }

  /**
   * The four-argument AVLNode constructor: a node with the given links whose height is
   * derived from its two children.
   */
  method NewAvlNode<V>(t: BstSortedMap<V>, e: Entry<int, V>, parent: int, left: int, right: int) returns (q: int)
    requires left == NIL || 0 <= left < |t.nodes|
    requires right == NIL || 0 <= right < |t.nodes|
    modifies t
    ensures q == |old(t.nodes)| && |t.nodes| == q + 1
    ensures t.nodes[q] == Node(e, parent, left, right, 1 + Max(HeightOf(old(t.nodes), left), HeightOf(old(t.nodes), right)), Red)
    ensures forall x :: 0 <= x < q ==> t.nodes[x].height == old(t.nodes)[x].height
    ensures t.root == old(t.root) && t.currentSize == old(t.currentSize) && t.shape == old(t.shape)
  {
    q := t.NewNode(e, parent, left, right);
    UpdateHeight(t, q);
  }

  /**
   * AVLNode.setLeftChild: links `q` as p's left child both ways and recomputes p's height.
   */
  method SetLeftChildAvl<V>(t: BstSortedMap<V>, p: int, q: int)
    requires 0 <= p < |t.nodes| && (q == NIL || 0 <= q < |t.nodes|)
    modifies t
    ensures |t.nodes| == |old(t.nodes)|
    ensures t.nodes[p].left == q && (q != NIL && q != p ==> t.nodes[q].parent == p)
    ensures t.nodes[p].height == 1 + Max(HeightOf(old(t.nodes), q), HeightOf(old(t.nodes), old(t.nodes)[p].right))
    ensures forall x :: 0 <= x < |t.nodes| && x != p && x != q ==> t.nodes[x] == old(t.nodes)[x]
    ensures t.root == old(t.root) && t.currentSize == old(t.currentSize) && t.shape == old(t.shape)
  {
    t.SetLeftChild(p, q);
    if q != NIL {
      t.SetParent(q, p);
    }
    UpdateHeight(t, p);
  }

  /**
   * AVLNode.setRightChild: links `q` as p's right child both ways and recomputes p's height.
   */
  method SetRightChildAvl<V>(t: BstSortedMap<V>, p: int, q: int)
    requires 0 <= p < |t.nodes| && (q == NIL || 0 <= q < |t.nodes|)
    modifies t
    ensures |t.nodes| == |old(t.nodes)|
    ensures t.nodes[p].right == q && (q != NIL && q != p ==> t.nodes[q].parent == p)
    ensures t.nodes[p].height == 1 + Max(HeightOf(old(t.nodes), old(t.nodes)[p].left), HeightOf(old(t.nodes), q))
    ensures forall x :: 0 <= x < |t.nodes| && x != p && x != q ==> t.nodes[x] == old(t.nodes)[x]
    ensures t.root == old(t.root) && t.currentSize == old(t.currentSize) && t.shape == old(t.shape)
  {
    t.SetRightChild(p, q);
    if q != NIL {
      t.SetParent(q, p);
    }
    UpdateHeight(t, p);
  }

  // ---------------------------------------------------------------- rebalancing

  /**
   * The first step of rebalanceUp at `cur`: updateHeight, which with true heights below
   * makes cur's own height true.
   */
  method RefreshAt<V>(t: BstSortedMap<V>, cur: int, ghost cc: Ctx, ghost cl: Tree, ghost cr: Tree)
    requires t.Valid() && t.shape == Plug(cc, Branch(cl, cur, cr))
    modifies t
    ensures t.Valid() && t.currentSize == old(t.currentSize) && t.shape == old(t.shape)
    ensures Entries(t.nodes, t.shape) == old(Entries(t.nodes, t.shape))
    ensures 0 <= cur < |t.nodes|
    ensures old(Exact(t.nodes, cl) && Exact(t.nodes, cr) && ExactCtx(t.nodes, cc)) ==>
      Exact(t.nodes, Branch(cl, cur, cr)) && ExactCtx(t.nodes, cc) &&
      BalanceFactor(t.nodes, cur) == Height(cl) - Height(cr)
  {
    ghost var n0 := t.nodes;
    HoleLinks(t.nodes, cc, cl, cur, cr);
    PlugDisjoint(t.nodes, cc, Branch(cl, cur, cr));
    BranchDistinct(t.nodes, cl, cur, cr, HoleParent(cc), HoleLo(t.nodes, cc), HoleHi(t.nodes, cc));
    UpdateHeight(t, cur);
    if Exact(n0, cl) && Exact(n0, cr) && ExactCtx(n0, cc) {
      RefreshExact(n0, cl, cur, cr, HoleParent(cc));
      InPlug(Top, Branch(cl, cur, cr), cur);
      ExactCtxFrame(n0, t.nodes, cc);
    }
  }

  /**
   * The triple rebalanceUp restructures at an unbalanced `cur` (z): y is z's taller
   * child and x is y's taller child, hung from the path `xc` with subtree `xs`. A missing
   * y or x comes back as a null `x`; with true heights below z it cannot occur.
   */
  method FindTriple<V>(nodes: seq<Node<V>>, cur: int, ghost cc: Ctx, ghost cl: Tree, ghost cr: Tree, ghost parent: int)
      returns (x: int, ghost xc: Ctx, ghost xs: Tree)
    requires Matches(nodes, Branch(cl, cur, cr), parent)
    requires BalanceFactor(nodes, cur) > 1 || BalanceFactor(nodes, cur) < -1
    ensures x != NIL ==>
      xc != Top && xc.up != Top && Grand(xc) == cc && xs.Branch? && x == xs.ptr &&
      Plug(xc, xs) == Plug(cc, Branch(cl, cur, cr)) && xc.up.ptr == cur && xc.ptr == TallerChild(nodes, cur) &&
      0 <= xc.ptr < |nodes| && x == TallerChild(nodes, xc.ptr)
    ensures Exact(nodes, Branch(cl, cur, cr)) ==>
      x != NIL && Exact(nodes, xs.left) && Exact(nodes, xs.right) &&
      Exact(nodes, Side(xc)) && Exact(nodes, Side(xc.up)) &&
      xc == TripleCtx(cc, Branch(cl, cur, cr)) && xs == Taller(Taller(Branch(cl, cur, cr)))
  {
    xc, xs := Top, Leaf;
    if Exact(nodes, Branch(cl, cur, cr)) {
      assert Exact(nodes, cl) && Exact(nodes, cr);
      TallerExact(nodes, cl, cur, cr, parent);
    }
    var y := TallerChild(nodes, cur);
    if y == NIL {
      return NIL, xc, xs;
    }
    ghost var onLeft := HeightOf(nodes, nodes[cur].left) >= HeightOf(nodes, nodes[cur].right);
    ghost var yc, ys := if onLeft then InLeft(cc, cur, cr) else InRight(cc, cl, cur),
                        if onLeft then cl else cr;
    assert ys.Branch? && y == ys.ptr && Matches(nodes, ys, cur);
    x := TallerChild(nodes, y);
    if x == NIL {
      return NIL, xc, xs;
    }
    ghost var xLeft := HeightOf(nodes, nodes[y].left) >= HeightOf(nodes, nodes[y].right);
    xc, xs := if xLeft then InLeft(yc, y, ys.right) else InRight(yc, ys.left, y),
              if xLeft then ys.left else ys.right;
    assert xs.Branch? && x == xs.ptr;
    if Exact(nodes, Branch(cl, cur, cr)) {
      assert Exact(nodes, cl) && Exact(nodes, cr);
      assert Exact(nodes, ys.left) && Exact(nodes, ys.right);
      assert Exact(nodes, xs.left) && Exact(nodes, xs.right);
    }
  }

  /**
   * restructure(x) followed by the height updates of rebalanceUp: the new subtree
   * root's children and then the root. The new root `top` heads the subtree `u` in z's
   * former place; with true heights around the triple, `u` stores true heights.
   */
  method RestructureAt<V>(t: BstSortedMap<V>, x: int, ghost xc: Ctx, ghost xs: Tree) returns (top: int, ghost u: Tree)
    requires t.Valid() && xc != Top && xc.up != Top && xs.Branch? && x == xs.ptr && t.shape == Plug(xc, xs)
    modifies t
    ensures t.Valid() && t.currentSize == old(t.currentSize)
    ensures Entries(t.nodes, t.shape) == old(Entries(t.nodes, t.shape))
    ensures u == TriNode(xc, xs) && t.shape == Plug(Grand(xc), u) && top == u.ptr
    ensures old(Exact(t.nodes, xs.left) && Exact(t.nodes, xs.right) && Exact(t.nodes, Side(xc)) &&
                Exact(t.nodes, Side(xc.up)) && ExactCtx(t.nodes, Grand(xc))) ==>
      Exact(t.nodes, u) && ExactCtx(t.nodes, Grand(xc))
  {
    ghost var n1 := t.nodes;
    var res := Restructure(t, x, xc, xs.left, xs.right);
    u := TriNode(xc, xs);
    ghost var n2 := t.nodes;
    top := res.value;
    RefreshTriple(t, top, Grand(xc), u);
    if Exact(n1, xs.left) && Exact(n1, xs.right) && Exact(n1, Side(xc)) &&
       Exact(n1, Side(xc.up)) && ExactCtx(n1, Grand(xc)) {
      RestructuredExact(n1, n2, xc, xs);
    }
  }

  /** The height updates after a restructure: the new root's two children, then the root. */
  method RefreshTriple<V>(t: BstSortedMap<V>, top: int, ghost c: Ctx, ghost u: Tree)
    requires t.Valid() && t.shape == Plug(c, u) && u.Branch? && u.left.Branch? && u.right.Branch? && top == u.ptr
    modifies t
    ensures t.Valid() && t.currentSize == old(t.currentSize) && t.shape == old(t.shape)
    ensures Entries(t.nodes, t.shape) == old(Entries(t.nodes, t.shape))
    ensures t.nodes == Refreshed(Refreshed(Refreshed(old(t.nodes), u.left.ptr), u.right.ptr), u.ptr)
  {
    HoleLinks(t.nodes, c, u.left, top, u.right);
    PlugMatches(t.nodes, c, u);
    var left := t.nodes[top].left;
    var right := t.nodes[top].right;
    if left != NIL {
      UpdateHeight(t, left);
    }
    if right != NIL {
      UpdateHeight(t, right);
    }
    UpdateHeight(t, top);
  }

  /**
   * The restructuring step of rebalanceUp at an unbalanced `cur` (z): restructure the
   * taller child of its taller child and update the heights of the new subtree, whose
   * root `top` heads the subtree `u` in z's former place. A missing y or x is the null
   * dereference of tallerChild or of restructure; with true heights around z it cannot
   * occur, and the new subtree then stores true heights.
   */
  method Rebalance<V>(t: BstSortedMap<V>, cur: int, ghost cc: Ctx, ghost cl: Tree, ghost cr: Tree)
      returns (o: Outcome, top: int, ghost u: Tree)
    requires t.Valid() && t.shape == Plug(cc, Branch(cl, cur, cr)) && 0 <= cur < |t.nodes|
    requires BalanceFactor(t.nodes, cur) > 1 || BalanceFactor(t.nodes, cur) < -1
    modifies t
    ensures t.Valid() && t.currentSize == old(t.currentSize)
    ensures Entries(t.nodes, t.shape) == old(Entries(t.nodes, t.shape))
    ensures o.Fail? ==> o.error == NullPointer && t.nodes == old(t.nodes)
    ensures o.Pass? ==> t.shape == Plug(cc, u) && u.Branch? && top == u.ptr
    ensures old(Exact(t.nodes, Branch(cl, cur, cr)) && ExactCtx(t.nodes, cc)) ==>
      o == Pass && Exact(t.nodes, u) && ExactCtx(t.nodes, cc) &&
      TripleCtx(cc, Branch(cl, cur, cr)) != Top && TripleCtx(cc, Branch(cl, cur, cr)).up != Top &&
      Taller(Taller(Branch(cl, cur, cr))).Branch? &&
      u == TriNode(TripleCtx(cc, Branch(cl, cur, cr)), Taller(Taller(Branch(cl, cur, cr))))
  {
    HoleLinks(t.nodes, cc, cl, cur, cr);
    PlugMatches(t.nodes, cc, Branch(cl, cur, cr));
    var x, xc, xs := FindTriple(t.nodes, cur, cc, cl, cr, HoleParent(cc));
    if x == NIL {
      return Fail(NullPointer), NIL, Leaf;
    }
    top, u := RestructureAt(t, x, xc, xs);
    o := Pass;
  }

  /**
   * One round of rebalanceUp's loop at `cur`: update its height and, where its balance
   * factor exceeds one in size, restructure; `s` is the subtree then in cur's place,
   * headed by `top`. With true heights below and around `cur` the round succeeds and
   * leaves true heights; when, besides, the subtree at `cur` has regrown from `s0` in a
   * tree that was balanced before the insertion, `s` has settled.
   */
  method SettleAt<V>(t: BstSortedMap<V>, cur: int, ghost cc: Ctx, ghost cl: Tree, ghost cr: Tree, ghost s0: Tree)
      returns (o: Outcome, top: int, ghost s: Tree)
    requires t.Valid() && t.shape == Plug(cc, Branch(cl, cur, cr))
    modifies t
    ensures t.Valid() && t.currentSize == old(t.currentSize)
    ensures Entries(t.nodes, t.shape) == old(Entries(t.nodes, t.shape))
    ensures o.Fail? ==> o.error == NullPointer
    ensures o.Pass? ==> t.shape == Plug(cc, s) && s.Branch? && top == s.ptr
    ensures old(Exact(t.nodes, cl) && Exact(t.nodes, cr) && ExactCtx(t.nodes, cc)) ==>
      o == Pass && Exact(t.nodes, s) && ExactCtx(t.nodes, cc)
    ensures old(Exact(t.nodes, cl) && Exact(t.nodes, cr) && ExactCtx(t.nodes, cc)) &&
            AvlBalanced(Plug(cc, s0)) && Regrown(Branch(cl, cur, cr), s0) ==>
      Settled(s, s0)
  {
    ghost var bal := Exact(t.nodes, cl) && Exact(t.nodes, cr) && ExactCtx(t.nodes, cc) &&
                     AvlBalanced(Plug(cc, s0)) && Regrown(Branch(cl, cur, cr), s0);
    RefreshAt(t, cur, cc, cl, cr);
    var bf := BalanceFactor(t.nodes, cur);
    s := Branch(cl, cur, cr);
    if bal {
      BalancedPlug(cc, s0);
    }
    o, top := Pass, cur;
    if bf > 1 || bf < -1 {
      if bal {
        SettleRotate(cc, s, s0);
      }
      o, top, s := Rebalance(t, cur, cc, cl, cr);
    } else if bal {
      SettleKeep(s, s0);
    }
  }

  /**
   * rebalanceUp: from `node` up to the root, recompute each node's height; where the
   * balance factor exceeds one in size, restructure the taller child of the taller
   * child, update the heights of the new subtree root's children and then of the root,
   * and go on from that root's parent. The map and the size are kept. When the subtrees
   * hanging off the walked path and below `node` store true heights, the walk succeeds
   * and leaves true heights in the whole tree; otherwise a stale height can lead
   * tallerChild to a missing node, and the walk fails as its null dereference does.
   * When, besides, the tree was balanced before one insertion put the subtree at `node`
   * in the place of `s0`, the walk leaves the whole tree balanced.
   */
  method RebalanceUp<V>(t: BstSortedMap<V>, node: int, ghost c: Ctx, ghost l: Tree, ghost r: Tree, ghost s0: Tree)
      returns (o: Outcome)
    requires t.Valid() && t.shape == Plug(c, Branch(l, node, r))
    modifies t
    ensures t.Valid() && t.currentSize == old(t.currentSize)
    ensures Entries(t.nodes, t.shape) == old(Entries(t.nodes, t.shape))
    ensures o.Fail? ==> o.error == NullPointer
    ensures old(Exact(t.nodes, l) && Exact(t.nodes, r) && ExactCtx(t.nodes, c)) ==>
      o == Pass && Exact(t.nodes, t.shape)
    ensures old(Exact(t.nodes, l) && Exact(t.nodes, r) && ExactCtx(t.nodes, c)) &&
            AvlBalanced(Plug(c, s0)) && Regrown(Branch(l, node, r), s0) ==>
      AvlBalanced(t.shape)
  {
    ghost var ex := Exact(t.nodes, l) && Exact(t.nodes, r) && ExactCtx(t.nodes, c);
    ghost var bal := ex && AvlBalanced(Plug(c, s0)) && Regrown(Branch(l, node, r), s0);
    ghost var t0 := Plug(c, s0);
    PlugMatches(t.nodes, c, Branch(l, node, r));
    o := Pass;
    var cur := node;
    ghost var cc, cl, cr, cs0 := c, l, r, s0;
    while cur != NIL
      invariant t.Valid() && t.currentSize == old(t.currentSize) && o == Pass
      invariant Entries(t.nodes, t.shape) == old(Entries(t.nodes, t.shape))
      invariant cur != NIL ==> t.shape == Plug(cc, Branch(cl, cur, cr))
      invariant ex && cur != NIL ==> Exact(t.nodes, cl) && Exact(t.nodes, cr) && ExactCtx(t.nodes, cc)
      invariant ex && cur == NIL ==> Exact(t.nodes, t.shape)
      invariant bal && cur != NIL ==> Plug(cc, cs0) == t0 && Regrown(Branch(cl, cur, cr), cs0)
      invariant bal && cur == NIL ==> AvlBalanced(t.shape)
      decreases if cur == NIL then 0 else Depth(cc) + 1
    {
      var top;
      ghost var s;
      o, top, s := SettleAt(t, cur, cc, cl, cr, cs0);
      if o.Fail? {
        return;
      }
      HoleLinks(t.nodes, cc, s.left, top, s.right);
      cur := t.nodes[top].parent;
      if bal && cc != Top {
        Climb(cc, s, cs0, t0);
      }
      if cc != Top {
        cc, cl, cr, cs0 := cc.up, if cc.InLeft? then s else cc.left, if cc.InLeft? then cc.right else s,
                           if cc.InLeft? then Branch(cs0, cc.ptr, cc.right) else Branch(cc.left, cc.ptr, cs0);
      }
    }
  }

  // ---------------------------------------------------------------- the map

  /** AVLSortedMap: a BSTSortedMap whose put and remove rebalance the tree afterwards. */
  class AvlSortedMap<V> {
    const tree: BstSortedMap<V>

    ghost predicate Valid()
      reads this, tree
    {
      tree.Valid() && tree.Counted()
    }

    /** The map the tree stands for. */
    ghost function Contents(): map<int, V>
      reads this, tree
    {
      tree.Contents()
    }

    /**
     * The AVL invariant of the tree: every node stores its true height and the two
     * subtrees of every node differ in height by at most one.
     */
    ghost predicate Balanced()
      reads this, tree
    {
      Exact(tree.nodes, tree.shape) && AvlBalanced(tree.shape)
    }

    /** AVLSortedMap(): an empty tree. */
    constructor ()
      ensures Valid() && Contents() == map[] && fresh(tree)
      ensures Balanced()
    {
      tree := new BstSortedMap();
    }

    /**
     * put: the binary-search-tree put, then locateNode finds the node now holding `k`
     * and rebalanceUp walks up from it. The previous value is returned, or the null
     * dereference of a failed walk, after which the new entry is stored all the same.
     */
    method Put(k: int, v: V) returns (r: Result<Option<V>>)
      requires Valid()
      modifies tree
      ensures Valid() && Contents() == old(Contents())[k := v]
      ensures r.Ok? ==> r.value == if k in old(Contents()) then Some(old(Contents())[k]) else None
      ensures r.Err? ==> r.error == NullPointer
      ensures old(Exact(tree.nodes, tree.shape)) ==> r.Ok? && Exact(tree.nodes, tree.shape)
      ensures old(Balanced()) ==> Balanced()
    {
      ghost var n0, t0 := tree.nodes, tree.shape;
      var previous, gc := tree.PutCounted(k, v);
      var node, c, l, rt := tree.GetNode(k);
      ghost var wc, wl, wr, s0 := c, l, rt, Branch(l, node, rt);
      if previous == None {
        NewLeafFound(tree.nodes, gc, |n0|, c, l, node, rt);
        wc, wl, wr, s0 := gc, Leaf, Leaf, Leaf;
        if Exact(n0, t0) {
          ExactPlug(n0, gc, Leaf);
          ExactCtxExtend(n0, tree.nodes, gc);
        }
      } else {
        if Exact(n0, t0) {
          ExactFrame(n0, tree.nodes, t0);
          ExactPlug(tree.nodes, c, Branch(l, node, rt));
        }
        if AvlBalanced(t0) {
          BalancedPlug(c, s0);
        }
      }
      EntriesSize(tree.nodes, tree.shape, NIL);
      var o := RebalanceUp(tree, node, wc, wl, wr, s0);
      EntriesSize(tree.nodes, tree.shape, NIL);
      if o.Fail? {
        return Err(o.error);
      }
      return Ok(previous);
    }

    /**
     * remove: an absent key throws before anything changes. Otherwise locateNode finds
     * the node and its parent, the binary-search-tree removal unlinks it, and
     * rebalanceUp walks up from that parent, or from the root when the node was the
     * root. The removed value is returned.
     */
    method Remove(k: int) returns (r: Result<V>)
      requires Valid()
      modifies tree
      ensures Valid()
      ensures k !in old(Contents()) ==> r == Err(NoSuchElement) && unchanged(tree)
      ensures k in old(Contents()) ==>
        Contents() == old(Contents()) - {k} &&
        (r.Ok? ==> r.value == old(Contents())[k]) && (r.Err? ==> r.error == NullPointer)
    {
      var node, c, l, rt := tree.GetNode(k);
      if node == NIL {
        return Err(NoSuchElement);
      }
      HoleLinks(tree.nodes, c, l, node, rt);
      var parent := tree.nodes[node].parent;
      var value := tree.nodes[node].entry.value;
      tree.ContentsSize();
      var _, _, s := tree.RemoveNode(node, c, l, rt);
      tree.currentSize := tree.currentSize - 1;
      tree.ContentsSize();
      var o := Pass;
      if parent != NIL {
        ghost var pl, pr := if c.InLeft? then s else c.left, if c.InLeft? then c.right else s;
        o := RebalanceUp(tree, parent, c.up, pl, pr, Leaf);
      } else if tree.root != NIL {
        o := RebalanceUp(tree, tree.root, Top, s.left, s.right, Leaf);
      }
      tree.ContentsSize();
      if o.Fail? {
        return Err(o.error);
      }
      return Ok(value);
    }
  }
}

=== FILE: binary_tree.dfy ===
/**
 * The linked binary tree behind BSTSortedMap, AVLSortedMap and RedBlackSortedMap, held in
 * an arena: a node reference is an index into a sequence of node records and null is NIL.
 * A ghost Tree says which records form the tree and where they sit; `Matches` ties it to
 * the parent and child links, `Ordered` is the binary-search-tree order of the keys, and
 * `Entries` is the in-order sequence of the stored entries.
 */
module BinaryTree {
  import opened Wrappers
  import opened MapEntry

  /** The null reference. */
  const NIL: int := -1

  /** The colour of a red-black node. */
  datatype Color = Red | Black

  /**
   * A node record: the element (a map entry), the parent and child references, and the
   * extra fields of AVLNode (height) and RBNode (colour).
   */
  datatype Node<V> = Node(entry: Entry<int, V>, parent: int, left: int, right: int, height: int, color: Color)

  /** The shape of a tree: the arena index of every node, arranged as the links arrange them. */
  datatype Tree = Leaf | Branch(left: Tree, ptr: int, right: Tree)

  /** A tree with a hole: the path from the hole up to the root, innermost step first. */
  datatype Ctx = Top | InLeft(up: Ctx, ptr: int, right: Tree) | InRight(up: Ctx, left: Tree, ptr: int)

  function RootPtr(t: Tree): int {
    if t.Leaf? then NIL else t.ptr
  }

  function Size(t: Tree): nat {
    match t
    case Leaf => 0
    case Branch(l, _, r) => Size(l) + 1 + Size(r)
  }

  /** The height of a tree counted in nodes, as BTNode.getHeight counts it: a leaf node is 1. */
  function Height(t: Tree): nat {
    match t
    case Leaf => 0
    case Branch(l, _, r) => 1 + if Height(l) >= Height(r) then Height(l) else Height(r)
  }

  function Pow2(n: nat): nat {
    if n == 0 then 1 else 2 * Pow2(n - 1)
  }

  lemma {:induction false} Pow2Monotone(m: nat, n: nat)
    requires m <= n
    ensures Pow2(m) <= Pow2(n)
    decreases n
  {
    if m < n {
      Pow2Monotone(m, n - 1);
    }
  }

  /** A tree of height h has at least h and fewer than 2^h nodes. */
  lemma {:induction false} HeightBounds(t: Tree)
    ensures Height(t) <= Size(t) < Pow2(Height(t))
  {
    match t
    case Leaf =>
    case Branch(l, _, r) =>
      HeightBounds(l);
      HeightBounds(r);
      Pow2Monotone(Height(l), Height(t) - 1);
      Pow2Monotone(Height(r), Height(t) - 1);
  }

  function Ptrs(t: Tree): set<int> {
    match t
    case Leaf => {}
    case Branch(l, p, r) => Ptrs(l) + {p} + Ptrs(r)
  }

  /** Fills the hole of `c` with `s`. */
  function Plug(c: Ctx, s: Tree): Tree
    decreases c
  {
    match c
    case Top => s
    case InLeft(up, p, r) => Plug(up, Branch(s, p, r))
    case InRight(up, l, p) => Plug(up, Branch(l, p, s))
  }

  /** The node whose child slot is the hole, or NIL when the hole is the root. */
  function HoleParent(c: Ctx): int {
    if c.Top? then NIL else c.ptr
  }

  /** How many links lie between the hole and the root. */
  function Depth(c: Ctx): nat {
    match c
    case Top => 0
    case InLeft(up, _, _) => Depth(up) + 1
    case InRight(up, _, _) => Depth(up) + 1
  }

  function CtxPtrs(c: Ctx): set<int> {
    match c
    case Top => {}
    case InLeft(up, p, r) => CtxPtrs(up) + {p} + Ptrs(r)
    case InRight(up, l, p) => CtxPtrs(up) + Ptrs(l) + {p}
  }

  /** `inner` placed in the hole of `outer`. */
  function Compose(outer: Ctx, inner: Ctx): Ctx
    decreases inner
  {
    match inner
    case Top => outer
    case InLeft(up, p, r) => InLeft(Compose(outer, up), p, r)
    case InRight(up, l, p) => InRight(Compose(outer, up), l, p)
  }

  /** A path that only goes down to the left: the hole is the leftmost spot below its top. */
  predicate LeftSpine(c: Ctx) {
    match c
    case Top => true
    case InLeft(up, _, _) => LeftSpine(up)
    case InRight(_, _, _) => false
  }

  /** A path that only goes down to the right. */
  predicate RightSpine(c: Ctx) {
    match c
    case Top => true
    case InLeft(_, _, _) => false
    case InRight(up, _, _) => RightSpine(up)
  }

  lemma {:induction false} PlugPtrs(c: Ctx, s: Tree)
    ensures Ptrs(Plug(c, s)) == CtxPtrs(c) + Ptrs(s)
    decreases c
  {
    match c
    case Top =>
    case InLeft(up, p, r) => PlugPtrs(up, Branch(s, p, r));
    case InRight(up, l, p) => PlugPtrs(up, Branch(l, p, s));
  }

  lemma {:induction false} PlugCompose(outer: Ctx, inner: Ctx, s: Tree)
    ensures Plug(Compose(outer, inner), s) == Plug(outer, Plug(inner, s))
    ensures Depth(Compose(outer, inner)) == Depth(outer) + Depth(inner)
    decreases inner
  {
    match inner
    case Top =>
    case InLeft(up, p, r) => PlugCompose(outer, up, Branch(s, p, r));
    case InRight(up, l, p) => PlugCompose(outer, up, Branch(l, p, s));
  }

  /** Below the top of the path, the root does not depend on what fills the hole. */
  lemma {:induction false} PlugRoot(c: Ctx, s: Tree, s': Tree)
    requires c != Top
    ensures Plug(c, s).Branch? && RootPtr(Plug(c, s)) == RootPtr(Plug(c, s'))
    decreases c
  {
    match c
    case InLeft(up, p, r) =>
      if up != Top {
        PlugRoot(up, Branch(s, p, r), Branch(s', p, r));
      }
    case InRight(up, l, p) =>
      if up != Top {
        PlugRoot(up, Branch(l, p, s), Branch(l, p, s'));
      }
  }

  // ---------------------------------------------------------------- links

  /** The links of the records agree with the shape; `parent` is the parent of its root. */
  ghost predicate Matches<V>(nodes: seq<Node<V>>, t: Tree, parent: int) {
    match t
    case Leaf => true
    case Branch(l, p, r) =>
      0 <= p < |nodes| && nodes[p].parent == parent &&
      nodes[p].left == RootPtr(l) && nodes[p].right == RootPtr(r) &&
      Matches(nodes, l, p) && Matches(nodes, r, p)
  }

  /** The links of the records agree with the path, whose hole holds the reference `hole`. */
  ghost predicate MatchesCtx<V>(nodes: seq<Node<V>>, c: Ctx, hole: int) {
    match c
    case Top => true
    case InLeft(up, p, r) =>
      0 <= p < |nodes| && nodes[p].parent == HoleParent(up) &&
      nodes[p].left == hole && nodes[p].right == RootPtr(r) &&
      Matches(nodes, r, p) && MatchesCtx(nodes, up, p)
    case InRight(up, l, p) =>
      0 <= p < |nodes| && nodes[p].parent == HoleParent(up) &&
      nodes[p].left == RootPtr(l) && nodes[p].right == hole &&
      Matches(nodes, l, p) && MatchesCtx(nodes, up, p)
  }

  lemma {:induction false} PlugMatches<V>(nodes: seq<Node<V>>, c: Ctx, s: Tree)
    ensures Matches(nodes, Plug(c, s), NIL) <==>
            MatchesCtx(nodes, c, RootPtr(s)) && Matches(nodes, s, HoleParent(c))
    decreases c
  {
    match c
    case Top =>
    case InLeft(up, p, r) => PlugMatches(nodes, up, Branch(s, p, r));
    case InRight(up, l, p) => PlugMatches(nodes, up, Branch(l, p, s));
  }

  /** The record of the hole's parent with its hole slot pointing at `h`. */
  function Relink<V>(n: Node<V>, c: Ctx, h: int): Node<V> {
    if c.InLeft? then n.(left := h) else n.(right := h)
  }

  // ---------------------------------------------------------------- record updates

  /** setLeftChild: the left link of `p` becomes `n`, and a non-null `n` gets `p` as parent. */
  function WithLeft<V>(nodes: seq<Node<V>>, p: int, n: int): seq<Node<V>>
    requires 0 <= p < |nodes| && (n == NIL || 0 <= n < |nodes|)
  {
    var ns := nodes[p := nodes[p].(left := n)];
    if n == NIL then ns else ns[n := ns[n].(parent := p)]
  }

  /** setRightChild, the mirror image of WithLeft. */
  function WithRight<V>(nodes: seq<Node<V>>, p: int, n: int): seq<Node<V>>
    requires 0 <= p < |nodes| && (n == NIL || 0 <= n < |nodes|)
  {
    var ns := nodes[p := nodes[p].(right := n)];
    if n == NIL then ns else ns[n := ns[n].(parent := p)]
  }

  /** setParent. */
  function WithParent<V>(nodes: seq<Node<V>>, p: int, q: int): seq<Node<V>>
    requires 0 <= p < |nodes|
  {
    nodes[p := nodes[p].(parent := q)]
  }

  /** The four-argument constructor's back links: each non-null child of `q` gets `q` as parent. */
  function Adopted<V>(nodes: seq<Node<V>>, q: int): seq<Node<V>>
    requires 0 <= q < |nodes|
    requires nodes[q].left == NIL || 0 <= nodes[q].left < |nodes|
    requires nodes[q].right == NIL || 0 <= nodes[q].right < |nodes|
  {
    var l, r := nodes[q].left, nodes[q].right;
    var ns := if l == NIL then nodes else WithParent(nodes, l, q);
    if r == NIL then ns else WithParent(ns, r, q)
  }

  /** The three-way comparison `compareTo` of two keys. */
  function Compare(a: int, b: int): int {
    if a < b then -1 else if a == b then 0 else 1
  }

  // ---------------------------------------------------------------- order

  /** The key of a record, 0 for an index outside the arena. */
  function Key<V>(nodes: seq<Node<V>>, p: int): int {
    if 0 <= p < |nodes| then nodes[p].entry.key else 0
  }

  predicate Above(k: int, lo: Option<int>) {
    lo.None? || lo.value < k
  }

  predicate Below(k: int, hi: Option<int>) {
    hi.None? || k < hi.value
  }

  /** `k` lies strictly between the optional bounds. */
  predicate Inside(k: int, lo: Option<int>, hi: Option<int>) {
    Above(k, lo) && Below(k, hi)
  }

  /** Binary-search-tree order: every key lies strictly between the bounds its ancestors set. */
  ghost predicate Ordered<V>(nodes: seq<Node<V>>, t: Tree, lo: Option<int>, hi: Option<int>) {
    match t
    case Leaf => true
    case Branch(l, p, r) =>
      Inside(Key(nodes, p), lo, hi) &&
      Ordered(nodes, l, lo, Some(Key(nodes, p))) && Ordered(nodes, r, Some(Key(nodes, p)), hi)
  }

  /** The lower bound the path sets on the keys in the hole. */
  ghost function HoleLo<V>(nodes: seq<Node<V>>, c: Ctx): Option<int> {
    match c
    case Top => None
    case InLeft(up, _, _) => HoleLo(nodes, up)
    case InRight(_, _, p) => Some(Key(nodes, p))
  }

  /** The upper bound the path sets on the keys in the hole. */
  ghost function HoleHi<V>(nodes: seq<Node<V>>, c: Ctx): Option<int> {
    match c
    case Top => None
    case InLeft(_, p, _) => Some(Key(nodes, p))
    case InRight(up, _, _) => HoleHi(nodes, up)
  }

  /** The order of the keys on the path and in the subtrees hanging off it. */
  ghost predicate OrderedCtx<V>(nodes: seq<Node<V>>, c: Ctx) {
    match c
    case Top => true
    case InLeft(up, p, r) =>
      Inside(Key(nodes, p), HoleLo(nodes, up), HoleHi(nodes, up)) &&
      Ordered(nodes, r, Some(Key(nodes, p)), HoleHi(nodes, up)) && OrderedCtx(nodes, up)
    case InRight(up, l, p) =>
      Inside(Key(nodes, p), HoleLo(nodes, up), HoleHi(nodes, up)) &&
      Ordered(nodes, l, HoleLo(nodes, up), Some(Key(nodes, p))) && OrderedCtx(nodes, up)
  }

  lemma {:induction false} PlugOrdered<V>(nodes: seq<Node<V>>, c: Ctx, s: Tree)
    ensures Ordered(nodes, Plug(c, s), None, None) <==>
            OrderedCtx(nodes, c) && Ordered(nodes, s, HoleLo(nodes, c), HoleHi(nodes, c))
    decreases c
  {
    match c
    case Top =>
    case InLeft(up, p, r) => PlugOrdered(nodes, up, Branch(s, p, r));
    case InRight(up, l, p) => PlugOrdered(nodes, up, Branch(l, p, s));
  }

  /** Every node of an ordered, linked subtree is in the arena with a key inside the bounds. */
  lemma {:induction false} OrderedPtrs<V>(nodes: seq<Node<V>>, t: Tree, parent: int, lo: Option<int>, hi: Option<int>)
    requires Matches(nodes, t, parent) && Ordered(nodes, t, lo, hi)
    ensures forall x :: x in Ptrs(t) ==> 0 <= x < |nodes| && Inside(Key(nodes, x), lo, hi)
  {
    if t.Branch? {
      var kp := Key(nodes, t.ptr);
      OrderedPtrs(nodes, t.left, t.ptr, lo, Some(kp));
      OrderedPtrs(nodes, t.right, t.ptr, Some(kp), hi);
    }
  }

  /** Every node on the path has its key outside the hole's bounds. */
  lemma {:induction false} CtxOutside<V>(nodes: seq<Node<V>>, c: Ctx, hole: int)
    requires MatchesCtx(nodes, c, hole) && OrderedCtx(nodes, c)
    ensures forall x :: x in CtxPtrs(c) ==>
      0 <= x < |nodes| && !Inside(Key(nodes, x), HoleLo(nodes, c), HoleHi(nodes, c))
  {
    match c
    case Top =>
    case InLeft(up, p, r) =>
      CtxOutside(nodes, up, p);
      OrderedPtrs(nodes, r, p, Some(Key(nodes, p)), HoleHi(nodes, up));
    case InRight(up, l, p) =>
      CtxOutside(nodes, up, p);
      OrderedPtrs(nodes, l, p, HoleLo(nodes, up), Some(Key(nodes, p)));
  }

  /** In a valid tree the nodes of the hole and of the path are distinct. */
  lemma PlugDisjoint<V>(nodes: seq<Node<V>>, c: Ctx, s: Tree)
    requires Matches(nodes, Plug(c, s), NIL) && Ordered(nodes, Plug(c, s), None, None)
    ensures MatchesCtx(nodes, c, RootPtr(s)) && Matches(nodes, s, HoleParent(c))
    ensures OrderedCtx(nodes, c) && Ordered(nodes, s, HoleLo(nodes, c), HoleHi(nodes, c))
    ensures forall x :: x in Ptrs(s) ==> 0 <= x < |nodes| && Inside(Key(nodes, x), HoleLo(nodes, c), HoleHi(nodes, c))
    ensures forall x :: x in CtxPtrs(c) ==> 0 <= x < |nodes| && !Inside(Key(nodes, x), HoleLo(nodes, c), HoleHi(nodes, c))
    ensures Ptrs(s) !! CtxPtrs(c)
  {
    PlugMatches(nodes, c, s);
    PlugOrdered(nodes, c, s);
    OrderedPtrs(nodes, s, HoleParent(c), HoleLo(nodes, c), HoleHi(nodes, c));
    CtxOutside(nodes, c, RootPtr(s));
    forall x | x in Ptrs(s)
      ensures x !in CtxPtrs(c)
    {
    }
  }

  /** The key of the hole's parent is one of the hole's bounds. */
  lemma HoleParentKey<V>(nodes: seq<Node<V>>, c: Ctx)
    requires c != Top
    ensures !Inside(Key(nodes, HoleParent(c)), HoleLo(nodes, c), HoleHi(nodes, c))
  {
  }

  // ---------------------------------------------------------------- entries

  /** The entry of a record, as a sequence of at most one. */
  function EntryAt<V>(nodes: seq<Node<V>>, p: int): seq<Entry<int, V>> {
    if 0 <= p < |nodes| then [nodes[p].entry] else []
  }

  /** The entries of a tree in left-root-right order. */
  ghost function Entries<V>(nodes: seq<Node<V>>, t: Tree): seq<Entry<int, V>> {
    match t
    case Leaf => []
    case Branch(l, p, r) => Entries(nodes, l) + EntryAt(nodes, p) + Entries(nodes, r)
  }

  /** The in-order entries that come before the hole. */
  ghost function Before<V>(nodes: seq<Node<V>>, c: Ctx): seq<Entry<int, V>> {
    match c
    case Top => []
    case InLeft(up, _, _) => Before(nodes, up)
    case InRight(up, l, p) => Before(nodes, up) + Entries(nodes, l) + EntryAt(nodes, p)
  }

  /** The in-order entries that come after the hole. */
  ghost function After<V>(nodes: seq<Node<V>>, c: Ctx): seq<Entry<int, V>> {
    match c
    case Top => []
    case InLeft(up, p, r) => EntryAt(nodes, p) + Entries(nodes, r) + After(nodes, up)
    case InRight(up, _, _) => After(nodes, up)
  }

  lemma {:induction false} PlugEntries<V>(nodes: seq<Node<V>>, c: Ctx, s: Tree)
    ensures Entries(nodes, Plug(c, s)) == Before(nodes, c) + Entries(nodes, s) + After(nodes, c)
    decreases c
  {
    match c
    case Top =>
      assert Before(nodes, c) + Entries(nodes, s) + After(nodes, c) == Entries(nodes, s);
    case InLeft(up, p, r) =>
      PlugEntries(nodes, up, Branch(s, p, r));
      Regroup(Before(nodes, up), Entries(nodes, s), EntryAt(nodes, p), Entries(nodes, r), After(nodes, up));
    case InRight(up, l, p) =>
      PlugEntries(nodes, up, Branch(l, p, s));
      Regroup(Before(nodes, up), Entries(nodes, l), EntryAt(nodes, p), Entries(nodes, s), After(nodes, up));
  }

  /** The two ways PlugEntries splits the entries around a filled frame agree. */
  lemma Regroup<T>(b: seq<T>, x: seq<T>, y: seq<T>, z: seq<T>, a: seq<T>)
    ensures b + (x + y + z) + a == b + x + (y + z + a)
    ensures b + (x + y + z) + a == (b + x + y) + z + a
  {
  }

  /** A path going only left adds nothing before the hole. */
  lemma {:induction false} LeftSpineBefore<V>(nodes: seq<Node<V>>, outer: Ctx, inner: Ctx)
    requires LeftSpine(inner)
    ensures Before(nodes, Compose(outer, inner)) == Before(nodes, outer)
    decreases inner
  {
    if inner.InLeft? {
      LeftSpineBefore(nodes, outer, inner.up);
    }
  }

  /** A path going only right adds nothing after the hole. */
  lemma {:induction false} RightSpineAfter<V>(nodes: seq<Node<V>>, outer: Ctx, inner: Ctx)
    requires RightSpine(inner)
    ensures After(nodes, Compose(outer, inner)) == After(nodes, outer)
    decreases inner
  {
    if inner.InRight? {
      RightSpineAfter(nodes, outer, inner.up);
    }
  }

  /** A linked subtree has one entry per node. */
  lemma {:induction false} EntriesSize<V>(nodes: seq<Node<V>>, t: Tree, parent: int)
    requires Matches(nodes, t, parent)
    ensures |Entries(nodes, t)| == Size(t)
  {
    if t.Branch? {
      EntriesSize(nodes, t.left, t.ptr);
      EntriesSize(nodes, t.right, t.ptr);
    }
  }

  // ---------------------------------------------------------------- frames

  /** A subtree whose key interval the arena did not touch is unchanged. */
  lemma {:induction false} SubtreeSame<V>(nodes: seq<Node<V>>, nodes': seq<Node<V>>, t: Tree, parent: int,
                                          lo: Option<int>, hi: Option<int>)
    requires Matches(nodes, t, parent) && Ordered(nodes, t, lo, hi) && |nodes| <= |nodes'|
    requires forall x :: 0 <= x < |nodes| && Inside(Key(nodes, x), lo, hi) ==> nodes'[x] == nodes[x]
    ensures Matches(nodes', t, parent) && Ordered(nodes', t, lo, hi)
    ensures Entries(nodes', t) == Entries(nodes, t)
  {
    if t.Branch? {
      var p := t.ptr;
      var kp := Key(nodes, p);
      assert nodes'[p] == nodes[p];
      SubtreeSame(nodes, nodes', t.left, p, lo, Some(kp));
      SubtreeSame(nodes, nodes', t.right, p, Some(kp), hi);
    }
  }

  /** The same, when only the parent reference of the subtree's root was changed. */
  lemma SubtreeReparent<V>(nodes: seq<Node<V>>, nodes': seq<Node<V>>, t: Tree, parent: int, parent': int,
                           lo: Option<int>, hi: Option<int>)
    requires Matches(nodes, t, parent) && Ordered(nodes, t, lo, hi) && |nodes| <= |nodes'|
    requires forall x :: 0 <= x < |nodes| && x != RootPtr(t) && Inside(Key(nodes, x), lo, hi) ==> nodes'[x] == nodes[x]
    requires t.Branch? ==> nodes'[t.ptr] == nodes[t.ptr].(parent := parent')
    ensures Matches(nodes', t, parent') && Ordered(nodes', t, lo, hi)
    ensures Entries(nodes', t) == Entries(nodes, t)
  {
    if t.Branch? {
      var p := t.ptr;
      var kp := Key(nodes, p);
      SubtreeSame(nodes, nodes', t.left, p, lo, Some(kp));
      SubtreeSame(nodes, nodes', t.right, p, Some(kp), hi);
    }
  }

  /** A path whose nodes the arena did not touch is unchanged. */
  lemma {:induction false} CtxSame<V>(nodes: seq<Node<V>>, nodes': seq<Node<V>>, c: Ctx, hole: int)
    requires MatchesCtx(nodes, c, hole) && OrderedCtx(nodes, c) && |nodes| <= |nodes'|
    requires forall x :: 0 <= x < |nodes| && !Inside(Key(nodes, x), HoleLo(nodes, c), HoleHi(nodes, c)) ==>
      nodes'[x] == nodes[x]
    ensures MatchesCtx(nodes', c, hole) && OrderedCtx(nodes', c)
    ensures HoleLo(nodes', c) == HoleLo(nodes, c) && HoleHi(nodes', c) == HoleHi(nodes, c)
    ensures Before(nodes', c) == Before(nodes, c) && After(nodes', c) == After(nodes, c)
  {
    match c
    case Top =>
    case InLeft(up, p, r) =>
      var kp := Key(nodes, p);
      assert nodes'[p] == nodes[p];
      SubtreeSame(nodes, nodes', r, p, Some(kp), HoleHi(nodes, up));
      CtxSame(nodes, nodes', up, p);
    case InRight(up, l, p) =>
      var kp := Key(nodes, p);
      assert nodes'[p] == nodes[p];
      SubtreeSame(nodes, nodes', l, p, HoleLo(nodes, up), Some(kp));
      CtxSame(nodes, nodes', up, p);
  }

  /**
   * Putting into the hole another subtree over the same key interval, and pointing the
   * hole's parent at it, keeps the whole tree linked and ordered; the entries around the
   * hole stay as they were.
   */
  lemma PlugReplace<V>(nodes: seq<Node<V>>, nodes': seq<Node<V>>, c: Ctx, s: Tree, s': Tree)
    requires Matches(nodes, Plug(c, s), NIL) && Ordered(nodes, Plug(c, s), None, None)
    requires |nodes| <= |nodes'|
    requires forall x :: (0 <= x < |nodes| && x != HoleParent(c) &&
                          !Inside(Key(nodes, x), HoleLo(nodes, c), HoleHi(nodes, c))) ==> nodes'[x] == nodes[x]
    requires c != Top ==> 0 <= HoleParent(c) < |nodes| &&
                          nodes'[HoleParent(c)] == Relink(nodes[HoleParent(c)], c, RootPtr(s'))
    requires Matches(nodes', s', HoleParent(c)) && Ordered(nodes', s', HoleLo(nodes, c), HoleHi(nodes, c))
    ensures Matches(nodes', Plug(c, s'), NIL) && Ordered(nodes', Plug(c, s'), None, None)
    ensures Entries(nodes', Plug(c, s')) == Before(nodes, c) + Entries(nodes', s') + After(nodes, c)
  {
    PlugMatches(nodes, c, s);
    PlugOrdered(nodes, c, s);
    match c
    case Top =>
      PlugIntro(nodes', c, s');
    case InLeft(up, p, r) =>
      CtxRelinkLeft(nodes, nodes', up, p, r, RootPtr(s), RootPtr(s'));
      PlugIntro(nodes', c, s');
    case InRight(up, l, p) =>
      CtxRelinkRight(nodes, nodes', up, l, p, RootPtr(s), RootPtr(s'));
      PlugIntro(nodes', c, s');
  }

  /**
   * Relinking the left slot of the hole's parent, while every node outside the hole's
   * interval stays as it was, keeps the context fitting, ordered and with the same entries.
   */
  lemma CtxRelinkLeft<V>(nodes: seq<Node<V>>, nodes': seq<Node<V>>, up: Ctx, p: int, r: Tree, hole: int, hole': int)
    requires MatchesCtx(nodes, InLeft(up, p, r), hole) && OrderedCtx(nodes, InLeft(up, p, r))
    requires |nodes| <= |nodes'|
    requires forall x :: (0 <= x < |nodes| && x != p &&
                          !Inside(Key(nodes, x), HoleLo(nodes, up), Some(Key(nodes, p)))) ==> nodes'[x] == nodes[x]
    requires 0 <= p < |nodes| && nodes'[p] == nodes[p].(left := hole')
    ensures MatchesCtx(nodes', InLeft(up, p, r), hole') && OrderedCtx(nodes', InLeft(up, p, r))
    ensures HoleLo(nodes', InLeft(up, p, r)) == HoleLo(nodes, InLeft(up, p, r))
    ensures HoleHi(nodes', InLeft(up, p, r)) == HoleHi(nodes, InLeft(up, p, r))
    ensures Before(nodes', InLeft(up, p, r)) == Before(nodes, InLeft(up, p, r))
    ensures After(nodes', InLeft(up, p, r)) == After(nodes, InLeft(up, p, r))
  {
    var kp := Key(nodes, p);
    SubtreeSame(nodes, nodes', r, p, Some(kp), HoleHi(nodes, up));
    CtxSame(nodes, nodes', up, p);
  }

  /** CtxRelinkLeft for the right slot. */
  lemma CtxRelinkRight<V>(nodes: seq<Node<V>>, nodes': seq<Node<V>>, up: Ctx, l: Tree, p: int, hole: int, hole': int)
    requires MatchesCtx(nodes, InRight(up, l, p), hole) && OrderedCtx(nodes, InRight(up, l, p))
    requires |nodes| <= |nodes'|
    requires forall x :: (0 <= x < |nodes| && x != p &&
                          !Inside(Key(nodes, x), Some(Key(nodes, p)), HoleHi(nodes, up))) ==> nodes'[x] == nodes[x]
    requires 0 <= p < |nodes| && nodes'[p] == nodes[p].(right := hole')
    ensures MatchesCtx(nodes', InRight(up, l, p), hole') && OrderedCtx(nodes', InRight(up, l, p))
    ensures HoleLo(nodes', InRight(up, l, p)) == HoleLo(nodes, InRight(up, l, p))
    ensures HoleHi(nodes', InRight(up, l, p)) == HoleHi(nodes, InRight(up, l, p))
    ensures Before(nodes', InRight(up, l, p)) == Before(nodes, InRight(up, l, p))
    ensures After(nodes', InRight(up, l, p)) == After(nodes, InRight(up, l, p))
  {
    var kp := Key(nodes, p);
    SubtreeSame(nodes, nodes', l, p, HoleLo(nodes, up), Some(kp));
    CtxSame(nodes, nodes', up, p);
  }

  /** A context and a filler that both fit make a whole fitting tree. */
  lemma PlugIntro<V>(nodes: seq<Node<V>>, c: Ctx, s: Tree)
    requires MatchesCtx(nodes, c, RootPtr(s)) && Matches(nodes, s, HoleParent(c))
    requires OrderedCtx(nodes, c) && Ordered(nodes, s, HoleLo(nodes, c), HoleHi(nodes, c))
    ensures Matches(nodes, Plug(c, s), NIL) && Ordered(nodes, Plug(c, s), None, None)
    ensures Entries(nodes, Plug(c, s)) == Before(nodes, c) + Entries(nodes, s) + After(nodes, c)
  {
    PlugMatches(nodes, c, s);
    PlugOrdered(nodes, c, s);
    PlugEntries(nodes, c, s);
  }

  /** A weaker bound keeps a subtree ordered. */
  lemma {:induction false} OrderedWeaken<V>(nodes: seq<Node<V>>, t: Tree, lo: Option<int>, hi: Option<int>,
                                            lo': Option<int>, hi': Option<int>)
    requires Ordered(nodes, t, lo, hi)
    requires lo'.Some? ==> lo.Some? && lo'.value <= lo.value
    requires hi'.Some? ==> hi.Some? && hi.value <= hi'.value
    ensures Ordered(nodes, t, lo', hi')
  {
    if t.Branch? {
      var kp := Key(nodes, t.ptr);
      OrderedWeaken(nodes, t.left, lo, Some(kp), lo', Some(kp));
      OrderedWeaken(nodes, t.right, Some(kp), hi, Some(kp), hi');
    }
  }

  // ---------------------------------------------------------------- maps

  /** The keys strictly increase along the sequence. */
  ghost predicate Increasing<V>(es: seq<Entry<int, V>>) {
    forall i, j :: 0 <= i < j < |es| ==> es[i].key < es[j].key
  }

  ghost predicate KeysInside<V>(es: seq<Entry<int, V>>, lo: Option<int>, hi: Option<int>) {
    forall i :: 0 <= i < |es| ==> Inside(es[i].key, lo, hi)
  }

  lemma IncreasingJoin<V>(a: seq<Entry<int, V>>, b: seq<Entry<int, V>>, m: int)
    requires Increasing(a) && Increasing(b)
    requires forall i :: 0 <= i < |a| ==> a[i].key <= m
    requires forall j :: 0 <= j < |b| ==> m < b[j].key
    ensures Increasing(a + b)
  {
    forall i, j | 0 <= i < j < |a + b|
      ensures (a + b)[i].key < (a + b)[j].key
    {
      if j < |a| {
        assert (a + b)[i] == a[i] && (a + b)[j] == a[j];
      } else if i >= |a| {
        assert (a + b)[i] == b[i - |a|] && (a + b)[j] == b[j - |a|];
      } else {
        assert (a + b)[i] == a[i] && (a + b)[j] == b[j - |a|];
      }
    }
  }

  /** The in-order entries of an ordered tree increase and lie inside its bounds. */
  lemma {:induction false} OrderedEntries<V>(nodes: seq<Node<V>>, t: Tree, lo: Option<int>, hi: Option<int>)
    requires Ordered(nodes, t, lo, hi)
    ensures Increasing(Entries(nodes, t)) && KeysInside(Entries(nodes, t), lo, hi)
  {
    if t.Branch? {
      var p := t.ptr;
      var kp := Key(nodes, p);
      var el: seq<Entry<int, V>>, ep: seq<Entry<int, V>>, er: seq<Entry<int, V>> :=
        Entries(nodes, t.left), EntryAt(nodes, p), Entries(nodes, t.right);
      OrderedEntries(nodes, t.left, lo, Some(kp));
      OrderedEntries(nodes, t.right, Some(kp), hi);
      IncreasingJoin(el, ep, kp - 1);
      IncreasingJoin(el + ep, er, kp);
      assert Entries(nodes, t) == el + ep + er;
      forall i | 0 <= i < |el + ep + er|
        ensures Inside((el + ep + er)[i].key, lo, hi)
      {
        if i < |el| {
          assert (el + ep + er)[i] == el[i];
        } else if i < |el + ep| {
          assert (el + ep + er)[i] == ep[i - |el|];
        } else {
          assert (el + ep + er)[i] == er[i - |el + ep|];
        }
      }
    }
  }

  /** The map a sequence of entries denotes; a later entry overrides an earlier one. */
  ghost function AsMap<V>(es: seq<Entry<int, V>>): map<int, V>
    decreases |es|
  {
    if es == [] then map[] else AsMap(es[..|es| - 1])[es[|es| - 1].key := es[|es| - 1].value]
  }

  lemma {:induction false} AsMapAppend<V>(a: seq<Entry<int, V>>, b: seq<Entry<int, V>>)
    ensures AsMap(a + b) == AsMap(a) + AsMap(b)
    decreases |b|
  {
    if b != [] {
      var n := |b| - 1;
      assert (a + b)[..|a + b| - 1] == a + b[..n];
      AsMapAppend(a, b[..n]);
    } else {
      assert a + b == a;
    }
  }

  /** A key is mapped exactly when some entry carries it. */
  lemma {:induction false} AsMapKeys<V>(es: seq<Entry<int, V>>, k: int)
    ensures k in AsMap(es) <==> exists i :: 0 <= i < |es| && es[i].key == k
    decreases |es|
  {
    if es != [] {
      var n := |es| - 1;
      AsMapKeys(es[..n], k);
      if exists i :: 0 <= i < n && es[..n][i].key == k {
        var i :| 0 <= i < n && es[..n][i].key == k;
        assert es[i].key == k;
      }
      if exists i :: 0 <= i < |es| && es[i].key == k {
        var i :| 0 <= i < |es| && es[i].key == k;
        if i < n {
          assert es[..n][i].key == k;
        }
      }
    }
  }

  /** A key below or above every entry is not mapped. */
  lemma KeyOutside<V>(es: seq<Entry<int, V>>, k: int, lo: Option<int>, hi: Option<int>)
    requires KeysInside(es, lo, hi) && !Inside(k, lo, hi)
    ensures k !in AsMap(es)
  {
    AsMapKeys(es, k);
  }

  /** Splitting an increasing sequence at one entry splits its map. */
  lemma AsMapSplit<V>(b: seq<Entry<int, V>>, e: Entry<int, V>, a: seq<Entry<int, V>>)
    requires Increasing(b + [e] + a)
    ensures e.key !in AsMap(b) && e.key !in AsMap(a)
    ensures AsMap(b + [e] + a) == (AsMap(b) + AsMap(a))[e.key := e.value]
  {
    var s := b + [e] + a;
    forall i | 0 <= i < |b|
      ensures b[i].key != e.key
    {
      assert s[i] == b[i] && s[|b|] == e;
    }
    forall i | 0 <= i < |a|
      ensures a[i].key != e.key
    {
      assert s[|b| + 1 + i] == a[i] && s[|b|] == e;
    }
    AsMapKeys(b, e.key);
    AsMapKeys(a, e.key);
    AsMapAppend(b + [e], a);
    AsMapAppend(b, [e]);
    assert AsMap([e]) == map[e.key := e.value] by {
      assert [e][..0] == [];
    }
  }

  /** An increasing sequence has as many map keys as entries. */
  lemma {:induction false} IncreasingCard<V>(es: seq<Entry<int, V>>)
    requires Increasing(es)
    ensures |AsMap(es)| == |es|
    decreases |es|
  {
    if es != [] {
      var n := |es| - 1;
      var pre := es[..n];
      assert Increasing(pre) by {
        forall i, j | 0 <= i < j < |pre|
          ensures pre[i].key < pre[j].key
        {
          assert pre[i] == es[i] && pre[j] == es[j];
        }
      }
      IncreasingCard(pre);
      AsMapKeys(pre, es[n].key);
      forall i | 0 <= i < n
        ensures pre[i].key != es[n].key
      {
        assert pre[i] == es[i];
      }
    }
  }

  /** Lookup of `k` gives the same answer in both maps. */
  ghost predicate SameLookup<V>(m: map<int, V>, m': map<int, V>, k: int) {
    (k in m <==> k in m') && (k in m ==> m[k] == m'[k])
  }

  /** In an ordered subtree, a key other than the root's can only be on the side the search takes. */
  lemma DescendLookup<V>(nodes: seq<Node<V>>, l: Tree, p: int, r: Tree, lo: Option<int>, hi: Option<int>, k: int)
    requires Ordered(nodes, Branch(l, p, r), lo, hi) && 0 <= p < |nodes| && k != Key(nodes, p)
    ensures SameLookup(AsMap(Entries(nodes, Branch(l, p, r))),
                       AsMap(Entries(nodes, if k < Key(nodes, p) then l else r)), k)
  {
    var kp := Key(nodes, p);
    var el, er := Entries(nodes, l), Entries(nodes, r);
    OrderedEntries(nodes, Branch(l, p, r), lo, hi);
    OrderedEntries(nodes, l, lo, Some(kp));
    OrderedEntries(nodes, r, Some(kp), hi);
    assert Entries(nodes, Branch(l, p, r)) == el + [nodes[p].entry] + er;
    AsMapSplit(el, nodes[p].entry, er);
    if k < kp {
      KeyOutside(er, k, Some(kp), hi);
    } else {
      KeyOutside(el, k, lo, Some(kp));
    }
  }

  /** In an ordered subtree the root's key maps to the root's value. */
  lemma HereLookup<V>(nodes: seq<Node<V>>, l: Tree, p: int, r: Tree, lo: Option<int>, hi: Option<int>)
    requires Ordered(nodes, Branch(l, p, r), lo, hi) && 0 <= p < |nodes|
    ensures var m := AsMap(Entries(nodes, Branch(l, p, r)));
      nodes[p].entry.key in m && m[nodes[p].entry.key] == nodes[p].entry.value
  {
    var el, er := Entries(nodes, l), Entries(nodes, r);
    OrderedEntries(nodes, Branch(l, p, r), lo, hi);
    assert Entries(nodes, Branch(l, p, r)) == el + [nodes[p].entry] + er;
    AsMapSplit(el, nodes[p].entry, er);
  }

  /** Inserting an entry into an increasing sequence adds its key to the map. */
  lemma AsMapInsert<V>(b: seq<Entry<int, V>>, e: Entry<int, V>, a: seq<Entry<int, V>>)
    requires Increasing(b + [e] + a)
    ensures e.key !in AsMap(b + a)
    ensures AsMap(b + [e] + a) == AsMap(b + a)[e.key := e.value]
  {
    AsMapSplit(b, e, a);
    AsMapAppend(b, a);
  }

  /** Dropping an entry from an increasing sequence removes its key from the map. */
  lemma AsMapDelete<V>(b: seq<Entry<int, V>>, e: Entry<int, V>, a: seq<Entry<int, V>>)
    requires Increasing(b + [e] + a)
    ensures AsMap(b + a) == AsMap(b + [e] + a) - {e.key}
  {
    AsMapSplit(b, e, a);
    AsMapAppend(b, a);
  }

  /** Exchanging one entry of an increasing sequence for another exchanges it in the map. */
  lemma AsMapReplace<V>(b: seq<Entry<int, V>>, e: Entry<int, V>, e': Entry<int, V>, a: seq<Entry<int, V>>)
    requires Increasing(b + [e] + a) && Increasing(b + [e'] + a)
    ensures AsMap(b + [e'] + a) == (AsMap(b + [e] + a) - {e.key})[e'.key := e'.value]
  {
    AsMapSplit(b, e, a);
    AsMapSplit(b, e', a);
  }

  // ---------------------------------------------------------------- same entries

  /** Two arenas of the same length whose records hold the same entries. */
  ghost predicate SameEntries<V>(nodes: seq<Node<V>>, nodes': seq<Node<V>>) {
    |nodes| == |nodes'| && forall x :: 0 <= x < |nodes| ==> nodes'[x].entry == nodes[x].entry
  }

  /** Entries and order depend only on the entries of the records, not on their links. */
  lemma {:induction false} SameEntriesTree<V>(nodes: seq<Node<V>>, nodes': seq<Node<V>>, t: Tree,
                                              lo: Option<int>, hi: Option<int>)
    requires SameEntries(nodes, nodes')
    ensures Entries(nodes', t) == Entries(nodes, t)
    ensures Ordered(nodes', t, lo, hi) <==> Ordered(nodes, t, lo, hi)
  {
    if t.Branch? {
      var kp := Key(nodes, t.ptr);
      assert Key(nodes', t.ptr) == kp;
      SameEntriesTree(nodes, nodes', t.left, lo, Some(kp));
      SameEntriesTree(nodes, nodes', t.right, Some(kp), hi);
    }
  }

  /** Two arenas whose records differ at most in their height and colour fields. */
  ghost predicate SameLinks<V>(nodes: seq<Node<V>>, nodes': seq<Node<V>>) {
    SameEntries(nodes, nodes') &&
    forall x :: 0 <= x < |nodes| ==>
      nodes'[x].parent == nodes[x].parent && nodes'[x].left == nodes[x].left && nodes'[x].right == nodes[x].right
  }

  /** Two arenas of the same length whose records keep their heights and colours. */
  ghost predicate SameLabels<V>(nodes: seq<Node<V>>, nodes': seq<Node<V>>) {
    |nodes| == |nodes'| &&
    forall x :: 0 <= x < |nodes| ==> nodes'[x].height == nodes[x].height && nodes'[x].color == nodes[x].color
  }

  lemma SameLabelsTrans<V>(a: seq<Node<V>>, b: seq<Node<V>>, c: seq<Node<V>>)
    requires SameLabels(a, b) && SameLabels(b, c)
    ensures SameLabels(a, c)
  {
  }

  /** The shape a set of links describes does not depend on heights or colours. */
  lemma {:induction false} SameLinksTree<V>(nodes: seq<Node<V>>, nodes': seq<Node<V>>, t: Tree, parent: int)
    requires SameLinks(nodes, nodes')
    ensures Matches(nodes', t, parent) <==> Matches(nodes, t, parent)
  {
    if t.Branch? {
      SameLinksTree(nodes, nodes', t.left, t.ptr);
      SameLinksTree(nodes, nodes', t.right, t.ptr);
    }
  }

  /** The same for a path. */
  lemma {:induction false} SameEntriesCtx<V>(nodes: seq<Node<V>>, nodes': seq<Node<V>>, c: Ctx)
    requires SameEntries(nodes, nodes')
    ensures Before(nodes', c) == Before(nodes, c) && After(nodes', c) == After(nodes, c)
    ensures HoleLo(nodes', c) == HoleLo(nodes, c) && HoleHi(nodes', c) == HoleHi(nodes, c)
    ensures OrderedCtx(nodes', c) <==> OrderedCtx(nodes, c)
  {
    match c
    case Top =>
    case InLeft(up, p, r) =>
      SameEntriesCtx(nodes, nodes', up);
      SameEntriesTree(nodes, nodes', r, Some(Key(nodes, p)), HoleHi(nodes, up));
    case InRight(up, l, p) =>
      SameEntriesCtx(nodes, nodes', up);
      SameEntriesTree(nodes, nodes', l, HoleLo(nodes, up), Some(Key(nodes, p)));
  }

  // ---------------------------------------------------------------- search

  /**
   * The search for `k` in `t` has come down to the subtree `s`, hung from the path `c`:
   * `k` lies inside the bounds of the hole, and `k` is mapped in `t` as it is in `s`.
   */
  ghost predicate SearchAt<V>(nodes: seq<Node<V>>, t: Tree, k: int, c: Ctx, s: Tree) {
    Plug(c, s) == t && Inside(k, HoleLo(nodes, c), HoleHi(nodes, c)) &&
    SameLookup(AsMap(Entries(nodes, t)), AsMap(Entries(nodes, s)), k)
  }

  lemma SearchStart<V>(nodes: seq<Node<V>>, t: Tree, k: int)
    ensures SearchAt(nodes, t, k, Top, t)
  {
  }

  /** One step of the descent: left on a smaller key, right on a larger one. */
  lemma SearchStep<V>(nodes: seq<Node<V>>, t: Tree, k: int, c: Ctx, l: Tree, p: int, r: Tree)
    requires Matches(nodes, t, NIL) && Ordered(nodes, t, None, None)
    requires SearchAt(nodes, t, k, c, Branch(l, p, r)) && k != Key(nodes, p)
    ensures k < Key(nodes, p) ==> SearchAt(nodes, t, k, InLeft(c, p, r), l)
    ensures k > Key(nodes, p) ==> SearchAt(nodes, t, k, InRight(c, l, p), r)
  {
    PlugMatches(nodes, c, Branch(l, p, r));
    PlugOrdered(nodes, c, Branch(l, p, r));
    DescendLookup(nodes, l, p, r, HoleLo(nodes, c), HoleHi(nodes, c), k);
  }

  /** The descent stops at the node holding `k`, whose value is the one mapped. */
  lemma SearchFound<V>(nodes: seq<Node<V>>, t: Tree, k: int, c: Ctx, l: Tree, p: int, r: Tree)
    requires Matches(nodes, t, NIL) && Ordered(nodes, t, None, None)
    requires SearchAt(nodes, t, k, c, Branch(l, p, r)) && Key(nodes, p) == k
    ensures 0 <= p < |nodes| && nodes[p].entry.key == k
    ensures k in AsMap(Entries(nodes, t)) && AsMap(Entries(nodes, t))[k] == nodes[p].entry.value
  {
    PlugMatches(nodes, c, Branch(l, p, r));
    PlugOrdered(nodes, c, Branch(l, p, r));
    HereLookup(nodes, l, p, r, HoleLo(nodes, c), HoleHi(nodes, c));
  }

  /** A descent that falls off the tree shows that `k` is not mapped. */
  lemma SearchMissed<V>(nodes: seq<Node<V>>, t: Tree, k: int, c: Ctx)
    requires SearchAt(nodes, t, k, c, Leaf)
    ensures k !in AsMap(Entries(nodes, t))
  {
  }

  /** The path to, and the subtrees of, a node of the tree. */
  lemma {:induction false} Locate(t: Tree, p: int) returns (c: Ctx, l: Tree, r: Tree)
    requires p in Ptrs(t)
    ensures Plug(c, Branch(l, p, r)) == t
  {
    var Branch(tl, q, tr) := t;
    if p == q {
      c, l, r := Top, tl, tr;
    } else if p in Ptrs(tl) {
      var c0;
      c0, l, r := Locate(tl, p);
      c := Compose(InLeft(Top, q, tr), c0);
      PlugCompose(InLeft(Top, q, tr), c0, Branch(l, p, r));
    } else {
      var c0;
      c0, l, r := Locate(tr, p);
      c := Compose(InRight(Top, tl, q), c0);
      PlugCompose(InRight(Top, tl, q), c0, Branch(l, p, r));
    }
  }

  // ---------------------------------------------------------------- put

  /** The regrouping of the in-order entries around the hole. */
  lemma Around<T>(b: seq<T>, x: seq<T>, y: seq<T>, z: seq<T>, a: seq<T>)
    ensures b + (x + y + z) + a == (b + x) + y + (z + a)
  {
  }

  /**
   * A new leaf record `q` at the end of the arena, hung in the hole of `c` whose bounds
   * its key respects, adds its entry to the map.
   */
  lemma AttachLeaf<V>(nodes: seq<Node<V>>, nodes': seq<Node<V>>, c: Ctx, q: int)
    requires Matches(nodes, Plug(c, Leaf), NIL) && Ordered(nodes, Plug(c, Leaf), None, None)
    requires q == |nodes| && |nodes'| == |nodes| + 1
    requires Inside(nodes'[q].entry.key, HoleLo(nodes, c), HoleHi(nodes, c))
    requires nodes'[q].parent == HoleParent(c) && nodes'[q].left == NIL && nodes'[q].right == NIL
    requires c != Top ==> 0 <= HoleParent(c) < |nodes| && nodes'[HoleParent(c)] == Relink(nodes[HoleParent(c)], c, q)
    requires forall x :: 0 <= x < |nodes| && x != HoleParent(c) ==> nodes'[x] == nodes[x]
    ensures Matches(nodes', Plug(c, Branch(Leaf, q, Leaf)), NIL)
    ensures Ordered(nodes', Plug(c, Branch(Leaf, q, Leaf)), None, None)
    ensures AsMap(Entries(nodes', Plug(c, Branch(Leaf, q, Leaf)))) ==
            AsMap(Entries(nodes, Plug(c, Leaf)))[nodes'[q].entry.key := nodes'[q].entry.value]
  {
    var s' := Branch(Leaf, q, Leaf);
    AttachLeafLinks(nodes, nodes', c, q);
    PlugEntries(nodes, c, Leaf);
    OrderedEntries(nodes', Plug(c, s'), None, None);
    InsertInto(Entries(nodes, Plug(c, Leaf)), Entries(nodes', Plug(c, s')), Before(nodes, c), nodes'[q].entry, After(nodes, c));
  }

  /** The map of an increasing sequence with one entry more. */
  lemma InsertInto<V>(es: seq<Entry<int, V>>, es': seq<Entry<int, V>>, b: seq<Entry<int, V>>, e: Entry<int, V>, a: seq<Entry<int, V>>)
    requires es == b + [] + a && es' == b + [e] + a && Increasing(es')
    ensures AsMap(es') == AsMap(es)[e.key := e.value]
  {
    assert b + [] + a == b + a;
    AsMapInsert(b, e, a);
  }

  /** The map of an increasing sequence with one entry changed. */
  lemma ReplaceIn<V>(es: seq<Entry<int, V>>, es': seq<Entry<int, V>>, b: seq<Entry<int, V>>, e: Entry<int, V>, e': Entry<int, V>, a: seq<Entry<int, V>>)
    requires es == b + [e] + a && es' == b + [e'] + a && Increasing(es) && Increasing(es') && e.key == e'.key
    ensures AsMap(es') == AsMap(es)[e'.key := e'.value]
  {
    AsMapReplace(b, e, e', a);
  }

  /** The links and order part of AttachLeaf. */
  lemma AttachLeafLinks<V>(nodes: seq<Node<V>>, nodes': seq<Node<V>>, c: Ctx, q: int)
    requires Matches(nodes, Plug(c, Leaf), NIL) && Ordered(nodes, Plug(c, Leaf), None, None)
    requires q == |nodes| && |nodes'| == |nodes| + 1
    requires Inside(nodes'[q].entry.key, HoleLo(nodes, c), HoleHi(nodes, c))
    requires nodes'[q].parent == HoleParent(c) && nodes'[q].left == NIL && nodes'[q].right == NIL
    requires c != Top ==> 0 <= HoleParent(c) < |nodes| && nodes'[HoleParent(c)] == Relink(nodes[HoleParent(c)], c, q)
    requires forall x :: 0 <= x < |nodes| && x != HoleParent(c) ==> nodes'[x] == nodes[x]
    ensures Matches(nodes', Plug(c, Branch(Leaf, q, Leaf)), NIL)
    ensures Ordered(nodes', Plug(c, Branch(Leaf, q, Leaf)), None, None)
    ensures Entries(nodes', Plug(c, Branch(Leaf, q, Leaf))) == Before(nodes, c) + [nodes'[q].entry] + After(nodes, c)
  {
    var s' := Branch(Leaf, q, Leaf);
    assert Entries(nodes', s') == [nodes'[q].entry];
    PlugReplace(nodes, nodes', c, Leaf, s');
  }

  /** Giving the record `p` of the tree an entry with the same key updates the map. */
  lemma ReplaceEntry<V>(nodes: seq<Node<V>>, c: Ctx, l: Tree, p: int, r: Tree, e: Entry<int, V>)
    requires Matches(nodes, Plug(c, Branch(l, p, r)), NIL) && Ordered(nodes, Plug(c, Branch(l, p, r)), None, None)
    requires 0 <= p < |nodes| && e.key == nodes[p].entry.key
    ensures var nodes' := nodes[p := nodes[p].(entry := e)];
      Matches(nodes', Plug(c, Branch(l, p, r)), NIL) && Ordered(nodes', Plug(c, Branch(l, p, r)), None, None) &&
      AsMap(Entries(nodes', Plug(c, Branch(l, p, r)))) == AsMap(Entries(nodes, Plug(c, Branch(l, p, r))))[e.key := e.value]
  {
    var nodes' := nodes[p := nodes[p].(entry := e)];
    var t := Plug(c, Branch(l, p, r));
    ReplaceEntryLinks(nodes, c, l, p, r, e);
    OrderedEntries(nodes, t, None, None);
    OrderedEntries(nodes', t, None, None);
    ReplaceIn(Entries(nodes, t), Entries(nodes', t), Before(nodes, c) + Entries(nodes, l), nodes[p].entry, e, Entries(nodes, r) + After(nodes, c));
  }

  /** The links, order and in-order entries part of ReplaceEntry. */
  lemma ReplaceEntryLinks<V>(nodes: seq<Node<V>>, c: Ctx, l: Tree, p: int, r: Tree, e: Entry<int, V>)
    requires Matches(nodes, Plug(c, Branch(l, p, r)), NIL) && Ordered(nodes, Plug(c, Branch(l, p, r)), None, None)
    requires 0 <= p < |nodes| && e.key == nodes[p].entry.key
    ensures var nodes' := nodes[p := nodes[p].(entry := e)];
      Matches(nodes', Plug(c, Branch(l, p, r)), NIL) && Ordered(nodes', Plug(c, Branch(l, p, r)), None, None) &&
      Entries(nodes, Plug(c, Branch(l, p, r))) == (Before(nodes, c) + Entries(nodes, l)) + [nodes[p].entry] + (Entries(nodes, r) + After(nodes, c)) &&
      Entries(nodes', Plug(c, Branch(l, p, r))) == (Before(nodes, c) + Entries(nodes, l)) + [e] + (Entries(nodes, r) + After(nodes, c))
  {
    var nodes' := nodes[p := nodes[p].(entry := e)];
    var s := Branch(l, p, r);
    var kp := Key(nodes, p);
    PlugMatches(nodes, c, s);
    PlugOrdered(nodes, c, s);
    if c != Top {
      HoleParentKey(nodes, c);
    }
    SubtreeSame(nodes, nodes', l, p, HoleLo(nodes, c), Some(kp));
    SubtreeSame(nodes, nodes', r, p, Some(kp), HoleHi(nodes, c));
    PlugReplace(nodes, nodes', c, s, s);
    PlugEntries(nodes, c, s);
    var b, a := Before(nodes, c), After(nodes, c);
    var el, er := Entries(nodes, l), Entries(nodes, r);
    Around(b, el, [nodes[p].entry], er, a);
    Around(b, el, [e], er, a);
  }

  // ---------------------------------------------------------------- order from entries

  /** The parts of an increasing sequence around one entry. */
  lemma IncreasingSplit<V>(a: seq<Entry<int, V>>, e: Entry<int, V>, b: seq<Entry<int, V>>)
    requires Increasing(a + [e] + b)
    ensures Increasing(a) && Increasing(b)
    ensures forall i :: 0 <= i < |a| ==> a[i].key < e.key
    ensures forall j :: 0 <= j < |b| ==> e.key < b[j].key
  {
    var s := a + [e] + b;
    forall i, j | 0 <= i < j < |a|
      ensures a[i].key < a[j].key
    {
      assert s[i] == a[i] && s[j] == a[j];
    }
    forall i, j | 0 <= i < j < |b|
      ensures b[i].key < b[j].key
    {
      assert s[|a| + 1 + i] == b[i] && s[|a| + 1 + j] == b[j];
    }
    forall i | 0 <= i < |a|
      ensures a[i].key < e.key
    {
      assert s[i] == a[i] && s[|a|] == e;
    }
    forall j | 0 <= j < |b|
      ensures e.key < b[j].key
    {
      assert s[|a| + 1 + j] == b[j] && s[|a|] == e;
    }
  }

  /** Conversely to OrderedEntries, increasing in-order keys inside the bounds make the tree ordered. */
  lemma {:induction false} EntriesOrdered<V>(nodes: seq<Node<V>>, t: Tree, lo: Option<int>, hi: Option<int>)
    requires forall x :: x in Ptrs(t) ==> 0 <= x < |nodes|
    requires Increasing(Entries(nodes, t)) && KeysInside(Entries(nodes, t), lo, hi)
    ensures Ordered(nodes, t, lo, hi)
  {
    if t.Branch? {
      var p := t.ptr;
      var kp := Key(nodes, p);
      var el, er := Entries(nodes, t.left), Entries(nodes, t.right);
      assert Ptrs(t) == Ptrs(t.left) + {p} + Ptrs(t.right);
      assert p in Ptrs(t);
      var es := el + [nodes[p].entry] + er;
      assert Entries(nodes, t) == es;
      IncreasingSplit(el, nodes[p].entry, er);
      assert Inside(kp, lo, hi) by {
        assert es[|el|] == nodes[p].entry;
      }
      forall i | 0 <= i < |el|
        ensures Inside(el[i].key, lo, Some(kp))
      {
        assert es[i] == el[i];
      }
      forall j | 0 <= j < |er|
        ensures Inside(er[j].key, Some(kp), hi)
      {
        assert es[|el| + 1 + j] == er[j];
      }
      EntriesOrdered(nodes, t.left, lo, Some(kp));
      EntriesOrdered(nodes, t.right, Some(kp), hi);
    }
  }

  /** A path that only goes left has no entries before its hole. */
  lemma {:induction false} LeftSpineNoBefore<V>(nodes: seq<Node<V>>, d: Ctx)
    requires LeftSpine(d)
    ensures Before(nodes, d) == []
  {
    if d.InLeft? {
      LeftSpineNoBefore(nodes, d.up);
    }
  }

  /** A path that only goes right has no entries after its hole. */
  lemma {:induction false} RightSpineNoAfter<V>(nodes: seq<Node<V>>, d: Ctx)
    requires RightSpine(d)
    ensures After(nodes, d) == []
  {
    if d.InRight? {
      RightSpineNoAfter(nodes, d.up);
    }
  }

  // ---------------------------------------------------------------- transplant

  /**
   * transplant(u, v) on the arena: `v` takes the slot of `u` in u's parent, or becomes
   * the root, and a non-null `v` gets u's parent as its parent.
   */
  function Transplanted<V>(nodes: seq<Node<V>>, u: int, v: int): seq<Node<V>>
    requires 0 <= u < |nodes| && (v == NIL || 0 <= v < |nodes|)
    requires nodes[u].parent == NIL || 0 <= nodes[u].parent < |nodes|
  {
    var up := nodes[u].parent;
    if up == NIL then
      (if v == NIL then nodes else WithParent(nodes, v, NIL))
    else
      var ns := if nodes[up].left == u then WithLeft(nodes, up, v) else WithRight(nodes, up, v);
      if v == NIL then ns else WithParent(ns, v, up)
  }

  /**
   * When `u` hangs in the hole of `c`, transplant relinks the hole's parent to `v`, gives
   * `v` that parent, and leaves every other record as it was.
   */
  lemma TransplantEffect<V>(nodes: seq<Node<V>>, c: Ctx, u: int, v: int)
    requires 0 <= u < |nodes| && nodes[u].parent == HoleParent(c)
    requires c != Top ==> 0 <= HoleParent(c) < |nodes| && (nodes[HoleParent(c)].left == u <==> c.InLeft?)
    requires v == NIL || (0 <= v < |nodes| && v != HoleParent(c))
    ensures |Transplanted(nodes, u, v)| == |nodes|
    ensures c != Top ==> Transplanted(nodes, u, v)[HoleParent(c)] == Relink(nodes[HoleParent(c)], c, v)
    ensures v != NIL ==> Transplanted(nodes, u, v)[v] == nodes[v].(parent := HoleParent(c))
    ensures forall x :: 0 <= x < |nodes| && x != HoleParent(c) && x != v ==> Transplanted(nodes, u, v)[x] == nodes[x]
  {
  }

  /** In a valid tree, the root of a subtree hangs from the hole's parent, in the slot the path names. */
  lemma HoleSlot<V>(nodes: seq<Node<V>>, c: Ctx, s: Tree)
    requires Matches(nodes, Plug(c, s), NIL) && Ordered(nodes, Plug(c, s), None, None) && s.Branch?
    ensures 0 <= s.ptr < |nodes| && nodes[s.ptr].parent == HoleParent(c)
    ensures c != Top ==> 0 <= HoleParent(c) < |nodes| && (nodes[HoleParent(c)].left == s.ptr <==> c.InLeft?)
  {
    PlugDisjoint(nodes, c, s);
    assert s.ptr in Ptrs(s);
    match c
    case Top =>
    case InLeft(_, _, _) =>
    case InRight(up, l, q) =>
      if l.Branch? {
        assert l.ptr in Ptrs(l) && l.ptr in CtxPtrs(c);
      }
  }

  /** TransplantEffect for a subtree of a valid tree and a replacement from inside the hole's bounds. */
  lemma TransplantInTree<V>(nodes: seq<Node<V>>, c: Ctx, s: Tree, v: int)
    requires Matches(nodes, Plug(c, s), NIL) && Ordered(nodes, Plug(c, s), None, None) && s.Branch?
    requires v == NIL || (0 <= v < |nodes| && Inside(Key(nodes, v), HoleLo(nodes, c), HoleHi(nodes, c)))
    ensures 0 <= s.ptr < |nodes| && nodes[s.ptr].parent == HoleParent(c)
    ensures c != Top ==> 0 <= HoleParent(c) < |nodes|
    ensures |Transplanted(nodes, s.ptr, v)| == |nodes|
    ensures c != Top ==> Transplanted(nodes, s.ptr, v)[HoleParent(c)] == Relink(nodes[HoleParent(c)], c, v)
    ensures v != NIL ==> Transplanted(nodes, s.ptr, v)[v] == nodes[v].(parent := HoleParent(c))
    ensures forall x :: 0 <= x < |nodes| && x != HoleParent(c) && x != v ==> Transplanted(nodes, s.ptr, v)[x] == nodes[x]
  {
    HoleSlot(nodes, c, s);
    if c != Top {
      HoleParentKey(nodes, c);
    }
    TransplantEffect(nodes, c, s.ptr, v);
  }

  /** transplant changes links only. */
  lemma TransplantKeepsEntries<V>(nodes: seq<Node<V>>, u: int, v: int)
    requires 0 <= u < |nodes| && (v == NIL || 0 <= v < |nodes|)
    requires nodes[u].parent == NIL || 0 <= nodes[u].parent < |nodes|
    ensures SameEntries(nodes, Transplanted(nodes, u, v))
  {
  }

  // ---------------------------------------------------------------- remove

  /** Dropping one entry of an increasing sequence, given in two groupings. */
  lemma DeleteFrom<V>(es: seq<Entry<int, V>>, es': seq<Entry<int, V>>, b: seq<Entry<int, V>>, e: Entry<int, V>, a: seq<Entry<int, V>>)
    requires es == b + [e] + a && es' == b + a && Increasing(es)
    ensures AsMap(es') == AsMap(es) - {e.key}
  {
    AsMapDelete(b, e, a);
  }

  /** The child part of SpliceLinks: `ch` fits the hole where its parent was. */
  lemma SpliceChild<V>(nodes: seq<Node<V>>, nodes': seq<Node<V>>, c: Ctx, l: Tree, p: int, r: Tree, ch: Tree)
    requires Matches(nodes, Plug(c, Branch(l, p, r)), NIL) && Ordered(nodes, Plug(c, Branch(l, p, r)), None, None)
    requires (l == Leaf && ch == r) || (r == Leaf && ch == l)
    requires |nodes'| == |nodes|
    requires ch.Branch? ==> 0 <= ch.ptr < |nodes| && nodes'[ch.ptr] == nodes[ch.ptr].(parent := HoleParent(c))
    requires forall x :: 0 <= x < |nodes| && x != HoleParent(c) && x != RootPtr(ch) ==> nodes'[x] == nodes[x]
    ensures Matches(nodes', ch, HoleParent(c)) && Ordered(nodes', ch, HoleLo(nodes, c), HoleHi(nodes, c))
    ensures ch.Branch? ==> Inside(Key(nodes, ch.ptr), HoleLo(nodes, c), HoleHi(nodes, c))
  {
    var s := Branch(l, p, r);
    var kp := Key(nodes, p);
    var lo, hi := HoleLo(nodes, c), HoleHi(nodes, c);
    PlugMatches(nodes, c, s);
    PlugOrdered(nodes, c, s);
    if c != Top {
      HoleParentKey(nodes, c);
    }
    if l == Leaf && ch == r {
      SubtreeReparent(nodes, nodes', r, p, HoleParent(c), Some(kp), hi);
      OrderedWeaken(nodes', r, Some(kp), hi, lo, hi);
    } else {
      SubtreeReparent(nodes, nodes', l, p, HoleParent(c), lo, Some(kp));
      OrderedWeaken(nodes', l, lo, Some(kp), lo, hi);
    }
  }

  /**
   * Putting the only child `ch` of the hole's subtree (the other child being empty) in
   * the subtree's place, with the hole's parent relinked and `ch` reparented, keeps the
   * tree linked and ordered.
   */
  lemma SpliceLinks<V>(nodes: seq<Node<V>>, nodes': seq<Node<V>>, c: Ctx, l: Tree, p: int, r: Tree, ch: Tree)
    requires Matches(nodes, Plug(c, Branch(l, p, r)), NIL) && Ordered(nodes, Plug(c, Branch(l, p, r)), None, None)
    requires (l == Leaf && ch == r) || (r == Leaf && ch == l)
    requires |nodes'| == |nodes|
    requires c != Top ==> 0 <= HoleParent(c) < |nodes| && nodes'[HoleParent(c)] == Relink(nodes[HoleParent(c)], c, RootPtr(ch))
    requires ch.Branch? ==> 0 <= ch.ptr < |nodes| && nodes'[ch.ptr] == nodes[ch.ptr].(parent := HoleParent(c))
    requires forall x :: 0 <= x < |nodes| && x != HoleParent(c) && x != RootPtr(ch) ==> nodes'[x] == nodes[x]
    ensures Matches(nodes', Plug(c, ch), NIL) && Ordered(nodes', Plug(c, ch), None, None)
  {
    SpliceChild(nodes, nodes', c, l, p, r, ch);
    PlugReplace(nodes, nodes', c, Branch(l, p, r), ch);
  }

  /** Splicing out the node `p` removes its key from the map. */
  lemma SpliceMap<V>(nodes: seq<Node<V>>, c: Ctx, l: Tree, p: int, r: Tree, ch: Tree)
    requires Matches(nodes, Plug(c, Branch(l, p, r)), NIL) && Ordered(nodes, Plug(c, Branch(l, p, r)), None, None)
    requires (l == Leaf && ch == r) || (r == Leaf && ch == l)
    ensures 0 <= p < |nodes|
    ensures AsMap(Entries(nodes, Plug(c, ch))) == AsMap(Entries(nodes, Plug(c, Branch(l, p, r)))) - {nodes[p].entry.key}
  {
    var s := Branch(l, p, r);
    PlugMatches(nodes, c, s);
    PlugEntries(nodes, c, s);
    PlugEntries(nodes, c, ch);
    OrderedEntries(nodes, Plug(c, s), None, None);
    var es, es' := Entries(nodes, Plug(c, s)), Entries(nodes, Plug(c, ch));
    var b, a, e := Before(nodes, c), After(nodes, c), nodes[p].entry;
    if l == Leaf && ch == r {
      DropFirst(es, es', b, Entries(nodes, s), Entries(nodes, l), e, Entries(nodes, r), a);
    } else {
      DropLast(es, es', b, Entries(nodes, s), Entries(nodes, l), e, Entries(nodes, r), a);
    }
  }

  /** Dropping an entry with nothing before it in its group. */
  lemma DropFirst<V>(es: seq<Entry<int, V>>, es': seq<Entry<int, V>>, b: seq<Entry<int, V>>, s: seq<Entry<int, V>>,
                     x: seq<Entry<int, V>>, e: Entry<int, V>, y: seq<Entry<int, V>>, a: seq<Entry<int, V>>)
    requires es == b + s + a && s == x + [e] + y && x == [] && es' == b + y + a && Increasing(es)
    ensures AsMap(es') == AsMap(es) - {e.key}
  {
    assert es == b + [e] + (y + a);
    assert es' == b + (y + a);
    AsMapDelete(b, e, y + a);
  }

  /** Dropping an entry with nothing after it in its group. */
  lemma DropLast<V>(es: seq<Entry<int, V>>, es': seq<Entry<int, V>>, b: seq<Entry<int, V>>, s: seq<Entry<int, V>>,
                    x: seq<Entry<int, V>>, e: Entry<int, V>, y: seq<Entry<int, V>>, a: seq<Entry<int, V>>)
    requires es == b + s + a && s == x + [e] + y && y == [] && es' == b + x + a && Increasing(es)
    ensures AsMap(es') == AsMap(es) - {e.key}
  {
    assert es == (b + x) + [e] + a;
    AsMapDelete(b + x, e, a);
  }

  /** The leftmost entry of a subtree comes first; cutting it out leaves the rest. */
  lemma SuccessorEntries<V>(nodes: seq<Node<V>>, d: Ctx, y: int, yr: Tree)
    requires 0 <= y < |nodes| && LeftSpine(d)
    ensures Entries(nodes, Plug(d, Branch(Leaf, y, yr))) == [nodes[y].entry] + Entries(nodes, Plug(d, yr))
  {
    LeftSpineNoBefore(nodes, d);
    PlugEntries(nodes, d, Branch(Leaf, y, yr));
    PlugEntries(nodes, d, yr);
    PeelFirst(Entries(nodes, Plug(d, Branch(Leaf, y, yr))), Entries(nodes, Plug(d, yr)), Before(nodes, d),
              Entries(nodes, Branch(Leaf, y, yr)), Entries(nodes, Leaf), nodes[y].entry, Entries(nodes, yr), After(nodes, d));
  }

  /** The regrouping behind SuccessorEntries. */
  lemma PeelFirst<T>(t: seq<T>, t': seq<T>, b: seq<T>, s: seq<T>, x: seq<T>, e: T, y: seq<T>, a: seq<T>)
    requires t == b + s + a && t' == b + y + a && b == [] && s == x + [e] + y && x == []
    ensures t == [e] + t'
  {
    assert t == [e] + (y + a);
  }

  /** The rightmost node `y` at the end of the right spine `d` holds the last entry of the subtree. */
  lemma PredecessorEntries<V>(nodes: seq<Node<V>>, d: Ctx, y: int, yl: Tree)
    requires 0 <= y < |nodes| && RightSpine(d)
    ensures Entries(nodes, Plug(d, Branch(yl, y, Leaf))) == Entries(nodes, Plug(d, yl)) + [nodes[y].entry]
  {
    RightSpineNoAfter(nodes, d);
    PlugEntries(nodes, d, Branch(yl, y, Leaf));
    PlugEntries(nodes, d, yl);
    PeelLast(Entries(nodes, Plug(d, Branch(yl, y, Leaf))), Entries(nodes, Plug(d, yl)), After(nodes, d),
             Entries(nodes, Branch(yl, y, Leaf)), Entries(nodes, yl), nodes[y].entry, Entries(nodes, Leaf), Before(nodes, d));
  }

  /** The regrouping behind PredecessorEntries. */
  lemma PeelLast<T>(t: seq<T>, t': seq<T>, a: seq<T>, s: seq<T>, x: seq<T>, e: T, y: seq<T>, b: seq<T>)
    requires t == b + s + a && t' == b + x + a && a == [] && s == x + [e] + y && y == []
    ensures t == t' + [e]
  {
    assert t == (b + x) + [e];
  }

  /**
   * The in-order successor `y` of a node is the leftmost node of its right subtree:
   * its entry comes first there, and the rest of the subtree is ordered above its key.
   */
  lemma SuccessorBound<V>(nodes: seq<Node<V>>, d: Ctx, y: int, yr: Tree, parent: int, lo: Option<int>, hi: Option<int>)
    requires Matches(nodes, Plug(d, Branch(Leaf, y, yr)), parent) && Ordered(nodes, Plug(d, Branch(Leaf, y, yr)), lo, hi)
    requires LeftSpine(d)
    ensures 0 <= y < |nodes| && Inside(Key(nodes, y), lo, hi)
    ensures Entries(nodes, Plug(d, Branch(Leaf, y, yr))) == [nodes[y].entry] + Entries(nodes, Plug(d, yr))
    ensures Ordered(nodes, Plug(d, yr), Some(Key(nodes, y)), hi)
  {
    var t, t' := Plug(d, Branch(Leaf, y, yr)), Plug(d, yr);
    PlugPtrs(d, Branch(Leaf, y, yr));
    PlugPtrs(d, yr);
    OrderedPtrs(nodes, t, parent, lo, hi);
    assert y in Ptrs(t);
    SuccessorEntries(nodes, d, y, yr);
    TailOrdered(nodes, t, t', nodes[y].entry, lo, hi);
  }

  /** A subtree whose entries are those of an ordered one without its first is ordered above that first key. */
  lemma TailOrdered<V>(nodes: seq<Node<V>>, t: Tree, t': Tree, e: Entry<int, V>, lo: Option<int>, hi: Option<int>)
    requires Ordered(nodes, t, lo, hi) && Entries(nodes, t) == [e] + Entries(nodes, t')
    requires forall x :: x in Ptrs(t') ==> 0 <= x < |nodes|
    ensures Inside(e.key, lo, hi) && Ordered(nodes, t', Some(e.key), hi)
  {
    OrderedEntries(nodes, t, lo, hi);
    TailInside(Entries(nodes, t), e, Entries(nodes, t'), lo, hi);
    EntriesOrdered(nodes, t', Some(e.key), hi);
  }

  /** The sequence side of TailOrdered. */
  lemma TailInside<V>(es: seq<Entry<int, V>>, e: Entry<int, V>, rest: seq<Entry<int, V>>, lo: Option<int>, hi: Option<int>)
    requires Increasing(es) && KeysInside(es, lo, hi) && es == [e] + rest
    ensures Inside(e.key, lo, hi) && Increasing(rest) && KeysInside(rest, Some(e.key), hi)
  {
    assert es == [] + [e] + rest;
    IncreasingSplit([], e, rest);
    assert Inside(e.key, lo, hi) by {
      assert es[0] == e;
    }
    forall j | 0 <= j < |rest|
      ensures Inside(rest[j].key, Some(e.key), hi)
    {
      assert es[1 + j] == rest[j];
    }
  }

  /**
   * Removing `p` whose right subtree `r` has the successor `y` at the end of the left
   * spine `d`: the tree with `y` in p's place and `y` cut out of `r` has lost only p's key.
   */
  lemma SuccessorMap<V>(nodes: seq<Node<V>>, c: Ctx, l: Tree, p: int, d: Ctx, y: int, yr: Tree)
    requires Matches(nodes, Plug(c, Branch(l, p, Plug(d, Branch(Leaf, y, yr)))), NIL)
    requires Ordered(nodes, Plug(c, Branch(l, p, Plug(d, Branch(Leaf, y, yr)))), None, None)
    requires LeftSpine(d)
    ensures 0 <= p < |nodes|
    ensures AsMap(Entries(nodes, Plug(c, Branch(l, y, Plug(d, yr))))) ==
            AsMap(Entries(nodes, Plug(c, Branch(l, p, Plug(d, Branch(Leaf, y, yr)))))) - {nodes[p].entry.key}
  {
    var r, r' := Plug(d, Branch(Leaf, y, yr)), Plug(d, yr);
    var s, s' := Branch(l, p, r), Branch(l, y, r');
    PlugMatches(nodes, c, s);
    PlugOrdered(nodes, c, s);
    SuccessorBound(nodes, d, y, yr, p, Some(Key(nodes, p)), HoleHi(nodes, c));
    PlugEntries(nodes, c, s);
    PlugEntries(nodes, c, s');
    OrderedEntries(nodes, Plug(c, s), None, None);
    DropBeforeSuccessor(Entries(nodes, Plug(c, s)), Entries(nodes, Plug(c, s')), Before(nodes, c), After(nodes, c),
                        Entries(nodes, s), Entries(nodes, s'), Entries(nodes, l), nodes[p].entry, Entries(nodes, r),
                        nodes[y].entry, Entries(nodes, r'));
  }

  /** The sequence side of SuccessorMap. */
  lemma DropBeforeSuccessor<V>(es: seq<Entry<int, V>>, es': seq<Entry<int, V>>, b: seq<Entry<int, V>>, a: seq<Entry<int, V>>,
                               s: seq<Entry<int, V>>, s': seq<Entry<int, V>>, el: seq<Entry<int, V>>, ep: Entry<int, V>,
                               er: seq<Entry<int, V>>, ey: Entry<int, V>, er': seq<Entry<int, V>>)
    requires es == b + s + a && es' == b + s' + a && Increasing(es)
    requires s == el + [ep] + er && er == [ey] + er' && s' == el + [ey] + er'
    ensures AsMap(es') == AsMap(es) - {ep.key}
  {
    assert es == (b + el) + [ep] + ([ey] + er' + a);
    assert es' == (b + el) + ([ey] + er' + a);
    AsMapDelete(b + el, ep, [ey] + er' + a);
  }

  /**
   * Removing `p` whose successor `y` is its right child: `y` takes p's place and adopts
   * p's left subtree; the tree stays linked and ordered.
   */
  lemma AdjacentLinks<V>(nodes: seq<Node<V>>, nodes': seq<Node<V>>, c: Ctx, l: Tree, p: int, y: int, yr: Tree)
    requires Matches(nodes, Plug(c, Branch(l, p, Branch(Leaf, y, yr))), NIL)
    requires Ordered(nodes, Plug(c, Branch(l, p, Branch(Leaf, y, yr))), None, None)
    requires l.Branch? && |nodes'| == |nodes|
    requires c != Top ==> 0 <= HoleParent(c) < |nodes| && nodes'[HoleParent(c)] == Relink(nodes[HoleParent(c)], c, y)
    requires 0 <= y < |nodes| && nodes'[y] == nodes[y].(parent := HoleParent(c), left := l.ptr)
    requires 0 <= l.ptr < |nodes| && nodes'[l.ptr] == nodes[l.ptr].(parent := y)
    requires forall x :: 0 <= x < |nodes| && x != HoleParent(c) && x != y && x != l.ptr ==> nodes'[x] == nodes[x]
    ensures Matches(nodes', Plug(c, Branch(l, y, yr)), NIL) && Ordered(nodes', Plug(c, Branch(l, y, yr)), None, None)
  {
    var s, s' := Branch(l, p, Branch(Leaf, y, yr)), Branch(l, y, yr);
    PlugDisjoint(nodes, c, s);
    if c != Top {
      HoleParentKey(nodes, c);
    }
    var lo, hi := HoleLo(nodes, c), HoleHi(nodes, c);
    var kp, ky := Key(nodes, p), Key(nodes, y);
    assert Inside(ky, Some(kp), hi);
    OrderedPtrs(nodes, l, p, lo, Some(kp));
    SubtreeReparent(nodes, nodes', l, p, y, lo, Some(kp));
    OrderedWeaken(nodes', l, lo, Some(kp), lo, Some(ky));
    SubtreeSame(nodes, nodes', yr, y, Some(ky), hi);
    assert Matches(nodes', s', HoleParent(c)) && Ordered(nodes', s', lo, hi);
    PlugReplace(nodes, nodes', c, s, s');
  }

  /**
   * The second half of removing `p` when its successor `y` lies deeper: `y`, already
   * cut out of the tree, takes p's place with p's two subtrees, whose keys lie below and
   * above its own.
   */
  lemma SubstituteLinks<V>(nodes: seq<Node<V>>, nodes': seq<Node<V>>, c: Ctx, l: Tree, p: int, r: Tree, y: int)
    requires Matches(nodes, Plug(c, Branch(l, p, r)), NIL) && Ordered(nodes, Plug(c, Branch(l, p, r)), None, None)
    requires l.Branch? && r.Branch? && 0 <= y < |nodes|
    requires Inside(Key(nodes, y), HoleLo(nodes, c), HoleHi(nodes, c))
    requires Ordered(nodes, l, HoleLo(nodes, c), Some(Key(nodes, y))) && Ordered(nodes, r, Some(Key(nodes, y)), HoleHi(nodes, c))
    requires |nodes'| == |nodes|
    requires c != Top ==> 0 <= HoleParent(c) < |nodes| && nodes'[HoleParent(c)] == Relink(nodes[HoleParent(c)], c, y)
    requires nodes'[y] == nodes[y].(parent := HoleParent(c), left := l.ptr, right := r.ptr)
    requires 0 <= l.ptr < |nodes| && nodes'[l.ptr] == nodes[l.ptr].(parent := y)
    requires 0 <= r.ptr < |nodes| && nodes'[r.ptr] == nodes[r.ptr].(parent := y)
    requires forall x :: 0 <= x < |nodes| && x != HoleParent(c) && x != y && x != l.ptr && x != r.ptr ==> nodes'[x] == nodes[x]
    ensures Matches(nodes', Plug(c, Branch(l, y, r)), NIL) && Ordered(nodes', Plug(c, Branch(l, y, r)), None, None)
  {
    var s, s' := Branch(l, p, r), Branch(l, y, r);
    PlugDisjoint(nodes, c, s);
    if c != Top {
      HoleParentKey(nodes, c);
    }
    var lo, hi := HoleLo(nodes, c), HoleHi(nodes, c);
    var kp, ky := Key(nodes, p), Key(nodes, y);
    OrderedPtrs(nodes, l, p, lo, Some(ky));
    OrderedPtrs(nodes, r, p, Some(ky), hi);
    SubtreeReparent(nodes, nodes', l, p, y, lo, Some(ky));
    SubtreeReparent(nodes, nodes', r, p, y, Some(ky), hi);
    assert Matches(nodes', s', HoleParent(c)) && Ordered(nodes', s', lo, hi);
    PlugReplace(nodes, nodes', c, s, s');
  }

  /** The links around the node `p` of a valid tree. */
  lemma HoleLinks<V>(nodes: seq<Node<V>>, c: Ctx, l: Tree, p: int, r: Tree)
    requires Matches(nodes, Plug(c, Branch(l, p, r)), NIL) && Ordered(nodes, Plug(c, Branch(l, p, r)), None, None)
    ensures 0 <= p < |nodes| && p in Ptrs(Plug(c, Branch(l, p, r)))
    ensures nodes[p].parent == HoleParent(c) && nodes[p].left == RootPtr(l) && nodes[p].right == RootPtr(r)
    ensures c != Top ==> 0 <= HoleParent(c) < |nodes| && HoleParent(c) in Ptrs(Plug(c, Branch(l, p, r))) &&
                         HoleParent(c) != p && (nodes[HoleParent(c)].left == p <==> c.InLeft?)
  {
    var s := Branch(l, p, r);
    HoleSlot(nodes, c, s);
    PlugDisjoint(nodes, c, s);
    PlugPtrs(c, s);
    assert p in Ptrs(s);
    HoleParentIn(c);
  }

  lemma HoleParentIn(c: Ctx)
    ensures c != Top ==> HoleParent(c) in CtxPtrs(c)
  {
  }

  /** The root of the left subtree of `p` is in the tree and differs from `p`, the right root and the hole's parent. */
  lemma LeftChildDistinct<V>(nodes: seq<Node<V>>, c: Ctx, l: Tree, p: int, r: Tree)
    requires Matches(nodes, Plug(c, Branch(l, p, r)), NIL) && Ordered(nodes, Plug(c, Branch(l, p, r)), None, None)
    requires l.Branch?
    ensures 0 <= l.ptr < |nodes| && l.ptr in Ptrs(Plug(c, Branch(l, p, r)))
    ensures l.ptr != p && l.ptr != HoleParent(c)
  {
    var s := Branch(l, p, r);
    InPlug(c, s, l.ptr);
    HoleView(nodes, c, s);
    LeftFacts(nodes, l, p, r, HoleParent(c), HoleLo(nodes, c), HoleHi(nodes, c));
  }

  /** The root of the right subtree of `p` is in the tree and differs from `p` and the hole's parent. */
  lemma RightChildDistinct<V>(nodes: seq<Node<V>>, c: Ctx, l: Tree, p: int, r: Tree)
    requires Matches(nodes, Plug(c, Branch(l, p, r)), NIL) && Ordered(nodes, Plug(c, Branch(l, p, r)), None, None)
    requires r.Branch?
    ensures 0 <= r.ptr < |nodes| && r.ptr in Ptrs(Plug(c, Branch(l, p, r)))
    ensures r.ptr != p && r.ptr != HoleParent(c)
  {
    var s := Branch(l, p, r);
    InPlug(c, s, r.ptr);
    HoleView(nodes, c, s);
    RightFacts(nodes, l, p, r, HoleParent(c), HoleLo(nodes, c), HoleHi(nodes, c));
  }

  /** The two children of `p` are different nodes. */
  lemma SiblingsInTree<V>(nodes: seq<Node<V>>, c: Ctx, l: Tree, p: int, r: Tree)
    requires Matches(nodes, Plug(c, Branch(l, p, r)), NIL) && Ordered(nodes, Plug(c, Branch(l, p, r)), None, None)
    requires r.Branch?
    ensures r.ptr != RootPtr(l)
  {
    HoleView(nodes, c, Branch(l, p, r));
    SiblingsDistinct(nodes, l, p, r, HoleParent(c), HoleLo(nodes, c), HoleHi(nodes, c));
  }

  /** The subtree in the hole is linked to, and ordered within the bounds set by, the path. */
  lemma HoleView<V>(nodes: seq<Node<V>>, c: Ctx, s: Tree)
    requires Matches(nodes, Plug(c, s), NIL) && Ordered(nodes, Plug(c, s), None, None)
    ensures Matches(nodes, s, HoleParent(c)) && Ordered(nodes, s, HoleLo(nodes, c), HoleHi(nodes, c))
    ensures HoleParent(c) == NIL || !Inside(Key(nodes, HoleParent(c)), HoleLo(nodes, c), HoleHi(nodes, c))
  {
    PlugMatches(nodes, c, s);
    PlugOrdered(nodes, c, s);
    if c != Top {
      HoleParentKey(nodes, c);
    }
  }

  lemma LeftFacts<V>(nodes: seq<Node<V>>, l: Tree, p: int, r: Tree, parent: int, lo: Option<int>, hi: Option<int>)
    requires Matches(nodes, Branch(l, p, r), parent) && Ordered(nodes, Branch(l, p, r), lo, hi)
    requires parent == NIL || !Inside(Key(nodes, parent), lo, hi)
    requires l.Branch?
    ensures 0 <= l.ptr < |nodes| && l.ptr != p && l.ptr != parent
  {
  }

  lemma RightFacts<V>(nodes: seq<Node<V>>, l: Tree, p: int, r: Tree, parent: int, lo: Option<int>, hi: Option<int>)
    requires Matches(nodes, Branch(l, p, r), parent) && Ordered(nodes, Branch(l, p, r), lo, hi)
    requires parent == NIL || !Inside(Key(nodes, parent), lo, hi)
    requires r.Branch?
    ensures 0 <= r.ptr < |nodes| && r.ptr != p && r.ptr != parent
  {
  }

  lemma SiblingsDistinct<V>(nodes: seq<Node<V>>, l: Tree, p: int, r: Tree, parent: int, lo: Option<int>, hi: Option<int>)
    requires Matches(nodes, Branch(l, p, r), parent) && Ordered(nodes, Branch(l, p, r), lo, hi) && r.Branch?
    ensures r.ptr != RootPtr(l)
  {
  }

  /** The nodes of the hole's subtree are nodes of the tree. */
  lemma InPlug(c: Ctx, s: Tree, x: int)
    requires s.Branch? && (x == s.ptr || (s.left.Branch? && x == s.left.ptr) || (s.right.Branch? && x == s.right.ptr))
    ensures x in Ptrs(Plug(c, s))
  {
    PlugPtrs(c, s);
  }

  /** Cutting `y` out of the tree with `yr` in its place leaves `y` outside the tree. */
  lemma CutOut<V>(nodes: seq<Node<V>>, c: Ctx, y: int, yr: Tree)
    requires Matches(nodes, Plug(c, Branch(Leaf, y, yr)), NIL) && Ordered(nodes, Plug(c, Branch(Leaf, y, yr)), None, None)
    ensures y !in Ptrs(Plug(c, yr))
  {
    PlugDisjoint(nodes, c, Branch(Leaf, y, yr));
    assert y in Ptrs(Branch(Leaf, y, yr));
    PlugDisjoint(nodes, InRight(c, Leaf, y), yr);
    assert y in CtxPtrs(InRight(c, Leaf, y));
    PlugPtrs(c, yr);
  }

  /**
   * remove, two children, successor `y` the right child of `p`: transplant(p, y), then
   * y.setLeftChild(l) and l.setParent(y) leave a linked, ordered tree with `y` in p's place.
   */
  lemma AdjacentSteps<V>(n0: seq<Node<V>>, n1: seq<Node<V>>, n2: seq<Node<V>>, n3: seq<Node<V>>,
                         c: Ctx, l: Tree, p: int, y: int, yr: Tree)
    requires Matches(n0, Plug(c, Branch(l, p, Branch(Leaf, y, yr))), NIL)
    requires Ordered(n0, Plug(c, Branch(l, p, Branch(Leaf, y, yr))), None, None)
    requires l.Branch?
    requires 0 <= p < |n0| && (n0[p].parent == NIL || 0 <= n0[p].parent < |n0|) && 0 <= y < |n0|
    requires n1 == Transplanted(n0, p, y)
    requires 0 <= l.ptr < |n1| && n2 == WithLeft(n1, y, l.ptr)
    requires n3 == WithParent(n2, l.ptr, y)
    ensures Matches(n3, Plug(c, Branch(l, y, yr)), NIL) && Ordered(n3, Plug(c, Branch(l, y, yr)), None, None)
    ensures SameEntries(n0, n3)
  {
    HoleLinks(n0, c, l, p, Branch(Leaf, y, yr));
    LeftChildDistinct(n0, c, l, p, Branch(Leaf, y, yr));
    RightChildDistinct(n0, c, l, p, Branch(Leaf, y, yr));
    SiblingsInTree(n0, c, l, p, Branch(Leaf, y, yr));
    TransplantEffect(n0, c, p, y);
    AdjacentLinks(n0, n3, c, l, p, y, yr);
  }

  /**
   * remove, two children, successor `y` deeper down and already cut out: y.setRightChild(r),
   * r.setParent(y), transplant(p, y), y.setLeftChild(l) and l.setParent(y) leave a linked,
   * ordered tree with `y` in p's place.
   */
  lemma FarSteps<V>(n1: seq<Node<V>>, n2: seq<Node<V>>, n3: seq<Node<V>>, n4: seq<Node<V>>, n5: seq<Node<V>>,
                    n6: seq<Node<V>>, c: Ctx, l: Tree, p: int, r: Tree, y: int)
    requires Matches(n1, Plug(c, Branch(l, p, r)), NIL) && Ordered(n1, Plug(c, Branch(l, p, r)), None, None)
    requires l.Branch? && r.Branch? && 0 <= y < |n1| && y !in Ptrs(Plug(c, Branch(l, p, r)))
    requires Inside(Key(n1, y), HoleLo(n1, c), HoleHi(n1, c))
    requires Ordered(n1, l, HoleLo(n1, c), Some(Key(n1, y))) && Ordered(n1, r, Some(Key(n1, y)), HoleHi(n1, c))
    requires 0 <= r.ptr < |n1| && n2 == WithRight(n1, y, r.ptr)
    requires n3 == WithParent(n2, r.ptr, y)
    requires 0 <= p < |n3| && (n3[p].parent == NIL || 0 <= n3[p].parent < |n3|) && n4 == Transplanted(n3, p, y)
    requires 0 <= l.ptr < |n4| && n5 == WithLeft(n4, y, l.ptr)
    requires n6 == WithParent(n5, l.ptr, y)
    ensures Matches(n6, Plug(c, Branch(l, y, r)), NIL) && Ordered(n6, Plug(c, Branch(l, y, r)), None, None)
    ensures SameEntries(n1, n6)
  {
    HoleLinks(n1, c, l, p, r);
    LeftChildDistinct(n1, c, l, p, r);
    RightChildDistinct(n1, c, l, p, r);
    SiblingsInTree(n1, c, l, p, r);
    assert n3[p] == n1[p];
    assert c != Top ==> n3[HoleParent(c)] == n1[HoleParent(c)];
    TransplantEffect(n3, c, p, y);
    SubstituteLinks(n1, n6, c, l, p, r, y);
  }

  /** The roots of the two subtrees of an ordered node lie inside its bounds. */
  lemma ChildInside<V>(nodes: seq<Node<V>>, l: Tree, p: int, r: Tree, lo: Option<int>, hi: Option<int>)
    requires Ordered(nodes, Branch(l, p, r), lo, hi)
    ensures l.Branch? ==> Inside(Key(nodes, l.ptr), lo, hi)
    ensures r.Branch? ==> Inside(Key(nodes, r.ptr), lo, hi)
  {
  }

  /**
   * remove, at most one child: transplant(p, ch) leaves the tree with the only child `ch`
   * (possibly empty) in p's place linked and ordered, with the same entries in every record.
   */
  lemma SpliceSteps<V>(n0: seq<Node<V>>, n1: seq<Node<V>>, c: Ctx, l: Tree, p: int, r: Tree, ch: Tree)
    requires Matches(n0, Plug(c, Branch(l, p, r)), NIL) && Ordered(n0, Plug(c, Branch(l, p, r)), None, None)
    requires (l == Leaf && ch == r) || (r == Leaf && ch == l)
    requires 0 <= p < |n0| && (n0[p].parent == NIL || 0 <= n0[p].parent < |n0|)
    requires RootPtr(ch) == NIL || 0 <= RootPtr(ch) < |n0|
    requires n1 == Transplanted(n0, p, RootPtr(ch))
    ensures Matches(n1, Plug(c, ch), NIL) && Ordered(n1, Plug(c, ch), None, None)
    ensures SameEntries(n0, n1)
  {
    HoleView(n0, c, Branch(l, p, r));
    ChildInside(n0, l, p, r, HoleLo(n0, c), HoleHi(n0, c));
    TransplantInTree(n0, c, Branch(l, p, r), RootPtr(ch));
    TransplantKeepsEntries(n0, p, RootPtr(ch));
    SpliceLinks(n0, n1, c, l, p, r, ch);
  }

  /**
   * remove, two children, successor `y` deeper down: once `y` is cut out of p's right
   * subtree (arena `n1`), `y` is outside the tree and its key separates p's subtrees.
   */
  lemma FarPrep<V>(n0: seq<Node<V>>, n1: seq<Node<V>>, c: Ctx, l: Tree, p: int, d: Ctx, y: int, yr: Tree)
    requires Matches(n0, Plug(c, Branch(l, p, Plug(d, Branch(Leaf, y, yr)))), NIL)
    requires Ordered(n0, Plug(c, Branch(l, p, Plug(d, Branch(Leaf, y, yr)))), None, None)
    requires LeftSpine(d) && d != Top && SameEntries(n0, n1)
    ensures Plug(d, yr).Branch? && 0 <= y < |n1| && y !in Ptrs(Plug(c, Branch(l, p, Plug(d, yr))))
    ensures Inside(Key(n1, y), HoleLo(n1, c), HoleHi(n1, c))
    ensures Ordered(n1, l, HoleLo(n1, c), Some(Key(n1, y)))
    ensures Ordered(n1, Plug(d, yr), Some(Key(n1, y)), HoleHi(n1, c))
  {
    var r := Plug(d, Branch(Leaf, y, yr));
    var s := Branch(l, p, r);
    HoleView(n0, c, s);
    var lo, hi, kp := HoleLo(n0, c), HoleHi(n0, c), Key(n0, p);
    SuccessorBound(n0, d, y, yr, p, Some(kp), hi);
    var ky := Key(n0, y);
    OrderedWeaken(n0, l, lo, Some(kp), lo, Some(ky));
    SameEntriesTree(n0, n1, l, lo, Some(ky));
    SameEntriesTree(n0, n1, Plug(d, yr), Some(ky), hi);
    SameEntriesCtx(n0, n1, c);
    assert Key(n1, y) == ky;
    PlugRoot(d, yr, Branch(Leaf, y, yr));
    var c2 := Compose(InRight(c, l, p), d);
    PlugCompose(InRight(c, l, p), d, Branch(Leaf, y, yr));
    PlugCompose(InRight(c, l, p), d, yr);
    CutOut(n0, c2, y, yr);
  }

  /** The first entry of an increasing sequence holds the least key of its map. */
  lemma FirstIsMin<V>(es: seq<Entry<int, V>>)
    requires Increasing(es) && |es| > 0
    ensures es[0].key in AsMap(es) && AsMap(es)[es[0].key] == es[0].value
    ensures forall k :: k in AsMap(es) ==> es[0].key <= k
  {
    assert es == [] + [es[0]] + es[1..];
    AsMapSplit([], es[0], es[1..]);
    forall k | k in AsMap(es)
      ensures es[0].key <= k
    {
      AsMapKeys(es, k);
    }
  }

  /** The last entry of an increasing sequence holds the greatest key of its map. */
  lemma LastIsMax<V>(es: seq<Entry<int, V>>)
    requires Increasing(es) && |es| > 0
    ensures es[|es| - 1].key in AsMap(es) && AsMap(es)[es[|es| - 1].key] == es[|es| - 1].value
    ensures forall k :: k in AsMap(es) ==> k <= es[|es| - 1].key
  {
    var n := |es| - 1;
    assert es == es[..n] + [es[n]] + [];
    AsMapSplit(es[..n], es[n], []);
    forall k | k in AsMap(es)
      ensures k <= es[n].key
    {
      AsMapKeys(es, k);
    }
  }

  /** A successor below the right child of `p` does not have `p` as its parent. */
  lemma DeepSuccessor<V>(nodes: seq<Node<V>>, c: Ctx, l: Tree, p: int, d: Ctx, y: int, yr: Tree)
    requires Matches(nodes, Plug(c, Branch(l, p, Plug(d, Branch(Leaf, y, yr)))), NIL)
    requires Ordered(nodes, Plug(c, Branch(l, p, Plug(d, Branch(Leaf, y, yr)))), None, None)
    ensures d != Top ==> HoleParent(Compose(InRight(c, l, p), d)) != p
  {
    if d != Top {
      var r := Plug(d, Branch(Leaf, y, yr));
      HoleParentIn(d);
      PlugPtrs(d, Branch(Leaf, y, yr));
      PlugDisjoint(nodes, InRight(c, l, p), r);
      assert p in CtxPtrs(InRight(c, l, p));
      assert HoleParent(Compose(InRight(c, l, p), d)) == HoleParent(d) by {
        match d
        case InLeft(_, _, _) =>
        case InRight(_, _, _) =>
      }
    }
  }
}

=== FILE: bst_sorted_map.dfy ===
/**
 * BSTSortedMap together with the classes it inherits from: Tree (root and size),
 * BTree (height, spine walks, transplant) and the BTNode operations it performs on its
 * nodes. The nodes live in an arena (see BinaryTree): a node reference is an index into
 * `nodes`, and the ghost `shape` records which records form the tree.
 *
 * `Valid()` says the links agree with the shape and the keys are in search-tree order;
 * `Contents()` is the map the in-order entries stand for. The size field is kept apart:
 * BSTSortedMap's own put and remove never change it, so `Counted()` is not part of the
 * invariant.
 */
module BstSortedMap {
  import opened Wrappers
  import opened MapEntry
  import opened BinaryTree

  class BstSortedMap<V> {
    /** The node records (BTNode objects); a reference is an index into this sequence. */
    var nodes: seq<Node<V>>
    /** Tree.root, NIL for null. */
    var root: int
    /** Tree.currentSize. */
    var currentSize: int
    /** Which records form the tree, and where. */
    ghost var shape: Tree

    ghost predicate Valid()
      reads this
    {
      Matches(nodes, shape, NIL) && root == RootPtr(shape) && Ordered(nodes, shape, None, None)
    }

    /** The map the tree stands for. */
    ghost function Contents(): map<int, V>
      reads this
    {
      AsMap(Entries(nodes, shape))
    }

    /** The size field counts the nodes of the tree. */
    ghost predicate Counted()
      reads this
    {
      currentSize == BinaryTree.Size(shape)
    }

    /** Tree(): a null root and size 0. */
    constructor ()
      ensures Valid() && Counted() && Contents() == map[]
      ensures nodes == [] && root == NIL && currentSize == 0
    {
      nodes := [];
      root := NIL;
      currentSize := 0;
      shape := Leaf;
    }

    // ------------------------------------------------------------ Tree queries

    /** isEmpty: reads only the size field. */
    function IsEmpty(): bool
      reads this
    {
      currentSize == 0
    }

    /** size. */
    function Size(): int
      reads this
    {
      currentSize
    }

    /** root(). */
    function Root(): int
      reads this
    {
      root
    }

    /** A valid tree has one map key per node. */
    lemma ContentsSize()
      requires Valid()
      ensures |Contents()| == BinaryTree.Size(shape)
    {
      EntriesSize(nodes, shape, NIL);
      OrderedEntries(nodes, shape, None, None);
      IncreasingCard(Entries(nodes, shape));
    }

    /** When the size is kept, isEmpty and size tell the truth about the map. */
    lemma QueriesWhenCounted()
      requires Valid() && Counted()
      ensures Size() == |Contents()|
      ensures IsEmpty() <==> Contents() == map[]
      ensures IsEmpty() <==> Root() == NIL
    {
      ContentsSize();
    }

    /**
     * A write to the height or colour field of one record: the links, and with them the
     * tree and the map, stay as they were.
     */
    method SetLabel(p: int, height: int, color: Color)
      requires 0 <= p < |nodes|
      modifies this
      ensures nodes == old(nodes)[p := old(nodes)[p].(height := height, color := color)]
      ensures root == old(root) && currentSize == old(currentSize) && shape == old(shape)
      ensures SameLinks(old(nodes), nodes) && Entries(nodes, shape) == old(Entries(nodes, shape))
      ensures old(Valid()) ==> Valid() && Contents() == old(Contents())
    {
      ghost var n0 := nodes;
      nodes := nodes[p := nodes[p].(height := height, color := color)];
      assert SameLinks(n0, nodes);
      SameLinksTree(n0, nodes, shape, NIL);
      SameEntriesTree(n0, nodes, shape, None, None);
    }

    // ------------------------------------------------------------ BTNode operations

    /** isLeaf: both children null. */
    function IsLeaf(p: int): bool
      requires 0 <= p < |nodes|
      reads this
    {
      nodes[p].left == NIL && nodes[p].right == NIL
    }

    /** isRoot: a null parent. */
    function IsRoot(p: int): bool
      requires 0 <= p < |nodes|
      reads this
    {
      nodes[p].parent == NIL
    }

    /** In a valid tree a node is a leaf exactly when its subtree is that node alone. */
    lemma LeafIffAlone(c: Ctx, l: Tree, p: int, r: Tree)
      requires Valid() && shape == Plug(c, Branch(l, p, r))
      ensures 0 <= p < |nodes|
      ensures IsLeaf(p) <==> l == Leaf && r == Leaf
    {
      PlugDisjoint(nodes, c, Branch(l, p, r));
      if l.Branch? {
        assert 0 <= l.ptr < |nodes|;
      }
      if r.Branch? {
        assert 0 <= r.ptr < |nodes|;
      }
    }

    /** In a valid tree a node is the root exactly when nothing lies above it. */
    lemma RootIffTop(c: Ctx, l: Tree, p: int, r: Tree)
      requires Valid() && shape == Plug(c, Branch(l, p, r))
      ensures 0 <= p < |nodes|
      ensures IsRoot(p) <==> c == Top
      ensures IsRoot(p) <==> p == root
    {
      PlugDisjoint(nodes, c, Branch(l, p, r));
      if c != Top {
        assert 0 <= HoleParent(c) < |nodes| by {
          match c
          case InLeft(_, _, _) =>
          case InRight(_, _, _) =>
        }
        PlugRoot(c, Branch(l, p, r), Leaf);
        PlugPtrs(c, Leaf);
        assert root in CtxPtrs(c);
      }
    }

    /** setElement: only the element of `p` changes. */
    method SetElement(p: int, e: Entry<int, V>)
      requires 0 <= p < |nodes|
      modifies this
      ensures nodes == old(nodes)[p := old(nodes)[p].(entry := e)]
      ensures |nodes| == |old(nodes)|
      ensures root == old(root) && currentSize == old(currentSize) && shape == old(shape)
    {
      nodes := nodes[p := nodes[p].(entry := e)];
    }

    /** setLeftChild: the left link of `p`, and the parent link of a non-null child. */
    method SetLeftChild(p: int, n: int)
      requires 0 <= p < |nodes| && (n == NIL || 0 <= n < |nodes|)
      modifies this
      ensures nodes == WithLeft(old(nodes), p, n)
      ensures |nodes| == |old(nodes)|
      ensures root == old(root) && currentSize == old(currentSize) && shape == old(shape)
    {
      nodes := nodes[p := nodes[p].(left := n)];
      if n != NIL {
        SetParent(n, p);
      }
    }

    /** setRightChild, the mirror image. */
    method SetRightChild(p: int, n: int)
      requires 0 <= p < |nodes| && (n == NIL || 0 <= n < |nodes|)
      modifies this
      ensures nodes == WithRight(old(nodes), p, n)
      ensures |nodes| == |old(nodes)|
      ensures root == old(root) && currentSize == old(currentSize) && shape == old(shape)
    {
      nodes := nodes[p := nodes[p].(right := n)];
      if n != NIL {
        SetParent(n, p);
      }
    }

    /** setParent. */
    method SetParent(p: int, q: int)
      requires 0 <= p < |nodes|
      modifies this
      ensures nodes == WithParent(old(nodes), p, q)
      ensures |nodes| == |old(nodes)|
      ensures root == old(root) && currentSize == old(currentSize) && shape == old(shape)
    {
      nodes := nodes[p := nodes[p].(parent := q)];
    }

    /**
     * The four-argument BTNode constructor with its null checks in place: the record is
     * added to the arena and every non-null child is made to point back at it.
     */
    method NewNode(e: Entry<int, V>, parent: int, left: int, right: int) returns (q: int)
      requires left == NIL || 0 <= left < |nodes|
      requires right == NIL || 0 <= right < |nodes|
      modifies this
      ensures q == |old(nodes)|
      ensures nodes == Adopted(old(nodes) + [Node(e, parent, left, right, 0, Red)], q)
      ensures root == old(root) && currentSize == old(currentSize) && shape == old(shape)
    {
      q := |nodes|;
      nodes := nodes + [Node(e, parent, left, right, 0, Red)];
      if left != NIL {
        SetParent(left, q);
      }
      if right != NIL {
        SetParent(right, q);
      }
    }

    /** createNode: a childless node under `parent`. */
    method CreateNode(e: Entry<int, V>, parent: int) returns (q: int)
      modifies this
      ensures q == |old(nodes)| && nodes == old(nodes) + [Node(e, parent, NIL, NIL, 0, Red)]
      ensures root == old(root) && currentSize == old(currentSize) && shape == old(shape)
    {
      q := NewNode(e, parent, NIL, NIL);
    }

    /**
     * The four-argument BTNode constructor as written: after storing the four fields it
     * sets the parent of the left child and then of the right child without testing
     * either for null. A null left child fails before any existing record is touched; a
     * null right child fails after the left child has been re-parented.
     */
    method NewNodeAsWritten(e: Entry<int, V>, parent: int, left: int, right: int) returns (r: Result<int>)
      requires left == NIL || 0 <= left < |nodes|
      requires right == NIL || 0 <= right < |nodes|
      modifies this
      ensures left == NIL ==> r == Err(NullPointer) && nodes == old(nodes) + [Node(e, parent, left, right, 0, Red)]
      ensures left != NIL && right == NIL ==>
        r == Err(NullPointer) &&
        nodes == WithParent(old(nodes) + [Node(e, parent, left, right, 0, Red)], left, |old(nodes)|)
      ensures left != NIL && right != NIL ==>
        r == Ok(|old(nodes)|) && nodes == Adopted(old(nodes) + [Node(e, parent, left, right, 0, Red)], |old(nodes)|)
      ensures root == old(root) && currentSize == old(currentSize) && shape == old(shape)
    {
      var q := |nodes|;
      nodes := nodes + [Node(e, parent, left, right, 0, Red)];
      if left == NIL {
        return Err(NullPointer);
      }
      SetParent(left, q);
      if right == NIL {
        return Err(NullPointer);
      }
      SetParent(right, q);
      r := Ok(q);
    }

    /**
     * createNode as written: `new BTNode(entry, parent)` passes two null children to the
     * four-argument constructor, so it never returns a node.
     */
    method CreateNodeAsWritten(e: Entry<int, V>, parent: int) returns (r: Result<int>)
      modifies this
      ensures r == Err(NullPointer)
      ensures root == old(root) && currentSize == old(currentSize) && shape == old(shape)
    {
      r := NewNodeAsWritten(e, parent, NIL, NIL);
    }

    // ------------------------------------------------------------ BTree operations

    /**
     * transplant(u, v): `v` takes the child slot of u's parent that held `u`, or becomes
     * the root when `u` has no parent; a non-null `v` gets u's parent. The record of `u`
     * itself is not written.
     */
    method Transplant(u: int, v: int)
      requires 0 <= u < |nodes| && (v == NIL || 0 <= v < |nodes|)
      requires nodes[u].parent == NIL || 0 <= nodes[u].parent < |nodes|
      modifies this
      ensures nodes == Transplanted(old(nodes), u, v)
      ensures |nodes| == |old(nodes)|
      ensures root == if old(nodes)[u].parent == NIL then v else old(root)
      ensures u != v && u != old(nodes)[u].parent ==> nodes[u] == old(nodes)[u]
      ensures currentSize == old(currentSize) && shape == old(shape) && SameLabels(old(nodes), nodes)
    {
      var uParent := nodes[u].parent;
      if IsRoot(u) {
        root := v;
        if v != NIL {
          SetParent(v, NIL);
        }
      } else {
        if nodes[uParent].left == u {
          SetLeftChild(uParent, v);
        } else {
          SetRightChild(uParent, v);
        }
        if v != NIL {
          SetParent(v, uParent);
        }
      }
    }

    /**
     * BTNode.getHeight of the node `p`, the root of the subtree `t`: one more than the
     * taller child, a missing child counting as 0, so a leaf has height 1.
     */
    function NodeHeight(p: int, ghost t: Tree, ghost parent: int): (h: int)
      requires Matches(nodes, t, parent) && t.Branch? && p == t.ptr
      reads this
      ensures h == Height(t) && 1 <= h
      decreases t
    {
      assert Matches(nodes, t.left, p) && Matches(nodes, t.right, p);
      var lh := if nodes[p].left == NIL then 0 else NodeHeight(nodes[p].left, t.left, p);
      var rh := if nodes[p].right == NIL then 0 else NodeHeight(nodes[p].right, t.right, p);
      1 + if lh >= rh then lh else rh
    }

    /**
     * BTree.getHeight: 0 when the size field says the tree is empty, otherwise the height
     * of the root, which a null root cannot give. While the size field counts the nodes,
     * the result is the height of the tree, at most the number of keys.
     */
    function GetHeight(): (r: Result<int>)
      requires Valid()
      reads this
      ensures IsEmpty() ==> r == Ok(0)
      ensures !IsEmpty() && root == NIL ==> r == Err(NullPointer)
      ensures !IsEmpty() && root != NIL ==> r == Ok(Height(shape))
      ensures Counted() ==> r == Ok(Height(shape)) && Height(shape) <= |Contents()|
    {
      ContentsSize();
      HeightBounds(shape);
      if IsEmpty() then Ok(0)
      else if root == NIL then Err(NullPointer)
      else Ok(NodeHeight(root, shape, NIL))
    }

    /**
     * furtherLeftElement(start): follows left links from `start` to a node without a left
     * child, or gives NIL for a NIL start. `t` is the subtree rooted at `start`, hung from
     * the path `c`; the node found ends the left spine `d` of `t`.
     */
    method FurtherLeftFrom(start: int, ghost c: Ctx, ghost t: Tree) returns (node: int, ghost d: Ctx, ghost yr: Tree)
      requires Valid() && shape == Plug(c, t) && start == RootPtr(t)
      ensures node == NIL <==> t == Leaf
      ensures node != NIL ==> t == Plug(d, Branch(Leaf, node, yr)) && LeftSpine(d)
      ensures node != NIL ==> 0 <= node < |nodes| && nodes[node].left == NIL &&
                              nodes[node].parent == HoleParent(Compose(c, d))
    {
      d, yr := Top, Leaf;
      PlugMatches(nodes, c, t);
      if start == NIL {
        return start, d, yr;
      }
      node := start;
      ghost var s := t;
      while nodes[node].left != NIL
        invariant s.Branch? && node == s.ptr && t == Plug(d, s) && LeftSpine(d)
        invariant Matches(nodes, s, HoleParent(Compose(c, d)))
        decreases BinaryTree.Size(s)
      {
        d := InLeft(d, node, s.right);
        s := s.left;
        node := nodes[node].left;
      }
      yr := s.right;
    }

    /** furtherRightElement(start), the mirror image. */
    method FurtherRightFrom(start: int, ghost c: Ctx, ghost t: Tree) returns (node: int, ghost d: Ctx, ghost yl: Tree)
      requires Valid() && shape == Plug(c, t) && start == RootPtr(t)
      ensures node == NIL <==> t == Leaf
      ensures node != NIL ==> t == Plug(d, Branch(yl, node, Leaf)) && RightSpine(d)
      ensures node != NIL ==> 0 <= node < |nodes| && nodes[node].right == NIL &&
                              nodes[node].parent == HoleParent(Compose(c, d))
    {
      d, yl := Top, Leaf;
      PlugMatches(nodes, c, t);
      if start == NIL {
        return start, d, yl;
      }
      node := start;
      ghost var s := t;
      while nodes[node].right != NIL
        invariant s.Branch? && node == s.ptr && t == Plug(d, s) && RightSpine(d)
        invariant Matches(nodes, s, HoleParent(Compose(c, d)))
        decreases BinaryTree.Size(s)
      {
        d := InRight(d, s.left, node);
        s := s.right;
        node := nodes[node].right;
      }
      yl := s.left;
    }

    /**
     * furtherLeftElement() of the tree: NIL when the size field says the tree is empty;
     * otherwise the walk starts at the root, and a null root is dereferenced.
     */
    method FurtherLeft() returns (r: Result<int>, ghost d: Ctx, ghost yr: Tree)
      requires Valid()
      ensures IsEmpty() ==> r == Ok(NIL)
      ensures !IsEmpty() && root == NIL ==> r == Err(NullPointer)
      ensures !IsEmpty() && root != NIL ==>
        r.Ok? && 0 <= r.value < |nodes| && nodes[r.value].left == NIL &&
        shape == Plug(d, Branch(Leaf, r.value, yr)) && LeftSpine(d)
    {
      d, yr := Top, Leaf;
      if IsEmpty() {
        return Ok(NIL), d, yr;
      }
      if root == NIL {
        return Err(NullPointer), d, yr;
      }
      var node;
      node, d, yr := FurtherLeftFrom(root, Top, shape);
      r := Ok(node);
    }

    /** furtherRightElement() of the tree, the mirror image. */
    method FurtherRight() returns (r: Result<int>, ghost d: Ctx, ghost yl: Tree)
      requires Valid()
      ensures IsEmpty() ==> r == Ok(NIL)
      ensures !IsEmpty() && root == NIL ==> r == Err(NullPointer)
      ensures !IsEmpty() && root != NIL ==>
        r.Ok? && 0 <= r.value < |nodes| && nodes[r.value].right == NIL &&
        shape == Plug(d, Branch(yl, r.value, Leaf)) && RightSpine(d)
    {
      d, yl := Top, Leaf;
      if IsEmpty() {
        return Ok(NIL), d, yl;
      }
      if root == NIL {
        return Err(NullPointer), d, yl;
      }
      var node;
      node, d, yl := FurtherRightFrom(root, Top, shape);
      r := Ok(node);
    }

    /**
     * minEntry: EmptyMapException when the size field is 0; otherwise the entry at the end
     * of the root's left spine, which holds the least key of the map.
     */
    method MinEntry() returns (r: Result<Entry<int, V>>)
      requires Valid()
      ensures IsEmpty() ==> r == Err(EmptyMap)
      ensures !IsEmpty() && root == NIL ==> r == Err(NullPointer)
      ensures !IsEmpty() && root != NIL ==>
        r.Ok? && r.value.key in Contents() && Contents()[r.value.key] == r.value.value &&
        forall k :: k in Contents() ==> r.value.key <= k
    {
      if IsEmpty() {
        return Err(EmptyMap);
      }
      var found, d, yr := FurtherLeft();
      if found.Err? {
        return Err(found.error);
      }
      var node := found.value;
      SuccessorEntries(nodes, d, node, yr);
      OrderedEntries(nodes, shape, None, None);
      FirstIsMin(Entries(nodes, shape));
      r := Ok(nodes[node].entry);
    }

    /** maxEntry, the mirror image: the entry holding the greatest key. */
    method MaxEntry() returns (r: Result<Entry<int, V>>)
      requires Valid()
      ensures IsEmpty() ==> r == Err(EmptyMap)
      ensures !IsEmpty() && root == NIL ==> r == Err(NullPointer)
      ensures !IsEmpty() && root != NIL ==>
        r.Ok? && r.value.key in Contents() && Contents()[r.value.key] == r.value.value &&
        forall k :: k in Contents() ==> k <= r.value.key
    {
      if IsEmpty() {
        return Err(EmptyMap);
      }
      var found, d, yl := FurtherRight();
      if found.Err? {
        return Err(found.error);
      }
      var node := found.value;
      PredecessorEntries(nodes, d, node, yl);
      OrderedEntries(nodes, shape, None, None);
      LastIsMax(Entries(nodes, shape));
      r := Ok(nodes[node].entry);
    }

    // ------------------------------------------------------------ search

    /**
     * getNode from the root: the node whose key equals `k`, or NIL. The ghost results say
     * where the node sits.
     */
    method GetNode(k: int) returns (node: int, ghost c: Ctx, ghost l: Tree, ghost r: Tree)
      requires Valid()
      ensures node == NIL <==> k !in Contents()
      ensures node != NIL ==> 0 <= node < |nodes| && nodes[node].entry.key == k &&
                              Contents()[k] == nodes[node].entry.value
      ensures node != NIL ==> shape == Plug(c, Branch(l, node, r))
    {
      node := root;
      ghost var s := shape;
      c, l, r := Top, Leaf, Leaf;
      SearchStart(nodes, shape, k);
      while node != NIL
        invariant SearchAt(nodes, shape, k, c, s) && node == RootPtr(s)
        decreases BinaryTree.Size(s)
      {
        PlugMatches(nodes, c, s);
        var cmp := Compare(k, nodes[node].entry.key);
        if cmp == 0 {
          l, r := s.left, s.right;
          SearchFound(nodes, shape, k, c, l, node, r);
          return;
        }
        SearchStep(nodes, shape, k, c, s.left, node, s.right);
        if cmp < 0 {
          c, s := InLeft(c, node, s.right), s.left;
          node := nodes[node].left;
        } else {
          c, s := InRight(c, s.left, node), s.right;
          node := nodes[node].right;
        }
      }
      PlugMatches(nodes, c, s);
      SearchMissed(nodes, shape, k, c);
    }

    /** get: the value stored under `k`, or null. */
    method Get(k: int) returns (r: Option<V>)
      requires Valid()
      ensures r == if k in Contents() then Some(Contents()[k]) else None
    {
      var node, _, _, _ := GetNode(k);
      r := if node == NIL then None else Some(nodes[node].entry.value);
    }

    // ------------------------------------------------------------ put

    /**
     * put as written. When the size field says the tree is empty the new node replaces
     * the whole tree; otherwise the descent overwrites the entry of an equal key or hangs
     * a new leaf below the last node visited. The size field is never changed. With a
     * non-zero size and a null root the final `parent.setRightChild` dereferences null.
     */
    method Put(k: int, v: V) returns (r: Result<Option<V>>, ghost c: Ctx)
      requires Valid()
      modifies this
      ensures Valid() && currentSize == old(currentSize)
      ensures old(currentSize) == 0 ==> r == Ok(None) && Contents() == map[k := v]
      ensures old(currentSize) != 0 && old(root) == NIL ==> r == Err(NullPointer) && Contents() == old(Contents())
      ensures old(currentSize) != 0 && old(root) != NIL ==>
        Contents() == old(Contents())[k := v] &&
        r == Ok(if k in old(Contents()) then Some(old(Contents())[k]) else None)
      ensures |nodes| >= |old(nodes)| && forall x :: 0 <= x < |old(nodes)| ==> nodes[x].height == old(nodes)[x].height
      ensures (old(currentSize) != 0 || old(root) == NIL) && k in old(Contents()) ==>
        shape == old(shape) && |nodes| == |old(nodes)|
      ensures (old(currentSize) != 0 || old(root) == NIL) && k !in old(Contents()) && r.Ok? ==>
        old(shape) == Plug(c, Leaf) && shape == Plug(c, Branch(Leaf, |old(nodes)|, Leaf)) &&
        |nodes| == |old(nodes)| + 1 && nodes[|old(nodes)|].height == 0 &&
        nodes[|old(nodes)|].entry == Entry(k, v)
    {
      var newEntry := Entry(k, v);
      c := Top;
      if currentSize == 0 {
        var q := CreateNode(newEntry, NIL);
        root := q;
        shape := Branch(Leaf, q, Leaf);
        assert Entries(nodes, shape) == [newEntry];
        assert AsMap([newEntry]) == map[k := v] by {
          assert [newEntry][..0] == [];
        }
        r := Ok(None);
        return;
      }
      var parent := NIL;
      var curr := root;
      var cmp := 0;
      ghost var s := shape;
      SearchStart(nodes, shape, k);
      while curr != NIL
        invariant Valid() && nodes == old(nodes) && shape == old(shape)
        invariant root == old(root) && currentSize == old(currentSize)
        invariant SearchAt(nodes, shape, k, c, s) && curr == RootPtr(s)
        invariant parent == HoleParent(c) && (c.InLeft? <==> cmp < 0)
        invariant (c == Top ==> s == shape) && (root == NIL ==> c == Top)
        decreases BinaryTree.Size(s)
      {
        PlugMatches(nodes, c, s);
        parent := curr;
        cmp := Compare(k, nodes[curr].entry.key);
        if cmp == 0 {
          var old_ := nodes[curr].entry.value;
          SearchFound(nodes, shape, k, c, s.left, curr, s.right);
          ReplaceEntry(nodes, c, s.left, curr, s.right, newEntry);
          SetElement(curr, newEntry);
          r := Ok(Some(old_));
          return;
        }
        SearchStep(nodes, shape, k, c, s.left, curr, s.right);
        if cmp < 0 {
          c, s := InLeft(c, curr, s.right), s.left;
          curr := nodes[curr].left;
        } else {
          c, s := InRight(c, s.left, curr), s.right;
          curr := nodes[curr].right;
        }
      }
      PlugMatches(nodes, c, s);
      SearchMissed(nodes, shape, k, c);
      if parent == NIL {
        r := Err(NullPointer);
        return;
      }
      Attach(newEntry, parent, cmp, c);
      r := Ok(None);
    }

    /**
     * The end of put when the key is missing: a new leaf holding `e` becomes the left
     * child of `parent` when the last comparison was negative, its right child otherwise.
     */
    method Attach(e: Entry<int, V>, parent: int, cmp: int, ghost c: Ctx)
      requires Valid() && SearchAt(nodes, shape, e.key, c, Leaf)
      requires parent != NIL && parent == HoleParent(c) && (c.InLeft? <==> cmp < 0)
      modifies this
      ensures Valid() && currentSize == old(currentSize)
      ensures Contents() == old(Contents())[e.key := e.value]
      ensures shape == Plug(c, Branch(Leaf, |old(nodes)|, Leaf))
      ensures |nodes| == |old(nodes)| + 1 && nodes[|old(nodes)|].height == 0 &&
        nodes[|old(nodes)|].entry == e
      ensures forall x :: 0 <= x < |old(nodes)| ==> nodes[x].height == old(nodes)[x].height
    {
      PlugMatches(nodes, c, Leaf);
      ghost var before := nodes;
      var q := CreateNode(e, parent);
      if cmp < 0 {
        SetLeftChild(parent, q);
      } else {
        SetRightChild(parent, q);
      }
      AttachLeaf(before, nodes, c, q);
      PlugRoot(c, Leaf, Branch(Leaf, q, Leaf));
      shape := Plug(c, Branch(Leaf, q, Leaf));
    }

    /**
     * put followed by the size update of RedBlackSortedMap.put: the size grows by one
     * exactly when the key was new. While the size field counts the nodes, put never
     * takes its empty-tree branch on a non-empty tree and never dereferences null.
     */
    method PutCounted(k: int, v: V) returns (r: Option<V>, ghost c: Ctx)
      requires Valid() && Counted()
      modifies this
      ensures Valid() && Counted()
      ensures Contents() == old(Contents())[k := v]
      ensures r == if k in old(Contents()) then Some(old(Contents())[k]) else None
      ensures currentSize == old(currentSize) + (if r == None then 1 else 0)
      ensures |nodes| >= |old(nodes)| && forall x :: 0 <= x < |old(nodes)| ==> nodes[x].height == old(nodes)[x].height
      ensures k in old(Contents()) ==> shape == old(shape) && |nodes| == |old(nodes)|
      ensures k !in old(Contents()) ==>
        old(shape) == Plug(c, Leaf) && shape == Plug(c, Branch(Leaf, |old(nodes)|, Leaf)) &&
        |nodes| == |old(nodes)| + 1 && nodes[|old(nodes)|].height == 0 &&
        nodes[|old(nodes)|].entry == Entry(k, v)
    {
      QueriesWhenCounted();
      var res;
      res, c := Put(k, v);
      assert res.Ok?;
      r := res.value;
      if r == None {
        currentSize := currentSize + 1;
      }
      ContentsSize();
    }

    // ------------------------------------------------------------ remove

    /**
     * remove: the node holding `k` is found by getNode. With no left child its right
     * subtree takes its place, with no right child its left subtree; with two children
     * its in-order successor, the end of the left spine of its right subtree, takes its
     * place, first handing its own right subtree to its parent when it lies deeper than
     * the right child. The size field is not changed.
     */
    method Remove(k: int) returns (r: Option<V>)
      requires Valid()
      modifies this
      ensures Valid() && currentSize == old(currentSize)
      ensures Contents() == old(Contents()) - {k}
      ensures r == if k in old(Contents()) then Some(old(Contents())[k]) else None
    {
      var node, c, l, rt := GetNode(k);
      if node == NIL {
        return None;
      }
      r := Some(nodes[node].entry.value);
      var _, _, s := RemoveNode(node, c, l, rt);
    }

    /**
     * The unlinking half of remove, once getNode has found `node`: the tree above the
     * node keeps its shape and only the subtree that was rooted at `node` changes, to
     * `s`, which holds the same entries less the node's own.
     */
    method RemoveNode(node: int, ghost c: Ctx, ghost l: Tree, ghost rt: Tree) returns (y: int, x: int, ghost s: Tree)
      requires Valid() && shape == Plug(c, Branch(l, node, rt))
      modifies this
      ensures Valid() && currentSize == old(currentSize) && shape == Plug(c, s)
      ensures 0 <= node < |old(nodes)|
      ensures Contents() == old(Contents()) - {old(nodes)[node].entry.key}
      ensures SameLabels(old(nodes), nodes) && 0 <= y < |nodes|
      ensures y == node <==> old(nodes)[node].left == NIL || old(nodes)[node].right == NIL
      ensures y != node ==> s.Branch? && s.ptr == y && s.left == l
      ensures x == NIL || x in Ptrs(shape)
    {
      ghost var n0 := nodes;
      HoleLinks(nodes, c, l, node, rt);
      if l.Branch? {
        LeftChildDistinct(nodes, c, l, node, rt);
      }
      if rt.Branch? {
        RightChildDistinct(nodes, c, l, node, rt);
      }
      if nodes[node].left == NIL || nodes[node].right == NIL {
        y := node;
        x := if nodes[node].left == NIL then nodes[node].right else nodes[node].left;
        s := if l == Leaf then rt else l;
        Splice(c, l, node, rt, s);
        SpliceMap(n0, c, l, node, rt, s);
        SameEntriesTree(n0, nodes, Plug(c, s), None, None);
        PlugPtrs(c, s);
      } else {
        var succ, d, yr := FurtherLeftFrom(nodes[node].right, InRight(c, l, node), rt);
        PlugCompose(InRight(c, l, node), d, Branch(Leaf, succ, yr));
        HoleLinks(nodes, Compose(InRight(c, l, node), d), Leaf, succ, yr);
        DeepSuccessor(nodes, c, l, node, d, succ, yr);
        y := succ;
        x := nodes[succ].right;
        if nodes[succ].parent != node {
          RemoveFar(c, l, node, d, succ, yr);
          s := Branch(l, succ, Plug(d, yr));
          PlugPtrs(d, yr);
        } else {
          SucceedAdjacent(c, l, node, succ, yr);
          SuccessorMap(n0, c, l, node, Top, succ, yr);
          SameEntriesTree(n0, nodes, Plug(c, Branch(l, succ, yr)), None, None);
          s := Branch(l, succ, yr);
        }
        PlugPtrs(c, s);
      }
    }

    /**
     * remove followed by the size update of RedBlackSortedMap.remove: the size shrinks by
     * one exactly when a key was removed.
     */
    method RemoveCounted(k: int) returns (r: Option<V>)
      requires Valid() && Counted()
      modifies this
      ensures Valid() && Counted()
      ensures Contents() == old(Contents()) - {k}
      ensures r == if k in old(Contents()) then Some(old(Contents())[k]) else None
      ensures currentSize == old(currentSize) - (if r == None then 0 else 1)
    {
      ContentsSize();
      r := Remove(k);
      if r != None {
        currentSize := currentSize - 1;
      }
      ContentsSize();
    }

    /**
     * One or no child: transplant(p, child) with the child that is there, or null.
     * In remove this is both the splice of a node with at most one child and the cut of
     * a successor from its place.
     */
    method Splice(ghost c: Ctx, ghost l: Tree, p: int, ghost r: Tree, ghost ch: Tree)
      requires Valid() && shape == Plug(c, Branch(l, p, r))
      requires (l == Leaf && ch == r) || (r == Leaf && ch == l)
      modifies this
      ensures Valid() && shape == Plug(c, ch) && SameEntries(old(nodes), nodes)
      ensures currentSize == old(currentSize) && SameLabels(old(nodes), nodes)
    {
      ghost var n0 := nodes;
      HoleLinks(nodes, c, l, p, r);
      if l.Branch? {
        LeftChildDistinct(nodes, c, l, p, r);
      }
      if r.Branch? {
        RightChildDistinct(nodes, c, l, p, r);
      }
      var child := if nodes[p].left == NIL then nodes[p].right else nodes[p].left;
      Transplant(p, child);
      SpliceSteps(n0, nodes, c, l, p, r, ch);
      if c != Top {
        PlugRoot(c, Branch(l, p, r), ch);
      }
      shape := Plug(c, ch);
    }

    /**
     * The two-children case of remove when the successor `y` lies below the right child
     * of `p`: transplant(y, y.right) cuts `y` out, then `y` takes p's place with both of
     * p's subtrees.
     */
    method RemoveFar(ghost c: Ctx, ghost l: Tree, p: int, ghost d: Ctx, y: int, ghost yr: Tree)
      requires Valid() && shape == Plug(c, Branch(l, p, Plug(d, Branch(Leaf, y, yr))))
      requires l.Branch? && LeftSpine(d) && d != Top
      modifies this
      ensures Valid() && currentSize == old(currentSize) && shape == Plug(c, Branch(l, y, Plug(d, yr)))
      ensures 0 <= p < |old(nodes)| && Contents() == old(Contents()) - {old(nodes)[p].entry.key}
      ensures SameLabels(old(nodes), nodes)
    {
      ghost var n0 := nodes;
      ghost var c2 := Compose(InRight(c, l, p), d);
      PlugCompose(InRight(c, l, p), d, Branch(Leaf, y, yr));
      PlugCompose(InRight(c, l, p), d, yr);
      Splice(c2, Leaf, y, yr, yr);
      ghost var n1 := nodes;
      FarPrep(n0, n1, c, l, p, d, y, yr);
      SucceedFar(c, l, p, Plug(d, yr), y);
      SameLabelsTrans(n0, n1, nodes);
      SuccessorMap(n0, c, l, p, d, y, yr);
      SameEntriesTree(n0, n1, Plug(c, Branch(l, y, Plug(d, yr))), None, None);
      SameEntriesTree(n1, nodes, Plug(c, Branch(l, y, Plug(d, yr))), None, None);
    }

    /**
     * The two-children case of remove when the successor `y` is p's right child:
     * `y` takes p's place and adopts p's left subtree.
     */
    method SucceedAdjacent(ghost c: Ctx, ghost l: Tree, p: int, y: int, ghost yr: Tree)
      requires Valid() && shape == Plug(c, Branch(l, p, Branch(Leaf, y, yr))) && l.Branch?
      modifies this
      ensures shape == Plug(c, Branch(l, y, yr))
      ensures Valid() && SameEntries(old(nodes), nodes) && currentSize == old(currentSize)
      ensures SameLabels(old(nodes), nodes)
    {
      ghost var n0 := nodes;
      ghost var r := Branch(Leaf, y, yr);
      HoleLinks(nodes, c, l, p, r);
      LeftChildDistinct(nodes, c, l, p, r);
      RightChildDistinct(nodes, c, l, p, r);
      TakePlace(p, y);
      AdjacentSteps(n0, Transplanted(n0, p, y), WithLeft(Transplanted(n0, p, y), y, l.ptr), nodes, c, l, p, y, yr);
      if c != Top {
        PlugRoot(c, Branch(l, p, r), Branch(l, y, yr));
      }
      shape := Plug(c, Branch(l, y, yr));
    }

    /**
     * The two-children case of remove once the successor `y` has been cut out of the
     * tree: `y` first adopts p's right subtree (y.setRightChild(p.right),
     * p.right.setParent(y)), then takes p's place and adopts p's left subtree.
     */
    method SucceedFar(ghost c: Ctx, ghost l: Tree, p: int, ghost r: Tree, y: int)
      requires Valid() && shape == Plug(c, Branch(l, p, r)) && l.Branch? && r.Branch?
      requires 0 <= y < |nodes| && y !in Ptrs(shape)
      requires Inside(Key(nodes, y), HoleLo(nodes, c), HoleHi(nodes, c))
      requires Ordered(nodes, l, HoleLo(nodes, c), Some(Key(nodes, y)))
      requires Ordered(nodes, r, Some(Key(nodes, y)), HoleHi(nodes, c))
      modifies this
      ensures shape == Plug(c, Branch(l, y, r))
      ensures Valid() && SameEntries(old(nodes), nodes) && currentSize == old(currentSize)
      ensures SameLabels(old(nodes), nodes)
    {
      ghost var n0 := nodes;
      HoleLinks(nodes, c, l, p, r);
      LeftChildDistinct(nodes, c, l, p, r);
      RightChildDistinct(nodes, c, l, p, r);
      SiblingsInTree(nodes, c, l, p, r);
      Adopt(y, p);
      ghost var n1 := nodes;
      TakePlace(p, y);
      SameLabelsTrans(n0, n1, nodes);
      FarSteps(n0, WithRight(n0, y, r.ptr), n1, Transplanted(n1, p, y), WithLeft(Transplanted(n1, p, y), y, l.ptr),
               nodes, c, l, p, r, y);
      if c != Top {
        PlugRoot(c, Branch(l, p, r), Branch(l, y, r));
      }
      shape := Plug(c, Branch(l, y, r));
    }

    /** y.setRightChild(p.right), then p.right.setParent(y). */
    method Adopt(y: int, p: int)
      requires 0 <= p < |nodes| && 0 <= y < |nodes| && 0 <= nodes[p].right < |nodes|
      modifies this
      ensures nodes == WithParent(WithRight(old(nodes), y, old(nodes)[p].right), old(nodes)[p].right, y)
      ensures root == old(root) && currentSize == old(currentSize) && shape == old(shape)
      ensures SameLabels(old(nodes), nodes)
    {
      SetRightChild(y, nodes[p].right);
      SetParent(nodes[y].right, y);
    }

    /**
     * The last steps of the two-children case of remove: transplant(p, y), then
     * y.setLeftChild(p.left) and p.left.setParent(y). Transplant leaves p's own record
     * alone, so p.left is still the left child p had.
     */
    method TakePlace(p: int, y: int)
      requires 0 <= p < |nodes| && 0 <= y < |nodes| && p != y
      requires nodes[p].parent == NIL || (0 <= nodes[p].parent < |nodes| && nodes[p].parent != p)
      requires 0 <= nodes[p].left < |nodes|
      modifies this
      ensures nodes == WithParent(WithLeft(Transplanted(old(nodes), p, y), y, old(nodes)[p].left), old(nodes)[p].left, y)
      ensures root == if old(nodes)[p].parent == NIL then y else old(root)
      ensures currentSize == old(currentSize) && shape == old(shape) && SameLabels(old(nodes), nodes)
    {
      Transplant(p, y);
      ghost var n1 := nodes;
      SetLeftChild(y, nodes[p].left);
      SetParent(nodes[y].left, y);
      SameLabelsTrans(old(nodes), n1, nodes);
    }
  }

  /**
   * Two puts of different keys into a new map, as written: put never raises the size
   * field, so the second put takes the empty-tree branch and the first key is lost.
   */
  method SecondPutForgetsFirst() returns (r: Option<int>)
    ensures r == None
  {
    var m := new BstSortedMap<int>();
    var _, _ := m.Put(1, 10);
    var _, _ := m.Put(2, 20);
    r := m.Get(1);
  }

  /** The same two puts with the size kept: both keys stay mapped. */
  method SecondPutKeepsFirst() returns (r: Option<int>)
    ensures r == Some(10)
  {
    var m := new BstSortedMap<int>();
    var _, _ := m.PutCounted(1, 10);
    var _, _ := m.PutCounted(2, 20);
    r := m.Get(1);
  }
}

=== FILE: campus.dfy ===
/**
 * The services and students of the campus. In Java a service is a LodgingServiceClass, an
 * EatingServiceClass or a LeisureServiceClass, and a student a BookishStudentClass, an
 * OutgoingStudentClass or a ThriftyStudentClass; here each is one class whose `kind`
 * selects the behaviour of the subclass. Prices are integers.
 */
module Campus {
  import opened Wrappers
  import opened Location
  import opened DoublyLinkedList
  import opened ListInArray

  datatype ServiceType = Eating | Lodging | Leisure
  datatype StudentType = Bookish | Outgoing | Thrifty

  /** The domain exceptions thrown by the student operations. */
  datatype StudentError =
    | InvalidService
    | EatingServiceFull
    | FullLodgingService
    | DistractedStudent
    | MoreExpensiveLodging

  datatype Status = Done | Raised(error: StudentError)

  /** Integer.MAX_VALUE, the initial cheapest eating price of a thrifty student. */
  const MAX_INT := 2147483647

  /** The dimension of a student's visited list. */
  const VISITED_DIMENSION := 50

  /**
   * A service. Lodging and eating services (StudentsStoringServiceClass) store their
   * students in a doubly linked list and count them in `occupied` (occupiedRoomsNum,
   * occupiedSeats) against `capacity` (singleRoomsNum, numSeats).
   */
  class Service {
    const kind: ServiceType
    const name: string
    const location: Location
    const price: int
    const capacity: int
    var occupied: int
    var students: DoublyLinkedList<Student>
    ghost var Repr: set<object>

    ghost predicate Valid()
      reads this, Repr
    {
      this in Repr && students in Repr && students.Repr <= Repr && this !in students.Repr &&
      students.Valid()
    }

    /** A new service stores no students and counts none. */
    constructor (theKind: ServiceType, theName: string, loc: Location, thePrice: int, theCapacity: int)
      ensures Valid() && fresh(Repr)
      ensures kind == theKind && name == theName && location == loc && price == thePrice
      ensures capacity == theCapacity && occupied == 0 && students.Contents == []
    {
      kind, name, location, price, capacity := theKind, theName, loc, thePrice, theCapacity;
      occupied := 0;
      students := new DoublyLinkedList();
      new;
      Repr := {this} + students.Repr;
    }

    /** hasFreeRooms of a lodging. */
    function HasFreeRooms(): (r: bool)
      reads this
      requires kind == Lodging
      ensures r <==> occupied < capacity
    {
      occupied < capacity
    }

    /** hasFreeSeats of an eating service. */
    function HasFreeSeats(): (r: bool)
      reads this
      requires kind == Eating
      ensures r <==> occupied < capacity
    {
      occupied < capacity
    }

    /** storeStudent, then one more occupied room or seat; there is no capacity check. */
    method AddStudent(student: Student)
      requires Valid() && kind != Leisure
      modifies Repr
      ensures Valid() && fresh(Repr - old(Repr)) && students == old(students)
      ensures students.Contents == old(students.Contents) + [student]
      ensures occupied == old(occupied) + 1
      ensures occupied - |students.Contents| == old(occupied - |students.Contents|)
    {
      students.AddLast(student);
      Repr := Repr + students.Repr;
      occupied := occupied + 1;
    }

    /**
     * removeStoredStudent, then one fewer occupied room or seat. An absent student gives
     * position -1, which the list rejects before the count changes.
     */
    method RemoveStudent(student: Student) returns (r: Outcome)
      requires Valid() && kind != Leisure
      modifies Repr
      ensures Valid() && Repr == old(Repr) && students == old(students)
      ensures r.Fail? <==> student !in old(students.Contents)
      ensures r.Fail? ==> r.error == InvalidPosition && students.Contents == old(students.Contents)
      ensures r.Fail? ==> occupied == old(occupied)
      ensures r.Pass? ==>
        (exists i :: 0 <= i < |old(students.Contents)| &&
           old(students.Contents)[i] == student && student !in old(students.Contents)[..i] &&
           students.Contents == old(students.Contents)[..i] + old(students.Contents)[i + 1..])
      ensures r.Pass? ==> occupied == old(occupied) - 1
      ensures occupied - |students.Contents| == old(occupied - |students.Contents|)
    {
      var index := students.IndexOf(student);
      var removed := students.Remove(index);
      if removed.Err? {
        return Fail(removed.error);
      }
      occupied := occupied - 1;
      return Pass;
    }

    /** setStudents: the service now stores the given list; the count is left as it was. */
    method SetStudents(newStudents: DoublyLinkedList<Student>)
      requires Valid() && newStudents.Valid() && this !in newStudents.Repr
      modifies this
      ensures Valid() && students == newStudents && occupied == old(occupied)
    {
      students := newStudents;
      Repr := {this} + newStudents.Repr;
    }
  }

  /**
   * A student. `home` is a lodging and `location` the service the student is at.
   * Bookish and outgoing students record visited services in `visited`; thrifty students
   * keep the cheapest prices they have paid.
   */
  class Student {
    const name: string
    const country: string
    const kind: StudentType
    var home: Service
    var location: Service
    const visited: ListInArray<Service>
    var cheapestEatingPrice: int
    var cheapestLodgingPrice: int
    ghost var Repr: set<object>

    /** The visited list never holds a service twice. */
    ghost predicate Valid()
      reads this, Repr
    {
      this in Repr && visited in Repr && visited.Repr <= Repr && this !in visited.Repr &&
      visited.Valid() && visited.elems.Length > 0 &&
      (forall i, j :: 0 <= i < j < |visited.Contents| ==> visited.Contents[i] != visited.Contents[j])
    }

    /**
     * A new student is at home. An outgoing student has visited the home; a thrifty one has
     * paid the home's price for lodging and nothing yet for eating.
     */
    constructor (theName: string, theCountry: string, theHome: Service, theKind: StudentType)
      requires theHome.kind == Lodging
      ensures Valid() && fresh(Repr)
      ensures name == theName && country == theCountry && kind == theKind
      ensures home == theHome && location == theHome
      ensures visited.Contents == if theKind == Outgoing then [theHome] else []
      ensures theKind == Thrifty ==>
        cheapestLodgingPrice == theHome.price && cheapestEatingPrice == MAX_INT
    {
      name, country, kind := theName, theCountry, theKind;
      home, location := theHome, theHome;
      visited := new ListInArray(VISITED_DIMENSION);
      cheapestLodgingPrice := theHome.price;
      cheapestEatingPrice := MAX_INT;
      new;
      Repr := {this} + visited.Repr;
      if theKind == Outgoing {
        InsertService(theHome);
      }
    }

    /** insertService: appends a service not yet visited; a visited one is left where it is. */
    method InsertService(service: Service)
      requires Valid()
      modifies Repr
      ensures Valid() && fresh(Repr - old(Repr))
      ensures visited.Contents == if service in old(visited.Contents) then old(visited.Contents)
                                  else old(visited.Contents) + [service]
      ensures home == old(home) && location == old(location)
      ensures cheapestEatingPrice == old(cheapestEatingPrice) && cheapestLodgingPrice == old(cheapestLodgingPrice)
    {
      var index := visited.IndexOf(service);
      if index == -1 {
        visited.AddLast(service);
        Repr := Repr + visited.Repr;
      }
    }

    /** listVisited: an iterator over the visited services in order of first visit. */
    method ListVisited() returns (it: ArrayIterator<Service>)
      requires Valid()
      ensures fresh(it) && it.Valid() && it.Items() == visited.Contents && it.current == 0
    {
      it := visited.Iterator();
    }

    /**
     * moveTo: only a leisure or an eating service is a place to move to, and an eating
     * service must have a free seat. A refused move changes nothing.
     */
    method MoveTo(service: Service) returns (r: Status)
      modifies this
      ensures r == if service.kind == Lodging then Raised(InvalidService)
                   else if service.kind == Eating && service.occupied >= service.capacity then Raised(EatingServiceFull)
                   else Done
      ensures r.Raised? ==> unchanged(this)
      ensures r.Done? ==> location == service && home == old(home)
      ensures cheapestEatingPrice == old(cheapestEatingPrice) && cheapestLodgingPrice == old(cheapestLodgingPrice)
      ensures Repr == old(Repr)
    {
      if !(service.kind == Leisure || service.kind == Eating) {
        return Raised(InvalidService);
      }
      if service.kind == Eating && !service.HasFreeSeats() {
        return Raised(EatingServiceFull);
      }
      location := service;
      return Done;
    }

    /** changeLocation: the rules of the student's kind. */
    method ChangeLocation(service: Service) returns (r: Status)
      requires Valid() && service.Valid() && service.Repr !! Repr
      modifies Repr, service.Repr
      ensures Valid() && fresh(Repr - old(Repr)) && home == old(home)
      ensures cheapestEatingPrice <= old(cheapestEatingPrice)
      ensures cheapestLodgingPrice <= old(cheapestLodgingPrice)
      ensures kind == Bookish ==> BookishRule(service, r, old(location), old(visited.Contents))
      ensures kind == Outgoing ==> OutgoingRule(service, r, old(location), old(visited.Contents))
      ensures kind == Thrifty ==> visited.Contents == old(visited.Contents)
      ensures kind == Thrifty ==>
        ThriftyRule(service, r, old(location), old(service.occupied), old(cheapestEatingPrice), old(cheapestLodgingPrice))
      ensures kind == Thrifty && service.kind == Eating && r == Raised(DistractedStudent) ==>
        service.Valid() && service.students.Contents == old(service.students.Contents) + [this] &&
        service.occupied == old(service.occupied) + 1
      ensures !(kind == Thrifty && service.kind == Eating && r == Raised(DistractedStudent)) ==>
        unchanged(service)
    {
      match kind {
        case Bookish =>
          if service.kind == Lodging {
            return Done;
          }
          r := MoveTo(service);
          if r.Raised? {
            return;
          }
          if service.kind == Leisure {
            InsertService(service);
          }
        case Outgoing =>
          if service.kind == Lodging {
            InsertService(service);
            return Done;
          }
          r := MoveTo(service);
          if r.Raised? {
            return;
          }
          InsertService(service);
        case Thrifty =>
          if service.kind == Eating {
            r := MoveTo(service);
            if r.Raised? {
              return;
            }
            if service.price > cheapestEatingPrice {
              service.AddStudent(this);
              return Raised(DistractedStudent);
            }
            cheapestEatingPrice := service.price;
          } else if service.kind == Leisure {
            r := MoveTo(service);
          } else {
            if service.price > cheapestLodgingPrice {
              return Raised(MoreExpensiveLodging);
            }
            cheapestLodgingPrice := service.price;
            r := Done;
          }
      }
    }

    /**
     * changeHome: refused for a lodging with no free room. Otherwise home and location
     * become the new lodging before changeLocation runs on it, so a refusal from
     * changeLocation leaves the new home in place.
     */
    method ChangeHome(newHome: Service) returns (r: Status)
      requires Valid() && newHome.kind == Lodging && newHome.Valid() && newHome.Repr !! Repr
      modifies Repr, newHome.Repr
      ensures Valid() && fresh(Repr - old(Repr))
      ensures r == Raised(FullLodgingService) <==> !old(newHome.HasFreeRooms())
      ensures r == Raised(FullLodgingService) ==> unchanged(this) && unchanged(visited.Repr)
      ensures r != Raised(FullLodgingService) ==> home == newHome && location == newHome
      ensures r != Raised(FullLodgingService) && kind == Bookish ==>
        r == Done && visited.Contents == old(visited.Contents)
      ensures r != Raised(FullLodgingService) && kind == Outgoing ==>
        r == Done &&
        visited.Contents == (if newHome in old(visited.Contents) then old(visited.Contents)
                             else old(visited.Contents) + [newHome])
      ensures r != Raised(FullLodgingService) && kind == Thrifty ==>
        (r == Raised(MoreExpensiveLodging) <==> newHome.price > old(cheapestLodgingPrice)) &&
        (r == Done ==> cheapestLodgingPrice == newHome.price)
    {
      if !newHome.HasFreeRooms() {
        return Raised(FullLodgingService);
      }
      home := newHome;
      location := newHome;
      r := ChangeLocation(home);
    }

    /** What a bookish student's changeLocation does. */
    ghost predicate BookishRule(service: Service, r: Status, oldLocation: Service, oldVisited: seq<Service>)
      reads this, visited, visited.Repr
    {
      if service.kind == Lodging then
        r == Done && location == oldLocation && visited.Contents == oldVisited
      else if r.Raised? then
        location == oldLocation && visited.Contents == oldVisited
      else
        location == service &&
        visited.Contents == (if service.kind == Leisure && service !in oldVisited then oldVisited + [service]
                             else oldVisited)
    }

    /** What an outgoing student's changeLocation does. */
    ghost predicate OutgoingRule(service: Service, r: Status, oldLocation: Service, oldVisited: seq<Service>)
      reads this, visited, visited.Repr
    {
      var recorded := if service in oldVisited then oldVisited else oldVisited + [service];
      if service.kind == Lodging then
        r == Done && location == oldLocation && visited.Contents == recorded
      else if r.Raised? then
        location == oldLocation && visited.Contents == oldVisited
      else
        location == service && visited.Contents == recorded
    }

    /** What a thrifty student's changeLocation does to its location and price caches. */
    ghost predicate ThriftyRule(service: Service, r: Status, oldLocation: Service, oldOccupied: int,
                                oldEating: int, oldLodging: int)
      reads this
    {
      match service.kind
      case Eating =>
        (r.Raised? && r.error != DistractedStudent ==>
           location == oldLocation && cheapestEatingPrice == oldEating) &&
        (r == Raised(DistractedStudent) <==>
           oldOccupied < service.capacity && service.price > oldEating) &&
        (r == Raised(DistractedStudent) ==> location == service && cheapestEatingPrice == oldEating) &&
        (r == Done ==> location == service && cheapestEatingPrice == service.price) &&
        cheapestLodgingPrice == oldLodging
      case Leisure =>
        r == Done && location == service &&
        cheapestEatingPrice == oldEating && cheapestLodgingPrice == oldLodging
      case Lodging =>
        location == oldLocation && cheapestEatingPrice == oldEating &&
        (r == Raised(MoreExpensiveLodging) <==> service.price > oldLodging) &&
        (r == Done <==> service.price <= oldLodging) &&
        (r == Done ==> cheapestLodgingPrice == service.price) &&
        (r.Raised? ==> cheapestLodgingPrice == oldLodging)
    }
  }
}

=== FILE: closed_hash_table.dfy ===
/**
 * ClosedHashTable: a hash table with open addressing and linear probing. A cell is empty
 * (null), a removed-entry marker (REMOVED_CELL) or an entry. The key's `hashCode()` is the
 * parameter `hashCode`; the load factors 0.5 and 0.8 are applied as the integer fractions
 * 2/1 and 4/5: the floor of the exact rational product, which can differ from Java's
 * float32 product for sizes above about 4.6 million.
 *
 * The probe sequence used here is `(hashCode + i) mod length`, which visits every cell;
 * `ProbeAsWritten` is the Java `Math.abs(hashCode + i) % length`, which does not for a
 * negative hash code.
 */
module ClosedHashTable {
  import opened Wrappers
  import opened MapEntry
  import HashTable

  const NOT_FOUND: int := -1
  const MIN_INT: int := -0x8000_0000

  /** A cell of the table: null, the removed-entry marker, or an entry. */
  datatype Cell<K, V> = Empty | Removed | Full(entry: Entry<K, V>)

  /** `(int) (length * MAX_LOAD_FACTOR)`: the number of entries that fills a table. */
  function MaxEntries(length: int): int {
    length * 4 / 5
  }

  // ---------------------------------------------------------------- probing

  /** `Math.abs(key.hashCode() + i) % table.length` in Java int arithmetic. */
  function ProbeAsWritten(h: int, i: int, length: int): (r: int)
    requires length > 0 && MIN_INT <= h <= HashTable.MAX_INT && i >= 0
    ensures h + i <= HashTable.MAX_INT && h + i >= 0 ==> r == Probe(h, i, length)
  {
    var s := HashTable.Wrap32(h + i);
    HashTable.JavaRem(if s == MIN_INT then MIN_INT else if s < 0 then -s else s, length)
  }

  /** For a key hashing to -3 in a table of 7 cells the probe never reaches cells 4, 5 and 6. */
  lemma ProbeAsWrittenMissesCells()
    ensures forall i :: 0 <= i < 7 ==> 0 <= ProbeAsWritten(-3, i, 7) <= 3
  {
    forall i | 0 <= i < 7 ensures 0 <= ProbeAsWritten(-3, i, 7) <= 3 {
      assert HashTable.Wrap32(-3 + i) == -3 + i;
    }
  }

  /** Probe `i` of a key whose hash code is `h`. */
  function Probe(h: int, i: int, length: int): (r: int)
    requires length > 0
    ensures 0 <= r < length
  {
    (h + i) % length
  }

  /** The probe number at which cell `s` is visited. */
  function Offset(h: int, s: int, length: int): (r: int)
    requires length > 0
    ensures 0 <= r < length
  {
    (s - h) % length
  }

  /** Euclidean remainder: a cell index shifted by whole tables is that index. */
  lemma ModShift(s: int, k: int, length: int)
    requires length > 0 && 0 <= s < length
    ensures (s + k * length) % length == s
  {
    var a := s + k * length;
    var d := a / length;
    var r := a % length;
    assert (k - d) * length == r - s;
    if k > d {
      AtLeastOnce(k - d, length);
    } else if k < d {
      AtLeastOnce(d - k, length);
    }
  }

  lemma {:induction false} AtLeastOnce(m: int, n: int)
    requires m >= 1 && n > 0
    ensures m * n >= n
  {
    if m > 1 {
      AtLeastOnce(m - 1, n);
      assert m * n == (m - 1) * n + n;
    }
  }

  /** The first `length` probes visit every cell. */
  lemma ProbeCoversTable(h: int, s: int, length: int)
    requires length > 0
    ensures 0 <= s < length ==> Probe(h, Offset(h, s, length), length) == s
  {
    var q := (s - h) / length;
    assert h + Offset(h, s, length) == s + (-q) * length;
    if 0 <= s < length {
      ModShift(s, -q, length);
    }
  }

  /** Probe `i` is visited at probe number `i`, so the first `length` probes are distinct. */
  lemma OffsetOfProbe(h: int, i: int, length: int)
    requires length > 0 && 0 <= i < length
    ensures Offset(h, Probe(h, i, length), length) == i
  {
    var q := (h + i) / length;
    assert Probe(h, i, length) - h == i + (-q) * length;
    ModShift(i, -q, length);
  }

  // ---------------------------------------------------------------- cells

  /** The entries of the full cells, in cell order. */
  function FullEntries<K, V>(cells: seq<Cell<K, V>>): (r: seq<Entry<K, V>>)
    ensures |r| <= |cells|
  {
    if cells == [] then []
    else
      var n := |cells| - 1;
      FullEntries(cells[..n]) + (if cells[n].Full? then [cells[n].entry] else [])
  }

  lemma FullEntriesAppend<K, V>(cells: seq<Cell<K, V>>, i: int)
    requires 0 <= i < |cells|
    ensures FullEntries(cells[..i + 1]) ==
      FullEntries(cells[..i]) + (if cells[i].Full? then [cells[i].entry] else [])
  {
    assert cells[..i + 1][..i] == cells[..i];
  }

  /** Cells that are not full add nothing. */
  lemma {:induction false} FullEntriesSkip<K, V>(cells: seq<Cell<K, V>>, a: int, c: int)
    requires 0 <= a <= c <= |cells|
    requires forall b :: a <= b < c ==> !cells[b].Full?
    ensures FullEntries(cells[..c]) == FullEntries(cells[..a])
    decreases c - a
  {
    if a < c {
      FullEntriesSkip(cells, a, c - 1);
      FullEntriesAppend(cells, c - 1);
    }
  }

  lemma {:induction false} FullEntriesPrefix<K, V>(cells: seq<Cell<K, V>>, a: int, c: int)
    requires 0 <= a <= c <= |cells|
    ensures |FullEntries(cells[..a])| <= |FullEntries(cells[..c])|
    ensures FullEntries(cells[..c])[..|FullEntries(cells[..a])|] == FullEntries(cells[..a])
    decreases c - a
  {
    if a < c {
      FullEntriesPrefix(cells, a, c - 1);
      FullEntriesAppend(cells, c - 1);
    }
  }

  /** The entry of a full cell `i` comes after the entries of the cells before it. */
  lemma FullEntriesIndex<K, V>(cells: seq<Cell<K, V>>, i: int)
    requires 0 <= i < |cells| && cells[i].Full?
    ensures |FullEntries(cells[..i])| < |FullEntries(cells)|
    ensures FullEntries(cells)[|FullEntries(cells[..i])|] == cells[i].entry
  {
    FullEntriesAppend(cells, i);
    FullEntriesPrefix(cells, i + 1, |cells|);
    assert cells[..|cells|] == cells;
  }

  /** An entry is among the full entries exactly when some full cell holds it. */
  lemma {:induction false} FullEntriesMembers<K, V>(cells: seq<Cell<K, V>>, e: Entry<K, V>)
    ensures e in FullEntries(cells) <==> exists s :: 0 <= s < |cells| && cells[s] == Full(e)
  {
    if cells != [] {
      var n := |cells| - 1;
      FullEntriesMembers(cells[..n], e);
      if e in FullEntries(cells[..n]) {
        var s :| 0 <= s < n && cells[..n][s] == Full(e);
        assert cells[s] == Full(e);
      }
      if exists s :: 0 <= s < |cells| && cells[s] == Full(e) {
        var s :| 0 <= s < |cells| && cells[s] == Full(e);
        if s < n {
          assert cells[..n][s] == Full(e);
        }
      }
    }
  }

  /** The number of full cells. */
  function CountFull<K, V>(cells: seq<Cell<K, V>>): (r: nat)
    ensures r <= |cells|
  {
    |FullEntries(cells)|
  }

  /** Writing one cell changes the count by what that cell was and what it becomes. */
  lemma {:induction false} CountFullUpdate<K, V>(cells: seq<Cell<K, V>>, x: int, c: Cell<K, V>)
    requires 0 <= x < |cells|
    ensures CountFull(cells[x := c]) ==
      CountFull(cells) - (if cells[x].Full? then 1 else 0) + (if c.Full? then 1 else 0)
  {
    var n := |cells| - 1;
    if x == n {
      assert cells[x := c][..n] == cells[..n];
    } else {
      CountFullUpdate(cells[..n], x, c);
      assert cells[x := c][..n] == cells[..n][x := c];
    }
  }

  /** With fewer full cells than cells, some cell is not full. */
  lemma {:induction false} NotFullCell<K, V>(cells: seq<Cell<K, V>>) returns (s: int)
    requires CountFull(cells) < |cells|
    ensures 0 <= s < |cells| && !cells[s].Full?
  {
    var n := |cells| - 1;
    if cells[n].Full? {
      s := NotFullCell(cells[..n]);
      assert cells[..n][s] == cells[s];
    } else {
      s := n;
    }
  }

  /** A table of empty cells has no full cell. */
  lemma {:induction false} NoneFull<K, V>(cells: seq<Cell<K, V>>)
    requires forall s :: 0 <= s < |cells| ==> cells[s] == Empty
    ensures FullEntries(cells) == []
  {
    if cells != [] {
      NoneFull(cells[..|cells| - 1]);
    }
  }

  // ---------------------------------------------------------------- the stored map

  /** The cell holds an entry with key `k`. */
  predicate HoldsKey<K(==), V>(c: Cell<K, V>, k: K) {
    c.Full? && c.entry.key == k
  }

  /** Probes 0 to n - 1 of hash code `h` meet no empty cell. */
  ghost predicate Clear<K, V>(cells: seq<Cell<K, V>>, h: int, n: int)
    requires |cells| > 0
    decreases n
  {
    n <= 0 || (Clear(cells, h, n - 1) && cells[Probe(h, n - 1, |cells|)] != Empty)
  }

  lemma {:induction false} ClearAt<K, V>(cells: seq<Cell<K, V>>, h: int, n: int, j: int)
    requires |cells| > 0
    ensures Clear(cells, h, n) && 0 <= j < n ==> cells[Probe(h, j, |cells|)] != Empty
    decreases n
  {
    if 0 <= j < n - 1 {
      ClearAt(cells, h, n - 1, j);
    }
  }

  lemma {:induction false} ClearIntro<K, V>(cells: seq<Cell<K, V>>, h: int, n: int)
    requires |cells| > 0
    requires forall j :: 0 <= j < n ==> cells[Probe(h, j, |cells|)] != Empty
    ensures Clear(cells, h, n)
    decreases n
  {
    if n > 0 {
      ClearIntro(cells, h, n - 1);
    }
  }

  /** A change that empties no cell keeps every probe run clear. */
  lemma {:induction false} ClearKeep<K, V>(cells: seq<Cell<K, V>>, cells': seq<Cell<K, V>>, h: int, n: int)
    requires |cells| > 0 && |cells'| == |cells|
    requires forall s :: 0 <= s < |cells| && cells[s] != Empty ==> cells'[s] != Empty
    ensures Clear(cells, h, n) ==> Clear(cells', h, n)
    decreases n
  {
    if n > 0 {
      ClearKeep(cells, cells', h, n - 1);
    }
  }

  /** No probe of the entry in full cell `s` before the one reaching `s` meets an empty cell. */
  ghost predicate Reachable<K, V>(cells: seq<Cell<K, V>>, hashCode: K -> int, s: int)
    requires 0 <= s < |cells| && cells[s].Full?
  {
    var h := hashCode(cells[s].entry.key);
    Clear(cells, h, Offset(h, s, |cells|))
  }

  /**
   * The cells store map `m`: key `k` of `m` is in full cell `where[k]`, every full cell is
   * the cell of its key, reachable along its probe sequence, and there are as many full
   * cells as keys.
   */
  ghost predicate Stores<K(!new), V>(cells: seq<Cell<K, V>>, hashCode: K -> int, m: map<K, V>, where: map<K, int>) {
    where.Keys == m.Keys &&
    (forall k :: k in where ==> 0 <= where[k] < |cells| && cells[where[k]] == Full(Entry(k, m[k]))) &&
    (forall s :: 0 <= s < |cells| && cells[s].Full? ==>
       cells[s].entry.key in where && where[cells[s].entry.key] == s && Reachable(cells, hashCode, s)) &&
    CountFull(cells) == |m|
  }

  /** The probes of a stored key meet no empty cell before they reach the key's cell. */
  lemma KeyPath<K(!new), V>(cells: seq<Cell<K, V>>, hashCode: K -> int, m: map<K, V>,
                            where: map<K, int>, k: K)
    requires Stores(cells, hashCode, m, where) && |cells| > 0
    ensures k in m ==>
      var h := hashCode(k);
      var o := Offset(h, where[k], |cells|);
      HoldsKey(cells[Probe(h, o, |cells|)], k) &&
      forall j :: 0 <= j < o ==> cells[Probe(h, j, |cells|)] != Empty
  {
    if k in m {
      var h := hashCode(k);
      var s := where[k];
      var o := Offset(h, s, |cells|);
      ProbeCoversTable(h, s, |cells|);
      assert Reachable(cells, hashCode, s);
      forall j | 0 <= j < o
        ensures cells[Probe(h, j, |cells|)] != Empty
      {
        ClearAt(cells, h, o, j);
      }
    }
  }

  /** Probing stops at an empty cell, or after every cell, only for a key the map lacks. */
  lemma AbsentWhenNotMet<K(!new), V>(cells: seq<Cell<K, V>>, hashCode: K -> int, m: map<K, V>,
                                     where: map<K, int>, k: K, i: int)
    requires Stores(cells, hashCode, m, where) && |cells| > 0 && 0 <= i <= |cells|
    requires forall j :: 0 <= j < i ==> !HoldsKey(cells[Probe(hashCode(k), j, |cells|)], k)
    requires i < |cells| ==> cells[Probe(hashCode(k), i, |cells|)] == Empty
    ensures k !in m
  {
    KeyPath(cells, hashCode, m, where, k);
  }

  /** Filling a non-full cell with a new key, at the first probe that is not full. */
  lemma InsertKeeps<K(!new), V>(cells: seq<Cell<K, V>>, hashCode: K -> int, m: map<K, V>,
                                where: map<K, int>, k: K, v: V, p: int,
                                cells': seq<Cell<K, V>>, m': map<K, V>, where': map<K, int>)
    requires Stores(cells, hashCode, m, where) && |cells| > 0 && k !in m && 0 <= p < |cells|
    requires !cells[Probe(hashCode(k), p, |cells|)].Full?
    requires forall j :: 0 <= j < p ==> cells[Probe(hashCode(k), j, |cells|)] != Empty
    requires var x := Probe(hashCode(k), p, |cells|);
      cells' == cells[x := Full(Entry(k, v))] && m' == m[k := v] && where' == where[k := x]
    ensures Stores(cells', hashCode, m', where')
  {
    var h := hashCode(k);
    var x := Probe(h, p, |cells|);
    OffsetOfProbe(h, p, |cells|);
    CountFullUpdate(cells, x, Full(Entry(k, v)));
    forall s | 0 <= s < |cells'| && cells'[s].Full?
      ensures Reachable(cells', hashCode, s)
    {
      if s != x {
        var hs := hashCode(cells[s].entry.key);
        ClearKeep(cells, cells', hs, Offset(hs, s, |cells|));
      } else {
        ClearIntro(cells', h, p);
      }
    }
  }

  /** Overwriting the entry of a key the map has. */
  lemma ReplaceKeeps<K(!new), V>(cells: seq<Cell<K, V>>, hashCode: K -> int, m: map<K, V>,
                                 where: map<K, int>, x: int, k: K, v: V,
                                 cells': seq<Cell<K, V>>, m': map<K, V>)
    requires Stores(cells, hashCode, m, where) && 0 <= x < |cells| && HoldsKey(cells[x], k)
    requires cells' == cells[x := Full(Entry(k, v))] && m' == m[k := v]
    ensures Stores(cells', hashCode, m', where)
  {
    CountFullUpdate(cells, x, Full(Entry(k, v)));
    forall s | 0 <= s < |cells'| && cells'[s].Full?
      ensures Reachable(cells', hashCode, s)
    {
      var hs := hashCode(cells[s].entry.key);
      ClearKeep(cells, cells', hs, Offset(hs, s, |cells|));
    }
  }

  /** Marking the cell of a key removed. */
  lemma RemoveKeeps<K(!new), V>(cells: seq<Cell<K, V>>, hashCode: K -> int, m: map<K, V>,
                                where: map<K, int>, x: int, k: K,
                                cells': seq<Cell<K, V>>, m': map<K, V>, where': map<K, int>)
    requires Stores(cells, hashCode, m, where) && 0 <= x < |cells| && HoldsKey(cells[x], k)
    requires cells' == cells[x := Removed] && m' == m - {k} && where' == where - {k}
    ensures Stores(cells', hashCode, m', where')
  {
    CountFullUpdate(cells, x, Removed);
    forall s | 0 <= s < |cells'| && cells'[s].Full?
      ensures Reachable(cells', hashCode, s)
    {
      var hs := hashCode(cells[s].entry.key);
      ClearKeep(cells, cells', hs, Offset(hs, s, |cells|));
    }
  }

  /** The part of a stored map whose cells come before cell `s`. */
  ghost function Upto<K(!new), V>(m: map<K, V>, where: map<K, int>, s: int): map<K, V>
    requires where.Keys == m.Keys
  {
    map k | k in m && where[k] < s :: m[k]
  }

  /** Cell `s` adds its entry, if it has one, to the part before it. */
  lemma UptoNext<K(!new), V>(cells: seq<Cell<K, V>>, hashCode: K -> int, m: map<K, V>,
                             where: map<K, int>, s: int)
    requires Stores(cells, hashCode, m, where) && 0 <= s < |cells|
    ensures cells[s].Full? ==>
      (cells[s].entry.key !in Upto(m, where, s) &&
       Upto(m, where, s + 1) == Upto(m, where, s)[cells[s].entry.key := cells[s].entry.value])
    ensures !cells[s].Full? ==> Upto(m, where, s + 1) == Upto(m, where, s)
  {
  }

  /** The part before cell `s` has one key per full cell before `s`. */
  lemma {:induction false} UptoCount<K(!new), V>(cells: seq<Cell<K, V>>, hashCode: K -> int, m: map<K, V>,
                                                 where: map<K, int>, s: int)
    requires Stores(cells, hashCode, m, where) && 0 <= s <= |cells|
    ensures |Upto(m, where, s)| == CountFull(cells[..s])
    decreases s
  {
    if s == 0 {
      UptoEnds(cells, hashCode, m, where);
    } else {
      UptoCount(cells, hashCode, m, where, s - 1);
      UptoNext(cells, hashCode, m, where, s - 1);
      FullEntriesAppend(cells, s - 1);
    }
  }

  /** The part before any cell is no larger than the whole. */
  lemma UptoBound<K(!new), V>(cells: seq<Cell<K, V>>, hashCode: K -> int, m: map<K, V>,
                              where: map<K, int>, s: int)
    requires Stores(cells, hashCode, m, where) && 0 <= s <= |cells|
    ensures |Upto(m, where, s)| <= |m|
  {
    UptoCount(cells, hashCode, m, where, s);
    FullEntriesPrefix(cells, s, |cells|);
    assert cells[..|cells|] == cells;
  }

  /** Before the first cell nothing is stored; before the end, everything. */
  lemma UptoEnds<K(!new), V>(cells: seq<Cell<K, V>>, hashCode: K -> int, m: map<K, V>, where: map<K, int>)
    requires Stores(cells, hashCode, m, where)
    ensures Upto(m, where, 0) == map[] && Upto(m, where, |cells|) == m
  {
  }

  /** The full cells hold exactly the entries of the map, one per key. */
  lemma FullEntriesAreContents<K(!new), V>(cells: seq<Cell<K, V>>, hashCode: K -> int, m: map<K, V>,
                                           where: map<K, int>)
    requires Stores(cells, hashCode, m, where)
    ensures |FullEntries(cells)| == |m|
    ensures forall e :: e in FullEntries(cells) ==> e.key in m && m[e.key] == e.value
    ensures forall k :: k in m ==> Entry(k, m[k]) in FullEntries(cells)
  {
    forall e | e in FullEntries(cells) ensures e.key in m && m[e.key] == e.value {
      FullEntriesMembers(cells, e);
    }
    forall k | k in m ensures Entry(k, m[k]) in FullEntries(cells) {
      FullEntriesMembers(cells, Entry(k, m[k]));
    }
  }

  // ---------------------------------------------------------------- the iterator as written

  /** hasNext of the Java iterator: some cell is left at or after `index`. */
  function HasNextAsWritten<K, V>(cells: seq<Cell<K, V>>, index: int): bool {
    index < |cells|
  }

  /** next of the Java iterator: the first full cell at or after `index`, and the index past it. */
  function NextAsWritten<K, V>(cells: seq<Cell<K, V>>, index: nat): (r: Result<(Entry<K, V>, nat)>)
    ensures r.Ok? ==> index < r.value.1 <= |cells| && cells[r.value.1 - 1] == Full(r.value.0)
    ensures r.Err? ==> forall s :: index <= s < |cells| ==> !cells[s].Full?
    decreases |cells| - index
  {
    if index >= |cells| then Err(NoSuchElement)
    else if cells[index].Full? then Ok((cells[index].entry, index + 1))
    else NextAsWritten(cells, index + 1)
  }

  /**
   * With one entry in the first of three cells, the Java iterator returns it and then says
   * it has a next entry, which next does not find.
   */
  lemma HasNextButNoNext()
    ensures var cells := [Full(Entry(1, 1)), Empty, Empty];
      NextAsWritten(cells, 0) == Ok((Entry(1, 1), 1)) &&
      HasNextAsWritten(cells, 1) && NextAsWritten(cells, 1).Err?
  {
  }

  // ---------------------------------------------------------------- the table

  class ClosedHashTable<K(==,!new), V> {
    const hashCode: K -> int
    /** `size` in the Java class: the capacity asked for, otherwise unused. */
    const predictedSize: int
    var currentSize: int
    var maxSize: int
    var table: array<Cell<K, V>>
    ghost var Contents: map<K, V>
    ghost var Where: map<K, int>
    ghost var Repr: set<object>

    /** The cells store `Contents`, counted by `currentSize`, which never passes `maxSize`. */
    ghost predicate Valid()
      reads this, Repr
    {
      Repr == {this, table} &&
      Stores(table[..], hashCode, Contents, Where) &&
      currentSize == |Contents| &&
      maxSize == MaxEntries(table.Length) && 0 <= currentSize <= maxSize
    }

    /** A table of nextPrime(2 * capacity) empty cells. */
    constructor (theHashCode: K -> int, capacity: int)
      requires 0 <= capacity <= HashTable.MAX_INT / 2
      ensures Valid() && fresh(Repr) && Contents == map[]
      ensures hashCode == theHashCode && predictedSize == capacity
      ensures table.Length == 0 || table.Length >= 2 * capacity
    {
      hashCode := theHashCode;
      predictedSize := capacity;
      currentSize := 0;
      var arraySize := HashTable.NextPrime(2 * capacity);
      table := new Cell<K, V>[arraySize](_ => Empty);
      maxSize := MaxEntries(arraySize);
      Contents := map[];
      Where := map[];
      new;
      Repr := {this, table};
      NoneFull(table[..]);
    }

    /** The default constructor: capacity DEFAULT_CAPACITY. */
    constructor Default(theHashCode: K -> int)
      ensures Valid() && fresh(Repr) && Contents == map[]
    {
      hashCode := theHashCode;
      predictedSize := HashTable.DEFAULT_CAPACITY;
      currentSize := 0;
      var arraySize := HashTable.NextPrime(2 * HashTable.DEFAULT_CAPACITY);
      table := new Cell<K, V>[arraySize](_ => Empty);
      maxSize := MaxEntries(arraySize);
      Contents := map[];
      Where := map[];
      new;
      Repr := {this, table};
      NoneFull(table[..]);
    }

    function IsEmpty(): (r: bool)
      reads this, Repr
      requires Valid()
      ensures r <==> Contents == map[]
    {
      currentSize == 0
    }

    function Size(): (r: int)
      reads this, Repr
      requires Valid()
      ensures r == |Contents|
    {
      currentSize
    }

    function IsFull(): (r: bool)
      reads this, Repr
      requires Valid()
      ensures r <==> |Contents| == maxSize
    {
      currentSize == maxSize
    }

    /** searchLinearProving: the cell of the key, or NOT_FOUND. */
    method SearchLinearProbing(key: K) returns (idx: int)
      requires Valid()
      ensures idx == NOT_FOUND <==> key !in Contents
      ensures idx != NOT_FOUND ==> 0 <= idx < table.Length && HoldsKey(table[idx], key)
    {
      ghost var n;
      idx, n := ProbeFor(key);
      if idx == NOT_FOUND && table.Length > 0 {
        AbsentWhenNotMet(table[..], hashCode, Contents, Where, key, n);
      }
    }

    /**
     * The loop of searchLinearProving: probes until the key's cell or an empty cell, at
     * most once per cell. `n` counts the probes that met neither.
     */
    method ProbeFor(key: K) returns (idx: int, ghost n: int)
      ensures idx != NOT_FOUND ==> 0 <= idx < table.Length && HoldsKey(table[idx], key)
      ensures idx == NOT_FOUND ==>
        0 <= n <= table.Length &&
        (forall j :: 0 <= j < n ==> !HoldsKey(table[Probe(hashCode(key), j, table.Length)], key)) &&
        (n < table.Length ==> table[Probe(hashCode(key), n, table.Length)] == Empty)
    {
      var i := 0;
      while i < table.Length
        invariant 0 <= i <= table.Length
        invariant forall j :: 0 <= j < i ==> !HoldsKey(table[Probe(hashCode(key), j, table.Length)], key)
      {
        var probe := Probe(hashCode(key), i, table.Length);
        var e := table[probe];
        if e == Empty {
          return NOT_FOUND, i;
        }
        if e != Removed && e.entry.key == key {
          return probe, i;
        }
        i := i + 1;
      }
      return NOT_FOUND, i;
    }

    /** get: the value in the key's cell, if it has one. */
    method Get(key: K) returns (r: Option<V>)
      requires Valid()
      ensures r == if key in Contents then Some(Contents[key]) else None
    {
      var idx := SearchLinearProbing(key);
      if idx == NOT_FOUND {
        return None;
      }
      return Some(table[idx].entry.value);
    }

    /**
     * The probing loop of put. An empty cell ends the search: the first removed cell met
     * before it, or else the empty cell itself, is where a new key goes. The key's own cell
     * is returned as found. With every cell probed, the first removed cell met is returned.
     * `n` counts the probes that met neither the key nor an empty cell.
     */
    method FindSlot(key: K) returns (idx: int, found: bool, ghost p: int, ghost n: int)
      requires table.Length > 0 && CountFull(table[..]) < table.Length
      ensures 0 <= idx < table.Length
      ensures found ==> HoldsKey(table[idx], key)
      ensures !found ==>
        0 <= n <= table.Length &&
        (forall j :: 0 <= j < n ==> !HoldsKey(table[Probe(hashCode(key), j, table.Length)], key)) &&
        (n < table.Length ==> table[Probe(hashCode(key), n, table.Length)] == Empty)
      ensures !found ==>
        (0 <= p < table.Length && idx == Probe(hashCode(key), p, table.Length) && !table[idx].Full? &&
         forall j :: 0 <= j < p ==> table[Probe(hashCode(key), j, table.Length)] != Empty)
    {
      var h := hashCode(key);
      var len := table.Length;
      ghost var free := NotFullCell(table[..]);
      ghost var o := Offset(h, free, len);
      ProbeCoversTable(h, free, len);
      var firstRemoved := NOT_FOUND;
      p := 0;
      var i := 0;
      while i < len
        invariant 0 <= i <= len
        invariant forall j :: 0 <= j < i ==> table[Probe(h, j, len)] != Empty
        invariant forall j :: 0 <= j < i ==> !HoldsKey(table[Probe(h, j, len)], key)
        invariant firstRemoved == NOT_FOUND ==> i <= o
        invariant firstRemoved != NOT_FOUND ==>
          0 <= p < i && firstRemoved == Probe(h, p, len) && table[firstRemoved] == Removed
      {
        idx := Probe(h, i, len);
        var e := table[idx];
        if e == Empty {
          if firstRemoved != NOT_FOUND {
            idx := firstRemoved;
          } else {
            p := i;
          }
          return idx, false, p, i;
        }
        if e == Removed {
          if firstRemoved == NOT_FOUND {
            firstRemoved := idx;
            p := i;
          }
        } else if e.entry.key == key {
          return idx, true, p, i;
        }
        i := i + 1;
      }
      // Every cell has been probed, so the removed cell met before `free` is there to take
      // the entry: the recursive call of the Java code after this point is never reached.
      return firstRemoved, false, p, len;
    }

    /**
     * put: rehashes a full table first, then writes the entry into the cell FindSlot
     * returns, which holds the key already or is the one a new key takes.
     */
    method Put(key: K, value: V) returns (r: Option<V>)
      requires Valid() && table.Length <= HashTable.MAX_INT / 2
      modifies this, table
      ensures Valid() && fresh(Repr - old(Repr))
      ensures r == if key in old(Contents) then Some(old(Contents)[key]) else None
      ensures Contents == old(Contents)[key := value]
    {
      if IsFull() {
        Rehash();
      }
      var idx, found, p, n := FindSlot(key);
      if !found {
        AbsentWhenNotMet(table[..], hashCode, Contents, Where, key, n);
      }
      if found {
        var previous := Overwrite(idx, key, value);
        r := Some(previous);
      } else {
        Fill(idx, key, value, p);
        r := None;
      }
    }

    /** Overwrites the entry in the key's cell. */
    method Overwrite(idx: int, key: K, value: V) returns (previous: V)
      requires Valid() && 0 <= idx < table.Length && HoldsKey(table[idx], key)
      modifies this, table
      ensures Valid() && Repr == old(Repr)
      ensures key in old(Contents) && previous == old(Contents)[key]
      ensures Contents == old(Contents)[key := value]
    {
      previous := table[idx].entry.value;
      table[idx] := Full(Entry(key, value));
      Contents := Contents[key := value];
      ReplaceKeeps(old(table[..]), hashCode, old(Contents), Where, idx, key, value, table[..], Contents);
    }

    /** Puts a new key into the cell FindSlot chose for it, `p` probes along. */
    method Fill(idx: int, key: K, value: V, ghost p: int)
      requires Valid() && key !in Contents && currentSize < maxSize && 0 <= p < table.Length
      requires idx == Probe(hashCode(key), p, table.Length) && !table[idx].Full?
      requires forall j :: 0 <= j < p ==> table[Probe(hashCode(key), j, table.Length)] != Empty
      modifies this, table
      ensures Valid() && Repr == old(Repr)
      ensures Contents == old(Contents)[key := value]
    {
      table[idx] := Full(Entry(key, value));
      currentSize := currentSize + 1;
      Contents := Contents[key := value];
      Where := Where[key := idx];
      InsertKeeps(old(table[..]), hashCode, old(Contents), old(Where), key, value, p, table[..], Contents, Where);
    }

    /** The first probe of hash code `h` that meets an empty cell of `newTable`. */
    static method FirstEmpty(newTable: array<Cell<K, V>>, h: int) returns (j: int)
      requires newTable.Length > 0 && CountFull(newTable[..]) < newTable.Length
      requires forall s :: 0 <= s < newTable.Length ==> newTable[s] != Removed
      ensures 0 <= j < newTable.Length && newTable[Probe(h, j, newTable.Length)] == Empty
      ensures forall i :: 0 <= i < j ==> newTable[Probe(h, i, newTable.Length)] != Empty
    {
      var len := newTable.Length;
      ghost var free := NotFullCell(newTable[..]);
      ghost var o := Offset(h, free, len);
      ProbeCoversTable(h, free, len);
      j := 0;
      while j < len && newTable[Probe(h, j, len)] != Empty
        invariant 0 <= j <= o
        invariant forall i :: 0 <= i < j ==> newTable[Probe(h, i, len)] != Empty
      {
        j := j + 1;
      }
    }

    /** Puts `e` into the first empty cell of its probe sequence in `newTable`. */
    method Reinsert(newTable: array<Cell<K, V>>, e: Entry<K, V>,
                    ghost m: map<K, V>, ghost where: map<K, int>) returns (ghost x: int)
      requires newTable.Length > 0 && Stores(newTable[..], hashCode, m, where)
      requires e.key !in m && |m| < newTable.Length
      requires forall s :: 0 <= s < newTable.Length ==> newTable[s] != Removed
      modifies newTable
      ensures 0 <= x < newTable.Length
      ensures forall s :: 0 <= s < newTable.Length ==> newTable[s] != Removed
      ensures Stores(newTable[..], hashCode, m[e.key := e.value], where[e.key := x])
    {
      var len := newTable.Length;
      var j := FirstEmpty(newTable, hashCode(e.key));
      var idx := Probe(hashCode(e.key), j, len);
      newTable[idx] := Full(e);
      x := idx;
      InsertKeeps(old(newTable[..]), hashCode, m, where, e.key, e.value, j,
                  newTable[..], m[e.key := e.value], where[e.key := x]);
    }

    /** The loop of rehash: every entry of `source` put again into `newTable`, in cell order. */
    method MoveAll(source: array<Cell<K, V>>, newTable: array<Cell<K, V>>,
                   ghost m: map<K, V>, ghost where: map<K, int>) returns (ghost where': map<K, int>)
      requires source != newTable && Stores(source[..], hashCode, m, where) && |m| < newTable.Length
      requires forall s :: 0 <= s < newTable.Length ==> newTable[s] == Empty
      modifies newTable
      ensures Stores(newTable[..], hashCode, m, where')
      ensures forall c :: 0 <= c < newTable.Length ==> newTable[c] != Removed
    {
      NoneFull(newTable[..]);
      UptoEnds(source[..], hashCode, m, where);
      where' := map[];
      var s := 0;
      while s < source.Length
        invariant 0 <= s <= source.Length
        invariant Stores(newTable[..], hashCode, Upto(m, where, s), where')
        invariant forall c :: 0 <= c < newTable.Length ==> newTable[c] != Removed
      {
        where' := MoveCell(source, newTable, s, m, where, where');
        s := s + 1;
      }
    }

    /** One step of rehash: the entry of cell `s` of `source`, if any, put into `newTable`. */
    method MoveCell(source: array<Cell<K, V>>, newTable: array<Cell<K, V>>, s: int,
                    ghost m: map<K, V>, ghost where: map<K, int>, ghost done: map<K, int>)
      returns (ghost done': map<K, int>)
      requires source != newTable && Stores(source[..], hashCode, m, where) && |m| < newTable.Length
      requires 0 <= s < source.Length && Stores(newTable[..], hashCode, Upto(m, where, s), done)
      requires forall c :: 0 <= c < newTable.Length ==> newTable[c] != Removed
      modifies newTable
      ensures Stores(newTable[..], hashCode, Upto(m, where, s + 1), done')
      ensures forall c :: 0 <= c < newTable.Length ==> newTable[c] != Removed
    {
      var e := source[s];
      UptoNext(source[..], hashCode, m, where, s);
      done' := done;
      if e != Empty && e != Removed {
        UptoBound(source[..], hashCode, m, where, s);
        ghost var x := Reinsert(newTable, e.entry, Upto(m, where, s), done);
        done' := done[e.entry.key := x];
      }
    }

    /**
     * rehash: a table of nextPrime(max(3, 2 * length)) cells, into which the entries are
     * put again in cell order.
     */
    method Rehash()
      requires Valid() && currentSize == maxSize && table.Length <= HashTable.MAX_INT / 2
      modifies this
      ensures Valid() && fresh(table) && Repr == {this, table} && Contents == old(Contents)
      ensures currentSize < maxSize && table.Length >= 3
      ensures forall c :: 0 <= c < table.Length ==> table[c] != Removed
    {
      var oldLen := table.Length;
      var proposed := if 3 > oldLen * 2 then 3 else oldLen * 2;
      var newLen := HashTable.NextPrime(proposed);
      if newLen == 0 {
        newLen := proposed;
      }
      var newTable := new Cell<K, V>[newLen](_ => Empty);
      ghost var where := MoveAll(table, newTable, Contents, Where);
      ghost var cells := newTable[..];
      table := newTable;
      maxSize := MaxEntries(table.Length);
      Repr := {this, table};
      Where := where;
      assert table[..] == cells;
    }

    /** remove: marks the key's cell removed. */
    method Remove(key: K) returns (r: Option<V>)
      requires Valid()
      modifies this, table
      ensures Valid() && Repr == old(Repr)
      ensures r == if key in old(Contents) then Some(old(Contents)[key]) else None
      ensures Contents == old(Contents) - {key}
    {
      var idx := SearchLinearProbing(key);
      if idx == NOT_FOUND {
        return None;
      }
      var previous := MarkRemoved(idx, key);
      r := Some(previous);
    }

    /** Marks the key's cell removed. */
    method MarkRemoved(idx: int, key: K) returns (previous: V)
      requires Valid() && 0 <= idx < table.Length && HoldsKey(table[idx], key)
      modifies this, table
      ensures Valid() && Repr == old(Repr)
      ensures key in old(Contents) && previous == old(Contents)[key]
      ensures Contents == old(Contents) - {key}
    {
      previous := table[idx].entry.value;
      table[idx] := Removed;
      currentSize := currentSize - 1;
      Contents := Contents - {key};
      Where := Where - {key};
      RemoveKeeps(old(table[..]), hashCode, old(Contents), old(Where), idx, key, table[..], Contents, Where);
    }

    /** iterator: an iterator over this table's cells. */
    method Iterator() returns (it: ClosedHashTableIterator<K, V>)
      requires Valid()
      ensures fresh(it) && it.Valid() && it.owner == this && it.Emitted() == 0
    {
      it := new ClosedHashTableIterator(this);
    }
  }

  /**
   * The iterator of the table. It reads the table's current cells. `next` here moves past
   * the cells that are not full after returning an entry, as `rewind` does, so `index` is
   * always at a full cell or at the end and hasNext agrees with next.
   */
  class ClosedHashTableIterator<K(==,!new), V> {
    const owner: ClosedHashTable<K, V>
    var index: int

    ghost predicate Valid()
      reads this, owner, owner.table
    {
      0 <= index <= owner.table.Length &&
      (index < owner.table.Length ==> owner.table[index].Full?)
    }

    /** Every entry of the table, in cell order. */
    ghost function Items(): seq<Entry<K, V>>
      reads owner, owner.table
    {
      FullEntries(owner.table[..])
    }

    /** How many entries have been returned. */
    ghost function Emitted(): int
      reads this, owner, owner.table
      requires Valid()
    {
      |FullEntries(owner.table[..index])|
    }

    constructor (theOwner: ClosedHashTable<K, V>)
      ensures Valid() && owner == theOwner && Emitted() == 0
    {
      owner := theOwner;
      index := 0;
      new;
      Rewind();
    }

    /** Moves `index` to the first full cell at or after it. */
    method SkipToFull()
      requires 0 <= index <= owner.table.Length
      modifies this
      ensures Valid() && old(index) <= index
      ensures FullEntries(owner.table[..index]) == FullEntries(owner.table[..old(index)])
    {
      ghost var start := index;
      while index < owner.table.Length && !owner.table[index].Full?
        invariant start <= index <= owner.table.Length
        invariant forall b :: start <= b < index ==> !owner.table[b].Full?
      {
        index := index + 1;
      }
      FullEntriesSkip(owner.table[..], start, index);
      assert owner.table[..][..index] == owner.table[..index];
      assert owner.table[..][..start] == owner.table[..start];
    }

    /** hasNext: a cell is left. */
    function HasNext(): (r: bool)
      reads this, owner, owner.table
      requires Valid()
      ensures r <==> Emitted() < |Items()|
    {
      if index < owner.table.Length then
        FullEntriesIndex(owner.table[..], index);
        assert owner.table[..][..index] == owner.table[..index];
        true
      else
        assert owner.table[..index] == owner.table[..];
        false
    }

    /** next: the entry at `index`, then on to the next full cell. */
    method Next() returns (r: Result<Entry<K, V>>)
      requires Valid()
      modifies this
      ensures Valid()
      ensures r.Err? <==> old(Emitted()) == |Items()|
      ensures r.Err? ==> r.error == NoSuchElement && index == old(index)
      ensures r.Ok? ==> old(Emitted()) < |Items()| && r.value == Items()[old(Emitted())]
      ensures r.Ok? ==> Emitted() == old(Emitted()) + 1
    {
      if index >= owner.table.Length {
        assert owner.table[..index] == owner.table[..];
        return Err(NoSuchElement);
      }
      FullEntriesIndex(owner.table[..], index);
      assert owner.table[..][..index] == owner.table[..index];
      FullEntriesAppend(owner.table[..], index);
      assert owner.table[..][..index + 1] == owner.table[..index + 1];
      r := Ok(owner.table[index].entry);
      index := index + 1;
      SkipToFull();
    }

    /** rewind: back to the first full cell. */
    method Rewind()
      modifies this
      ensures Valid() && Emitted() == 0
    {
      index := 0;
      SkipToFull();
    }
  }
}

=== FILE: command_type.dfy ===
/** The command words of the interpreter (CommandType). */
module CommandType {
  import opened Wrappers

  datatype CommandType =
    | Bounds | Save | Load | Service | Services | Student | Students | Rectangle
    | Leave | Go | Move | Users | Star | Where | Visited | Ranking | Ranked | Tag
    | Find | Help | Exit

  /** toString: the token stored in the constant, as written (CMD_STUDENTS stores "SETUDENTS"). */
  function ToString(c: CommandType): (s: string)
    ensures c != Students ==> s == Token(c)
    ensures c == Students ==> s != Token(c)
  {
    match c
    case Students => "SETUDENTS"
    case _ => Token(c)
  }

  /** The token the interpreter accepts for each command. */
  function Token(c: CommandType): string {
    match c
    case Bounds => "BOUNDS"
    case Save => "SAVE"
    case Load => "LOAD"
    case Service => "SERVICE"
    case Services => "SERVICES"
    case Student => "STUDENT"
    case Students => "STUDENTS"
    case Rectangle => "RECTANGLE"
    case Leave => "LEAVE"
    case Go => "GO"
    case Move => "MOVE"
    case Users => "USERS"
    case Star => "STAR"
    case Where => "WHERE"
    case Visited => "VISITED"
    case Ranking => "RANKING"
    case Ranked => "RANKED"
    case Tag => "TAG"
    case Find => "FIND"
    case Help => "HELP"
    case Exit => "EXIT"
  }

  /** getEnum: the command whose token is `s`, or null for any other word. */
  function GetEnum(s: string): (r: Option<CommandType>)
    ensures r.Some? ==> Token(r.value) == s
  {
    match s
    case "BOUNDS" => Some(Bounds)
    case "SAVE" => Some(Save)
    case "LOAD" => Some(Load)
    case "SERVICE" => Some(Service)
    case "SERVICES" => Some(Services)
    case "STUDENT" => Some(Student)
    case "STUDENTS" => Some(Students)
    case "RECTANGLE" => Some(Rectangle)
    case "LEAVE" => Some(Leave)
    case "GO" => Some(Go)
    case "MOVE" => Some(Move)
    case "USERS" => Some(Users)
    case "STAR" => Some(Star)
    case "WHERE" => Some(Where)
    case "VISITED" => Some(Visited)
    case "RANKING" => Some(Ranking)
    case "RANKED" => Some(Ranked)
    case "TAG" => Some(Tag)
    case "FIND" => Some(Find)
    case "HELP" => Some(Help)
    case "EXIT" => Some(Exit)
    case _ => None
  }

  /** Every command is recognised from its token, and only from it. */
  lemma TokenRoundTrip(c: CommandType, s: string)
    ensures GetEnum(Token(c)) == Some(c)
    ensures GetEnum(s) == Some(c) <==> s == Token(c)
  {
  }

  /** The token CMD_STUDENTS prints is not one the interpreter recognises. */
  lemma StudentsTokenDoesNotRoundTrip()
    ensures GetEnum(ToString(Students)) == None
  {
  }

  /** Every other command's printed token reads back as that command. */
  lemma ToStringRoundTrip(c: CommandType)
    requires c != Students
    ensures GetEnum(ToString(c)) == Some(c)
  {
    TokenRoundTrip(c, ToString(c));
  }
}

=== FILE: doubly_linked_list.dfy ===
/**
 * The doubly linked list (DoublyListNode, DoublyLinkedList) and its two iterators
 * (DoublyIterator, TwoWayDoublyIterator).
 *
 * The list is described by a ghost spine `Nodes`, the nodes from head to tail, and a
 * ghost `Contents`, their elements. The spine is linked both ways, its nodes are
 * distinct, and `head`/`tail` are its ends.
 */
module DoublyLinkedList {
  import opened Wrappers

  class DoublyListNode<E> {
    var element: E
    var previous: DoublyListNode?<E>
    var next: DoublyListNode?<E>

    /** The three-argument constructor. */
    constructor (theElement: E, thePrevious: DoublyListNode?<E>, theNext: DoublyListNode?<E>)
      ensures element == theElement && previous == thePrevious && next == theNext
    {
      element := theElement;
      previous := thePrevious;
      next := theNext;
    }

    /** The one-argument constructor: a node with no neighbours. */
    constructor Single(theElement: E)
      ensures element == theElement && previous == null && next == null
    {
      element := theElement;
      previous := null;
      next := null;
    }

    method SetElement(newElement: E)
      modifies this
      ensures element == newElement && previous == old(previous) && next == old(next)
    {
      element := newElement;
    }

    method SetPrevious(newPrevious: DoublyListNode?<E>)
      modifies this
      ensures previous == newPrevious && element == old(element) && next == old(next)
    {
      previous := newPrevious;
    }

    method SetNext(newNext: DoublyListNode?<E>)
      modifies this
      ensures next == newNext && element == old(element) && previous == old(previous)
    {
      next := newNext;
    }
  }

  /** The nodes are distinct, each one's `next` is the following one, each one's
   *  `previous` the one before, and the two ends point to null. */
  ghost predicate Linked<E>(ns: seq<DoublyListNode<E>>)
    reads ns
  {
    (forall i, j :: 0 <= i < j < |ns| ==> ns[i] != ns[j]) &&
    (forall i :: 0 <= i < |ns| - 1 ==> ns[i].next == ns[i + 1]) &&
    (forall i :: 0 < i < |ns| ==> ns[i].previous == ns[i - 1]) &&
    (|ns| > 0 ==> ns[0].previous == null && ns[|ns| - 1].next == null)
  }

  /** The elements held by a spine of nodes. */
  ghost predicate Holds<E>(ns: seq<DoublyListNode<E>>, items: seq<E>)
    reads ns
  {
    |ns| == |items| && forall i :: 0 <= i < |ns| ==> ns[i].element == items[i]
  }

  /** A spine inside a frame, linked both ways, holding `items`, with ends `h` and `t`. */
  ghost predicate Chain<E>(ns: seq<DoublyListNode<E>>, items: seq<E>, frame: set<object>,
                           h: DoublyListNode?<E>, t: DoublyListNode?<E>)
    reads frame
  {
    (forall i :: 0 <= i < |ns| ==> ns[i] in frame) && Linked(ns) && Holds(ns, items) &&
    (if ns == [] then h == null && t == null else h == ns[0] && t == ns[|ns| - 1])
  }

  /** Splicing a new node between positions p - 1 and p of a linked spine. */
  lemma SpliceLinked<E>(ns: seq<DoublyListNode<E>>, p: int, n: DoublyListNode<E>,
                        ns': seq<DoublyListNode<E>>)
    requires 0 < p < |ns| && ns' == ns[..p] + [n] + ns[p..] && n !in ns
    requires forall i, j :: 0 <= i < j < |ns| ==> ns[i] != ns[j]
    requires forall i :: 0 <= i < |ns| - 1 && i != p - 1 ==> ns[i].next == ns[i + 1]
    requires forall i :: 0 < i < |ns| && i != p ==> ns[i].previous == ns[i - 1]
    requires ns[p - 1].next == n && n.previous == ns[p - 1]
    requires n.next == ns[p] && ns[p].previous == n
    requires ns[0].previous == null && ns[|ns| - 1].next == null
    ensures Linked(ns')
  {
    forall k | 0 <= k < |ns'| - 1
      ensures ns'[k].next == ns'[k + 1]
    {
      if k < p - 1 {
        assert ns'[k] == ns[k] && ns'[k + 1] == ns[k + 1];
      } else if k > p {
        assert ns'[k] == ns[k - 1] && ns'[k + 1] == ns[k];
      }
    }
    forall k | 0 < k < |ns'|
      ensures ns'[k].previous == ns'[k - 1]
    {
      if k < p {
        assert ns'[k] == ns[k] && ns'[k - 1] == ns[k - 1];
      } else if k > p + 1 {
        assert ns'[k] == ns[k - 1] && ns'[k - 1] == ns[k - 2];
      }
    }
    forall i, j | 0 <= i < j < |ns'|
      ensures ns'[i] != ns'[j]
    {
      var i0 := if i < p then i else if i == p then -1 else i - 1;
      var j0 := if j < p then j else if j == p then -1 else j - 1;
      if i0 >= 0 && j0 >= 0 {
        assert ns'[i] == ns[i0] && ns'[j] == ns[j0];
      }
    }
  }

  /** A spliced spine holds the spliced items, keeps its two ends and stays inside a frame. */
  lemma Splice<E>(spine: seq<DoublyListNode<E>>, items: seq<E>, p: int, n: DoublyListNode<E>,
                  ns: seq<DoublyListNode<E>>, items': seq<E>, frame: set<object>)
    requires 0 < p < |spine| && n !in spine && Holds(spine, items)
    requires forall i, j :: 0 <= i < j < |spine| ==> spine[i] != spine[j]
    requires forall i :: 0 <= i < |spine| - 1 && i != p - 1 ==> spine[i].next == spine[i + 1]
    requires forall i :: 0 < i < |spine| && i != p ==> spine[i].previous == spine[i - 1]
    requires spine[p - 1].next == n && n.previous == spine[p - 1]
    requires n.next == spine[p] && spine[p].previous == n
    requires spine[0].previous == null && spine[|spine| - 1].next == null
    requires ns == spine[..p] + [n] + spine[p..]
    requires items' == items[..p] + [n.element] + items[p..]
    requires n in frame && forall i :: 0 <= i < |spine| ==> spine[i] in frame
    ensures Linked(ns) && Holds(ns, items')
    ensures ns[0] == spine[0] && ns[|ns| - 1] == spine[|spine| - 1]
    ensures forall i :: 0 <= i < |ns| ==> ns[i] in frame
  {
    SpliceLinked(spine, p, n, ns);
    forall k | 0 <= k < |ns|
      ensures ns[k].element == items'[k] && ns[k] in frame
    {
      if k < p {
        assert ns[k] == spine[k] && items'[k] == items[k];
      } else if k > p {
        assert ns[k] == spine[k - 1] && items'[k] == items[k - 1];
      }
    }
  }

  /** A spine with a new last node `n` after it. */
  lemma Append<E>(spine: seq<DoublyListNode<E>>, items: seq<E>, n: DoublyListNode<E>,
                  ns: seq<DoublyListNode<E>>, items': seq<E>)
    requires ns == spine + [n] && items' == items + [n.element] && n !in spine && Holds(spine, items)
    requires forall i, j :: 0 <= i < j < |spine| ==> spine[i] != spine[j]
    requires forall i :: 0 <= i < |spine| - 1 ==> spine[i].next == spine[i + 1]
    requires forall i :: 0 < i < |spine| ==> spine[i].previous == spine[i - 1]
    requires spine != [] ==> spine[0].previous == null && spine[|spine| - 1].next == n
    requires n.previous == (if spine == [] then null else spine[|spine| - 1]) && n.next == null
    ensures Linked(ns) && Holds(ns, items')
  {
  }

  /** A spine with a new first node `n` before it. */
  lemma Prepend<E>(spine: seq<DoublyListNode<E>>, items: seq<E>, n: DoublyListNode<E>,
                   ns: seq<DoublyListNode<E>>, items': seq<E>)
    requires ns == [n] + spine && items' == [n.element] + items && n !in spine && Holds(spine, items)
    requires forall i, j :: 0 <= i < j < |spine| ==> spine[i] != spine[j]
    requires forall i :: 0 <= i < |spine| - 1 ==> spine[i].next == spine[i + 1]
    requires forall i :: 0 < i < |spine| ==> spine[i].previous == spine[i - 1]
    requires spine != [] ==> spine[0].previous == n && spine[|spine| - 1].next == null
    requires n.next == (if spine == [] then null else spine[0]) && n.previous == null
    ensures Linked(ns) && Holds(ns, items')
  {
  }

  /** Cutting the node at position p out of a spine whose neighbours now point past it. */
  lemma Cut<E>(spine: seq<DoublyListNode<E>>, items: seq<E>, p: int,
               ns: seq<DoublyListNode<E>>, items': seq<E>, frame: set<object>)
    requires 0 < p < |spine| - 1 && Holds(spine, items)
    requires forall i, j :: 0 <= i < j < |spine| ==> spine[i] != spine[j]
    requires forall i :: 0 <= i < |spine| - 1 && i != p - 1 && i != p ==> spine[i].next == spine[i + 1]
    requires forall i :: 0 < i < |spine| && i != p && i != p + 1 ==> spine[i].previous == spine[i - 1]
    requires spine[p - 1].next == spine[p + 1] && spine[p + 1].previous == spine[p - 1]
    requires spine[0].previous == null && spine[|spine| - 1].next == null
    requires ns == spine[..p] + spine[p + 1..] && items' == items[..p] + items[p + 1..]
    requires forall i :: 0 <= i < |spine| ==> spine[i] in frame
    ensures Linked(ns) && Holds(ns, items')
    ensures ns[0] == spine[0] && ns[|ns| - 1] == spine[|spine| - 1]
    ensures forall i :: 0 <= i < |ns| ==> ns[i] in frame
  {
    forall k | 0 <= k < |ns|
      ensures ns[k] == spine[if k < p then k else k + 1]
      ensures items'[k] == items[if k < p then k else k + 1]
    {
    }
    forall i, j | 0 <= i < j < |ns|
      ensures ns[i] != ns[j]
    {
      assert ns[i] == spine[if i < p then i else i + 1];
    }
  }

  /** Points the nodes at positions p - 1 and p of a spine at a new node between them. */
  method Link<E>(before: DoublyListNode<E>, newNode: DoublyListNode<E>, current: DoublyListNode<E>,
                 ghost spine: seq<DoublyListNode<E>>, ghost items: seq<E>, ghost p: int,
                 ghost ns: seq<DoublyListNode<E>>, ghost items': seq<E>, ghost frame: set<object>,
                 ghost h: DoublyListNode?<E>, ghost t: DoublyListNode?<E>)
    requires Chain(spine, items, frame, h, t) && 0 < p < |spine| && newNode !in spine
    requires before == spine[p - 1] && current == spine[p]
    requires newNode.previous == before && newNode.next == current && newNode in frame
    requires ns == spine[..p] + [newNode] + spine[p..]
    requires items' == items[..p] + [newNode.element] + items[p..]
    modifies before, current
    ensures Chain(ns, items', frame, h, t)
  {
    before.SetNext(newNode);
    current.SetPrevious(newNode);
    forall k | 0 <= k < |spine| - 1 && k != p - 1
      ensures spine[k].next == spine[k + 1]
    {
      assert spine[k] != before;
    }
    forall k | 0 < k < |spine| && k != p
      ensures spine[k].previous == spine[k - 1]
    {
      assert spine[k] != current;
    }
    Splice(spine, items, p, newNode, ns, items', frame);
  }

  /** Points the two neighbours of the node at position `p` of a spine at each other. */
  method Bypass<E>(current: DoublyListNode<E>, ghost spine: seq<DoublyListNode<E>>,
                   ghost items: seq<E>, ghost p: int, ghost ns: seq<DoublyListNode<E>>,
                   ghost items': seq<E>, ghost frame: set<object>,
                   ghost h: DoublyListNode?<E>, ghost t: DoublyListNode?<E>)
    requires Chain(spine, items, frame, h, t) && 0 < p < |spine| - 1 && current == spine[p]
    requires ns == spine[..p] + spine[p + 1..] && items' == items[..p] + items[p + 1..]
    modifies spine[p - 1], spine[p + 1]
    ensures Chain(ns, items', frame, h, t)
  {
    var before, after := current.previous, current.next;
    before.SetNext(after);
    after.SetPrevious(before);
    forall k | 0 <= k < |spine| - 1 && k != p - 1 && k != p
      ensures spine[k].next == spine[k + 1]
    {
      assert spine[k] != before;
    }
    forall k | 0 < k < |spine| && k != p && k != p + 1
      ensures spine[k].previous == spine[k - 1]
    {
      assert spine[k] != after;
    }
    Cut(spine, items, p, ns, items', frame);
  }

  class DoublyLinkedList<E(==)> {
    var head: DoublyListNode?<E>
    var tail: DoublyListNode?<E>
    var currentSize: int
    ghost var Nodes: seq<DoublyListNode<E>>
    ghost var Contents: seq<E>
    ghost var Repr: set<object>

    ghost predicate Valid()
      reads this, Repr
    {
      this in Repr && currentSize == |Nodes| && Chain(Nodes, Contents, Repr, head, tail)
    }

    constructor ()
      ensures Valid() && fresh(Repr) && Contents == []
    {
      head := null;
      tail := null;
      currentSize := 0;
      Nodes := [];
      Contents := [];
      Repr := {this};
    }

    function IsEmpty(): (r: bool)
      reads this, Repr
      requires Valid()
      ensures r <==> Contents == []
    {
      currentSize == 0
    }

    function Size(): (r: int)
      reads this, Repr
      requires Valid()
      ensures r == |Contents|
    {
      currentSize
    }

    method AddFirst(element: E)
      requires Valid()
      modifies Repr
      ensures Valid() && fresh(Repr - old(Repr))
      ensures Contents == [element] + old(Contents)
    {
      var newNode := new DoublyListNode(element, null, head);
      if IsEmpty() {
        head, tail := newNode, newNode;
      } else {
        head.SetPrevious(newNode);
        head := newNode;
      }
      currentSize := currentSize + 1;
      Nodes := [newNode] + Nodes;
      Contents := [element] + Contents;
      Repr := Repr + {newNode};
      Prepend(old(Nodes), old(Contents), newNode, Nodes, Contents);
    }

    method AddLast(element: E)
      requires Valid()
      modifies Repr
      ensures Valid() && fresh(Repr - old(Repr))
      ensures Contents == old(Contents) + [element]
    {
      var newNode := new DoublyListNode(element, tail, null);
      if IsEmpty() {
        head, tail := newNode, newNode;
      } else {
        tail.SetNext(newNode);
        tail := newNode;
      }
      currentSize := currentSize + 1;
      Nodes := Nodes + [newNode];
      Contents := Contents + [element];
      Repr := Repr + {newNode};
      Append(old(Nodes), old(Contents), newNode, Nodes, Contents);
    }

    /** getFirst: the first element, or NoSuchElementException on an empty list. */
    function GetFirst(): (r: Result<E>)
      reads this, Repr
      requires Valid()
      ensures r.Err? <==> Contents == []
      ensures r.Err? ==> r.error == NoSuchElement
      ensures r.Ok? ==> r.value == Contents[0]
    {
      if IsEmpty() then Err(NoSuchElement) else Ok(head.element)
    }

    /** getLast: the last element, or NoSuchElementException on an empty list. */
    function GetLast(): (r: Result<E>)
      reads this, Repr
      requires Valid()
      ensures r.Err? <==> Contents == []
      ensures r.Err? ==> r.error == NoSuchElement
      ensures r.Ok? ==> r.value == Contents[|Contents| - 1]
    {
      if IsEmpty() then Err(NoSuchElement) else Ok(tail.element)
    }

    /**
     * get: the element at a position. Positions in the first half are reached from the
     * head, the others from the tail.
     */
    method Get(position: int) returns (r: Result<E>)
      requires Valid()
      ensures r.Err? <==> !(0 <= position < |Contents|)
      ensures r.Err? ==> r.error == InvalidPosition
      ensures r.Ok? ==> r.value == Contents[position]
    {
      if position < 0 || position >= currentSize {
        return Err(InvalidPosition);
      }
      var current: DoublyListNode<E>;
      if position <= currentSize / 2 {
        current := head;
        var i := 0;
        while i < position
          invariant 0 <= i <= position && current == Nodes[i]
        {
          assert Nodes[i].next == Nodes[i + 1];
          current := current.next;
          i := i + 1;
        }
      } else {
        current := tail;
        var i := currentSize - 1;
        while i > position
          invariant position <= i <= currentSize - 1 && current == Nodes[i]
        {
          assert Nodes[i].previous == Nodes[i - 1];
          current := current.previous;
          i := i - 1;
        }
      }
      return Ok(current.element);
    }

    /** indexOf: the position of the first occurrence of the element, or -1. */
    method IndexOf(element: E) returns (r: int)
      requires Valid()
      ensures -1 <= r < |Contents|
      ensures r == -1 <==> element !in Contents
      ensures r >= 0 ==> Contents[r] == element && element !in Contents[..r]
    {
      var current := head;
      var index := 0;
      while current != null
        invariant 0 <= index <= |Nodes|
        invariant current == if index < |Nodes| then Nodes[index] else null
        invariant element !in Contents[..index]
        decreases |Nodes| - index
      {
        if current.element == element {
          return index;
        }
        assert Contents[..index + 1] == Contents[..index] + [Contents[index]];
        current := current.next;
        index := index + 1;
      }
      assert Contents[..index] == Contents;
      return -1;
    }

    /** add: inserts at a position between 0 and the size, both included. */
    method Add(position: int, element: E) returns (r: Outcome)
      requires Valid()
      modifies Repr
      ensures Valid() && fresh(Repr - old(Repr))
      ensures r.Fail? <==> !(0 <= position <= old(|Contents|))
      ensures r.Fail? ==> r.error == InvalidPosition && Contents == old(Contents)
      ensures r.Pass? ==> Contents == old(Contents)[..position] + [element] + old(Contents)[position..]
    {
      if position < 0 || position > currentSize {
        return Fail(InvalidPosition);
      }
      if position == 0 {
        AddFirst(element);
      } else if position == currentSize {
        AddLast(element);
        assert old(Contents)[position..] == [];
      } else {
        var current := WalkForward(position);
        InsertBefore(current, position, element);
      }
      return Pass;
    }

    /** The loop `for (i = 0; i < position; i++) current = current.getNext()` from the head. */
    method WalkForward(position: int) returns (current: DoublyListNode<E>)
      requires Valid() && 0 <= position < |Nodes|
      ensures current == Nodes[position]
    {
      current := head;
      var i := 0;
      while i < position
        invariant 0 <= i <= position && current == Nodes[i]
      {
        assert Nodes[i].next == Nodes[i + 1];
        current := current.next;
        i := i + 1;
      }
    }

    /** The middle case of add: the new node goes between positions - 1 and position. */
    method InsertBefore(current: DoublyListNode<E>, position: int, element: E)
      requires Valid() && 0 < position < |Contents| && current == Nodes[position]
      modifies Repr
      ensures Valid() && fresh(Repr - old(Repr))
      ensures Contents == old(Contents)[..position] + [element] + old(Contents)[position..]
    {
      assert Nodes[position].previous == Nodes[position - 1] && Nodes[position - 1] in Repr;
      var before := current.previous;
      ghost var spine, items := Nodes, Contents;
      var newNode := new DoublyListNode(element, before, current);
      currentSize, Nodes, Contents, Repr := currentSize + 1,
        Nodes[..position] + [newNode] + Nodes[position..],
        Contents[..position] + [element] + Contents[position..], Repr + {newNode};
      assert Repr == old(Repr) + {newNode};
      Link(before, newNode, current, spine, items, position, Nodes, Contents, Repr, head, tail);
    }

    /** removeFirst: removes and returns the first element. */
    method RemoveFirst() returns (r: Result<E>)
      requires Valid()
      modifies Repr
      ensures Valid() && Repr == old(Repr)
      ensures r.Err? <==> old(Contents) == []
      ensures r.Err? ==> r.error == NoSuchElement && Contents == old(Contents)
      ensures r.Ok? ==> r.value == old(Contents)[0] && Contents == old(Contents)[1..]
    {
      if IsEmpty() {
        return Err(NoSuchElement);
      }
      var element := head.element;
      if head == tail {
        head, tail := null, null;
      } else {
        assert Nodes[0].next == Nodes[1] && Nodes[1] in Repr;
        head := head.next;
        head.SetPrevious(null);
      }
      currentSize := currentSize - 1;
      Nodes := Nodes[1..];
      Contents := Contents[1..];
      return Ok(element);
    }

    /** removeLast: removes and returns the last element. */
    method RemoveLast() returns (r: Result<E>)
      requires Valid()
      modifies Repr
      ensures Valid() && Repr == old(Repr)
      ensures r.Err? <==> old(Contents) == []
      ensures r.Err? ==> r.error == NoSuchElement && Contents == old(Contents)
      ensures r.Ok? ==> r.value == old(Contents)[|old(Contents)| - 1]
      ensures r.Ok? ==> Contents == old(Contents)[..|old(Contents)| - 1]
    {
      if IsEmpty() {
        return Err(NoSuchElement);
      }
      var element := tail.element;
      if head == tail {
        head, tail := null, null;
      } else {
        assert Nodes[|Nodes| - 1].previous == Nodes[|Nodes| - 2] && Nodes[|Nodes| - 2] in Repr;
        tail := tail.previous;
        tail.SetNext(null);
      }
      currentSize := currentSize - 1;
      Nodes := Nodes[..|Nodes| - 1];
      Contents := Contents[..|Contents| - 1];
      return Ok(element);
    }

    /** remove: removes and returns the element at a position. */
    method Remove(position: int) returns (r: Result<E>)
      requires Valid()
      modifies Repr
      ensures Valid() && Repr == old(Repr)
      ensures r.Err? <==> !(0 <= position < |old(Contents)|)
      ensures r.Err? ==> r.error == InvalidPosition && Contents == old(Contents)
      ensures r.Ok? ==> r.value == old(Contents)[position]
      ensures r.Ok? ==> Contents == old(Contents)[..position] + old(Contents)[position + 1..]
    {
      if position < 0 || position >= currentSize {
        return Err(InvalidPosition);
      }
      if position == 0 {
        r := RemoveFirst();
        return;
      } else if position == currentSize - 1 {
        r := RemoveLast();
        return;
      }
      var element := Unlink(position);
      return Ok(element);
    }

    /** The middle case of remove: the node at `position` is unlinked from its neighbours. */
    method Unlink(position: int) returns (element: E)
      requires Valid() && 0 < position < |Contents| - 1
      modifies Repr
      ensures Valid() && Repr == old(Repr)
      ensures element == old(Contents)[position]
      ensures Contents == old(Contents)[..position] + old(Contents)[position + 1..]
    {
      var current := WalkForward(position);
      element := current.element;
      ghost var spine, items := Nodes, Contents;
      assert spine[position - 1] in Repr && spine[position + 1] in Repr;
      currentSize, Nodes, Contents := currentSize - 1,
        Nodes[..position] + Nodes[position + 1..], Contents[..position] + Contents[position + 1..];
      Bypass(current, spine, items, position, Nodes, Contents, Repr, head, tail);
    }

    /** iterator: a forward iterator from the head. */
    method Iterator() returns (it: DoublyIterator<E>)
      requires Valid()
      ensures fresh(it) && it.Valid() && it.Nodes == Nodes && it.Items == Contents && it.pos == 0
    {
      it := new DoublyIterator(head, Nodes, Contents);
    }

    /** twoWayiterator: an iterator that can also walk back from the tail. */
    method TwoWayIterator() returns (it: TwoWayDoublyIterator<E>)
      requires Valid()
      ensures fresh(it) && it.Valid() && it.Nodes == Nodes && it.Items == Contents && it.pos == 0
    {
      it := new TwoWayDoublyIterator(head, tail, Nodes, Contents);
    }
  }

  /**
   * DoublyIterator: walks the `next` links from a first node. The ghost `pos` is how
   * many elements have been returned since the last rewind.
   */
  class DoublyIterator<E> {
    var firstNode: DoublyListNode?<E>
    var nextToReturn: DoublyListNode?<E>
    ghost const Nodes: seq<DoublyListNode<E>>
    ghost const Items: seq<E>
    ghost var pos: nat

    ghost predicate Valid()
      reads this, Nodes
    {
      Linked(Nodes) && Holds(Nodes, Items) && pos <= |Nodes| &&
      firstNode == (if Nodes == [] then null else Nodes[0]) &&
      nextToReturn == (if pos < |Nodes| then Nodes[pos] else null)
    }

    constructor (first: DoublyListNode?<E>, ghost nodes: seq<DoublyListNode<E>>, ghost items: seq<E>)
      requires Linked(nodes) && Holds(nodes, items)
      requires first == if nodes == [] then null else nodes[0]
      ensures Valid() && Nodes == nodes && Items == items && pos == 0
    {
      firstNode := first;
      nextToReturn := first;
      Nodes, Items, pos := nodes, items, 0;
    }

    function HasNext(): (r: bool)
      reads this, Nodes
      requires Valid()
      ensures r <==> pos < |Items|
    {
      nextToReturn != null
    }

    /** next: the next element in list order, or NoSuchElementException past the end. */
    method Next() returns (r: Result<E>)
      requires Valid()
      modifies this
      ensures Valid()
      ensures r.Err? <==> old(pos) == |Items|
      ensures r.Err? ==> r.error == NoSuchElement && pos == old(pos)
      ensures r.Ok? ==> r.value == Items[old(pos)] && pos == old(pos) + 1
    {
      if !HasNext() {
        return Err(NoSuchElement);
      }
      var element := nextToReturn.element;
      nextToReturn := nextToReturn.next;
      pos := pos + 1;
      return Ok(element);
    }

    method Rewind()
      requires Valid()
      modifies this
      ensures Valid() && pos == 0
    {
      nextToReturn := firstNode;
      pos := 0;
    }
  }

  /**
   * TwoWayDoublyIterator: a cursor between two elements. `nextToReturn` is the node
   * after the cursor and `prevToReturn` the node before it.
   */
  class TwoWayDoublyIterator<E> {
    var firstNode: DoublyListNode?<E>
    var lastNode: DoublyListNode?<E>
    var nextToReturn: DoublyListNode?<E>
    var prevToReturn: DoublyListNode?<E>
    ghost const Nodes: seq<DoublyListNode<E>>
    ghost const Items: seq<E>
    ghost var pos: nat

    ghost predicate Valid()
      reads this, Nodes
    {
      Linked(Nodes) && Holds(Nodes, Items) && pos <= |Nodes| &&
      firstNode == (if Nodes == [] then null else Nodes[0]) &&
      lastNode == (if Nodes == [] then null else Nodes[|Nodes| - 1]) &&
      nextToReturn == (if pos < |Nodes| then Nodes[pos] else null) &&
      prevToReturn == (if pos > 0 then Nodes[pos - 1] else null)
    }

    constructor (first: DoublyListNode?<E>, last: DoublyListNode?<E>,
                 ghost nodes: seq<DoublyListNode<E>>, ghost items: seq<E>)
      requires Linked(nodes) && Holds(nodes, items)
      requires first == (if nodes == [] then null else nodes[0])
      requires last == (if nodes == [] then null else nodes[|nodes| - 1])
      ensures Valid() && Nodes == nodes && Items == items && pos == 0
    {
      firstNode := first;
      nextToReturn := first;
      lastNode := last;
      prevToReturn := null;
      Nodes, Items, pos := nodes, items, 0;
    }

    function HasNext(): (r: bool)
      reads this, Nodes
      requires Valid()
      ensures r <==> pos < |Items|
    {
      nextToReturn != null
    }

    function HasPrevious(): (r: bool)
      reads this, Nodes
      requires Valid()
      ensures r <==> pos > 0
    {
      prevToReturn != null
    }

    /** next: returns the element after the cursor and moves the cursor past it. */
    method Next() returns (r: Result<E>)
      requires Valid()
      modifies this
      ensures Valid()
      ensures r.Err? <==> old(pos) == |Items|
      ensures r.Err? ==> r.error == NoSuchElement && pos == old(pos)
      ensures r.Ok? ==> r.value == Items[old(pos)] && pos == old(pos) + 1
    {
      if !HasNext() {
        return Err(NoSuchElement);
      }
      var element := nextToReturn.element;
      prevToReturn := nextToReturn;
      nextToReturn := nextToReturn.next;
      pos := pos + 1;
      return Ok(element);
    }

    /** previous: returns the element before the cursor and moves the cursor before it. */
    method Previous() returns (r: Result<E>)
      requires Valid()
      modifies this
      ensures Valid()
      ensures r.Err? <==> old(pos) == 0
      ensures r.Err? ==> r.error == NoSuchElement && pos == old(pos)
      ensures r.Ok? ==> r.value == Items[old(pos) - 1] && pos == old(pos) - 1
    {
      if !HasPrevious() {
        return Err(NoSuchElement);
      }
      var element := prevToReturn.element;
      nextToReturn := prevToReturn;
      prevToReturn := prevToReturn.previous;
      pos := pos - 1;
      return Ok(element);
    }

    /** fullForward: puts the cursor after the last element. */
    method FullForward()
      requires Valid()
      modifies this
      ensures Valid() && pos == |Items|
    {
      nextToReturn := null;
      prevToReturn := lastNode;
      pos := |Nodes|;
    }

    /** rewind: puts the cursor before the first element. */
    method Rewind()
      requires Valid()
      modifies this
      ensures Valid() && pos == 0
    {
      nextToReturn := firstNode;
      prevToReturn := null;
      pos := 0;
    }
  }
}

=== FILE: filter_iterator.dfy ===
/**
 * FilterIterator: yields, in order, the elements of a wrapped iterator that satisfy a
 * predicate. `hasNext` pulls elements until one passes and buffers it; `next` only hands
 * out the buffer. Java's null buffer is `None`.
 */
module FilterIterator {
  import opened Wrappers
  import opened SeqIterator

  /** The elements of `s` that satisfy `f`, in order. */
  function Filter<E>(s: seq<E>, f: E -> bool): (r: seq<E>)
    ensures |r| <= |s|
  {
    if s == [] then []
    else Filter(s[..|s| - 1], f) + (if f(s[|s| - 1]) then [s[|s| - 1]] else [])
  }

  /** An element is kept exactly when it is in `s` and satisfies `f`. */
  lemma {:induction false} FilterMembers<E>(s: seq<E>, f: E -> bool, x: E)
    ensures x in Filter(s, f) <==> x in s && f(x)
  {
    if s != [] {
      var init := s[..|s| - 1];
      FilterMembers(init, f, x);
      assert s == init + [s[|s| - 1]];
    }
  }

  /** Filtering a prefix gives a prefix of the filtered sequence. */
  lemma {:induction false} FilterPrefix<E>(s: seq<E>, f: E -> bool, n: nat)
    requires n <= |s|
    ensures |Filter(s[..n], f)| <= |Filter(s, f)|
    ensures Filter(s[..n], f) == Filter(s, f)[..|Filter(s[..n], f)|]
  {
    if n < |s| {
      assert s[..|s| - 1][..n] == s[..n];
      FilterPrefix(s[..|s| - 1], f, n);
    } else {
      assert s[..n] == s;
    }
  }

  /** One more element of `s` adds itself to the filtered prefix exactly when it passes. */
  lemma FilterStep<E>(s: seq<E>, f: E -> bool, n: nat)
    requires n < |s|
    ensures Filter(s[..n + 1], f) == Filter(s[..n], f) + (if f(s[n]) then [s[n]] else [])
  {
    assert s[..n + 1][..n] == s[..n];
  }

  /** An element that passes is the last of its filtered prefix, at that place in the whole. */
  lemma LastPassed<E>(s: seq<E>, f: E -> bool, n: nat)
    requires 0 < n <= |s| && f(s[n - 1])
    ensures 1 <= |Filter(s[..n], f)| <= |Filter(s, f)|
    ensures Filter(s, f)[|Filter(s[..n], f)| - 1] == s[n - 1]
  {
    FilterStep(s, f, n - 1);
    FilterPrefix(s, f, n);
    var k := |Filter(s[..n], f)|;
    assert Filter(s[..n], f)[k - 1] == s[n - 1];
    assert Filter(s, f)[k - 1] == Filter(s[..n], f)[k - 1];
  }

  class FilterIterator<E> {
    const source: SeqIterator<E>  // `iterator` in the Java class
    const filter: E -> bool
    var nextToReturn: Option<E>

    /** The buffer, when full, is the last element pulled, and it passed the filter. */
    ghost predicate Valid()
      reads this, source
    {
      source.Valid() &&
      (nextToReturn.Some? ==>
         source.pos > 0 && nextToReturn.value == source.items[source.pos - 1] &&
         filter(nextToReturn.value))
    }

    /** How many elements this iterator has handed out since the last rewind. */
    ghost function Emitted(): (n: int)
      reads this, source
      requires source.Valid()
    {
      |Filter(source.items[..source.pos], filter)| - (if nextToReturn.Some? then 1 else 0)
    }

    /** All the elements this iterator yields, in order. */
    ghost function Output(): seq<E> {
      Filter(source.items, filter)
    }

    constructor (list: SeqIterator<E>, theFilter: E -> bool)
      requires list.Valid()
      modifies list
      ensures Valid() && source == list && filter == theFilter && Emitted() == 0
    {
      source := list;
      filter := theFilter;
      new;
      Rewind();
    }

    /** hasNext: pulls elements until one passes the filter, and buffers it. */
    method HasNext() returns (r: bool)
      requires Valid()
      modifies source, this
      ensures Valid() && Emitted() == old(Emitted()) && 0 <= Emitted() <= |Output()|
      ensures r <==> Emitted() < |Output()|
      ensures r ==> nextToReturn == Some(Output()[Emitted()])
    {
      if nextToReturn.None? {
        while nextToReturn.None? && source.HasNext()
          invariant Valid() && Emitted() == old(Emitted())
          decreases |source.items| - source.pos, if nextToReturn.None? then 1 else 0
        {
          var elem := source.Next();
          FilterStep(source.items, filter, source.pos - 1);
          if filter(elem.value) {
            nextToReturn := Some(elem.value);
          }
        }
      }
      if nextToReturn.Some? {
        LastPassed(source.items, filter, source.pos);
        return true;
      }
      assert source.items[..source.pos] == source.items;
      return false;
    }

    /** next: hands out the buffered element; with nothing buffered it fails, without searching. */
    method Next() returns (r: Result<E>)
      requires Valid()
      modifies this
      ensures Valid()
      ensures r.Err? <==> old(nextToReturn).None?
      ensures r.Err? ==> r.error == NoSuchElement && Emitted() == old(Emitted())
      ensures r.Ok? ==> r.value == old(nextToReturn).value && Emitted() == old(Emitted()) + 1
      ensures nextToReturn.None?
    {
      if nextToReturn.None? {
        return Err(NoSuchElement);
      }
      var current := nextToReturn.value;
      nextToReturn := None;
      return Ok(current);
    }

    /** rewind: rewinds the wrapped iterator and drops the buffer. */
    method Rewind()
      requires source.Valid()
      modifies source, this
      ensures Valid() && Emitted() == 0 && nextToReturn.None?
    {
      source.Rewind();
      nextToReturn := None;
    }
  }

  /** `hasNext` then `next` yields the next element of the filtered sequence. */
  method HasNextThenNext<E>(it: FilterIterator<E>) returns (r: Result<E>)
    requires it.Valid() && it.Emitted() < |it.Output()|
    modifies it, it.source
    ensures it.Valid() && r.Ok? && r.value == it.Output()[old(it.Emitted())]
    ensures it.Emitted() == old(it.Emitted()) + 1
  {
    var more := it.HasNext();
    r := it.Next();
  }
}

=== FILE: hash_table.dfy ===
/**
 * The static helpers of the abstract HashTable: the polynomial string hash with Java's
 * 32-bit int arithmetic, the trial-division primality test and the prime search that
 * sizes the tables. Java `long` values are plain integers here.
 */
module HashTable {
  const MAX_INT: int := 2147483647
  const TWO_TO_32: int := 0x1_0000_0000
  /** Default capacity of a hash table. */
  const DEFAULT_CAPACITY: int := 50

  // ---------------------------------------------------------------- primes

  predicate Divides(d: int, n: int)
    requires d > 0
  {
    n % d == 0
  }

  /** Mathematical primality: at least 2 and no divisor strictly between 1 and itself. */
  ghost predicate Prime(n: int) {
    n >= 2 && forall d :: 2 <= d < n ==> !Divides(d, n)
  }

  /** Multiplying by a non-negative factor keeps the order. */
  lemma MulMonotone(a: int, b: int, c: int)
    ensures a <= b && c >= 0 ==> a * c <= b * c
  {
    if a <= b && c >= 0 {
      assert b * c - a * c == (b - a) * c;
    }
  }

  /** Euclidean division is unique: an exact multiple leaves no remainder. */
  lemma DivisionOfMultiple(n: int, q: int, k: int)
    requires q > 0 && n == k * q
    ensures n % q == 0 && n / q == k
  {
    var m, r := n / q, n % q;
    assert n == m * q + r && 0 <= r < q;
    assert (k - m) * q == r;
    MulMonotone(1, k - m, q);
    MulMonotone(k - m, -1, q);
  }

  /** An odd number has no even divisor. */
  lemma OddHasNoEvenDivisor(n: int, d: int)
    requires d > 0 && d % 2 == 0
    ensures Divides(d, n) ==> n % 2 == 0
  {
    if n % d == 0 {
      var q, h := n / d, d / 2;
      assert n == q * d && d == 2 * h;
      assert n == (q * h) * 2;
      DivisionOfMultiple(n, 2, q * h);
    }
  }

  /** A divisor at or above the square root pairs with a cofactor below it. */
  lemma CofactorBelowRoot(n: int, d: int, i: int)
    requires 2 <= d < n && Divides(d, n) && i >= 1 && i * i > n && d >= i
    ensures 2 <= n / d < i && Divides(n / d, n)
  {
    var q := n / d;
    assert n == q * d;
    MulMonotone(q, 1, d);
    MulMonotone(i, q, d);
    MulMonotone(i, d, i);
    DivisionOfMultiple(n, q, d);
  }

  /**
   * isPrime: false below 2, even numbers are prime only when equal to 2, and an odd
   * number is tested against the odd divisors up to its square root (the Java code
   * bounds `i` by `(long) Math.sqrt(n)`, which is the test `i * i <= n`).
   */
  method IsPrime(n: int) returns (r: bool)
    ensures r <==> Prime(n)
  {
    if n < 2 { return false; }
    if n % 2 == 0 {
      if n != 2 {
        assert Divides(2, n);
      }
      return n == 2;
    }
    var i := 3;
    while i * i <= n
      invariant i >= 3 && i % 2 == 1
      invariant forall d :: 2 <= d < i ==> !Divides(d, n)
      decreases n - i
    {
      MulMonotone(1, i, i);
      if n % i == 0 {
        assert Divides(i, n) && 2 <= i < n;
        return false;
      }
      OddHasNoEvenDivisor(n, i + 1);
      i := i + 2;
    }
    forall d | 2 <= d < n
      ensures !Divides(d, n)
    {
      if d >= i && Divides(d, n) {
        CofactorBelowRoot(n, d, i);
      }
    }
    return true;
  }

  /** No prime lies in the half-open range [lo, hi). */
  ghost predicate NoPrimeIn(lo: int, hi: int) {
    forall p :: lo <= p < hi ==> !Prime(p)
  }

  /** r is the least prime that is at least `number`, among values an `int` can hold. */
  ghost predicate LeastPrimeFrom(number: int, r: int) {
    Prime(r) && number <= r <= MAX_INT && NoPrimeIn(number, r)
  }

  lemma EvenAboveTwoNotPrime(p: int)
    requires p > 2 && p % 2 == 0
    ensures !Prime(p)
  {
    assert Divides(2, p);
  }

  /** Passing a composite odd candidate also passes the even number after it. */
  lemma SkipOddCandidate(lo: int, c: int)
    requires NoPrimeIn(lo, c) && !Prime(c) && c >= 3 && c % 2 == 1
    ensures NoPrimeIn(lo, c + 2)
  {
    EvenAboveTwoNotPrime(c + 1);
  }

  /** The loop of nextPrime stops at Integer.MAX_VALUE - 2 or at Integer.MAX_VALUE itself. */
  lemma TriedBelowMax(number: int, candidate: int)
    requires number <= candidate <= MAX_INT && candidate % 2 == 1 && candidate >= MAX_INT - 2
    requires NoPrimeIn(number, candidate) && !Prime(candidate)
    ensures NoPrimeIn(number, MAX_INT)
  {
    if candidate < MAX_INT {
      assert candidate == MAX_INT - 2;
      SkipOddCandidate(number, candidate);
    }
  }

  /**
   * nextPrime: 2 for arguments up to 2; otherwise the odd candidates from `number` up
   * to Integer.MAX_VALUE are tried in turn. The result is the least prime not below
   * `number`, or 0 when no `int` is such a prime.
   */
  method NextPrime(number: int) returns (r: int)
    requires number <= MAX_INT
    ensures r != 0 ==> LeastPrimeFrom(if number <= 2 then 2 else number, r)
    ensures r != 0 ==> r >= number && r >= 2
    ensures r == 0 ==> number > 2 && NoPrimeIn(number, MAX_INT + 1)
  {
    if number <= 2 {
      return 2;
    }
    var candidate := number;
    if candidate % 2 == 0 {
      EvenAboveTwoNotPrime(candidate);
      candidate := candidate + 1;
    }
    while candidate <= MAX_INT
      invariant number <= candidate <= MAX_INT && candidate % 2 == 1
      invariant NoPrimeIn(number, candidate)
      decreases MAX_INT - candidate
    {
      var isPrime := IsPrime(candidate);
      if isPrime {
        return candidate;
      }
      if candidate >= MAX_INT - 2 {
        break;
      }
      SkipOddCandidate(number, candidate);
      candidate := candidate + 2;
    }
    TriedBelowMax(number, candidate);
    var maxIsPrime := IsPrime(MAX_INT);
    if MAX_INT >= number && maxIsPrime {
      return MAX_INT;
    }
    return 0;
  }

  // ---------------------------------------------------------------- string hash

  /** Java's two's-complement narrowing of an integer to a 32-bit `int`. */
  function Wrap32(x: int): (r: int)
    ensures -0x8000_0000 <= r < 0x8000_0000
    ensures (r - x) % TWO_TO_32 == 0
  {
    (x + 0x8000_0000) % TWO_TO_32 - 0x8000_0000
  }

  /** Java's `%` on `int`: the remainder takes the sign of the dividend. */
  function JavaRem(a: int, b: int): (r: int)
    requires b > 0
    ensures -b < r < b
    ensures a >= 0 ==> r == a % b
    ensures a < 0 ==> r <= 0
  {
    if a >= 0 then a % b else -((-a) % b)
  }

  /** One step of `hash`: `(hashCode * 127 + c) % 2147483647` in int arithmetic. */
  function HashStep(h: int, c: char): int {
    JavaRem(Wrap32(h * 127 + c as int), MAX_INT)
  }

  /**
   * The value `hash` computes for a key, character by character from the left. A `char`
   * here is a Unicode scalar value; Java folds UTF-16 code units, so the two agree on
   * strings within the Basic Multilingual Plane.
   */
  function HashOf(key: string): int
    decreases |key|
  {
    if key == [] then 0 else HashStep(HashOf(key[..|key| - 1]), key[|key| - 1])
  }

  /** The same polynomial in unbounded arithmetic, with no narrowing and no remainder. */
  function Polynomial(key: string): nat
    decreases |key|
  {
    if key == [] then 0 else Polynomial(key[..|key| - 1]) * 127 + key[|key| - 1] as int
  }

  /** hash: the loop over the characters of the key. */
  method Hash(key: string) returns (h: int)
    ensures h == HashOf(key)
    ensures -MAX_INT < h < MAX_INT
  {
    h := 0;
    var i := 0;
    while i < |key|
      invariant 0 <= i <= |key|
      invariant h == HashOf(key[..i])
    {
      assert key[..i + 1][..i] == key[..i];
      h := (Wrap32(h * 127 + key[i] as int));
      h := JavaRem(h, MAX_INT);
      i := i + 1;
    }
    assert key[..i] == key;
  }

  /** Every hash lies strictly between -2147483647 and 2147483647. */
  lemma HashBounded(key: string)
    ensures -MAX_INT < HashOf(key) < MAX_INT
  {
  }

  /**
   * When the polynomial stays below 2147483647 no step overflows, so `hash` is exactly
   * the polynomial 127-ary value of the key (and is not negative).
   */
  lemma {:induction false} HashIsPolynomialWithoutOverflow(key: string)
    requires Polynomial(key) < MAX_INT
    ensures HashOf(key) == Polynomial(key)
  {
    if key != [] {
      var prefix := key[..|key| - 1];
      assert Polynomial(prefix) <= Polynomial(key);
      HashIsPolynomialWithoutOverflow(prefix);
    }
  }
}

=== FILE: in_order_iterator.dfy ===
/**
 * InOrderIterator: walks the nodes of a binary search tree in left-root-right order
 * through the parent links. The cursor is the node whose element comes next. The ghost
 * state splits the tree's in-order entries into those already returned and those still
 * to come; the tree itself is only read.
 */
module InOrderIterator {
  import opened Wrappers
  import opened MapEntry
  import opened BinaryTree
  import opened BstSortedMap

  /** The entries after the hole of `inner` placed inside `outer`. */
  lemma {:induction false} AfterCompose<V>(nodes: seq<Node<V>>, outer: Ctx, inner: Ctx)
    ensures After(nodes, Compose(outer, inner)) == After(nodes, inner) + After(nodes, outer)
    decreases inner
  {
    match inner
    case Top =>
    case InLeft(up, p, r) =>
      AfterCompose(nodes, outer, up);
    case InRight(up, _, _) =>
      AfterCompose(nodes, outer, up);
  }

  /** A path going only left has nothing before its hole. */
  lemma {:induction false} LeftSpineNothingBefore<V>(nodes: seq<Node<V>>, c: Ctx)
    requires LeftSpine(c)
    ensures Before(nodes, c) == []
  {
    if c.InLeft? {
      LeftSpineNothingBefore(nodes, c.up);
    }
  }

  /**
   * Node `p` sits in `shape` at path `c` with subtrees `l` and `r`, and `rest` is its
   * entry followed by every entry after it in order.
   */
  ghost predicate At<V>(nodes: seq<Node<V>>, shape: Tree, p: int, c: Ctx, l: Tree, r: Tree, rest: seq<Entry<int, V>>) {
    0 <= p < |nodes| && shape == Plug(c, Branch(l, p, r)) &&
    rest == EntryAt(nodes, p) + Entries(nodes, r) + After(nodes, c)
  }

  /** The leftmost node of a tree comes first: every entry of the tree follows it. */
  lemma FirstAt<V>(nodes: seq<Node<V>>, d: Ctx, p: int, yr: Tree)
    requires LeftSpine(d) && 0 <= p < |nodes|
    ensures At(nodes, Plug(d, Branch(Leaf, p, yr)), p, d, Leaf, yr, Entries(nodes, Plug(d, Branch(Leaf, p, yr))))
  {
    PlugEntries(nodes, d, Branch(Leaf, p, yr));
    LeftSpineNothingBefore(nodes, d);
  }

  /**
   * The leftmost node `n` of the right subtree of `p` comes right after `p`: the entries
   * from `n` on are those of that subtree and those after `p`.
   */
  lemma DescendAt<V>(nodes: seq<Node<V>>, c: Ctx, l: Tree, p: int, d: Ctx, n: int, yr: Tree)
    requires LeftSpine(d) && 0 <= n < |nodes|
    ensures At(nodes, Plug(c, Branch(l, p, Plug(d, Branch(Leaf, n, yr)))), n, Compose(InRight(c, l, p), d), Leaf, yr,
               Entries(nodes, Plug(d, Branch(Leaf, n, yr))) + After(nodes, c))
  {
    var s := Branch(Leaf, n, yr);
    PlugCompose(InRight(c, l, p), d, s);
    var e, er, ad, ac := EntryAt(nodes, n), Entries(nodes, yr), After(nodes, d), After(nodes, c);
    AfterCompose(nodes, InRight(c, l, p), d);
    assert After(nodes, InRight(c, l, p)) == ac;
    PlugEntries(nodes, d, s);
    LeftSpineNothingBefore(nodes, d);
    assert Entries(nodes, s) == [] + e + er;
    Regroup4(e, er, ad, ac);
  }

  lemma Regroup4<T>(a: seq<T>, b: seq<T>, c: seq<T>, d: seq<T>)
    ensures a + b + (c + d) == [] + ([] + a + b) + c + d
  {
  }

  class InOrderIterator<V> {
    /** The tree whose root the iterator was given. */
    const tree: BstSortedMap<V>
    /** The node with the next element, or NIL. */
    var next: int
    /** The entries returned since the last rewind, and those still to come. */
    ghost var done: seq<Entry<int, V>>
    ghost var rest: seq<Entry<int, V>>
    /** Where the cursor sits: the path above it and its two subtrees. */
    ghost var cc: Ctx
    ghost var cl: Tree
    ghost var cr: Tree

    ghost predicate Valid()
      reads this, tree
    {
      tree.Valid() &&
      done + rest == Entries(tree.nodes, tree.shape) &&
      (next == NIL ==> rest == []) &&
      (next != NIL ==> At(tree.nodes, tree.shape, next, cc, cl, cr, rest))
    }

    /** InOrderIterator(root): the iterator over the tree, rewound. */
    constructor (t: BstSortedMap<V>)
      requires t.Valid()
      ensures Valid() && tree == t
      ensures done == [] && rest == Entries(t.nodes, t.shape)
    {
      tree := t;
      new;
      Rewind();
    }

    /**
     * rewind: the cursor goes to the leftmost node of the tree, or null when it is
     * empty, so that the next element is the first in order.
     */
    method Rewind()
      requires tree.Valid()
      modifies this
      ensures Valid() && done == [] && rest == Entries(tree.nodes, tree.shape)
    {
      var first, d, yr := tree.FurtherLeftFrom(tree.root, Top, tree.shape);
      next := first;
      done, rest := [], Entries(tree.nodes, tree.shape);
      if first != NIL {
        cc, cl, cr := d, Leaf, yr;
        FirstAt(tree.nodes, d, first, yr);
      }
    }

    /** hasNext: the cursor is a node, which is so exactly when entries remain. */
    function HasNext(): (r: bool)
      requires Valid()
      reads this, tree
      ensures r <==> rest != []
    {
      next != NIL
    }

    /**
     * next: throws when no entries remain; otherwise returns the entry of the cursor,
     * which is the first entry still to come, and advances.
     */
    method Next() returns (r: Result<Entry<int, V>>)
      requires Valid()
      modifies this
      ensures Valid()
      ensures old(rest) == [] ==> r == Err(NoSuchElement) && done == old(done) && rest == old(rest) && next == old(next)
      ensures old(rest) != [] ==> r == Ok(old(rest)[0]) && done == old(done) + [old(rest)[0]] && rest == old(rest)[1..]
    {
      if !HasNext() {
        return Err(NoSuchElement);
      }
      var e := tree.nodes[next].entry;
      Advance();
      return Ok(e);
    }

    /**
     * advance: to the leftmost node of the right subtree when there is one; otherwise up
     * while the cursor is a right child, then to the parent reached from its left child,
     * or to null at the root. Either way, the cursor's entry moves from `rest` to `done`.
     */
    method Advance()
      requires Valid() && next != NIL
      modifies this
      ensures Valid()
      ensures next == NIL <==> |old(rest)| == 1
      ensures |old(rest)| > 0 && done == old(done) + [old(rest)[0]] && rest == old(rest)[1..]
    {
      ghost var e := EntryAt(tree.nodes, next);
      ghost var tail := Entries(tree.nodes, cr) + After(tree.nodes, cc);
      assert rest == e + tail && |e| == 1;
      assert rest[0] == e[0] && rest[1..] == tail;
      assert Entries(tree.nodes, tree.shape) == done + e + tail;
      if tree.nodes[next].right != NIL {
        Descend();
        assert |EntryAt(tree.nodes, next)| == 1;
        assert tail != [];
      } else {
        NoRightSubtree(cc, cl, next, cr);
        ghost var above := cc;
        next := Climb(next, cc, cl, cr);
        assert tail == After(tree.nodes, above);
      }
      done, rest := done + e, tail;
    }

    /**
     * The first step of advance: from a node with a right child to the leftmost node
     * of its right subtree, whose entry is the first of that subtree.
     */
    method Descend()
      requires Valid() && next != NIL && 0 <= next < |tree.nodes| && tree.nodes[next].right != NIL
      modifies this
      ensures next != NIL && done == old(done) && rest == old(rest)
      ensures At(tree.nodes, tree.shape, next, cc, cl, cr, Entries(tree.nodes, old(cr)) + After(tree.nodes, old(cc)))
    {
      HoleLinks(tree.nodes, cc, cl, next, cr);
      var n, d, yr := tree.FurtherLeftFrom(tree.nodes[next].right, InRight(cc, cl, next), cr);
      DescendAt(tree.nodes, cc, cl, next, d, n, yr);
      cc, cl, cr := Compose(InRight(cc, cl, next), d), Leaf, yr;
      next := n;
    }

    /**
     * The upward walk of advance from a node without a right child: returns the first
     * ancestor reached from its left child, with its position kept in the ghost state,
     * or NIL when there is none, which is when no entries follow.
     */
    method Climb(from: int, ghost c: Ctx, ghost l: Tree, ghost r: Tree) returns (n: int)
      requires tree.Valid() && tree.shape == Plug(c, Branch(l, from, r)) && r == Leaf
      modifies this
      ensures n == NIL <==> After(tree.nodes, c) == []
      ensures n != NIL ==> At(tree.nodes, tree.shape, n, cc, cl, cr, After(tree.nodes, c))
      ensures done == old(done) && rest == old(rest)
    {
      var cur := from;
      ghost var pc, pl, pr := c, l, r;
      HoleLinks(tree.nodes, pc, pl, cur, pr);
      var parent := tree.nodes[cur].parent;
      while parent != NIL && cur == tree.nodes[parent].right
        invariant tree.shape == Plug(pc, Branch(pl, cur, pr)) && parent == HoleParent(pc)
        invariant parent == NIL || 0 <= parent < |tree.nodes|
        invariant parent == NIL <==> pc == Top
        invariant After(tree.nodes, pc) == After(tree.nodes, c)
        invariant done == old(done) && rest == old(rest)
        decreases Depth(pc)
      {
        ClimbStep(pc, pl, cur, pr);
        ghost var u := Branch(pc.left, parent, Branch(pl, cur, pr));
        cur := parent;
        pc, pl, pr := pc.up, u.left, u.right;
        HoleLinks(tree.nodes, pc, pl, cur, pr);
        parent := tree.nodes[cur].parent;
      }
      if parent != NIL {
        ClimbStep(pc, pl, cur, pr);
        cc, cl, cr := pc.up, Branch(pl, cur, pr), pc.right;
      }
      n := parent;
    }

    /** A node whose right link is null has an empty right subtree. */
    lemma NoRightSubtree(c: Ctx, l: Tree, p: int, r: Tree)
      requires tree.Valid() && tree.shape == Plug(c, Branch(l, p, r))
      requires 0 <= p < |tree.nodes| && tree.nodes[p].right == NIL
      ensures r == Leaf
    {
      HoleView(tree.nodes, c, Branch(l, p, r));
    }

    /**
     * At a node with a parent, the parent's right link points back at the node exactly
     * when the node hangs in a right slot.
     */
    lemma ClimbStep(c: Ctx, l: Tree, p: int, r: Tree)
      requires tree.Valid() && tree.shape == Plug(c, Branch(l, p, r)) && c != Top
      ensures 0 <= c.ptr < |tree.nodes|
      ensures tree.nodes[c.ptr].right == p <==> c.InRight?
    {
      HoleLinks(tree.nodes, c, l, p, r);
      var s := Branch(l, p, r);
      var u := if c.InLeft? then Branch(s, c.ptr, c.right) else Branch(c.left, c.ptr, s);
      assert Plug(c.up, u) == tree.shape;
      HoleLinks(tree.nodes, c.up, u.left, c.ptr, u.right);
      if c.InLeft? {
        HoleView(tree.nodes, c.up, u);
        if u.right.Branch? {
          SiblingsDistinct(tree.nodes, u.left, c.ptr, u.right, HoleParent(c.up), HoleLo(tree.nodes, c.up), HoleHi(tree.nodes, c.up));
        }
      }
    }

    /**
     * A finished traversal has returned every entry of the tree exactly once, in
     * increasing key order, and so the whole map.
     */
    lemma Exhausted()
      requires Valid() && !HasNext()
      ensures done == Entries(tree.nodes, tree.shape)
      ensures Increasing(done) && |done| == BinaryTree.Size(tree.shape)
      ensures AsMap(done) == tree.Contents()
    {
      OrderedEntries(tree.nodes, tree.shape, None, None);
      EntriesSize(tree.nodes, tree.shape, NIL);
    }
  }

  /** BSTSortedMap.iterator: an in-order iterator from the root, so over the entries in key order. */
  method Iterator<V>(t: BstSortedMap<V>) returns (it: InOrderIterator<V>)
    requires t.Valid()
    ensures fresh(it) && it.Valid() && it.tree == t
    ensures it.done == [] && it.rest == Entries(t.nodes, t.shape) && Increasing(it.rest)
  {
    it := new InOrderIterator(t);
    OrderedEntries(t.nodes, t.shape, None, None);
  }
}

=== FILE: keys_iterator.dfy ===
/**
 * KeysIterator: the key of each entry of a wrapped entry iterator, in the same order.
 */
module KeysIterator {
  import opened Wrappers
  import opened MapEntry
  import opened SeqIterator

  /** The keys of a sequence of entries, in order. */
  function Keys<K, V>(s: seq<Entry<K, V>>): (r: seq<K>)
    ensures |r| == |s| && forall i :: 0 <= i < |s| ==> r[i] == s[i].key
  {
    if s == [] then [] else [s[0].key] + Keys(s[1..])
  }

  class KeysIterator<K, V> {
    const it: SeqIterator<Entry<K, V>>

    ghost predicate Valid()
      reads this, it
    {
      it.Valid()
    }

    constructor (theIt: SeqIterator<Entry<K, V>>)
      ensures it == theIt
    {
      it := theIt;
    }

    /** hasNext: exactly the wrapped iterator's answer. */
    function HasNext(): (r: bool)
      reads this, it
      requires Valid()
      ensures r <==> it.pos < |Keys(it.items)|
    {
      it.HasNext()
    }

    /** next: the key of the wrapped iterator's next entry. */
    method Next() returns (r: Result<K>)
      requires Valid()
      modifies it
      ensures Valid()
      ensures r.Err? <==> old(it.pos) == |it.items|
      ensures r.Err? ==> r.error == NoSuchElement && it.pos == old(it.pos)
      ensures r.Ok? ==> r.value == Keys(it.items)[old(it.pos)] && it.pos == old(it.pos) + 1
    {
      if !HasNext() {
        return Err(NoSuchElement);
      }
      var e := it.Next();
      return Ok(e.value.key);
    }

    /** rewind: rewinds the wrapped iterator. */
    method Rewind()
      requires Valid()
      modifies it
      ensures Valid() && it.pos == 0
    {
      it.Rewind();
    }
  }
}

=== FILE: list_in_array.dfy ===
/**
 * ListInArray: a list stored in the prefix of an array that doubles when full, and its
 * ArrayIterator. A Java null slot is `None`; the elements themselves are never null.
 */
module ListInArray {
  import opened Wrappers

  const FACTOR := 2

  class ListInArray<E(==)> {
    var elems: array<Option<E>>
    var counter: int
    ghost var Contents: seq<E>
    ghost var Repr: set<object>

    /** The first `counter` slots hold the elements in order; every later slot is null. */
    ghost predicate Valid()
      reads this, Repr
    {
      Repr == {this, elems} &&
      0 <= counter <= elems.Length && |Contents| == counter &&
      (forall i :: 0 <= i < counter ==> elems[i] == Some(Contents[i])) &&
      (forall i :: counter <= i < elems.Length ==> elems[i] == None)
    }

    /** A list whose array has room for `dimension` elements. */
    constructor (dimension: int)
      requires dimension >= 0
      ensures Valid() && fresh(Repr) && Contents == [] && elems.Length == dimension
    {
      elems := new Option<E>[dimension](_ => None);
      counter := 0;
      Contents := [];
      Repr := {this, elems};
    }

    function IsEmpty(): (r: bool)
      reads this, Repr
      requires Valid()
      ensures r <==> Contents == []
    {
      counter == 0
    }

    function Size(): (r: int)
      reads this, Repr
      requires Valid()
      ensures r == |Contents|
    {
      counter
    }

    function GetFirst(): (r: Result<E>)
      reads this, Repr
      requires Valid()
      ensures r.Err? <==> Contents == []
      ensures r.Err? ==> r.error == NoSuchElement
      ensures r.Ok? ==> r.value == Contents[0]
    {
      if Size() == 0 then Err(NoSuchElement) else Ok(elems[0].value)
    }

    function GetLast(): (r: Result<E>)
      reads this, Repr
      requires Valid()
      ensures r.Err? <==> Contents == []
      ensures r.Err? ==> r.error == NoSuchElement
      ensures r.Ok? ==> r.value == Contents[|Contents| - 1]
    {
      if Size() == 0 then Err(NoSuchElement) else Ok(elems[Size() - 1].value)
    }

    function Get(position: int): (r: Result<E>)
      reads this, Repr
      requires Valid()
      ensures r.Err? <==> !(0 <= position < |Contents|)
      ensures r.Err? ==> r.error == InvalidPosition
      ensures r.Ok? ==> r.value == Contents[position]
    {
      if position < 0 || position > Size() - 1 then Err(InvalidPosition)
      else Ok(elems[position].value)
    }

    /** indexOf: the first index holding an equal element, or -1. */
    method IndexOf(element: E) returns (r: int)
      requires Valid()
      ensures -1 <= r < |Contents|
      ensures r == -1 <==> element !in Contents
      ensures r >= 0 ==> Contents[r] == element && element !in Contents[..r]
    {
      var i := 0;
      while i < Size()
        invariant 0 <= i <= counter
        invariant element !in Contents[..i]
      {
        if elems[i].value == element {
          return i;
        }
        assert Contents[..i + 1] == Contents[..i] + [Contents[i]];
        i := i + 1;
      }
      assert Contents[..i] == Contents;
      return -1;
    }

    /** ensureCapacity: a full array is replaced by one FACTOR times as long, with the same prefix. */
    method EnsureCapacity()
      requires Valid()
      modifies this
      ensures Valid() && Contents == old(Contents) && fresh(Repr - old(Repr))
      ensures counter < elems.Length || old(elems.Length) == 0
      ensures old(counter) == old(elems.Length) ==> elems.Length == old(elems.Length) * FACTOR
      ensures old(counter) < old(elems.Length) ==> elems == old(elems)
    {
      if Size() == elems.Length {
        var newElems := new Option<E>[elems.Length * FACTOR](_ => None);
        forall i | 0 <= i < elems.Length {
          newElems[i] := elems[i];
        }
        elems := newElems;
        Repr := {this, elems};
      }
    }

    /** Moves the slots position .. counter - 1 one place up; slot `position` keeps its value. */
    method ShiftRight(position: int)
      requires Valid() && 0 <= position <= counter < elems.Length
      modifies elems
      ensures forall k :: 0 <= k <= position ==> elems[k] == old(elems[k])
      ensures forall k :: position < k <= counter ==> elems[k] == old(elems[k - 1])
      ensures forall k :: counter < k < elems.Length ==> elems[k] == old(elems[k])
    {
      var i := counter;
      while i > position
        invariant position <= i <= counter
        invariant forall k :: 0 <= k <= i ==> elems[k] == old(elems[k])
        invariant forall k :: i < k <= counter ==> elems[k] == old(elems[k - 1])
        invariant forall k :: counter < k < elems.Length ==> elems[k] == old(elems[k])
      {
        elems[i] := elems[i - 1];
        i := i - 1;
      }
    }

    /** Moves the slots from .. counter - 1 one place down; slot counter - 1 keeps its value. */
    method ShiftLeft(from: int)
      requires Valid() && 1 <= from <= counter
      modifies elems
      ensures forall k :: 0 <= k < from - 1 ==> elems[k] == old(elems[k])
      ensures forall k :: from - 1 <= k < counter - 1 ==> elems[k] == old(elems[k + 1])
      ensures forall k :: counter - 1 <= k < elems.Length ==> elems[k] == old(elems[k])
    {
      var i := from;
      while i < counter
        invariant from <= i <= counter
        invariant forall k :: 0 <= k < from - 1 ==> elems[k] == old(elems[k])
        invariant forall k :: from - 1 <= k < i - 1 ==> elems[k] == old(elems[k + 1])
        invariant forall k :: i - 1 <= k < elems.Length ==> elems[k] == old(elems[k])
      {
        elems[i - 1] := elems[i];
        i := i + 1;
      }
    }

    /** addFirst: shifts every element up one slot and writes the new one at index 0. */
    method AddFirst(element: E)
      requires Valid() && elems.Length > 0
      modifies Repr
      ensures Valid() && fresh(Repr - old(Repr)) && elems.Length > 0
      ensures Contents == [element] + old(Contents)
    {
      EnsureCapacity();
      ShiftRight(0);
      elems[0] := Some(element);
      counter := counter + 1;
      Contents := [element] + Contents;
    }

    /** addLast: writes at index `counter`, then counts it. */
    method AddLast(element: E)
      requires Valid() && elems.Length > 0
      modifies Repr
      ensures Valid() && fresh(Repr - old(Repr)) && elems.Length > 0
      ensures Contents == old(Contents) + [element]
    {
      EnsureCapacity();
      elems[counter] := Some(element);
      counter := counter + 1;
      Contents := Contents + [element];
    }

    /** add: rejects a position outside [0, size], else shifts the suffix up and writes at `position`. */
    method Add(position: int, element: E) returns (r: Outcome)
      requires Valid() && elems.Length > 0
      modifies Repr
      ensures Valid() && fresh(Repr - old(Repr)) && elems.Length > 0
      ensures r.Fail? <==> !(0 <= position <= old(|Contents|))
      ensures r.Fail? ==> r.error == InvalidPosition && Contents == old(Contents)
      ensures r.Pass? ==> Contents == old(Contents)[..position] + [element] + old(Contents)[position..]
    {
      if position < 0 || position > Size() {
        return Fail(InvalidPosition);
      }
      EnsureCapacity();
      ShiftRight(position);
      elems[position] := Some(element);
      counter := counter + 1;
      Contents := Contents[..position] + [element] + Contents[position..];
      return Pass;
    }

    /** removeFirst: shifts every other element down one slot and nulls the vacated slot. */
    method RemoveFirst() returns (r: Result<E>)
      requires Valid()
      modifies Repr
      ensures Valid() && Repr == old(Repr) && elems.Length == old(elems.Length)
      ensures r.Err? <==> old(Contents) == []
      ensures r.Err? ==> r.error == NoSuchElement && Contents == old(Contents)
      ensures r.Ok? ==> r.value == old(Contents)[0] && Contents == old(Contents)[1..]
    {
      if IsEmpty() {
        return Err(NoSuchElement);
      }
      var removed := elems[0].value;
      ShiftLeft(1);
      counter := counter - 1;
      elems[counter] := None;
      Contents := Contents[1..];
      return Ok(removed);
    }

    /** removeLast: nulls the last occupied slot and returns what it held. */
    method RemoveLast() returns (r: Result<E>)
      requires Valid()
      modifies Repr
      ensures Valid() && Repr == old(Repr) && elems.Length == old(elems.Length)
      ensures r.Err? <==> old(Contents) == []
      ensures r.Err? ==> r.error == NoSuchElement && Contents == old(Contents)
      ensures r.Ok? ==> r.value == old(Contents)[|old(Contents)| - 1]
      ensures r.Ok? ==> Contents == old(Contents)[..|old(Contents)| - 1]
    {
      if IsEmpty() {
        return Err(NoSuchElement);
      }
      counter := counter - 1;
      var removed := elems[counter].value;
      elems[counter] := None;
      Contents := Contents[..counter];
      return Ok(removed);
    }

    /** remove: rejects a position outside [0, size), else closes the gap and returns the element. */
    method Remove(position: int) returns (r: Result<E>)
      requires Valid()
      modifies Repr
      ensures Valid() && Repr == old(Repr) && elems.Length == old(elems.Length)
      ensures r.Err? <==> !(0 <= position < |old(Contents)|)
      ensures r.Err? ==> r.error == InvalidPosition && Contents == old(Contents)
      ensures r.Ok? ==> r.value == old(Contents)[position]
      ensures r.Ok? ==> Contents == old(Contents)[..position] + old(Contents)[position + 1..]
    {
      if position < 0 || position >= Size() {
        return Err(InvalidPosition);
      }
      if position == Size() - 1 {
        r := RemoveLast();
        return;
      } else if position == 0 {
        r := RemoveFirst();
        return;
      }
      var removed := elems[position].value;
      ShiftLeft(position + 1);
      counter := counter - 1;
      elems[counter] := None;
      Contents := Contents[..position] + Contents[position + 1..];
      return Ok(removed);
    }

    /** iterator: an iterator over the current array and count. */
    method Iterator() returns (it: ArrayIterator<E>)
      requires Valid()
      ensures fresh(it) && it.Valid() && it.elems == elems && it.counter == counter
      ensures it.Items() == Contents && it.current == 0
    {
      it := new ArrayIterator(elems, counter);
      assert it.Items() == Contents;
    }
  }

  /**
   * ArrayIterator: walks the first `counter` slots of an array. The array and the count
   * are fixed when the iterator is made, so a later growth of the list is not seen.
   */
  class ArrayIterator<E> {
    const elems: array<Option<E>>
    const counter: int
    var current: int

    ghost predicate Valid()
      reads this, elems
    {
      0 <= current <= counter <= elems.Length &&
      forall i :: 0 <= i < counter ==> elems[i].Some?
    }

    /** The elements the iterator walks, in order. */
    ghost function Items(): (s: seq<E>)
      reads this, elems
      requires Valid()
      ensures |s| == counter && forall i :: 0 <= i < counter ==> elems[i] == Some(s[i])
    {
      seq(counter, i reads elems requires 0 <= i < counter && elems[i].Some? => elems[i].value)
    }

    constructor (theElems: array<Option<E>>, theCounter: int)
      requires 0 <= theCounter <= theElems.Length
      requires forall i :: 0 <= i < theCounter ==> theElems[i].Some?
      ensures Valid() && elems == theElems && counter == theCounter && current == 0
    {
      elems := theElems;
      counter := theCounter;
      current := 0;
    }

    method Rewind()
      requires Valid()
      modifies this
      ensures Valid() && current == 0
    {
      current := 0;
    }

    function HasNext(): (r: bool)
      reads this, elems
      requires Valid()
      ensures r <==> current < |Items()|
    {
      current < counter
    }

    method Next() returns (r: Result<E>)
      requires Valid()
      modifies this
      ensures Valid()
      ensures r.Err? <==> old(current) == |old(Items())|
      ensures r.Err? ==> r.error == NoSuchElement && current == old(current)
      ensures r.Ok? ==> r.value == Items()[old(current)] && current == old(current) + 1
    {
      if !HasNext() {
        return Err(NoSuchElement);
      }
      r := Ok(elems[current].value);
      current := current + 1;
    }
  }
}

=== FILE: location.dfy ===
/** A point of the area, given by latitude and longitude (LocationClass). */
module Location {
  datatype Location = Location(lat: int, longi: int)

  function Abs(x: int): nat {
    if x < 0 then -x else x
  }

  /**
   * distanceTo: the Manhattan distance, the sum of the absolute differences of the two
   * coordinates. It is zero exactly between equal locations.
   */
  function DistanceTo(self: Location, other: Location): (d: nat)
    ensures d == 0 <==> self == other
    ensures d >= Abs(other.lat - self.lat) && d >= Abs(other.longi - self.longi)
  {
    Abs(other.lat - self.lat) + Abs(other.longi - self.longi)
  }

  /** The distance does not depend on which location asks. */
  lemma DistanceSymmetric(a: Location, b: Location)
    ensures DistanceTo(a, b) == DistanceTo(b, a)
  {
  }

  /** Going through a third location is never shorter. */
  lemma DistanceTriangle(a: Location, b: Location, c: Location)
    ensures DistanceTo(a, c) <= DistanceTo(a, b) + DistanceTo(b, c)
  {
  }
}

/** A rectangle of the area given by two opposite corners (PlaneOfLocationClass). */
module PlaneOfLocation {
  import opened Location

  datatype Plane = Plane(v0: Location, v1: Location)

  function Min(a: int, b: int): int { if a <= b then a else b }
  function Max(a: int, b: int): int { if a <= b then b else a }

  /** x lies between a and b, whichever of the two is smaller. */
  predicate Between(a: int, x: int, b: int) {
    (a <= x <= b) || (b <= x <= a)
  }

  /**
   * contains: the location lies inside the rectangle, borders included. Each coordinate
   * is compared with the smaller and the larger coordinate of the two corners.
   */
  function Contains(p: Plane, l: Location): (r: bool)
    ensures r <==> Between(p.v0.lat, l.lat, p.v1.lat) && Between(p.v0.longi, l.longi, p.v1.longi)
  {
    var xMin := Min(p.v0.lat, p.v1.lat);
    var xMax := Max(p.v0.lat, p.v1.lat);
    var yMin := Min(p.v0.longi, p.v1.longi);
    var yMax := Max(p.v0.longi, p.v1.longi);
    (l.lat >= xMin && l.lat <= xMax) && (l.longi >= yMin && l.longi <= yMax)
  }

  /** Both corners belong to the rectangle, and the order of the corners does not matter. */
  lemma CornersContained(a: Location, b: Location, l: Location)
    ensures Contains(Plane(a, b), a) && Contains(Plane(a, b), b)
    ensures Contains(Plane(a, b), l) == Contains(Plane(b, a), l)
  {
  }
}

=== FILE: map_entry.dfy ===
/** Map.Entry: a key paired with its value. */
module MapEntry {
  datatype Entry<K, V> = Entry(key: K, value: V)
}

=== FILE: map_singly_list.dfy ===
/**
 * MapSinglyList: a map kept as a singly linked list of entries, new keys at the head.
 *
 * The value-level functions `KeyIndex`, `Lookup`, `PutEntry` and `RemoveKey` say what the
 * list operations do to the sequence of entries; `AsMap` reads that sequence as a map, and
 * the lemmas show that the list operations are the map operations.
 */
module MapSinglyList {
  import opened Wrappers
  import opened MapEntry
  import opened SinglyLinkedList

  /** The position of the first entry whose key is `k`, or -1. */
  function KeyIndex<K(==), V>(s: seq<Entry<K, V>>, k: K): (r: int)
    ensures -1 <= r < |s|
    ensures r >= 0 ==> s[r].key == k && forall i :: 0 <= i < r ==> s[i].key != k
    ensures r == -1 ==> forall i :: 0 <= i < |s| ==> s[i].key != k
  {
    if s == [] then -1
    else if s[0].key == k then 0
    else
      var r := KeyIndex(s[1..], k);
      if r < 0 then -1 else r + 1
  }

  /** No key occurs twice. */
  ghost predicate DistinctKeys<K, V>(s: seq<Entry<K, V>>) {
    forall i, j :: 0 <= i < j < |s| ==> s[i].key != s[j].key
  }

  /** get: the value of the first entry with key `k`. */
  function Lookup<K(==), V>(s: seq<Entry<K, V>>, k: K): Option<V> {
    var i := KeyIndex(s, k);
    if i < 0 then None else Some(s[i].value)
  }

  /** put: replaces the entry of `k` where it is, or puts a new entry at the head. */
  function PutEntry<K(==), V>(s: seq<Entry<K, V>>, k: K, v: V): seq<Entry<K, V>> {
    var i := KeyIndex(s, k);
    if i >= 0 then s[i := Entry(k, v)] else [Entry(k, v)] + s
  }

  /** remove: unlinks the entry of `k`, if any. */
  function RemoveKey<K(==), V>(s: seq<Entry<K, V>>, k: K): seq<Entry<K, V>> {
    var i := KeyIndex(s, k);
    if i >= 0 then s[..i] + s[i + 1..] else s
  }

  /** The map an entry list stands for; an earlier entry hides a later one with the same key. */
  ghost function AsMap<K, V>(s: seq<Entry<K, V>>): map<K, V> {
    if s == [] then map[] else AsMap(s[1..])[s[0].key := s[0].value]
  }

  /** The keys of the map are the keys of the entries. */
  lemma {:induction false} AsMapKeys<K, V>(s: seq<Entry<K, V>>, k: K)
    ensures k in AsMap(s) <==> exists i :: 0 <= i < |s| && s[i].key == k
  {
    if s != [] {
      AsMapKeys(s[1..], k);
      if k != s[0].key && k in AsMap(s[1..]) {
        var i :| 0 <= i < |s[1..]| && s[1..][i].key == k;
        assert s[i + 1].key == k;
      }
      if k != s[0].key && (exists i :: 0 <= i < |s| && s[i].key == k) {
        var i :| 0 <= i < |s| && s[i].key == k;
        assert s[1..][i - 1].key == k;
      }
    }
  }

  /** get answers what the map holds for the key. */
  lemma {:induction false} LookupIsMapLookup<K, V>(s: seq<Entry<K, V>>, k: K)
    ensures Lookup(s, k) == if k in AsMap(s) then Some(AsMap(s)[k]) else None
  {
    if s != [] && s[0].key != k {
      LookupIsMapLookup(s[1..], k);
      assert KeyIndex(s, k) == (if KeyIndex(s[1..], k) < 0 then -1 else KeyIndex(s[1..], k) + 1);
    }
  }

  /** A list without repeated keys has one map entry per list entry. */
  lemma {:induction false} SizeIsCardinality<K, V>(s: seq<Entry<K, V>>)
    requires DistinctKeys(s)
    ensures |AsMap(s)| == |s|
  {
    if s != [] {
      DistinctTail(s);
      SizeIsCardinality(s[1..]);
      HeadKeyNotInTail(s);
    }
  }

  /** The map of a list whose entry at `i` is replaced, keys unchanged. */
  lemma {:induction false} AsMapReplace<K, V>(s: seq<Entry<K, V>>, i: int, v: V)
    requires DistinctKeys(s) && 0 <= i < |s|
    ensures AsMap(s[i := Entry(s[i].key, v)]) == AsMap(s)[s[i].key := v]
  {
    if i > 0 {
      DistinctTail(s);
      AsMapReplace(s[1..], i - 1, v);
      assert s[i := Entry(s[i].key, v)][1..] == s[1..][i - 1 := Entry(s[i].key, v)];
      assert s[1..][i - 1] == s[i];
    }
  }

  /** Dropping the first entry keeps the keys distinct. */
  lemma DistinctTail<K, V>(s: seq<Entry<K, V>>)
    requires DistinctKeys(s) && s != []
    ensures DistinctKeys(s[1..])
  {
    forall a, b | 0 <= a < b < |s[1..]| ensures s[1..][a].key != s[1..][b].key {
      assert s[1..][a] == s[a + 1] && s[1..][b] == s[b + 1];
    }
  }

  /** The first key is not among the keys after it. */
  lemma HeadKeyNotInTail<K, V>(s: seq<Entry<K, V>>)
    requires DistinctKeys(s) && s != []
    ensures s[0].key !in AsMap(s[1..])
  {
    AsMapKeys(s[1..], s[0].key);
    forall j | 0 <= j < |s[1..]| ensures s[1..][j].key != s[0].key {
      assert s[1..][j] == s[j + 1];
    }
  }

  /** The map of a list with the entry at `i` taken out. */
  lemma {:induction false} AsMapDelete<K, V>(s: seq<Entry<K, V>>, i: int)
    requires DistinctKeys(s) && 0 <= i < |s|
    ensures AsMap(s[..i] + s[i + 1..]) == AsMap(s) - {s[i].key}
  {
    var t := s[..i] + s[i + 1..];
    if i == 0 {
      assert t == s[1..];
      HeadKeyNotInTail(s);
    } else {
      DistinctTail(s);
      AsMapDelete(s[1..], i - 1);
      assert t[1..] == s[1..][..i - 1] + s[1..][i..];
      assert s[1..][i - 1] == s[i] && t[0] == s[0] && s[0].key != s[i].key;
      var m := AsMap(s[1..]);
      assert AsMap(t) == (m - {s[i].key})[s[0].key := s[0].value];
      assert AsMap(s) == m[s[0].key := s[0].value];
    }
  }

  /** Taking an entry out keeps the keys distinct. */
  lemma DeleteKeepsDistinct<K, V>(s: seq<Entry<K, V>>, i: int)
    requires DistinctKeys(s) && 0 <= i < |s|
    ensures DistinctKeys(s[..i] + s[i + 1..])
  {
    var t := s[..i] + s[i + 1..];
    forall a, b | 0 <= a < b < |t| ensures t[a].key != t[b].key {
      var a0 := if a < i then a else a + 1;
      var b0 := if b < i then b else b + 1;
      assert t[a] == s[a0] && t[b] == s[b0];
    }
  }

  /** put is the map update and keeps the keys distinct. */
  lemma PutEntryIsUpdate<K, V>(s: seq<Entry<K, V>>, k: K, v: V)
    requires DistinctKeys(s)
    ensures DistinctKeys(PutEntry(s, k, v))
    ensures AsMap(PutEntry(s, k, v)) == AsMap(s)[k := v]
    ensures |PutEntry(s, k, v)| == |s| + (if Lookup(s, k).None? then 1 else 0)
  {
    var i := KeyIndex(s, k);
    if i >= 0 {
      AsMapReplace(s, i, v);
    } else {
      var t := PutEntry(s, k, v);
      forall a, b | 0 <= a < b < |t| ensures t[a].key != t[b].key {
        if a > 0 {
          assert t[a] == s[a - 1] && t[b] == s[b - 1];
        }
      }
      assert t[1..] == s;
    }
  }

  /** remove is the map removal and keeps the keys distinct. */
  lemma RemoveKeyIsRemoval<K, V>(s: seq<Entry<K, V>>, k: K)
    requires DistinctKeys(s)
    ensures DistinctKeys(RemoveKey(s, k))
    ensures AsMap(RemoveKey(s, k)) == AsMap(s) - {k}
    ensures |RemoveKey(s, k)| == |s| - (if Lookup(s, k).Some? then 1 else 0)
  {
    var i := KeyIndex(s, k);
    if i >= 0 {
      AsMapDelete(s, i);
      DeleteKeepsDistinct(s, i);
    } else {
      AsMapKeys(s, k);
      assert AsMap(s) - {k} == AsMap(s);
    }
  }

  /** get after put: the new value for the key put, the old answer for every other key. */
  lemma LookupAfterPut<K, V>(s: seq<Entry<K, V>>, k: K, v: V, k': K)
    requires DistinctKeys(s)
    ensures Lookup(PutEntry(s, k, v), k') == if k' == k then Some(v) else Lookup(s, k')
  {
    PutEntryIsUpdate(s, k, v);
    LookupIsMapLookup(PutEntry(s, k, v), k');
    LookupIsMapLookup(s, k');
  }

  /** get after remove: nothing for the key removed, the old answer for every other key. */
  lemma LookupAfterRemove<K, V>(s: seq<Entry<K, V>>, k: K, k': K)
    requires DistinctKeys(s)
    ensures Lookup(RemoveKey(s, k), k') == if k' == k then None else Lookup(s, k')
  {
    RemoveKeyIsRemoval(s, k);
    LookupIsMapLookup(RemoveKey(s, k), k');
    LookupIsMapLookup(s, k');
  }

  /** put brings in no entry other than the one put. */
  lemma PutEntryEntries<K, V>(s: seq<Entry<K, V>>, k: K, v: V)
    ensures forall e :: e in PutEntry(s, k, v) ==> e in s || e == Entry(k, v)
  {
    var i := KeyIndex(s, k);
    if i >= 0 {
      forall e | e in PutEntry(s, k, v) ensures e in s || e == Entry(k, v) {
        var j :| 0 <= j < |s| && PutEntry(s, k, v)[j] == e;
        if j != i {
          assert e == s[j];
        }
      }
    }
  }

  /** remove brings in no entry. */
  lemma RemoveKeyEntries<K, V>(s: seq<Entry<K, V>>, k: K)
    ensures forall e :: e in RemoveKey(s, k) ==> e in s
  {
    var i := KeyIndex(s, k);
    if i >= 0 {
      assert s == s[..i] + [s[i]] + s[i + 1..];
    }
  }

  class MapSinglyList<K(==), V> {
    var head: SinglyListNode?<Entry<K, V>>
    var size: int
    ghost var Nodes: seq<SinglyListNode<Entry<K, V>>>
    ghost var Contents: seq<Entry<K, V>>
    ghost var Repr: set<object>

    ghost predicate Valid()
      reads this, Repr
    {
      this in Repr &&
      (forall i :: 0 <= i < |Nodes| ==> Nodes[i] in Repr) &&
      Linked(Nodes) && Holds(Nodes, Contents) && size == |Nodes| &&
      head == (if Nodes == [] then null else Nodes[0]) &&
      DistinctKeys(Contents)
    }

    ghost function Map(): map<K, V>
      reads this
    {
      AsMap(Contents)
    }

    constructor ()
      ensures Valid() && fresh(Repr) && Contents == []
    {
      head := null;
      size := 0;
      Nodes := [];
      Contents := [];
      Repr := {this};
    }

    function IsEmpty(): (r: bool)
      reads this, Repr
      requires Valid()
      ensures r <==> Map() == map[]
    {
      assert Contents != [] ==> Contents[0].key in AsMap(Contents);
      size == 0
    }

    /** size: the number of keys. */
    function Size(): (r: int)
      reads this, Repr
      requires Valid()
      ensures r == |Map()|
    {
      SizeIsCardinality(Contents);
      size
    }

    /** get: walks the list for the key. */
    method Get(key: K) returns (r: Option<V>)
      requires Valid()
      ensures r == Lookup(Contents, key)
      ensures r == if key in Map() then Some(Map()[key]) else None
    {
      LookupIsMapLookup(Contents, key);
      var curr := head;
      ghost var i := 0;
      while curr != null
        invariant 0 <= i <= |Nodes|
        invariant curr == if i < |Nodes| then Nodes[i] else null
        invariant forall j :: 0 <= j < i ==> Contents[j].key != key
        decreases |Nodes| - i
      {
        if curr.element.key == key {
          return Some(curr.element.value);
        }
        curr := curr.next;
        i := i + 1;
      }
      return None;
    }

    /** put: replaces the value in the node holding the key, or links a new head node. */
    method Put(key: K, value: V) returns (r: Option<V>)
      requires Valid()
      modifies Repr
      ensures Valid() && fresh(Repr - old(Repr))
      ensures r == Lookup(old(Contents), key)
      ensures Contents == PutEntry(old(Contents), key, value)
      ensures Map() == old(Map())[key := value]
    {
      PutEntryIsUpdate(Contents, key, value);
      var curr := head;
      ghost var i := 0;
      while curr != null
        invariant 0 <= i <= |Nodes|
        invariant curr == if i < |Nodes| then Nodes[i] else null
        invariant forall j :: 0 <= j < i ==> Contents[j].key != key
        decreases |Nodes| - i
      {
        if curr.element.key == key {
          var old_ := curr.element.value;
          Replace(curr, i, Entry(key, value));
          return Some(old_);
        }
        curr := curr.next;
        i := i + 1;
      }
      PushHead(Entry(key, value));
      return None;
    }

    /** The node at position `i` takes a new entry with the same key. */
    method Replace(curr: SinglyListNode<Entry<K, V>>, ghost i: int, e: Entry<K, V>)
      requires Valid() && 0 <= i < |Nodes| && curr == Nodes[i] && Contents[i].key == e.key
      modifies this, curr
      ensures Valid() && Repr == old(Repr)
      ensures Contents == old(Contents)[i := e]
    {
      ghost var spine := Nodes;
      curr.SetElement(e);
      Contents := Contents[i := e];
      forall j | 0 <= j < |spine| && j != i
        ensures spine[j].element == Contents[j]
      {
        assert spine[j] != curr;
      }
      assert DistinctKeys(Contents) by {
        forall a, b | 0 <= a < b < |Contents| ensures Contents[a].key != Contents[b].key {
          assert Contents[a].key == old(Contents)[a].key && Contents[b].key == old(Contents)[b].key;
        }
      }
    }

    /** A new head node holding an entry whose key is not in the list. */
    method PushHead(e: Entry<K, V>)
      requires Valid() && forall j :: 0 <= j < |Contents| ==> Contents[j].key != e.key
      modifies this
      ensures Valid() && fresh(Repr - old(Repr))
      ensures Contents == [e] + old(Contents)
    {
      var node := new SinglyListNode(e, head);
      head, size, Nodes, Contents, Repr := node, size + 1, [node] + Nodes, [e] + Contents, Repr + {node};
      assert DistinctKeys(Contents) by {
        forall a, b | 0 <= a < b < |Contents| ensures Contents[a].key != Contents[b].key {
          if a > 0 {
            assert Contents[a] == old(Contents)[a - 1] && Contents[b] == old(Contents)[b - 1];
          }
        }
      }
    }

    /** remove: unlinks the node holding the key, at the head or after its predecessor. */
    method Remove(key: K) returns (r: Option<V>)
      requires Valid()
      modifies Repr
      ensures Valid() && Repr == old(Repr)
      ensures r == Lookup(old(Contents), key)
      ensures Contents == RemoveKey(old(Contents), key)
      ensures Map() == old(Map()) - {key}
    {
      RemoveKeyIsRemoval(Contents, key);
      var curr := head;
      var prev: SinglyListNode?<Entry<K, V>> := null;
      ghost var i := 0;
      while curr != null
        invariant 0 <= i <= |Nodes|
        invariant curr == if i < |Nodes| then Nodes[i] else null
        invariant prev == if i == 0 then null else Nodes[i - 1]
        invariant forall j :: 0 <= j < i ==> Contents[j].key != key
        decreases |Nodes| - i
      {
        if curr.element.key == key {
          var old_ := curr.element.value;
          Unlink(prev, curr, i);
          return Some(old_);
        }
        prev := curr;
        curr := curr.next;
        i := i + 1;
      }
      return None;
    }

    /** Unlinks the node at position `i`, whose predecessor is `prev` (null at the head). */
    method Unlink(prev: SinglyListNode?<Entry<K, V>>, curr: SinglyListNode<Entry<K, V>>, ghost i: int)
      requires Valid() && 0 <= i < |Nodes| && curr == Nodes[i]
      requires prev == if i == 0 then null else Nodes[i - 1]
      modifies this, prev
      ensures Valid() && Repr == old(Repr)
      ensures Nodes == old(Nodes[..i] + Nodes[i + 1..])
      ensures Contents == old(Contents[..i] + Contents[i + 1..])
    {
      ghost var spine := Nodes;
      assert i + 1 < |spine| ==> spine[i].next == spine[i + 1];
      if prev == null {
        head := curr.next;
      } else {
        prev.next := curr.next;
        forall j | 0 <= j < |spine| - 1 && j != i - 1
          ensures spine[j].next == spine[j + 1]
        {
          assert spine[j] != prev;
        }
      }
      size := size - 1;
      Cut(spine, Contents, i);
      DeleteKeepsDistinct(Contents, i);
      Nodes := spine[..i] + spine[i + 1..];
      Contents := Contents[..i] + Contents[i + 1..];
    }

    /** iterator: the entries from the head. */
    method Iterator() returns (it: SinglyIterator<Entry<K, V>>)
      requires Valid()
      ensures fresh(it) && it.Valid() && it.Items == Contents && it.pos == 0
    {
      it := new SinglyIterator(head, Nodes, Contents);
    }
  }
}

=== FILE: price_comparator.dfy ===
/**
 * PriceComparator: orders services by price. Prices are Java floats in the source and
 * integers here. Float.compare gives -1, 0 or 1, and a tie is reported as 1, so the
 * comparator never answers 0.
 */
module PriceComparator {
  import SortedDoublyLinkedList
  function Compare(newPrice: int, inListPrice: int): (r: int)
    ensures r == -1 <==> newPrice < inListPrice
    ensures r == 1 <==> newPrice >= inListPrice
  {
    var cmp := if newPrice < inListPrice then -1 else if newPrice > inListPrice then 1 else 0;
    if cmp != 0 then cmp else 1
  }

  /**
   * "Less than" under this comparator is a strict weak order (irreflexive, transitive,
   * and incomparability is transitive), the property a sorted insertion relies on.
   */
  lemma {:induction false} CompareIsStrictWeakOrder(a: int, b: int, c: int)
    ensures Compare(a, a) >= 0
    ensures Compare(a, b) < 0 && Compare(b, c) < 0 ==> Compare(a, c) < 0
    ensures Compare(a, b) >= 0 && Compare(b, c) >= 0 ==> Compare(a, c) >= 0
    ensures Compare(a, b) < 0 ==> Compare(b, a) >= 0
  {
  }

  /** The comparator never reports two prices as equal. */
  lemma CompareNeverZero(a: int, b: int)
    ensures Compare(a, b) != 0
  {
  }

  /** The comparator meets what a sorted list asks of its comparator. */
  lemma PriceOrderIsTotalPreorder()
    ensures SortedDoublyLinkedList.TotalPreorder((a: int, b: int) => Compare(a, b))
  {
  }

  /** So a sorted list under this comparator never finds a match for get, contains or remove. */
  lemma PriceNeverMatches(s: seq<int>, price: int)
    ensures SortedDoublyLinkedList.FindEqual((a: int, b: int) => Compare(a, b), s, price) == -1
  {
  }
}

=== FILE: queue_in_list.dfy ===
/**
 * QueueInList: a first-in first-out queue over a SinglyLinkedList. The front of the queue
 * is the head of the list.
 */
module QueueInList {
  import opened Wrappers
  import opened SinglyLinkedList

  class QueueInList<E(==)> {
    const list: SinglyLinkedList<E>
    ghost var Repr: set<object>

    /** The queue's elements, front first. */
    ghost var Contents: seq<E>

    ghost predicate Valid()
      reads this, Repr
    {
      this in Repr && list in Repr && list.Repr <= Repr && this !in list.Repr &&
      list.Valid() && Contents == list.Contents
    }

    constructor ()
      ensures Valid() && fresh(Repr) && Contents == []
    {
      list := new SinglyLinkedList();
      Contents := [];
      new;
      Repr := {this} + list.Repr;
    }

    function IsEmpty(): (r: bool)
      reads this, Repr
      requires Valid()
      ensures r <==> Contents == []
    {
      list.IsEmpty()
    }

    function Size(): (r: int)
      reads this, Repr
      requires Valid()
      ensures r == |Contents|
    {
      list.Size()
    }

    /** enqueue: the element joins the back. */
    method Enqueue(element: E)
      requires Valid()
      modifies Repr
      ensures Valid() && fresh(Repr - old(Repr))
      ensures Contents == old(Contents) + [element]
    {
      list.AddLast(element);
      Contents := list.Contents;
      Repr := Repr + list.Repr;
    }

    /** dequeue: removes and returns the front element. */
    method Dequeue() returns (r: Result<E>)
      requires Valid()
      modifies Repr
      ensures Valid() && Repr == old(Repr)
      ensures r.Err? <==> old(Contents) == []
      ensures r.Err? ==> r.error == EmptyQueue && Contents == old(Contents)
      ensures r.Ok? ==> r.value == old(Contents)[0] && Contents == old(Contents)[1..]
    {
      if list.IsEmpty() {
        return Err(EmptyQueue);
      }
      r := list.RemoveFirst();
      Contents := list.Contents;
    }

    /** peek: the front element, left in place. */
    function Peek(): (r: Result<E>)
      reads this, Repr
      requires Valid()
      ensures r.Err? <==> Contents == []
      ensures r.Err? ==> r.error == EmptyQueue
      ensures r.Ok? ==> r.value == Contents[0]
    {
      if list.IsEmpty() then Err(EmptyQueue) else list.GetFirst()
    }
  }

  /**
   * Elements leave in the order they arrived: after enqueue(y), dequeue gives the element
   * that was at the front, or y itself when the queue was empty, and y stays behind the rest.
   */
  method FirstInFirstOut<E(==)>(q: QueueInList<E>, y: E) returns (a: Result<E>)
    requires q.Valid()
    modifies q.Repr
    ensures q.Valid()
    ensures a == Ok(if old(q.Contents) == [] then y else old(q.Contents)[0])
    ensures q.Contents == (old(q.Contents) + [y])[1..]
  {
    q.Enqueue(y);
    a := q.Dequeue();
  }
}

=== FILE: red_black_sorted_map.dfy ===
/**
 * The red-black sorted map: a binary search tree whose nodes carry a colour, RED when
 * created. After a put, recolorAndRotate walks up from the new node while it and its
 * parent are both RED, recolouring when the uncle is RED and rotating otherwise; after
 * a remove that unlinked a BLACK node, deleteFixup walks up from the node that took its
 * place. Both finish by painting the root BLACK.
 */
module RedBlackSortedMap {
  import opened Wrappers
  import opened MapEntry
  import opened BinaryTree
  import opened BstSortedMap
  import opened AdvancedBsTree

  // ---------------------------------------------------------------- RBNode

  /** flipColor: RED becomes BLACK and BLACK becomes RED. */
  function Flipped(c: Color): (r: Color)
    ensures r != c
  {
    if c == Red then Black else Red
  }

  /** The arena after setColor(color) on `p`. */
  function Recolored<V>(nodes: seq<Node<V>>, p: int, color: Color): seq<Node<V>> {
    if 0 <= p < |nodes| then nodes[p := nodes[p].(color := color)] else nodes
  }

  /** The colour test of deleteFixup and of the uncle check: a missing node counts as BLACK. */
  function IsBlack<V>(nodes: seq<Node<V>>, p: int): bool {
    !(0 <= p < |nodes|) || nodes[p].color == Black
  }

  function ParentOf<V>(nodes: seq<Node<V>>, p: int): int {
    if 0 <= p < |nodes| then nodes[p].parent else NIL
  }

  function LeftOf<V>(nodes: seq<Node<V>>, p: int): int {
    if 0 <= p < |nodes| then nodes[p].left else NIL
  }

  function RightOf<V>(nodes: seq<Node<V>>, p: int): int {
    if 0 <= p < |nodes| then nodes[p].right else NIL
  }

  /** isLeftChild: `p` has a parent and is that parent's left child. */
  function IsLeftChild<V>(nodes: seq<Node<V>>, p: int): bool {
    var q := ParentOf(nodes, p);
    q != NIL && LeftOf(nodes, q) == p
  }

  /** The root is a node of the arena and is BLACK. */
  ghost predicate RootBlack<V>(nodes: seq<Node<V>>, root: int) {
    0 <= root < |nodes| && nodes[root].color == Black
  }

  /** In a linked tree, isLeftChild tells exactly whether the node hangs in a left slot. */
  lemma IsLeftChildAt<V>(nodes: seq<Node<V>>, c: Ctx, l: Tree, p: int, r: Tree)
    requires Matches(nodes, Plug(c, Branch(l, p, r)), NIL) && Ordered(nodes, Plug(c, Branch(l, p, r)), None, None)
    ensures IsLeftChild(nodes, p) <==> c.InLeft?
  {
    HoleLinks(nodes, c, l, p, r);
  }

  /** The subtree of the hole's parent, with `s` in the hole. */
  function Up(c: Ctx, s: Tree): (u: Tree)
    requires c != Top
    ensures u.Branch? && u.ptr == c.ptr && Plug(c.up, u) == Plug(c, s)
  {
    if c.InLeft? then Branch(s, c.ptr, c.right) else Branch(c.left, c.ptr, s)
  }

  /** The subtree hanging beside the hole. */
  function Sibling(c: Ctx): Tree
    requires c != Top
  {
    if c.InLeft? then c.right else c.left
  }

  /** setColor on an RBNode: only the colour of `p` changes; the tree and the map stay. */
  method SetColor<V>(t: BstSortedMap<V>, p: int, color: Color)
    requires 0 <= p < |t.nodes|
    modifies t
    ensures t.nodes == Recolored(old(t.nodes), p, color)
    ensures t.root == old(t.root) && t.currentSize == old(t.currentSize) && t.shape == old(t.shape)
    ensures Entries(t.nodes, t.shape) == old(Entries(t.nodes, t.shape))
    ensures old(t.Valid()) ==> t.Valid() && t.Contents() == old(t.Contents())
  {
    t.SetLabel(p, t.nodes[p].height, color);
  }

  /** flipColor on an RBNode: the colour of `p` turns to the other one. */
  method FlipColor<V>(t: BstSortedMap<V>, p: int)
    requires 0 <= p < |t.nodes|
    modifies t
    ensures t.nodes == Recolored(old(t.nodes), p, Flipped(old(t.nodes)[p].color))
    ensures t.root == old(t.root) && t.currentSize == old(t.currentSize) && t.shape == old(t.shape)
    ensures Entries(t.nodes, t.shape) == old(Entries(t.nodes, t.shape))
    ensures old(t.Valid()) ==> t.Valid() && t.Contents() == old(t.Contents())
  {
    SetColor(t, p, Flipped(t.nodes[p].color));
  }

  // ---------------------------------------------------------------- insertion fix-up

  /**
   * The guard of recolorAndRotate as written: it reads the colour of the parent without
   * checking that there is one, so a node without a parent throws.
   */
  function FixupStartsAsWritten<V>(nodes: seq<Node<V>>, node: int): (r: Result<bool>)
    requires 0 <= node < |nodes|
    ensures r.Err? <==> nodes[node].parent == NIL
    ensures r.Ok? ==> (r.value <==> FixupStarts(nodes, node))
  {
    var q := nodes[node].parent;
    if q == NIL then Err(NullPointer) else Ok(!IsBlack(nodes, q))
  }

  /** The guard as evidently intended: the node has a parent and that parent is RED. */
  function FixupStarts<V>(nodes: seq<Node<V>>, node: int): (r: bool)
    ensures r <==> ParentOf(nodes, node) != NIL && 0 <= ParentOf(nodes, node) < |nodes| &&
                   nodes[ParentOf(nodes, node)].color == Red
  {
    var q := ParentOf(nodes, node);
    q != NIL && !IsBlack(nodes, q)
  }

  /**
   * The as-written guard throws on the root of every non-empty tree. The first put
   * walks up from the node it created, which is then the root, so it always throws.
   */
  lemma RootGuardThrows<V>(nodes: seq<Node<V>>, t: Tree)
    requires Matches(nodes, t, NIL) && t.Branch?
    ensures 0 <= t.ptr < |nodes| && FixupStartsAsWritten(nodes, t.ptr) == Err(NullPointer)
    ensures !FixupStarts(nodes, t.ptr)
  {
  }

  /**
   * recolorAndRotate(node), the guard corrected: while the node and its RED parent
   * clash, a RED uncle means recolouring, otherwise a single or double rotation; a
   * missing grandparent is a null dereference. The root is then painted BLACK. The tree
   * stays a valid search tree for the same map.
   */
  method RecolorAndRotate<V>(t: BstSortedMap<V>, node: int, ghost c: Ctx, ghost l: Tree, ghost r: Tree)
    returns (o: Outcome)
    requires t.Valid() && t.shape == Plug(c, Branch(l, node, r))
    modifies t
    ensures t.Valid() && t.currentSize == old(t.currentSize)
    ensures Entries(t.nodes, t.shape) == old(Entries(t.nodes, t.shape))
    ensures o.Fail? ==> o.error == NullPointer
    ensures o.Pass? ==> RootBlack(t.nodes, t.root)
    ensures !FixupStarts(old(t.nodes), node) ==>
              o == Pass && t.shape == old(t.shape) && t.nodes == Recolored(old(t.nodes), old(t.root), Black)
    decreases Depth(c), 2
  {
    HoleLinks(t.nodes, c, l, node, r);
    if FixupStarts(t.nodes, node) {
      var parent := t.nodes[node].parent;
      ghost var pt := Up(c, Branch(l, node, r));
      HoleLinks(t.nodes, c.up, pt.left, parent, pt.right);
      var gParent := t.nodes[parent].parent;
      if gParent == NIL {
        return Fail(NullPointer);
      }
      ghost var gt := Up(c.up, pt);
      HoleLinks(t.nodes, c.up.up, gt.left, gParent, gt.right);
      IsLeftChildAt(t.nodes, c.up, pt.left, parent, pt.right);
      var parentLeft := IsLeftChild(t.nodes, parent);
      var uncle := if parentLeft then t.nodes[gParent].right else t.nodes[gParent].left;
      if uncle != NIL && !IsBlack(t.nodes, uncle) {
        o := Recoloring(t, parent, uncle, gParent, c, l, node, r);
      } else if parentLeft {
        o := HandleLeftSituation(t, node, parent, gParent, c, l, r);
      } else {
        o := HandleRightSituation(t, node, parent, gParent, c, l, r);
      }
      if o.Fail? {
        return;
      }
    }
    HoleLinks(t.nodes, Top, t.shape.left, t.root, t.shape.right);
    SetColor(t, t.root, Black);
    o := Pass;
  }

  /**
   * recoloring: the RED uncle, the parent and the grandparent change colour and the walk
   * goes on from the grandparent.
   */
  method Recoloring<V>(t: BstSortedMap<V>, parent: int, uncle: int, gParent: int,
                       ghost c: Ctx, ghost l: Tree, ghost node: int, ghost r: Tree) returns (o: Outcome)
    requires t.Valid() && t.shape == Plug(c, Branch(l, node, r))
    requires c != Top && c.up != Top && parent == c.ptr && gParent == c.up.ptr
    requires uncle != NIL && uncle == RootPtr(Sibling(c.up))
    modifies t
    ensures t.Valid() && t.currentSize == old(t.currentSize)
    ensures Entries(t.nodes, t.shape) == old(Entries(t.nodes, t.shape))
    ensures o.Fail? ==> o.error == NullPointer
    ensures o.Pass? ==> RootBlack(t.nodes, t.root)
    decreases Depth(c), 1
  {
    ghost var pt := Up(c, Branch(l, node, r));
    ghost var gt := Up(c.up, pt);
    HoleLinks(t.nodes, c, l, node, r);
    HoleLinks(t.nodes, c.up.up, gt.left, gParent, gt.right);
    if c.up.InLeft? {
      RightChildDistinct(t.nodes, c.up.up, gt.left, gParent, gt.right);
    } else {
      LeftChildDistinct(t.nodes, c.up.up, gt.left, gParent, gt.right);
    }
    assert Depth(c) == Depth(c.up.up) + 2;
    FlipColor(t, uncle);
    FlipColor(t, parent);
    FlipColor(t, gParent);
    o := RecolorAndRotate(t, gParent, c.up.up, gt.left, gt.right);
  }

  /**
   * handleLeftSituation, the parent being a left child: a node in a right slot is first
   * rotated up over its parent; parent and grandparent change colour, the grandparent is
   * rotated right, and the walk goes on from the parent when the node is then a left
   * child, from the grandparent otherwise.
   */
  method HandleLeftSituation<V>(t: BstSortedMap<V>, node: int, parent: int, gParent: int,
                                ghost c: Ctx, ghost l: Tree, ghost r: Tree) returns (o: Outcome)
    requires t.Valid() && t.shape == Plug(c, Branch(l, node, r))
    requires c != Top && c.up != Top && c.up.InLeft? && parent == c.ptr && gParent == c.up.ptr
    modifies t
    ensures t.Valid() && t.currentSize == old(t.currentSize)
    ensures Entries(t.nodes, t.shape) == old(Entries(t.nodes, t.shape))
    ensures o.Fail? ==> o.error == NullPointer
    ensures o.Pass? ==> RootBlack(t.nodes, t.root)
    decreases Depth(c), 1
  {
    ghost var cu, cg, gr := c.up, c.up.up, c.up.right;
    ghost var ps: Tree;
    assert Depth(c) == Depth(cg) + 2;
    HoleLinks(t.nodes, c, l, node, r);
    HoleLinks(t.nodes, cu, Up(c, Branch(l, node, r)).left, parent, Up(c, Branch(l, node, r)).right);
    IsLeftChildAt(t.nodes, c, l, node, r);
    if !IsLeftChild(t.nodes, node) {
      o := RotateLeft(t, parent, cu, c.left, Branch(l, node, r));
      ps := Branch(Branch(c.left, parent, l), node, r);
    } else {
      ps := Branch(Branch(l, node, r), parent, c.right);
    }
    FlipColor(t, parent);
    FlipColor(t, gParent);
    o := RotateRight(t, gParent, cg, ps, gr);
    ghost var top := Branch(ps.left, ps.ptr, Branch(ps.right, gParent, gr));
    ghost var nc: Ctx, nl: Tree, nr: Tree;
    if c.InLeft? {
      IsLeftChildAt(t.nodes, InLeft(cg, parent, top.right), l, node, r);
      nc, nl, nr := cg, top.left, top.right;
    } else {
      IsLeftChildAt(t.nodes, cg, top.left, node, top.right);
      if cg.InLeft? {
        nc, nl, nr := InLeft(cg, node, top.right), c.left, l;
      } else {
        nc, nl, nr := InRight(cg, top.left, node), r, gr;
      }
    }
    var next := if IsLeftChild(t.nodes, node) then parent else gParent;
    o := RecolorAndRotate(t, next, nc, nl, nr);
  }

  /** handleRightSituation: the mirror image, the parent being a right child. */
  method HandleRightSituation<V>(t: BstSortedMap<V>, node: int, parent: int, gParent: int,
                                 ghost c: Ctx, ghost l: Tree, ghost r: Tree) returns (o: Outcome)
    requires t.Valid() && t.shape == Plug(c, Branch(l, node, r))
    requires c != Top && c.up != Top && c.up.InRight? && parent == c.ptr && gParent == c.up.ptr
    modifies t
    ensures t.Valid() && t.currentSize == old(t.currentSize)
    ensures Entries(t.nodes, t.shape) == old(Entries(t.nodes, t.shape))
    ensures o.Fail? ==> o.error == NullPointer
    ensures o.Pass? ==> RootBlack(t.nodes, t.root)
    decreases Depth(c), 1
  {
    ghost var cu, cg, gl := c.up, c.up.up, c.up.left;
    ghost var ps: Tree;
    assert Depth(c) == Depth(cg) + 2;
    HoleLinks(t.nodes, c, l, node, r);
    HoleLinks(t.nodes, cu, Up(c, Branch(l, node, r)).left, parent, Up(c, Branch(l, node, r)).right);
    IsLeftChildAt(t.nodes, c, l, node, r);
    if IsLeftChild(t.nodes, node) {
      o := RotateRight(t, parent, cu, Branch(l, node, r), c.right);
      ps := Branch(l, node, Branch(r, parent, c.right));
    } else {
      ps := Branch(c.left, parent, Branch(l, node, r));
    }
    FlipColor(t, parent);
    FlipColor(t, gParent);
    o := RotateLeft(t, gParent, cg, gl, ps);
    ghost var top := Branch(Branch(gl, gParent, ps.left), ps.ptr, ps.right);
    ghost var nc: Ctx, nl: Tree, nr: Tree;
    if c.InRight? {
      IsLeftChildAt(t.nodes, InRight(cg, top.left, parent), l, node, r);
      nc, nl, nr := cg, top.left, top.right;
    } else {
      IsLeftChildAt(t.nodes, cg, top.left, node, top.right);
      if cg.InLeft? {
        nc, nl, nr := InLeft(cg, node, top.right), gl, l;
      } else {
        nc, nl, nr := InRight(cg, top.left, node), r, c.right;
      }
    }
    var next := if IsLeftChild(t.nodes, node) then gParent else parent;
    o := RecolorAndRotate(t, next, nc, nl, nr);
  }

  // ---------------------------------------------------------------- removal fix-up

  /** The loop condition of deleteFixup: `x` is BLACK (a missing node counting BLACK) and not the root. */
  function GoesOn<V>(nodes: seq<Node<V>>, root: int, x: int): bool {
    IsBlack(nodes, x) && x != root
  }

  /**
   * The state after one round of deleteFixup: `x` is a node or null, `parent` is null or
   * sits at path `cp` with subtrees `pl` and `pr`, and either the loop stops or the
   * parent now lies closer to the root than `depth`.
   */
  ghost predicate Advanced<V>(t: BstSortedMap<V>, x: int, parent: int, cp: Ctx, pl: Tree, pr: Tree, depth: nat)
    reads t
  {
    (x == NIL || 0 <= x < |t.nodes|) &&
    (parent != NIL ==> t.shape == Plug(cp, Branch(pl, parent, pr))) &&
    (!GoesOn(t.nodes, t.root, x) || (parent != NIL && Depth(cp) < depth))
  }

  /** A node of a linked tree is a record of the arena whose parent is null or in the tree. */
  lemma InTree<V>(nodes: seq<Node<V>>, s: Tree, x: int)
    requires Matches(nodes, s, NIL) && Ordered(nodes, s, None, None) && x in Ptrs(s)
    ensures 0 <= x < |nodes| && (nodes[x].parent == NIL || nodes[x].parent in Ptrs(s))
  {
    var c, l, r := Locate(s, x);
    HoleLinks(nodes, c, l, x, r);
  }

  /** The root of a linked tree has no parent. */
  lemma RootHasNoParent<V>(nodes: seq<Node<V>>, s: Tree)
    requires Matches(nodes, s, NIL)
    ensures ParentOf(nodes, RootPtr(s)) == NIL
  {
    if s.Branch? {
      assert 0 <= s.ptr < |nodes| && nodes[s.ptr].parent == NIL;
    }
  }

  /**
   * Case 1 of deleteFixup with `x` on the left: the RED sibling turns BLACK, the parent
   * RED, and the parent is rotated left, so that the parent sits one level lower with a
   * new sibling of `x` on its right.
   */
  method RedSiblingLeft<V>(t: BstSortedMap<V>, parent: int, ghost cp: Ctx, ghost pl: Tree, ghost pr: Tree)
    returns (ghost c1: Ctx, ghost r1: Tree)
    requires t.Valid() && t.shape == Plug(cp, Branch(pl, parent, pr)) && pr.Branch?
    modifies t
    ensures t.Valid() && t.currentSize == old(t.currentSize)
    ensures Entries(t.nodes, t.shape) == old(Entries(t.nodes, t.shape))
    ensures t.shape == Plug(c1, Branch(pl, parent, r1)) && c1 != Top && c1.up == cp
    ensures 0 <= parent < |t.nodes| && t.nodes[parent].color == Red
    ensures 0 <= pr.ptr < |t.nodes| && t.nodes[pr.ptr].color == Black
  {
    HoleLinks(t.nodes, cp, pl, parent, pr);
    RightChildDistinct(t.nodes, cp, pl, parent, pr);
    var w := t.nodes[parent].right;
    SetColor(t, w, Black);
    SetColor(t, parent, Red);
    var _ := RotateLeft(t, parent, cp, pl, pr);
    c1, r1 := InLeft(cp, pr.ptr, pr.right), pr.left;
  }

  /** The mirror image, `x` on the right: the parent is rotated right. */
  method RedSiblingRight<V>(t: BstSortedMap<V>, parent: int, ghost cp: Ctx, ghost pl: Tree, ghost pr: Tree)
    returns (ghost c1: Ctx, ghost l1: Tree)
    requires t.Valid() && t.shape == Plug(cp, Branch(pl, parent, pr)) && pl.Branch?
    modifies t
    ensures t.Valid() && t.currentSize == old(t.currentSize)
    ensures Entries(t.nodes, t.shape) == old(Entries(t.nodes, t.shape))
    ensures t.shape == Plug(c1, Branch(l1, parent, pr)) && c1 != Top && c1.up == cp
    ensures 0 <= parent < |t.nodes| && t.nodes[parent].color == Red
    ensures 0 <= pl.ptr < |t.nodes| && t.nodes[pl.ptr].color == Black
  {
    HoleLinks(t.nodes, cp, pl, parent, pr);
    LeftChildDistinct(t.nodes, cp, pl, parent, pr);
    var w := t.nodes[parent].left;
    SetColor(t, w, Black);
    SetColor(t, parent, Red);
    var _ := RotateRight(t, parent, cp, pl, pr);
    c1, l1 := InRight(cp, pl.left, pl.ptr), pl.right;
  }

  /**
   * Case 3 with `x` on the left: the sibling `w` has a RED left child; that child turns
   * BLACK, `w` RED, and `w` is rotated right, so the child becomes the new sibling.
   */
  method RotateNephewLeft<V>(t: BstSortedMap<V>, parent: int, w: int, ghost c1: Ctx, ghost l1: Tree, ghost r1: Tree)
    returns (ghost r2: Tree)
    requires t.Valid() && t.shape == Plug(c1, Branch(l1, parent, r1))
    requires r1.Branch? && w == r1.ptr && r1.left.Branch?
    modifies t
    ensures t.Valid() && t.currentSize == old(t.currentSize)
    ensures Entries(t.nodes, t.shape) == old(Entries(t.nodes, t.shape))
    ensures r2 == Branch(r1.left.left, r1.left.ptr, Branch(r1.left.right, w, r1.right))
    ensures t.shape == Plug(c1, Branch(l1, parent, r2))
    ensures 0 <= w < |t.nodes| && t.nodes[w].color == Red
    ensures 0 <= r1.left.ptr < |t.nodes| && t.nodes[r1.left.ptr].color == Black
  {
    ghost var cw := InRight(c1, l1, parent);
    HoleLinks(t.nodes, cw, r1.left, w, r1.right);
    LeftChildDistinct(t.nodes, cw, r1.left, w, r1.right);
    SetColor(t, t.nodes[w].left, Black);
    SetColor(t, w, Red);
    var _ := RotateRight(t, w, cw, r1.left, r1.right);
    r2 := Branch(r1.left.left, r1.left.ptr, Branch(r1.left.right, w, r1.right));
  }

  /** The mirror image, `x` on the right: the sibling's RED right child is rotated up. */
  method RotateNephewRight<V>(t: BstSortedMap<V>, parent: int, w: int, ghost c1: Ctx, ghost l1: Tree, ghost r1: Tree)
    returns (ghost l2: Tree)
    requires t.Valid() && t.shape == Plug(c1, Branch(l1, parent, r1))
    requires l1.Branch? && w == l1.ptr && l1.right.Branch?
    modifies t
    ensures t.Valid() && t.currentSize == old(t.currentSize)
    ensures Entries(t.nodes, t.shape) == old(Entries(t.nodes, t.shape))
    ensures l2 == Branch(Branch(l1.left, w, l1.right.left), l1.right.ptr, l1.right.right)
    ensures t.shape == Plug(c1, Branch(l2, parent, r1))
    ensures 0 <= w < |t.nodes| && t.nodes[w].color == Red
    ensures 0 <= l1.right.ptr < |t.nodes| && t.nodes[l1.right.ptr].color == Black
  {
    ghost var cw := InLeft(c1, parent, r1);
    HoleLinks(t.nodes, cw, l1.left, w, l1.right);
    RightChildDistinct(t.nodes, cw, l1.left, w, l1.right);
    SetColor(t, t.nodes[w].right, Black);
    SetColor(t, w, Red);
    var _ := RotateLeft(t, w, cw, l1.left, l1.right);
    l2 := Branch(Branch(l1.left, w, l1.right.left), l1.right.ptr, l1.right.right);
  }

  /**
   * Cases 3 and 4 with `x` on the left, reached when the sibling is missing or has a RED
   * child: case 3 first when only the sibling's left child is RED, then case 4.
   */
  method BlackSiblingLeft<V>(t: BstSortedMap<V>, parent: int, ghost c1: Ctx, ghost l1: Tree, ghost r1: Tree)
    returns (o: Outcome)
    requires t.Valid() && t.shape == Plug(c1, Branch(l1, parent, r1))
    requires r1.Branch? ==> !(IsBlack(t.nodes, LeftOf(t.nodes, r1.ptr)) && IsBlack(t.nodes, RightOf(t.nodes, r1.ptr)))
    modifies t
    ensures t.Valid() && t.currentSize == old(t.currentSize)
    ensures Entries(t.nodes, t.shape) == old(Entries(t.nodes, t.shape))
    ensures o == if r1 == Leaf then Fail(NullPointer) else Pass
    ensures o.Pass? ==> 0 <= parent < |t.nodes| && t.nodes[parent].color == Black
  {
    HoleLinks(t.nodes, c1, l1, parent, r1);
    var w := t.nodes[parent].right;
    ghost var r2 := r1;
    if w != NIL {
      RightChildDistinct(t.nodes, c1, l1, parent, r1);
      HoleLinks(t.nodes, InRight(c1, l1, parent), r1.left, w, r1.right);
      if IsBlack(t.nodes, RightOf(t.nodes, w)) {
        r2 := RotateNephewLeft(t, parent, w, c1, l1, r1);
      }
    }
    o := FarNephewLeft(t, parent, c1, l1, r2);
  }

  /**
   * Case 4 with `x` on the left: the sibling takes the parent's colour, the parent and
   * the sibling's right child turn BLACK and the parent is rotated left. A missing
   * sibling makes that rotation a null dereference.
   */
  method FarNephewLeft<V>(t: BstSortedMap<V>, parent: int, ghost c1: Ctx, ghost l1: Tree, ghost r1: Tree)
    returns (o: Outcome)
    requires t.Valid() && t.shape == Plug(c1, Branch(l1, parent, r1))
    modifies t
    ensures t.Valid() && t.currentSize == old(t.currentSize)
    ensures Entries(t.nodes, t.shape) == old(Entries(t.nodes, t.shape))
    ensures o == if r1 == Leaf then Fail(NullPointer) else Pass
    ensures o.Pass? ==> 0 <= parent < |t.nodes| && t.nodes[parent].color == Black
  {
    HoleLinks(t.nodes, c1, l1, parent, r1);
    var w := t.nodes[parent].right;
    if w != NIL {
      RightChildDistinct(t.nodes, c1, l1, parent, r1);
      HoleLinks(t.nodes, InRight(c1, l1, parent), r1.left, w, r1.right);
      if r1.right.Branch? {
        RightChildDistinct(t.nodes, InRight(c1, l1, parent), r1.left, w, r1.right);
      }
      SetColor(t, w, t.nodes[parent].color);
    }
    SetColor(t, parent, Black);
    if w != NIL && t.nodes[w].right != NIL {
      SetColor(t, t.nodes[w].right, Black);
    }
    o := RotateLeft(t, parent, c1, l1, r1);
  }

  /** The mirror image of BlackSiblingLeft, `x` on the right. */
  method BlackSiblingRight<V>(t: BstSortedMap<V>, parent: int, ghost c1: Ctx, ghost l1: Tree, ghost r1: Tree)
    returns (o: Outcome)
    requires t.Valid() && t.shape == Plug(c1, Branch(l1, parent, r1))
    requires l1.Branch? ==> !(IsBlack(t.nodes, LeftOf(t.nodes, l1.ptr)) && IsBlack(t.nodes, RightOf(t.nodes, l1.ptr)))
    modifies t
    ensures t.Valid() && t.currentSize == old(t.currentSize)
    ensures Entries(t.nodes, t.shape) == old(Entries(t.nodes, t.shape))
    ensures o == if l1 == Leaf then Fail(NullPointer) else Pass
    ensures o.Pass? ==> 0 <= parent < |t.nodes| && t.nodes[parent].color == Black
  {
    HoleLinks(t.nodes, c1, l1, parent, r1);
    var w := t.nodes[parent].left;
    ghost var l2 := l1;
    if w != NIL {
      LeftChildDistinct(t.nodes, c1, l1, parent, r1);
      HoleLinks(t.nodes, InLeft(c1, parent, r1), l1.left, w, l1.right);
      if IsBlack(t.nodes, LeftOf(t.nodes, w)) {
        l2 := RotateNephewRight(t, parent, w, c1, l1, r1);
      }
    }
    o := FarNephewRight(t, parent, c1, l2, r1);
  }

  /** The mirror image of FarNephewLeft: the parent is rotated right. */
  method FarNephewRight<V>(t: BstSortedMap<V>, parent: int, ghost c1: Ctx, ghost l1: Tree, ghost r1: Tree)
    returns (o: Outcome)
    requires t.Valid() && t.shape == Plug(c1, Branch(l1, parent, r1))
    modifies t
    ensures t.Valid() && t.currentSize == old(t.currentSize)
    ensures Entries(t.nodes, t.shape) == old(Entries(t.nodes, t.shape))
    ensures o == if l1 == Leaf then Fail(NullPointer) else Pass
    ensures o.Pass? ==> 0 <= parent < |t.nodes| && t.nodes[parent].color == Black
  {
    HoleLinks(t.nodes, c1, l1, parent, r1);
    var w := t.nodes[parent].left;
    if w != NIL {
      LeftChildDistinct(t.nodes, c1, l1, parent, r1);
      HoleLinks(t.nodes, InLeft(c1, parent, r1), l1.left, w, l1.right);
      if l1.left.Branch? {
        LeftChildDistinct(t.nodes, InLeft(c1, parent, r1), l1.left, w, l1.right);
      }
      SetColor(t, w, t.nodes[parent].color);
    }
    SetColor(t, parent, Black);
    if w != NIL && t.nodes[w].left != NIL {
      SetColor(t, t.nodes[w].left, Black);
    }
    o := RotateRight(t, parent, c1, l1, r1);
  }

  /**
   * Case 2 of deleteFixup, on either side: the sibling `w` turns RED and `x` moves up to
   * the parent, whose own parent becomes the new parent.
   */
  method BlackSibling<V>(t: BstSortedMap<V>, w: int, parent: int, ghost c1: Ctx, ghost l1: Tree, ghost r1: Tree)
    returns (x: int, parent': int, ghost cp': Ctx, ghost pl': Tree, ghost pr': Tree)
    requires t.Valid() && t.shape == Plug(c1, Branch(l1, parent, r1))
    requires 0 <= w < |t.nodes| && w != parent
    modifies t
    ensures t.Valid() && t.currentSize == old(t.currentSize)
    ensures Entries(t.nodes, t.shape) == old(Entries(t.nodes, t.shape))
    ensures t.nodes == Recolored(old(t.nodes), w, Red) && t.root == old(t.root) && t.shape == old(t.shape)
    ensures x == parent && 0 <= x < |t.nodes|
    ensures c1 == Top ==> parent' == NIL && x == t.root
    ensures c1 != Top ==> parent' != NIL && t.shape == Plug(cp', Branch(pl', parent', pr')) && Depth(cp') < Depth(c1)
  {
    HoleLinks(t.nodes, c1, l1, parent, r1);
    SetColor(t, w, Red);
    x := parent;
    parent' := t.nodes[parent].parent;
    cp', pl', pr' := c1, l1, r1;
    if c1 != Top {
      ghost var u := Up(c1, Branch(l1, parent, r1));
      cp', pl', pr' := c1.up, u.left, u.right;
    }
  }

  /** The end of cases 3 and 4: `x` becomes the root and the parent its (null) parent. */
  method AtRoot<V>(t: BstSortedMap<V>) returns (x: int, parent': int)
    requires t.Valid()
    ensures x == t.root && parent' == NIL
  {
    RootHasNoParent(t.nodes, t.shape);
    x := t.root;
    parent' := ParentOf(t.nodes, x);
  }

  /**
   * One round of deleteFixup with `x` the parent's left child: case 1 when the sibling
   * is RED; then case 2 when the sibling is there with both children BLACK, which paints
   * it RED and moves `x` up to the parent; otherwise cases 3 and 4, after which `x` is
   * the root.
   */
  method FixLeft<V>(t: BstSortedMap<V>, parent: int, ghost cp: Ctx, ghost pl: Tree, ghost pr: Tree)
    returns (o: Outcome, x: int, parent': int, ghost cp': Ctx, ghost pl': Tree, ghost pr': Tree)
    requires t.Valid() && t.shape == Plug(cp, Branch(pl, parent, pr))
    modifies t
    ensures t.Valid() && t.currentSize == old(t.currentSize)
    ensures Entries(t.nodes, t.shape) == old(Entries(t.nodes, t.shape))
    ensures o.Fail? ==> o.error == NullPointer
    ensures o.Pass? ==> Advanced(t, x, parent', cp', pl', pr', Depth(cp))
  {
    x, parent', cp', pl', pr' := NIL, NIL, cp, pl, pr;
    HoleLinks(t.nodes, cp, pl, parent, pr);
    var w := t.nodes[parent].right;
    ghost var c1, r1 := cp, pr;
    ghost var recoloured := false;
    if w != NIL && !IsBlack(t.nodes, w) {
      c1, r1 := RedSiblingLeft(t, parent, cp, pl, pr);
      recoloured := true;
      HoleLinks(t.nodes, c1, pl, parent, r1);
      w := t.nodes[parent].right;
    }
    if r1.Branch? {
      RightChildDistinct(t.nodes, c1, pl, parent, r1);
    }
    var wLeftBlack := w == NIL || IsBlack(t.nodes, LeftOf(t.nodes, w));
    var wRightBlack := w == NIL || IsBlack(t.nodes, RightOf(t.nodes, w));
    if w != NIL && wLeftBlack && wRightBlack {
      x, parent', cp', pl', pr' := BlackSibling(t, w, parent, c1, pl, r1);
      o := Pass;
    } else {
      o := BlackSiblingLeft(t, parent, c1, pl, r1);
      if o.Fail? {
        return;
      }
      x, parent' := AtRoot(t);
    }
  }

  /**
   * The mirror image, `x` not the parent's left child. With no parent at all, the sibling
   * is missing and cases 3 and 4 paint the parent: a null dereference before anything
   * has changed.
   */
  method FixRight<V>(t: BstSortedMap<V>, parent: int, ghost cp: Ctx, ghost pl: Tree, ghost pr: Tree)
    returns (o: Outcome, x: int, parent': int, ghost cp': Ctx, ghost pl': Tree, ghost pr': Tree)
    requires t.Valid() && (parent != NIL ==> t.shape == Plug(cp, Branch(pl, parent, pr)))
    modifies t
    ensures t.Valid() && t.currentSize == old(t.currentSize)
    ensures Entries(t.nodes, t.shape) == old(Entries(t.nodes, t.shape))
    ensures parent == NIL ==> o == Fail(NullPointer) && t.nodes == old(t.nodes) && t.shape == old(t.shape)
    ensures o.Fail? ==> o.error == NullPointer
    ensures o.Pass? ==> Advanced(t, x, parent', cp', pl', pr', Depth(cp))
  {
    x, parent', cp', pl', pr' := NIL, NIL, cp, pl, pr;
    if parent == NIL {
      return Fail(NullPointer), x, parent', cp', pl', pr';
    }
    HoleLinks(t.nodes, cp, pl, parent, pr);
    var w := t.nodes[parent].left;
    ghost var c1, l1 := cp, pl;
    if w != NIL && !IsBlack(t.nodes, w) {
      c1, l1 := RedSiblingRight(t, parent, cp, pl, pr);
      HoleLinks(t.nodes, c1, l1, parent, pr);
      w := t.nodes[parent].left;
    }
    if l1.Branch? {
      LeftChildDistinct(t.nodes, c1, l1, parent, pr);
    }
    var wLeftBlack := w == NIL || IsBlack(t.nodes, LeftOf(t.nodes, w));
    var wRightBlack := w == NIL || IsBlack(t.nodes, RightOf(t.nodes, w));
    if w != NIL && wLeftBlack && wRightBlack {
      x, parent', cp', pl', pr' := BlackSibling(t, w, parent, c1, l1, pr);
      o := Pass;
    } else {
      o := BlackSiblingRight(t, parent, c1, l1, pr);
      if o.Fail? {
        return;
      }
      x, parent' := AtRoot(t);
    }
  }

  /**
   * deleteFixup(x, parent): while `x` is BLACK (or missing) and not the root, one round
   * on the side of the parent that holds `x`; then a non-null `x` is painted BLACK. The
   * tree stays a valid search tree for the same map; a null dereference on the way is
   * reported as such.
   */
  method DeleteFixup<V>(t: BstSortedMap<V>, x0: int, parent0: int) returns (o: Outcome, ghost x: int)
    requires t.Valid()
    requires x0 == NIL || 0 <= x0 < |t.nodes|
    requires parent0 == NIL || parent0 in Ptrs(t.shape)
    modifies t
    ensures t.Valid() && t.currentSize == old(t.currentSize)
    ensures Entries(t.nodes, t.shape) == old(Entries(t.nodes, t.shape))
    ensures o.Fail? ==> o.error == NullPointer
    ensures o.Pass? ==> IsBlack(t.nodes, x)
  {
    var x', parent := x0, parent0;
    ghost var cp, pl, pr := Top, Leaf, Leaf;
    if parent != NIL {
      cp, pl, pr := Locate(t.shape, parent);
    }
    while GoesOn(t.nodes, t.root, x')
      invariant t.Valid() && t.currentSize == old(t.currentSize)
      invariant Entries(t.nodes, t.shape) == old(Entries(t.nodes, t.shape))
      invariant x' == NIL || 0 <= x' < |t.nodes|
      invariant parent != NIL ==> t.shape == Plug(cp, Branch(pl, parent, pr))
      decreases if !GoesOn(t.nodes, t.root, x') then 0 else if parent == NIL then 1 else Depth(cp) + 2
    {
      if parent != NIL {
        HoleLinks(t.nodes, cp, pl, parent, pr);
      }
      if parent != NIL && t.nodes[parent].left == x' {
        o, x', parent, cp, pl, pr := FixLeft(t, parent, cp, pl, pr);
      } else {
        o, x', parent, cp, pl, pr := FixRight(t, parent, cp, pl, pr);
      }
      if o.Fail? {
        return o, x';
      }
    }
    if x' != NIL {
      SetColor(t, x', Black);
    }
    return Pass, x';
  }

  /**
   * The unlinking part of remove: `z` is unlinked as in the binary-search-tree remove and
   * a successor `y` that takes its place also takes its colour. Returns `y`, the node `x`
   * that took y's former place (or null), and the colour `y` had.
   */
  method Unlink<V>(t: BstSortedMap<V>, z: int, ghost c: Ctx, ghost l: Tree, ghost rt: Tree)
    returns (y: int, x: int, yOriginal: Color)
    requires t.Valid() && t.shape == Plug(c, Branch(l, z, rt))
    modifies t
    ensures t.Valid() && t.currentSize == old(t.currentSize)
    ensures 0 <= z < |old(t.nodes)| && t.Contents() == old(t.Contents()) - {old(t.nodes)[z].entry.key}
    ensures x == NIL || x in Ptrs(t.shape)
    ensures 0 <= y < |old(t.nodes)| == |t.nodes| && yOriginal == old(t.nodes)[y].color
    ensures y == z <==> old(t.nodes)[z].left == NIL || old(t.nodes)[z].right == NIL
    ensures y != z ==> t.nodes[y].color == old(t.nodes)[z].color
  {
    HoleLinks(t.nodes, c, l, z, rt);
    var zColor := t.nodes[z].color;
    ghost var s;
    y, x, s := t.RemoveNode(z, c, l, rt);
    // Unlinking rewrites links only, so y still has the colour it had before.
    yOriginal := t.nodes[y].color;
    if y != z {
      SetColor(t, y, zColor);
    }
  }

  /**
   * The fix-up call of remove: deleteFixup from `x`, with x's parent as parent, or the
   * root when `x` is null or has no parent.
   */
  method FixupFrom<V>(t: BstSortedMap<V>, x: int) returns (o: Outcome)
    requires t.Valid() && (x == NIL || x in Ptrs(t.shape))
    modifies t
    ensures t.Valid() && t.currentSize == old(t.currentSize)
    ensures Entries(t.nodes, t.shape) == old(Entries(t.nodes, t.shape))
    ensures o.Fail? ==> o.error == NullPointer
  {
    if x != NIL {
      InTree(t.nodes, t.shape, x);
    }
    var xParent := if x != NIL && t.nodes[x].parent != NIL then t.nodes[x].parent else t.root;
    ghost var xEnd;
    o, xEnd := DeleteFixup(t, x, xParent);
  }

  // ---------------------------------------------------------------- the map

  /** RedBlackSortedMap: the binary-search-tree map whose operations keep colours. */
  class RedBlackSortedMap<V> {
    const tree: BstSortedMap<V>

    ghost predicate Valid()
      reads this, tree
    {
      tree.Valid() && tree.Counted()
    }

    /** The map the tree stands for. */
    ghost function Contents(): map<int, V>
      reads this, tree
    {
      tree.Contents()
    }

    /** RedBlackSortedMap(): an empty tree. */
    constructor ()
      ensures Valid() && Contents() == map[] && fresh(tree)
    {
      tree := new BstSortedMap();
    }

    /**
     * put: the binary-search-tree put with the size raised for a new key, then
     * recolorAndRotate from the node now holding `k`. The previous value is returned,
     * with the root BLACK; or the null dereference of a failed walk, after which the new
     * entry is stored all the same.
     */
    method Put(k: int, v: V) returns (r: Result<Option<V>>)
      requires Valid()
      modifies tree
      ensures Valid() && Contents() == old(Contents())[k := v]
      ensures r.Ok? ==> r.value == (if k in old(Contents()) then Some(old(Contents())[k]) else None) &&
                        RootBlack(tree.nodes, tree.root)
      ensures r.Err? ==> r.error == NullPointer
    {
      var previous, _ := tree.PutCounted(k, v);
      var node, c, l, rt := tree.GetNode(k);
      EntriesSize(tree.nodes, tree.shape, NIL);
      var o := RecolorAndRotate(tree, node, c, l, rt);
      EntriesSize(tree.nodes, tree.shape, NIL);
      if o.Fail? {
        return Err(o.error);
      }
      return Ok(previous);
    }

    /**
     * remove: an absent key throws before anything changes. Otherwise the node is
     * unlinked as in the binary-search-tree remove, a successor taking its place also
     * takes its colour, and when the unlinked node was BLACK deleteFixup runs from the
     * node that took its place, with that node's parent or else the root as parent. The
     * root is painted BLACK, the size lowered and the removed value returned. A null
     * dereference in deleteFixup ends the operation with the key removed but the size
     * not lowered.
     */
    method Remove(k: int) returns (r: Result<V>)
      requires Valid()
      modifies tree
      ensures k !in old(Contents()) ==> r == Err(NoSuchElement) && unchanged(tree)
      ensures k in old(Contents()) ==> tree.Valid() && tree.Contents() == old(Contents()) - {k}
      ensures r.Ok? ==> Valid() && r.value == old(Contents())[k] && (tree.root == NIL || RootBlack(tree.nodes, tree.root))
      ensures r.Err? && k in old(Contents()) ==> r.error == NullPointer && tree.currentSize == old(tree.currentSize)
    {
      var z, c, l, rt := tree.GetNode(k);
      if z == NIL {
        return Err(NoSuchElement);
      }
      var value := tree.nodes[z].entry.value;
      tree.ContentsSize();
      var y, x, yOriginal := Unlink(tree, z, c, l, rt);
      if yOriginal == Black {
        var o := FixupFrom(tree, x);
        if o.Fail? {
          return Err(o.error);
        }
      }
      if tree.root != NIL {
        HoleLinks(tree.nodes, Top, tree.shape.left, tree.root, tree.shape.right);
        SetColor(tree, tree.root, Black);
      }
      tree.currentSize := tree.currentSize - 1;
      tree.ContentsSize();
      return Ok(value);
    }
  }
}

=== FILE: sep_chain_hash_table.dfy ===
/**
 * SepChainHashTable: a hash table with separate chaining. Bucket `b` of `table` holds, as a
 * MapSinglyList, the entries whose key hashes to `b`; an absent (null) bucket is the empty one.
 *
 * The key's `hashCode()` is the parameter `hashCode`. The load factors 0.75 and 0.9 are
 * applied as the integer fractions 3/4 and 9/10: the floor of the exact rational product,
 * which can differ from Java's float32 product for sizes above about 4.6 million.
 */
module SepChainHashTable {
  import opened Wrappers
  import opened MapEntry
  import opened MapSinglyList
  import opened SepChainHashTableIterator
  import HashTable

  const MIN_INT: int := -0x8000_0000

  /** `(int) (capacity * IDEAL_LOAD_FACTOR)`: the length of the first table. */
  function IdealLength(capacity: int): int {
    capacity * 3 / 4
  }

  /** `(int) (length * MAX_LOAD_FACTOR)`: the number of entries that fills a table. */
  function MaxEntries(length: int): int {
    length * 9 / 10
  }

  /** The bucket of a hash code: its absolute value, taken without overflow, modulo the length. */
  function BucketIndex(h: int, length: int): (r: int)
    requires length > 0
    ensures 0 <= r < length
  {
    (if h < 0 then -h else h) % length
  }

  /**
   * `Math.abs(key.hashCode()) % table.length` in Java int arithmetic, where the absolute
   * value of the least int is that int itself. It is the bucket index for every other hash.
   */
  function IndexAsWritten(h: int, length: int): (r: int)
    requires length > 0 && MIN_INT <= h <= HashTable.MAX_INT
    ensures h != MIN_INT ==> r == BucketIndex(h, length)
  {
    HashTable.JavaRem(if h == MIN_INT then MIN_INT else if h < 0 then -h else h, length)
  }

  /** A key whose hashCode() is the least int gets a negative index in a table of 37 buckets. */
  lemma LeastHashIndexIsNegative()
    ensures IndexAsWritten(MIN_INT, 37) == -22
  {
    assert 2147483648 % 37 == 22;
  }

  /** The value a map holds for a key, as `get` reports it. */
  function MapGet<K, V>(m: map<K, V>, k: K): Option<V> {
    if k in m then Some(m[k]) else None
  }

  /** Every bucket has distinct keys, all of which hash to that bucket. */
  ghost predicate Placed<K(!new), V>(t: seq<seq<Entry<K, V>>>, hashCode: K -> int) {
    forall b :: 0 <= b < |t| ==>
      DistinctKeys(t[b]) && forall e :: e in t[b] ==> BucketIndex(hashCode(e.key), |t|) == b
  }

  /** Looking a key up in its bucket answers what the map holds for it. */
  ghost predicate Represents<K(!new), V>(t: seq<seq<Entry<K, V>>>, hashCode: K -> int, m: map<K, V>) {
    if |t| == 0 then m == map[]
    else forall k :: Lookup(t[BucketIndex(hashCode(k), |t|)], k) == MapGet(m, k)
  }

  /** put into the key's bucket is the map update. */
  lemma PutKeeps<K(!new), V>(t: seq<seq<Entry<K, V>>>, hashCode: K -> int, m: map<K, V>, k: K, v: V)
    requires |t| > 0 && Placed(t, hashCode) && Represents(t, hashCode, m)
    ensures var b := BucketIndex(hashCode(k), |t|);
      Lookup(t[b], k) == MapGet(m, k) &&
      Placed(t[b := PutEntry(t[b], k, v)], hashCode) &&
      Represents(t[b := PutEntry(t[b], k, v)], hashCode, m[k := v])
  {
    var b := BucketIndex(hashCode(k), |t|);
    var t' := t[b := PutEntry(t[b], k, v)];
    PutEntryIsUpdate(t[b], k, v);
    PutEntryEntries(t[b], k, v);
    forall k' ensures Lookup(t'[BucketIndex(hashCode(k'), |t|)], k') == MapGet(m[k := v], k') {
      if BucketIndex(hashCode(k'), |t|) == b {
        LookupAfterPut(t[b], k, v, k');
      }
    }
  }

  /** remove from the key's bucket is the map removal. */
  lemma RemoveKeeps<K(!new), V>(t: seq<seq<Entry<K, V>>>, hashCode: K -> int, m: map<K, V>, k: K)
    requires |t| > 0 && Placed(t, hashCode) && Represents(t, hashCode, m)
    ensures var b := BucketIndex(hashCode(k), |t|);
      Lookup(t[b], k) == MapGet(m, k) &&
      Placed(t[b := RemoveKey(t[b], k)], hashCode) &&
      Represents(t[b := RemoveKey(t[b], k)], hashCode, m - {k})
  {
    var b := BucketIndex(hashCode(k), |t|);
    var t' := t[b := RemoveKey(t[b], k)];
    RemoveKeyIsRemoval(t[b], k);
    RemoveKeyEntries(t[b], k);
    forall k' ensures Lookup(t'[BucketIndex(hashCode(k'), |t|)], k') == MapGet(m - {k}, k') {
      if BucketIndex(hashCode(k'), |t|) == b {
        LookupAfterRemove(t[b], k, k');
      }
    }
  }

  /** During rehash: whether the entry of `k` in the old table has been moved already. */
  ghost predicate Moved<K(!new), V>(t: seq<seq<Entry<K, V>>>, hashCode: K -> int, b: int, j: int, k: K)
    requires |t| > 0
  {
    var ob := BucketIndex(hashCode(k), |t|);
    ob < b || (ob == b && b < |t| && 0 <= KeyIndex(t[b], k) < j)
  }

  /** During rehash: the new table holds exactly the moved entries, each in its new bucket. */
  ghost predicate Rehashing<K(!new), V>(t: seq<seq<Entry<K, V>>>, hashCode: K -> int, m: map<K, V>,
                                 nt: seq<seq<Entry<K, V>>>, b: int, j: int)
    requires |t| > 0
  {
    |nt| > 0 && Placed(nt, hashCode) &&
    forall k :: Lookup(nt[BucketIndex(hashCode(k), |nt|)], k) ==
      (if Moved(t, hashCode, b, j, k) then MapGet(m, k) else None)
  }

  /** An empty new table has moved nothing. */
  lemma RehashStart<K(!new), V>(t: seq<seq<Entry<K, V>>>, hashCode: K -> int, m: map<K, V>, nt: seq<seq<Entry<K, V>>>)
    requires |t| > 0 && |nt| > 0 && forall b :: 0 <= b < |nt| ==> nt[b] == []
    ensures Rehashing(t, hashCode, m, nt, 0, 0)
  {
  }

  /** Putting entry `j` of bucket `b` into the new table moves it. */
  lemma RehashStep<K(!new), V>(t: seq<seq<Entry<K, V>>>, hashCode: K -> int, m: map<K, V>,
                         nt: seq<seq<Entry<K, V>>>, b: int, j: int)
    requires |t| > 0 && Placed(t, hashCode) && Represents(t, hashCode, m)
    requires 0 <= b < |t| && 0 <= j < |t[b]| && Rehashing(t, hashCode, m, nt, b, j)
    ensures var e := t[b][j];
      var nb := BucketIndex(hashCode(e.key), |nt|);
      Rehashing(t, hashCode, m, nt[nb := PutEntry(nt[nb], e.key, e.value)], b, j + 1)
  {
    var e := t[b][j];
    var nb := BucketIndex(hashCode(e.key), |nt|);
    var nt' := nt[nb := PutEntry(nt[nb], e.key, e.value)];
    assert e in t[b];
    assert KeyIndex(t[b], e.key) == j;
    assert Lookup(t[b], e.key) == Some(e.value);
    PutEntryIsUpdate(nt[nb], e.key, e.value);
    PutEntryEntries(nt[nb], e.key, e.value);
    forall k ensures Lookup(nt'[BucketIndex(hashCode(k), |nt|)], k) ==
                     (if Moved(t, hashCode, b, j + 1, k) then MapGet(m, k) else None)
    {
      if BucketIndex(hashCode(k), |nt|) == nb {
        LookupAfterPut(nt[nb], e.key, e.value, k);
      }
      if k != e.key && BucketIndex(hashCode(k), |t|) == b {
        var ki := KeyIndex(t[b], k);
        assert ki != j;
      }
    }
  }

  /** Past the last entry of bucket `b`, every key of that bucket has moved. */
  lemma RehashNextBucket<K(!new), V>(t: seq<seq<Entry<K, V>>>, hashCode: K -> int, m: map<K, V>,
                               nt: seq<seq<Entry<K, V>>>, b: int)
    requires |t| > 0 && Placed(t, hashCode) && Represents(t, hashCode, m)
    requires 0 <= b < |t| && Rehashing(t, hashCode, m, nt, b, |t[b]|)
    ensures Rehashing(t, hashCode, m, nt, b + 1, 0)
  {
    forall k ensures Lookup(nt[BucketIndex(hashCode(k), |nt|)], k) ==
                     (if Moved(t, hashCode, b + 1, 0, k) then MapGet(m, k) else None)
    {
      if BucketIndex(hashCode(k), |t|) == b && KeyIndex(t[b], k) < 0 {
        assert Lookup(t[b], k) == None;
      }
    }
  }

  /** When every bucket has moved, the new table represents the map. */
  lemma RehashDone<K(!new), V>(t: seq<seq<Entry<K, V>>>, hashCode: K -> int, m: map<K, V>, nt: seq<seq<Entry<K, V>>>)
    requires |t| > 0 && Rehashing(t, hashCode, m, nt, |t|, 0)
    ensures Placed(nt, hashCode) && Represents(nt, hashCode, m)
  {
  }

  /** The iterator walks over exactly the entries of the map. */
  lemma IterationYieldsContents<K(!new), V>(t: seq<seq<Entry<K, V>>>, hashCode: K -> int, m: map<K, V>)
    requires Placed(t, hashCode) && Represents(t, hashCode, m)
    ensures forall e :: e in Flatten(t) ==> e.key in m && m[e.key] == e.value
    ensures forall k :: k in m ==> Entry(k, m[k]) in Flatten(t)
  {
    forall e | e in Flatten(t) ensures e.key in m && m[e.key] == e.value {
      FlattenMembers(t, e);
      var b :| 0 <= b < |t| && e in t[b];
      var j :| 0 <= j < |t[b]| && t[b][j] == e;
      assert KeyIndex(t[b], e.key) == j;
      assert Lookup(t[b], e.key) == Some(e.value);
    }
    forall k | k in m ensures Entry(k, m[k]) in Flatten(t) {
      var b := BucketIndex(hashCode(k), |t|);
      assert Lookup(t[b], k) == Some(m[k]);
      assert t[b][KeyIndex(t[b], k)] == Entry(k, m[k]);
      FlattenMembers(t, Entry(k, m[k]));
    }
  }

  /** Doubling the length (to at least 3) raises the number of entries that fills the table. */
  lemma GrowthRaisesLimit(oldLength: int, newLength: int)
    requires oldLength >= 0 && newLength >= 3 && newLength >= 2 * oldLength
    ensures MaxEntries(newLength) > MaxEntries(oldLength)
  {
    var q := 9 * oldLength / 10;
    assert 9 * newLength >= 18 * oldLength;
    assert 9 * newLength / 10 >= 18 * oldLength / 10;
    if q == 0 {
      assert 9 * newLength / 10 >= 27 / 10;
    } else {
      assert 18 * oldLength >= 20 * q;
    }
  }

  /** The inner loop of rehash: puts every entry of old bucket `b` into the new table. */
  method MoveBucket<K(==,!new), V>(bucket: seq<Entry<K, V>>, newTable: array<seq<Entry<K, V>>>,
                                   hashCode: K -> int, ghost t: seq<seq<Entry<K, V>>>,
                                   ghost m: map<K, V>, ghost b: int)
    requires |t| > 0 && Placed(t, hashCode) && Represents(t, hashCode, m)
    requires 0 <= b < |t| && bucket == t[b] && Rehashing(t, hashCode, m, newTable[..], b, 0)
    modifies newTable
    ensures Rehashing(t, hashCode, m, newTable[..], b + 1, 0)
  {
    var j := 0;
    while j < |bucket|
      invariant 0 <= j <= |bucket|
      invariant Rehashing(t, hashCode, m, newTable[..], b, j)
    {
      var e := bucket[j];
      var idx := BucketIndex(hashCode(e.key), newTable.Length);
      RehashStep(t, hashCode, m, newTable[..], b, j);
      newTable[idx] := PutEntry(newTable[idx], e.key, e.value);
      j := j + 1;
    }
    RehashNextBucket(t, hashCode, m, newTable[..], b);
  }

  /** The body of rehash: a new table of the given length holding the same entries. */
  method Redistribute<K(==,!new), V>(table: array<seq<Entry<K, V>>>, hashCode: K -> int,
                                     ghost m: map<K, V>, newCapacity: int)
      returns (newTable: array<seq<Entry<K, V>>>)
    requires newCapacity > 0 && Placed(table[..], hashCode) && Represents(table[..], hashCode, m)
    ensures fresh(newTable) && newTable.Length == newCapacity
    ensures Placed(newTable[..], hashCode) && Represents(newTable[..], hashCode, m)
  {
    newTable := new seq<Entry<K, V>>[newCapacity](_ => []);
    if table.Length > 0 {
      RehashStart(table[..], hashCode, m, newTable[..]);
      var b := 0;
      while b < table.Length
        invariant 0 <= b <= table.Length
        invariant Rehashing(table[..], hashCode, m, newTable[..], b, 0)
        modifies newTable
      {
        MoveBucket(table[b], newTable, hashCode, table[..], m, b);
        b := b + 1;
      }
      RehashDone(table[..], hashCode, m, newTable[..]);
    } else {
      assert forall k :: Lookup(newTable[..][BucketIndex(hashCode(k), newTable.Length)], k) == None;
    }
  }

  class SepChainHashTable<K(==,!new), V> {
    const hashCode: K -> int
    /** `size` in the Java class: the capacity asked for, otherwise unused. */
    const predictedSize: int
    var currentSize: int
    var maxSize: int
    var table: array<seq<Entry<K, V>>>
    ghost var Contents: map<K, V>
    ghost var Repr: set<object>

    /**
     * The buckets represent `Contents`, `currentSize` counts its keys, and the count never
     * passes `maxSize`, which never passes 9/10 of the table's length.
     */
    ghost predicate Valid()
      reads this, Repr
    {
      Repr == {this, table} &&
      Placed(table[..], hashCode) && Represents(table[..], hashCode, Contents) &&
      currentSize == |Contents| &&
      0 <= currentSize <= maxSize <= MaxEntries(table.Length)
    }

    /**
     * A table of `(int) (capacity * 0.75)` absent buckets. `maxSize` is left at 0, so the
     * first put rehashes.
     */
    constructor (theHashCode: K -> int, capacity: int)
      requires capacity >= 0
      ensures Valid() && fresh(Repr) && Contents == map[]
      ensures hashCode == theHashCode && predictedSize == capacity
      ensures table.Length == IdealLength(capacity) && maxSize == 0
    {
      hashCode := theHashCode;
      predictedSize := capacity;
      currentSize := 0;
      maxSize := 0;
      table := new seq<Entry<K, V>>[IdealLength(capacity)](_ => []);
      Contents := map[];
      new;
      Repr := {this, table};
    }

    /** The default constructor: capacity DEFAULT_CAPACITY. */
    constructor Default(theHashCode: K -> int)
      ensures Valid() && fresh(Repr) && Contents == map[]
      ensures table.Length == IdealLength(HashTable.DEFAULT_CAPACITY) && maxSize == 0
    {
      hashCode := theHashCode;
      predictedSize := HashTable.DEFAULT_CAPACITY;
      currentSize := 0;
      maxSize := 0;
      table := new seq<Entry<K, V>>[IdealLength(HashTable.DEFAULT_CAPACITY)](_ => []);
      Contents := map[];
      new;
      Repr := {this, table};
    }

    function IsEmpty(): (r: bool)
      reads this, Repr
      requires Valid()
      ensures r <==> Contents == map[]
    {
      currentSize == 0
    }

    function Size(): (r: int)
      reads this, Repr
      requires Valid()
      ensures r == |Contents|
    {
      currentSize
    }

    /** isFull: the count has reached `maxSize`. */
    function IsFull(): (r: bool)
      reads this, Repr
      requires Valid()
      ensures r <==> |Contents| == maxSize
    {
      currentSize == maxSize
    }

    /** get: the key's bucket answers; a table of no buckets divides by zero. */
    method Get(key: K) returns (r: Result<Option<V>>)
      requires Valid()
      ensures r.Err? <==> table.Length == 0
      ensures r.Err? ==> r.error == Arithmetic && Contents == map[]
      ensures r.Ok? ==> r.value == MapGet(Contents, key)
    {
      if table.Length == 0 {
        return Err(Arithmetic);
      }
      var idx := BucketIndex(hashCode(key), table.Length);
      return Ok(Lookup(table[idx], key));
    }

    /** put: rehashes a full table first, then puts into the key's bucket. */
    method Put(key: K, value: V) returns (r: Option<V>)
      requires Valid() && table.Length <= HashTable.MAX_INT / 2
      modifies this, table
      ensures Valid() && fresh(Repr - old(Repr))
      ensures r == MapGet(old(Contents), key)
      ensures Contents == old(Contents)[key := value]
      ensures old(currentSize) == old(maxSize) ==> table.Length > old(table.Length)
    {
      if IsFull() {
        Rehash();
      }
      var idx := BucketIndex(hashCode(key), table.Length);
      PutKeeps(table[..], hashCode, Contents, key, value);
      var bucket := table[idx];
      r := Lookup(bucket, key);
      table[idx] := PutEntry(bucket, key, value);
      if r.None? {
        currentSize := currentSize + 1;
      }
      Contents := Contents[key := value];
    }

    /**
     * rehash: a table of nextPrime(2 * length) buckets (3 for a length of at most 1), into
     * which every entry is put again, bucket by bucket and entry by entry.
     */
    method Rehash()
      requires Valid() && currentSize == maxSize && table.Length <= HashTable.MAX_INT / 2
      modifies this
      ensures Valid() && fresh(table) && Contents == old(Contents)
      ensures currentSize < maxSize && table.Length >= 3 && table.Length >= 2 * old(table.Length)
    {
      var oldCapacity := table.Length;
      var proposed := if oldCapacity <= 1 then 3 else oldCapacity * 2;
      var newCapacity := HashTable.NextPrime(proposed);
      if newCapacity == 0 {
        newCapacity := proposed;
      }
      var newTable := Redistribute(table, hashCode, Contents, newCapacity);
      GrowthRaisesLimit(oldCapacity, newCapacity);
      table := newTable;
      maxSize := MaxEntries(table.Length);
      Repr := {this, table};
    }

    /** remove: removes from the key's bucket; a table of no buckets divides by zero. */
    method Remove(key: K) returns (r: Result<Option<V>>)
      requires Valid()
      modifies this, table
      ensures Valid() && Repr == old(Repr)
      ensures r.Err? <==> table.Length == 0
      ensures r.Err? ==> r.error == Arithmetic && Contents == map[]
      ensures r.Ok? ==> r.value == MapGet(old(Contents), key) && Contents == old(Contents) - {key}
    {
      if table.Length == 0 {
        return Err(Arithmetic);
      }
      var idx := BucketIndex(hashCode(key), table.Length);
      RemoveKeeps(table[..], hashCode, Contents, key);
      var bucket := table[idx];
      var old_ := Lookup(bucket, key);
      table[idx] := RemoveKey(bucket, key);
      if old_.Some? {
        currentSize := currentSize - 1;
      }
      Contents := Contents - {key};
      return Ok(old_);
    }

    /** iterator: walks the current array of buckets. */
    method Iterator() returns (it: SepChainHashTableIterator<K, V>)
      requires Valid()
      ensures fresh(it) && it.Valid() && it.table == table && it.Items() == Flatten(table[..])
      ensures it.Emitted() == 0
    {
      it := new SepChainHashTableIterator(table);
    }
  }
}

=== FILE: sep_chain_hash_table_iterator.dfy ===
/**
 * SepChainHashTableIterator: walks the buckets of a separate-chaining table in index order
 * and, inside a bucket, the entries in list order. The iterator of the current bucket is a
 * cursor over that bucket.
 */
module SepChainHashTableIterator {
  import opened Wrappers
  import opened MapEntry
  import opened SeqIterator

  /** The buckets one after the other. */
  function Flatten<E>(t: seq<seq<E>>): (r: seq<E>)
    ensures t == [] ==> r == []
  {
    if t == [] then [] else Flatten(t[..|t| - 1]) + t[|t| - 1]
  }

  /** One more bucket appends its entries. */
  lemma FlattenAppend<E>(t: seq<seq<E>>, i: int)
    requires 0 <= i < |t|
    ensures Flatten(t[..i + 1]) == Flatten(t[..i]) + t[i]
  {
    assert t[..i + 1][..i] == t[..i];
  }

  /** Empty buckets add nothing. */
  lemma {:induction false} FlattenSkip<E>(t: seq<seq<E>>, a: int, c: int)
    requires 0 <= a <= c <= |t|
    requires forall b :: a <= b < c ==> t[b] == []
    ensures Flatten(t[..c]) == Flatten(t[..a])
    decreases c - a
  {
    if a < c {
      FlattenSkip(t, a, c - 1);
      FlattenAppend(t, c - 1);
    }
  }

  /** The entries of the first buckets begin the entries of more buckets. */
  lemma {:induction false} FlattenPrefix<E>(t: seq<seq<E>>, a: int, c: int)
    requires 0 <= a <= c <= |t|
    ensures |Flatten(t[..a])| <= |Flatten(t[..c])|
    ensures Flatten(t[..c])[..|Flatten(t[..a])|] == Flatten(t[..a])
    decreases c - a
  {
    if a < c {
      FlattenPrefix(t, a, c - 1);
      FlattenAppend(t, c - 1);
    }
  }

  /** Entry `p` of bucket `i` sits after the entries of the buckets before `i`. */
  lemma FlattenIndex<E>(t: seq<seq<E>>, i: int, p: int)
    requires 0 <= i < |t| && 0 <= p < |t[i]|
    ensures |Flatten(t[..i])| + p < |Flatten(t)|
    ensures Flatten(t)[|Flatten(t[..i])| + p] == t[i][p]
  {
    FlattenAppend(t, i);
    FlattenPrefix(t, i + 1, |t|);
    assert t[..|t|] == t;
    assert Flatten(t[..i + 1])[|Flatten(t[..i])| + p] == t[i][p];
  }

  /** An entry is walked over exactly when some bucket holds it. */
  lemma {:induction false} FlattenMembers<E>(t: seq<seq<E>>, e: E)
    ensures e in Flatten(t) <==> exists b :: 0 <= b < |t| && e in t[b]
  {
    if t != [] {
      var n := |t| - 1;
      FlattenMembers(t[..n], e);
      if e in Flatten(t[..n]) {
        var b :| 0 <= b < n && e in t[..n][b];
        assert e in t[b];
      }
      if exists b :: 0 <= b < |t| && e in t[b] {
        var b :| 0 <= b < |t| && e in t[b];
        if b < n {
          assert e in t[..n][b];
        }
      }
    }
  }

  class SepChainHashTableIterator<K, V> {
    const table: array<seq<Entry<K, V>>>
    var currentIndex: int
    var currentIterator: SeqIterator?<Entry<K, V>>

    /**
     * The bucket iterator is absent once the index has passed the last bucket, and walks
     * bucket `currentIndex` otherwise.
     */
    ghost predicate Valid()
      reads this, table, currentIterator
    {
      0 <= currentIndex &&
      (currentIterator == null <==> currentIndex >= table.Length) &&
      (currentIterator != null ==>
         currentIterator.Valid() && currentIterator.items == table[currentIndex])
    }

    /** Every entry of the table, in iteration order. */
    ghost function Items(): seq<Entry<K, V>>
      reads table
    {
      Flatten(table[..])
    }

    /** How many entries have been returned. */
    ghost function Emitted(): int
      reads this, table, currentIterator
      requires Valid()
    {
      if currentIterator == null then |Items()|
      else |Flatten(table[..currentIndex])| + currentIterator.pos
    }

    /** Starts at the first non-empty bucket. */
    constructor (theTable: array<seq<Entry<K, V>>>)
      ensures Valid() && table == theTable && Emitted() == 0
    {
      table := theTable;
      currentIndex := -1;
      currentIterator := null;
      new;
      AdvanceToNextBucket();
      FlattenSkip(table[..], 0, if currentIndex < table.Length then currentIndex else table.Length);
      assert table[..table.Length] == table[..];
    }

    /** advanceToNextBucket: moves to the next non-empty bucket, or past the last one. */
    method AdvanceToNextBucket()
      requires -1 <= currentIndex
      modifies this
      ensures old(currentIndex) < currentIndex
      ensures old(currentIndex) < table.Length ==> currentIndex <= table.Length
      ensures forall b :: old(currentIndex) < b < currentIndex && b < table.Length ==> table[b] == []
      ensures currentIterator == null <==> currentIndex >= table.Length
      ensures currentIterator != null ==>
        fresh(currentIterator) && currentIterator.Valid() && currentIterator.pos == 0 &&
        currentIterator.items == table[currentIndex] && table[currentIndex] != []
    {
      currentIterator := null;
      currentIndex := currentIndex + 1;
      while currentIndex < table.Length
        invariant old(currentIndex) < currentIndex
        invariant old(currentIndex) < table.Length ==> currentIndex <= table.Length
        invariant forall b :: old(currentIndex) < b < currentIndex && b < table.Length ==> table[b] == []
        invariant currentIterator == null
      {
        if table[currentIndex] != [] {
          currentIterator := new SeqIterator(table[currentIndex]);
          return;
        }
        currentIndex := currentIndex + 1;
      }
    }

    /** hasNext: the current bucket has more, or a later bucket is not empty. */
    method HasNext() returns (r: bool)
      requires Valid()
      ensures r <==> Emitted() < |Items()|
    {
      if currentIterator != null && currentIterator.HasNext() {
        FlattenIndex(table[..], currentIndex, currentIterator.pos);
        return true;
      }
      if currentIterator != null {
        FlattenAppend(table[..], currentIndex);
      }
      var tempIndex := currentIndex + 1;
      while tempIndex < table.Length
        invariant currentIndex < tempIndex
        invariant forall b :: currentIndex < b < tempIndex && b < table.Length ==> table[b] == []
      {
        if table[tempIndex] != [] {
          FlattenSkip(table[..], currentIndex + 1, tempIndex);
          FlattenIndex(table[..], tempIndex, 0);
          return true;
        }
        tempIndex := tempIndex + 1;
      }
      if currentIterator != null {
        FlattenSkip(table[..], currentIndex + 1, table.Length);
        assert table[..table.Length] == table[..];
      }
      return false;
    }

    /** next: moves to the next non-empty bucket when the current one is done. */
    method Next() returns (r: Result<Entry<K, V>>)
      requires Valid()
      modifies this, currentIterator
      ensures Valid()
      ensures r.Err? <==> old(Emitted()) == |Items()|
      ensures r.Err? ==> r.error == NoSuchElement && Emitted() == old(Emitted())
      ensures r.Ok? ==> old(Emitted()) < |Items()| && r.value == Items()[old(Emitted())]
      ensures r.Ok? ==> Emitted() == old(Emitted()) + 1
    {
      if currentIterator == null || !currentIterator.HasNext() {
        ghost var before := currentIndex;
        if currentIterator != null {
          FlattenAppend(table[..], currentIndex);
        }
        AdvanceToNextBucket();
        if currentIterator != null {
          FlattenSkip(table[..], before + 1, currentIndex);
        } else if before < table.Length {
          FlattenSkip(table[..], before + 1, table.Length);
          assert table[..table.Length] == table[..];
        }
        if currentIterator == null || !currentIterator.HasNext() {
          return Err(NoSuchElement);
        }
      }
      FlattenIndex(table[..], currentIndex, currentIterator.pos);
      r := currentIterator.Next();
    }

    /** rewind: back to the first non-empty bucket. */
    method Rewind()
      requires Valid()
      modifies this
      ensures Valid() && Emitted() == 0
    {
      currentIndex := -1;
      currentIterator := null;
      AdvanceToNextBucket();
      FlattenSkip(table[..], 0, if currentIndex < table.Length then currentIndex else table.Length);
      assert table[..table.Length] == table[..];
    }
  }
}

=== FILE: seq_iterator.dfy ===
/**
 * The Iterator interface (hasNext, next, rewind), given one implementation: a cursor over
 * a fixed sequence. The filter and projection iterators are stated over this cursor,
 * which stands for whatever iterator they wrap.
 */
module SeqIterator {
  import opened Wrappers

  class SeqIterator<E> {
    const items: seq<E>
    var pos: nat

    ghost predicate Valid()
      reads this
    {
      pos <= |items|
    }

    constructor (theItems: seq<E>)
      ensures Valid() && items == theItems && pos == 0
    {
      items := theItems;
      pos := 0;
    }

    function HasNext(): (r: bool)
      reads this
      requires Valid()
      ensures r <==> pos < |items|
    {
      pos < |items|
    }

    method Next() returns (r: Result<E>)
      requires Valid()
      modifies this
      ensures Valid()
      ensures r.Err? <==> old(pos) == |items|
      ensures r.Err? ==> r.error == NoSuchElement && pos == old(pos)
      ensures r.Ok? ==> r.value == items[old(pos)] && pos == old(pos) + 1
    {
      if !HasNext() {
        return Err(NoSuchElement);
      }
      r := Ok(items[pos]);
      pos := pos + 1;
    }

    method Rewind()
      requires Valid()
      modifies this
      ensures Valid() && pos == 0
    {
      pos := 0;
    }
  }
}

=== FILE: singly_linked_list.dfy ===
/**
 * The singly linked list (SinglyListNode, SinglyLinkedList) and its iterator
 * (SinglyIterator).
 *
 * As for the doubly linked list, a ghost spine `Nodes` lists the nodes from head to tail
 * and a ghost `Contents` their elements.
 */
module SinglyLinkedList {
  import opened Wrappers

  class SinglyListNode<E> {
    var element: E
    var next: SinglyListNode?<E>

    /** The two-argument constructor. */
    constructor (theElement: E, theNext: SinglyListNode?<E>)
      ensures element == theElement && next == theNext
    {
      element := theElement;
      next := theNext;
    }

    /** The one-argument constructor: a node with no successor. */
    constructor Single(theElement: E)
      ensures element == theElement && next == null
    {
      element := theElement;
      next := null;
    }

    method SetElement(newElement: E)
      modifies this
      ensures element == newElement && next == old(next)
    {
      element := newElement;
    }

    method SetNext(newNext: SinglyListNode?<E>)
      modifies this
      ensures next == newNext && element == old(element)
    {
      next := newNext;
    }
  }

  /** The nodes are distinct, each one's `next` is the following one and the last points to null. */
  ghost predicate Linked<E>(ns: seq<SinglyListNode<E>>)
    reads ns
  {
    (forall i, j :: 0 <= i < j < |ns| ==> ns[i] != ns[j]) &&
    (forall i :: 0 <= i < |ns| - 1 ==> ns[i].next == ns[i + 1]) &&
    (|ns| > 0 ==> ns[|ns| - 1].next == null)
  }

  /** The elements held by a spine of nodes. */
  ghost predicate Holds<E>(ns: seq<SinglyListNode<E>>, items: seq<E>)
    reads ns
  {
    |ns| == |items| && forall i :: 0 <= i < |ns| ==> ns[i].element == items[i]
  }

  /** Splicing a new node in after position p - 1 of a linked spine. */
  lemma Splice<E>(spine: seq<SinglyListNode<E>>, items: seq<E>, p: int, n: SinglyListNode<E>,
                  ns: seq<SinglyListNode<E>>, items': seq<E>, frame: set<object>)
    requires 0 < p < |spine| && n !in spine && Holds(spine, items)
    requires forall i, j :: 0 <= i < j < |spine| ==> spine[i] != spine[j]
    requires forall i :: 0 <= i < |spine| - 1 && i != p - 1 ==> spine[i].next == spine[i + 1]
    requires spine[p - 1].next == n && n.next == spine[p] && spine[|spine| - 1].next == null
    requires ns == spine[..p] + [n] + spine[p..]
    requires items' == items[..p] + [n.element] + items[p..]
    requires n in frame && forall i :: 0 <= i < |spine| ==> spine[i] in frame
    ensures Linked(ns) && Holds(ns, items')
    ensures ns[0] == spine[0] && ns[|ns| - 1] == spine[|spine| - 1]
    ensures forall i :: 0 <= i < |ns| ==> ns[i] in frame
  {
    forall k | 0 <= k < |ns| - 1
      ensures ns[k].next == ns[k + 1]
    {
      if k < p - 1 {
        assert ns[k] == spine[k] && ns[k + 1] == spine[k + 1];
      } else if k > p {
        assert ns[k] == spine[k - 1] && ns[k + 1] == spine[k];
      }
    }
    forall i, j | 0 <= i < j < |ns|
      ensures ns[i] != ns[j]
    {
      var i0 := if i < p then i else if i == p then -1 else i - 1;
      var j0 := if j < p then j else if j == p then -1 else j - 1;
      if i0 >= 0 && j0 >= 0 {
        assert ns[i] == spine[i0] && ns[j] == spine[j0];
      }
    }
    forall k | 0 <= k < |ns|
      ensures ns[k].element == items'[k] && ns[k] in frame
    {
      if k < p {
        assert ns[k] == spine[k] && items'[k] == items[k];
      } else if k > p {
        assert ns[k] == spine[k - 1] && items'[k] == items[k - 1];
      }
    }
  }

  /** Cutting the node at position i out of a spine whose predecessor now skips it. */
  lemma Cut<E>(spine: seq<SinglyListNode<E>>, items: seq<E>, i: int)
    requires 0 <= i < |spine| && Holds(spine, items)
    requires forall a, b :: 0 <= a < b < |spine| ==> spine[a] != spine[b]
    requires forall j :: 0 <= j < |spine| - 1 && j != i - 1 ==> spine[j].next == spine[j + 1]
    requires i > 0 ==> spine[i - 1].next == if i + 1 < |spine| then spine[i + 1] else null
    requires i < |spine| - 1 ==> spine[|spine| - 1].next == null
    ensures Linked(spine[..i] + spine[i + 1..]) && Holds(spine[..i] + spine[i + 1..], items[..i] + items[i + 1..])
  {
    var ns := spine[..i] + spine[i + 1..];
    forall k | 0 <= k < |ns| - 1
      ensures ns[k].next == ns[k + 1]
    {
      if k < i - 1 {
        assert ns[k] == spine[k] && ns[k + 1] == spine[k + 1];
      } else if k == i - 1 {
        assert ns[k] == spine[i - 1] && ns[k + 1] == spine[i + 1];
      } else {
        assert ns[k] == spine[k + 1] && ns[k + 1] == spine[k + 2];
      }
    }
    forall a, b | 0 <= a < b < |ns|
      ensures ns[a] != ns[b]
    {
      var a0 := if a < i then a else a + 1;
      var b0 := if b < i then b else b + 1;
      assert ns[a] == spine[a0] && ns[b] == spine[b0];
    }
    var its := items[..i] + items[i + 1..];
    forall k | 0 <= k < |ns|
      ensures ns[k].element == its[k]
    {
      var k0 := if k < i then k else k + 1;
      assert ns[k] == spine[k0] && its[k] == items[k0];
    }
    if |ns| > 0 {
      if i == |spine| - 1 {
        assert ns[|ns| - 1] == spine[i - 1];
      } else {
        assert ns[|ns| - 1] == spine[|spine| - 1];
      }
    }
  }

  class SinglyLinkedList<E(==)> {
    var head: SinglyListNode?<E>
    var tail: SinglyListNode?<E>
    var currentSize: int
    ghost var Nodes: seq<SinglyListNode<E>>
    ghost var Contents: seq<E>
    ghost var Repr: set<object>

    ghost predicate Valid()
      reads this, Repr
    {
      this in Repr &&
      (forall i :: 0 <= i < |Nodes| ==> Nodes[i] in Repr) &&
      Linked(Nodes) && Holds(Nodes, Contents) && currentSize == |Nodes| &&
      (if Nodes == [] then head == null && tail == null
       else head == Nodes[0] && tail == Nodes[|Nodes| - 1])
    }

    constructor ()
      ensures Valid() && fresh(Repr) && Contents == []
    {
      head := null;
      tail := null;
      currentSize := 0;
      Nodes := [];
      Contents := [];
      Repr := {this};
    }

    function IsEmpty(): (r: bool)
      reads this, Repr
      requires Valid()
      ensures r <==> Contents == []
    {
      currentSize == 0
    }

    function Size(): (r: int)
      reads this, Repr
      requires Valid()
      ensures r == |Contents|
    {
      currentSize
    }

    function GetFirst(): (r: Result<E>)
      reads this, Repr
      requires Valid()
      ensures r.Err? <==> Contents == []
      ensures r.Err? ==> r.error == NoSuchElement
      ensures r.Ok? ==> r.value == Contents[0]
    {
      if IsEmpty() then Err(NoSuchElement) else Ok(head.element)
    }

    function GetLast(): (r: Result<E>)
      reads this, Repr
      requires Valid()
      ensures r.Err? <==> Contents == []
      ensures r.Err? ==> r.error == NoSuchElement
      ensures r.Ok? ==> r.value == Contents[|Contents| - 1]
    {
      if IsEmpty() then Err(NoSuchElement) else Ok(tail.element)
    }

    /** The node at a position, by the `next` links from the head. */
    method WalkTo(position: int) returns (curr: SinglyListNode<E>)
      requires Valid() && 0 <= position < |Nodes|
      ensures curr == Nodes[position]
    {
      curr := head;
      var i := 0;
      while i < position
        invariant 0 <= i <= position && curr == Nodes[i]
      {
        assert Nodes[i].next == Nodes[i + 1];
        curr := curr.next;
        i := i + 1;
      }
    }

    /** get: the element at a position; the two ends are answered directly. */
    method Get(position: int) returns (r: Result<E>)
      requires Valid()
      ensures r.Err? <==> !(0 <= position < |Contents|)
      ensures r.Err? ==> r.error == InvalidPosition
      ensures r.Ok? ==> r.value == Contents[position]
    {
      if position < 0 || position >= currentSize {
        return Err(InvalidPosition);
      }
      if position == 0 {
        return GetFirst();
      }
      if position == currentSize - 1 {
        return GetLast();
      }
      var curr := WalkTo(position);
      return Ok(curr.element);
    }

    /** indexOf: the position of the first occurrence of the element, or -1. */
    method IndexOf(element: E) returns (r: int)
      requires Valid()
      ensures -1 <= r < |Contents|
      ensures r == -1 <==> element !in Contents
      ensures r >= 0 ==> Contents[r] == element && element !in Contents[..r]
    {
      var curr := head;
      var idx := 0;
      while curr != null
        invariant 0 <= idx <= |Nodes|
        invariant curr == if idx < |Nodes| then Nodes[idx] else null
        invariant element !in Contents[..idx]
        decreases |Nodes| - idx
      {
        if curr.element == element {
          return idx;
        }
        assert Contents[..idx + 1] == Contents[..idx] + [Contents[idx]];
        curr := curr.next;
        idx := idx + 1;
      }
      assert Contents[..idx] == Contents;
      return -1;
    }

    method AddFirst(element: E)
      requires Valid()
      modifies Repr
      ensures Valid() && fresh(Repr - old(Repr))
      ensures Contents == [element] + old(Contents)
    {
      var node := new SinglyListNode(element, head);
      head := node;
      if tail == null {
        tail := node;
      }
      currentSize := currentSize + 1;
      Nodes := [node] + Nodes;
      Contents := [element] + Contents;
      Repr := Repr + {node};
    }

    method AddLast(element: E)
      requires Valid()
      modifies Repr
      ensures Valid() && fresh(Repr - old(Repr))
      ensures Contents == old(Contents) + [element]
    {
      var node := new SinglyListNode(element, null);
      if IsEmpty() {
        head, tail := node, node;
      } else {
        tail.SetNext(node);
        tail := node;
      }
      currentSize := currentSize + 1;
      Nodes := Nodes + [node];
      Contents := Contents + [element];
      Repr := Repr + {node};
    }

    /** add: inserts at a position between 0 and the size, both included. */
    method Add(position: int, element: E) returns (r: Outcome)
      requires Valid()
      modifies Repr
      ensures Valid() && fresh(Repr - old(Repr))
      ensures r.Fail? <==> !(0 <= position <= old(|Contents|))
      ensures r.Fail? ==> r.error == InvalidPosition && Contents == old(Contents)
      ensures r.Pass? ==> Contents == old(Contents)[..position] + [element] + old(Contents)[position..]
    {
      if position < 0 || position > currentSize {
        return Fail(InvalidPosition);
      }
      if position == 0 {
        AddFirst(element);
        return Pass;
      }
      if position == currentSize {
        AddLast(element);
        assert old(Contents)[position..] == [];
        return Pass;
      }
      InsertAfter(position, element);
      return Pass;
    }

    /** The middle case of add: the new node follows the node at position - 1. */
    method InsertAfter(position: int, element: E)
      requires Valid() && 0 < position < |Contents|
      modifies Repr
      ensures Valid() && fresh(Repr - old(Repr))
      ensures Contents == old(Contents)[..position] + [element] + old(Contents)[position..]
    {
      var prev := WalkTo(position - 1);
      assert Nodes[position - 1].next == Nodes[position];
      var node := new SinglyListNode(element, prev.next);
      prev.next := node;
      currentSize := currentSize + 1;
      ghost var spine, items := Nodes, Contents;
      Nodes := Nodes[..position] + [node] + Nodes[position..];
      Contents := Contents[..position] + [element] + Contents[position..];
      Repr := Repr + {node};
      forall k | 0 <= k < |spine| - 1 && k != position - 1
        ensures spine[k].next == spine[k + 1]
      {
        assert spine[k] != prev;
      }
      Splice(spine, items, position, node, Nodes, Contents, Repr);
    }

    /** removeFirst: removes and returns the first element. */
    method RemoveFirst() returns (r: Result<E>)
      requires Valid()
      modifies Repr
      ensures Valid() && Repr == old(Repr)
      ensures r.Err? <==> old(Contents) == []
      ensures r.Err? ==> r.error == NoSuchElement && Contents == old(Contents)
      ensures r.Ok? ==> r.value == old(Contents)[0] && Contents == old(Contents)[1..]
    {
      if IsEmpty() {
        return Err(NoSuchElement);
      }
      var old_ := head.element;
      assert |Nodes| > 1 ==> Nodes[0].next == Nodes[1];
      head := head.next;
      currentSize := currentSize - 1;
      if head == null {
        tail := null;
      }
      Nodes := Nodes[1..];
      Contents := Contents[1..];
      return Ok(old_);
    }

    /** removeLast: finds the node before the tail, which becomes the new tail. */
    method RemoveLast() returns (r: Result<E>)
      requires Valid()
      modifies Repr
      ensures Valid() && Repr == old(Repr)
      ensures r.Err? <==> old(Contents) == []
      ensures r.Err? ==> r.error == NoSuchElement && Contents == old(Contents)
      ensures r.Ok? ==> r.value == old(Contents)[|old(Contents)| - 1]
      ensures r.Ok? ==> Contents == old(Contents)[..|old(Contents)| - 1]
    {
      if IsEmpty() {
        return Err(NoSuchElement);
      }
      if currentSize == 1 {
        r := RemoveFirst();
        return;
      }
      var prev := head;
      ghost var i := 0;
      while prev.next != tail
        invariant 0 <= i <= |Nodes| - 2 && prev == Nodes[i]
        decreases |Nodes| - i
      {
        assert Nodes[i].next == Nodes[i + 1];
        prev := prev.next;
        i := i + 1;
      }
      assert Nodes[i].next == Nodes[i + 1];
      assert i == |Nodes| - 2;
      var old_ := tail.element;
      prev.SetNext(null);
      tail := prev;
      currentSize := currentSize - 1;
      Nodes := Nodes[..|Nodes| - 1];
      Contents := Contents[..|Contents| - 1];
      return Ok(old_);
    }

    /** remove: removes and returns the element at a position. */
    method Remove(position: int) returns (r: Result<E>)
      requires Valid()
      modifies Repr
      ensures Valid() && Repr == old(Repr)
      ensures r.Err? <==> !(0 <= position < |old(Contents)|)
      ensures r.Err? ==> r.error == InvalidPosition && Contents == old(Contents)
      ensures r.Ok? ==> r.value == old(Contents)[position]
      ensures r.Ok? ==> Contents == old(Contents)[..position] + old(Contents)[position + 1..]
    {
      if position < 0 || position >= currentSize {
        return Err(InvalidPosition);
      }
      if position == 0 {
        r := RemoveFirst();
        return;
      }
      if position == currentSize - 1 {
        r := RemoveLast();
        return;
      }
      var x := RemoveInner(position);
      return Ok(x);
    }

    /** The general case of remove(position): the predecessor is made to skip the node. */
    method RemoveInner(position: int) returns (x: E)
      requires Valid() && 0 < position < |Contents| - 1
      modifies Repr
      ensures Valid() && Repr == old(Repr)
      ensures x == old(Contents)[position]
      ensures Contents == old(Contents)[..position] + old(Contents)[position + 1..]
    {
      ghost var spine, items := Nodes, Contents;
      var prev := WalkTo(position - 1);
      assert Nodes[position - 1].next == Nodes[position] && Nodes[position].next == Nodes[position + 1];
      var curr := prev.next;
      x := curr.element;
      Nodes := Nodes[..position] + Nodes[position + 1..];
      Contents := Contents[..position] + Contents[position + 1..];
      currentSize := currentSize - 1;
      prev.SetNext(curr.next);
      Cut(spine, items, position);
    }

    /** iterator: a forward iterator from the head. */
    method Iterator() returns (it: SinglyIterator<E>)
      requires Valid()
      ensures fresh(it) && it.Valid() && it.Nodes == Nodes && it.Items == Contents && it.pos == 0
    {
      it := new SinglyIterator(head, Nodes, Contents);
    }
  }

  /** SinglyIterator: walks the `next` links from a first node; `pos` counts the returned elements. */
  class SinglyIterator<E> {
    const first: SinglyListNode?<E>
    var nextToReturn: SinglyListNode?<E>
    ghost const Nodes: seq<SinglyListNode<E>>
    ghost const Items: seq<E>
    ghost var pos: nat

    ghost predicate Valid()
      reads this, Nodes
    {
      Linked(Nodes) && Holds(Nodes, Items) && pos <= |Nodes| &&
      first == (if Nodes == [] then null else Nodes[0]) &&
      nextToReturn == (if pos < |Nodes| then Nodes[pos] else null)
    }

    constructor (theFirst: SinglyListNode?<E>, ghost nodes: seq<SinglyListNode<E>>, ghost items: seq<E>)
      requires Linked(nodes) && Holds(nodes, items)
      requires theFirst == if nodes == [] then null else nodes[0]
      ensures Valid() && Nodes == nodes && Items == items && pos == 0
    {
      first := theFirst;
      nextToReturn := theFirst;
      Nodes, Items, pos := nodes, items, 0;
    }

    function HasNext(): (r: bool)
      reads this, Nodes
      requires Valid()
      ensures r <==> pos < |Items|
    {
      nextToReturn != null
    }

    method Next() returns (r: Result<E>)
      requires Valid()
      modifies this
      ensures Valid()
      ensures r.Err? <==> old(pos) == |Items|
      ensures r.Err? ==> r.error == NoSuchElement && pos == old(pos)
      ensures r.Ok? ==> r.value == Items[old(pos)] && pos == old(pos) + 1
    {
      if !HasNext() {
        return Err(NoSuchElement);
      }
      var element := nextToReturn.element;
      nextToReturn := nextToReturn.next;
      pos := pos + 1;
      return Ok(element);
    }

    method Rewind()
      requires Valid()
      modifies this
      ensures Valid() && pos == 0
    {
      nextToReturn := first;
      pos := 0;
    }
  }
}

=== FILE: sorted_doubly_linked_list.dfy ===
/**
 * SortedDoublyLinkedList: a doubly linked list kept in the order of a comparator.
 *
 * The comparator is a function value `compare(x, y)` whose sign says whether `x` sorts
 * before (negative), with (zero) or after (positive) `y`. The list relies only on the
 * relation "compare(x, y) >= 0" (x does not sort before y) being total and transitive;
 * it never needs a zero answer, so a comparator that reports ties as 1 qualifies.
 */
module SortedDoublyLinkedList {
  import opened Wrappers
  import opened DoublyLinkedList

  /** "x does not sort before y" is total and transitive. */
  ghost predicate TotalPreorder<E(!new)>(compare: (E, E) -> int)
  {
    (forall x, y :: compare(x, y) >= 0 || compare(y, x) >= 0) &&
    (forall x, y, z :: compare(x, y) >= 0 && compare(y, z) >= 0 ==> compare(x, z) >= 0)
  }

  /** No element sorts before an earlier one. */
  ghost predicate Sorted<E>(compare: (E, E) -> int, s: seq<E>)
  {
    forall i, j :: 0 <= i < j < |s| ==> compare(s[j], s[i]) >= 0
  }

  /** Where `add` puts a new element: before the first element it sorts before. */
  function InsertPos<E>(compare: (E, E) -> int, e: E, s: seq<E>): (r: nat)
    ensures r <= |s|
    ensures forall i :: 0 <= i < r ==> compare(e, s[i]) >= 0
    ensures r < |s| ==> compare(e, s[r]) < 0
  {
    if s == [] then 0
    else if compare(e, s[0]) < 0 then 0
    else 1 + InsertPos(compare, e, s[1..])
  }

  /** The position of the first element the comparator calls equal to `e`, or -1. */
  function FindEqual<E>(compare: (E, E) -> int, s: seq<E>, e: E): (r: int)
    ensures -1 <= r < |s|
    ensures r >= 0 ==> compare(s[r], e) == 0
    ensures forall i :: 0 <= i < |s| && (r == -1 || i < r) ==> compare(s[i], e) != 0
  {
    if s == [] then -1
    else if compare(s[0], e) == 0 then 0
    else
      var k := FindEqual(compare, s[1..], e);
      if k == -1 then -1 else k + 1
  }

  /** In a sorted list, an element that does not sort before the last one goes at the end. */
  lemma AfterLastGoesAtEnd<E(!new)>(compare: (E, E) -> int, e: E, s: seq<E>)
    requires TotalPreorder(compare) && Sorted(compare, s) && s != []
    requires compare(e, s[|s| - 1]) >= 0
    ensures InsertPos(compare, e, s) == |s|
  {
    forall i | 0 <= i < |s|
      ensures compare(e, s[i]) >= 0
    {
      if i < |s| - 1 {
        assert compare(s[|s| - 1], s[i]) >= 0;
      }
    }
  }

  /** Inserting at InsertPos keeps a sorted list sorted. */
  lemma InsertKeepsSorted<E(!new)>(compare: (E, E) -> int, e: E, s: seq<E>)
    requires TotalPreorder(compare) && Sorted(compare, s)
    ensures Sorted(compare, s[..InsertPos(compare, e, s)] + [e] + s[InsertPos(compare, e, s)..])
  {
    var p := InsertPos(compare, e, s);
    InsertIsStable(compare, e, s);
    forall i | p <= i < |s|
      ensures compare(s[i], e) >= 0
    {
      assert compare(e, s[i]) < 0;
    }
    SortedInsert(compare, e, s, p);
  }

  /** An element that sorts after the ones before `p` and before the ones from `p` on fits at `p`. */
  lemma SortedInsert<E>(compare: (E, E) -> int, e: E, s: seq<E>, p: int)
    requires Sorted(compare, s) && 0 <= p <= |s|
    requires forall i :: 0 <= i < p ==> compare(e, s[i]) >= 0
    requires forall i :: p <= i < |s| ==> compare(s[i], e) >= 0
    ensures Sorted(compare, s[..p] + [e] + s[p..])
  {
    var t := s[..p] + [e] + s[p..];
    forall i, j | 0 <= i < j < |t|
      ensures compare(t[j], t[i]) >= 0
    {
      if j < p {
        assert t[i] == s[i] && t[j] == s[j];
      } else if j == p {
        assert t[i] == s[i] && t[j] == e;
      } else if i < p {
        assert t[i] == s[i] && t[j] == s[j - 1];
      } else if i == p {
        assert t[i] == e && t[j] == s[j - 1];
      } else {
        assert t[i] == s[i - 1] && t[j] == s[j - 1];
      }
    }
  }

  /**
   * The new element goes after every element it does not sort before (so after its
   * equals) and before every element it sorts before.
   */
  lemma InsertIsStable<E(!new)>(compare: (E, E) -> int, e: E, s: seq<E>)
    requires TotalPreorder(compare) && Sorted(compare, s)
    ensures var p := InsertPos(compare, e, s);
      (forall i :: 0 <= i < p ==> compare(e, s[i]) >= 0) &&
      (forall i :: p <= i < |s| ==> compare(e, s[i]) < 0)
  {
    var p := InsertPos(compare, e, s);
    forall i | p < i < |s|
      ensures compare(e, s[i]) < 0
    {
      assert compare(s[i], s[p]) >= 0;
    }
  }

  class SortedDoublyLinkedList<E(==,!new)> {
    var head: DoublyListNode?<E>
    var tail: DoublyListNode?<E>
    var currentSize: int
    const compare: (E, E) -> int
    ghost var Nodes: seq<DoublyListNode<E>>
    ghost var Contents: seq<E>
    ghost var Repr: set<object>

    /** The links: the same shape as an unsorted doubly linked list. */
    ghost predicate Wellformed()
      reads this, Repr
    {
      this in Repr && currentSize == |Nodes| && Chain(Nodes, Contents, Repr, head, tail)
    }

    ghost predicate Valid()
      reads this, Repr
    {
      Wellformed() && TotalPreorder(compare) && Sorted(compare, Contents)
    }

    constructor (comparator: (E, E) -> int)
      requires TotalPreorder(comparator)
      ensures Valid() && fresh(Repr) && Contents == [] && compare == comparator
    {
      head := null;
      tail := null;
      currentSize := 0;
      compare := comparator;
      Nodes := [];
      Contents := [];
      Repr := {this};
    }

    function IsEmpty(): (r: bool)
      reads this, Repr
      requires Valid()
      ensures r <==> Contents == []
    {
      currentSize == 0
    }

    function Size(): (r: int)
      reads this, Repr
      requires Valid()
      ensures r == |Contents|
    {
      currentSize
    }

    /** getMin: the first element, which no other element sorts before. */
    function GetMin(): (r: Result<E>)
      reads this, Repr
      requires Valid()
      ensures r.Err? <==> Contents == []
      ensures r.Err? ==> r.error == NoSuchElement
      ensures r.Ok? ==> r.value == Contents[0]
      ensures r.Ok? ==> forall i :: 0 <= i < |Contents| ==> compare(Contents[i], r.value) >= 0
    {
      if IsEmpty() then Err(NoSuchElement) else Ok(head.element)
    }

    /** getMax: the last element, which sorts before no other element. */
    function GetMax(): (r: Result<E>)
      reads this, Repr
      requires Valid()
      ensures r.Err? <==> Contents == []
      ensures r.Err? ==> r.error == NoSuchElement
      ensures r.Ok? ==> r.value == Contents[|Contents| - 1]
      ensures r.Ok? ==> forall i :: 0 <= i < |Contents| ==> compare(r.value, Contents[i]) >= 0
    {
      if IsEmpty() then Err(NoSuchElement) else Ok(tail.element)
    }

    /** get: the first element the comparator calls equal to `element`, or none. */
    method Get(element: E) returns (r: Option<E>)
      requires Valid()
      ensures var k := FindEqual(compare, Contents, element);
        r == if k == -1 then None else Some(Contents[k])
    {
      var current := head;
      ghost var i := 0;
      while current != null
        invariant 0 <= i <= |Nodes|
        invariant current == if i < |Nodes| then Nodes[i] else null
        invariant forall j :: 0 <= j < i ==> compare(Contents[j], element) != 0
        decreases |Nodes| - i
      {
        if compare(current.element, element) == 0 {
          return Some(current.element);
        }
        current := current.next;
        i := i + 1;
      }
      return None;
    }

    /** contains: whether get finds an element. */
    method Contains(element: E) returns (r: bool)
      requires Valid()
      ensures r <==> exists i :: 0 <= i < |Contents| && compare(Contents[i], element) == 0
    {
      var found := Get(element);
      r := found.Some?;
    }

    /** add: inserts after every element it does not sort before. */
    method Add(element: E)
      requires Valid()
      modifies Repr
      ensures Valid() && fresh(Repr - old(Repr))
      ensures Contents == old(Contents)[..InsertPos(compare, element, old(Contents))] + [element]
                          + old(Contents)[InsertPos(compare, element, old(Contents))..]
    {
      ghost var p := InsertPos(compare, element, Contents);
      ghost var before := Contents;
      var newNode := new DoublyListNode.Single(element);
      if IsEmpty() {
        LinkFirst(newNode);
        InsertAtEnds(before, element);
      } else if compare(element, head.element) < 0 {
        assert p == 0;
        LinkFirst(newNode);
        InsertAtEnds(before, element);
      } else if compare(element, tail.element) >= 0 {
        AfterLastGoesAtEnd(compare, element, Contents);
        LinkLast(newNode);
        InsertAtEnds(before, element);
      } else {
        var current, q := FirstAfter(element);
        LinkBefore(newNode, current, q);
      }
      assert Contents == before[..p] + [element] + before[p..];
      InsertKeepsSorted(compare, element, before);
      assert Sorted(compare, Contents);
    }

    /** add's relinking at the front: `newNode` becomes the head (and the tail of an empty list). */
    method LinkFirst(newNode: DoublyListNode<E>)
      requires Wellformed() && newNode !in Repr
      requires newNode.previous == null && newNode.next == null
      modifies Repr, newNode
      ensures Wellformed() && Repr == old(Repr) + {newNode} && newNode.element == old(newNode.element)
      ensures Nodes == [newNode] + old(Nodes)
      ensures Contents == [newNode.element] + old(Contents)
    {
      if head == null {
        head, tail := newNode, newNode;
      } else {
        newNode.next := head;
        head.previous := newNode;
        head := newNode;
      }
      currentSize := currentSize + 1;
      Nodes := [newNode] + Nodes;
      Contents := [newNode.element] + Contents;
      Repr := Repr + {newNode};
    }

    /** add's relinking at the back: `newNode` becomes the tail of a non-empty list. */
    method LinkLast(newNode: DoublyListNode<E>)
      requires Wellformed() && newNode !in Repr && Nodes != []
      requires newNode.previous == null && newNode.next == null
      modifies Repr, newNode
      ensures Wellformed() && Repr == old(Repr) + {newNode} && newNode.element == old(newNode.element)
      ensures Nodes == old(Nodes) + [newNode]
      ensures Contents == old(Contents) + [newNode.element]
    {
      newNode.previous := tail;
      tail.next := newNode;
      tail := newNode;
      currentSize := currentSize + 1;
      Nodes := Nodes + [newNode];
      Contents := Contents + [newNode.element];
      Repr := Repr + {newNode};
    }

    /** add's relinking in the middle: `newNode` goes just before `current`, at position `p`. */
    method LinkBefore(newNode: DoublyListNode<E>, current: DoublyListNode<E>, ghost p: int)
      requires Wellformed() && newNode !in Repr && 0 < p < |Nodes| && current == Nodes[p]
      modifies Repr, newNode
      ensures Wellformed() && Repr == old(Repr) + {newNode} && newNode.element == old(newNode.element)
      ensures Nodes == old(Nodes)[..p] + [newNode] + old(Nodes)[p..]
      ensures Contents == old(Contents)[..p] + [newNode.element] + old(Contents)[p..]
    {
      assert Nodes[p].previous == Nodes[p - 1] && Nodes[p - 1] in Repr;
      var prev := current.previous;
      newNode.previous := prev;
      newNode.next := current;
      ghost var spine, items := Nodes, Contents;
      currentSize, Nodes, Contents, Repr := currentSize + 1,
        Nodes[..p] + [newNode] + Nodes[p..], Contents[..p] + [newNode.element] + Contents[p..],
        Repr + {newNode};
      Link(prev, newNode, current, spine, items, p, Nodes, Contents, Repr, head, tail);
    }

    /**
     * The middle-case walk of add: from the head, skip the elements `element` does not
     * sort before. It stops inside the list, since `element` sorts before the tail.
     */
    method FirstAfter(element: E) returns (current: DoublyListNode<E>, ghost p: nat)
      requires Valid() && Contents != []
      requires compare(element, Contents[0]) >= 0 && compare(element, Contents[|Contents| - 1]) < 0
      ensures 0 < p < |Nodes| && p == InsertPos(compare, element, Contents)
      ensures current == Nodes[p]
    {
      current := head;
      p := 0;
      while compare(element, current.element) >= 0
        invariant 0 <= p < |Nodes| && current == Nodes[p]
        invariant forall j :: 0 <= j < p ==> compare(element, Contents[j]) >= 0
        decreases |Nodes| - p
      {
        assert p < |Nodes| - 1;
        assert Nodes[p].next == Nodes[p + 1];
        current := current.next;
        p := p + 1;
      }
    }

    /** remove: unlinks the first element the comparator calls equal to `element`. */
    method Remove(element: E) returns (r: Option<E>)
      requires Valid()
      modifies Repr
      ensures Valid() && Repr == old(Repr)
      ensures var k := FindEqual(compare, old(Contents), element);
        if k == -1 then r == None && Contents == old(Contents)
        else r == Some(old(Contents)[k]) && Contents == old(Contents)[..k] + old(Contents)[k + 1..]
    {
      var current := head;
      ghost var k := 0;
      while current != null && compare(current.element, element) != 0
        invariant 0 <= k <= |Nodes|
        invariant current == if k < |Nodes| then Nodes[k] else null
        invariant forall j :: 0 <= j < k ==> compare(Contents[j], element) != 0
        decreases |Nodes| - k
      {
        current := current.next;
        k := k + 1;
      }
      if current == null {
        return None;
      }
      assert FindEqual(compare, Contents, element) == k;
      SortedWithout(compare, Contents, k);
      var e := current.element;
      Unlink(current, k);
      return Some(e);
    }

    /** The relinking of remove: the node at position `k` leaves the list. */
    method Unlink(current: DoublyListNode<E>, ghost k: int)
      requires Wellformed() && 0 <= k < |Nodes| && current == Nodes[k]
      modifies Repr
      ensures Wellformed() && Repr == old(Repr)
      ensures Nodes == old(Nodes)[..k] + old(Nodes)[k + 1..]
      ensures Contents == old(Contents)[..k] + old(Contents)[k + 1..]
    {
      if current == head {
        UnlinkHead();
        assert Nodes == old(Nodes)[..k] + old(Nodes)[k + 1..];
      } else if current == tail {
        UnlinkTail();
        assert k == |old(Nodes)| - 1;
      } else {
        assert 0 < k < |Nodes| - 1 && Nodes[k - 1] in Repr && Nodes[k + 1] in Repr;
        ghost var spine, items := Nodes, Contents;
        currentSize, Nodes, Contents := currentSize - 1,
          Nodes[..k] + Nodes[k + 1..], Contents[..k] + Contents[k + 1..];
        Bypass(current, spine, items, k, Nodes, Contents, Repr, head, tail);
      }
    }

    /** remove's relinking when the match is the head. */
    method UnlinkHead()
      requires Wellformed() && Nodes != []
      modifies Repr
      ensures Wellformed() && Repr == old(Repr)
      ensures Nodes == old(Nodes)[1..] && Contents == old(Contents)[1..]
    {
      head := head.next;
      if head != null {
        assert Nodes[1] == head && Nodes[1] in Repr;
        head.previous := null;
      } else {
        tail := null;
      }
      currentSize := currentSize - 1;
      Nodes := Nodes[1..];
      Contents := Contents[1..];
    }

    /** remove's relinking when the match is the tail of a list of two or more. */
    method UnlinkTail()
      requires Wellformed() && |Nodes| >= 2
      modifies Repr
      ensures Wellformed() && Repr == old(Repr)
      ensures Nodes == old(Nodes)[..|old(Nodes)| - 1] && Contents == old(Contents)[..|old(Contents)| - 1]
    {
      assert Nodes[|Nodes| - 1].previous == Nodes[|Nodes| - 2] && Nodes[|Nodes| - 2] in Repr;
      tail := tail.previous;
      tail.next := null;
      currentSize := currentSize - 1;
      Nodes := Nodes[..|Nodes| - 1];
      Contents := Contents[..|Contents| - 1];
    }

    /** iterator: a forward iterator over the elements in sorted order. */
    method Iterator() returns (it: DoublyIterator<E>)
      requires Valid()
      ensures fresh(it) && it.Valid() && it.Nodes == Nodes && it.Items == Contents && it.pos == 0
    {
      it := new DoublyIterator(head, Nodes, Contents);
    }
  }

  /** Inserting at position 0 prepends; inserting at the length appends. */
  lemma InsertAtEnds<E>(s: seq<E>, e: E)
    ensures s[..0] + [e] + s[0..] == [e] + s
    ensures s[..|s|] + [e] + s[|s|..] == s + [e]
  {
  }

  /** Removing one element keeps a list sorted. */
  lemma SortedWithout<E>(compare: (E, E) -> int, s: seq<E>, k: int)
    requires Sorted(compare, s) && 0 <= k < |s|
    ensures Sorted(compare, s[..k] + s[k + 1..])
  {
    var t := s[..k] + s[k + 1..];
    forall i, j | 0 <= i < j < |t|
      ensures compare(t[j], t[i]) >= 0
    {
      var i0 := if i < k then i else i + 1;
      var j0 := if j < k then j else j + 1;
      assert t[i] == s[i0] && t[j] == s[j0];
    }
  }
}

=== FILE: stack_with_list_in_array.dfy ===
/**
 * StackWithListInArray: a bounded stack whose top is the last element of a ListInArray (the field `list` below).
 */
module StackWithListInArray {
  import opened Wrappers
  import opened ListInArray

  const DEFAULT_CAPACITY := 1000

  class StackWithListInArray<E(==)> {
    const list: ListInArray<E>  // `array` in the Java class
    const capacity: int
    ghost var Repr: set<object>

    /** The stack's elements, bottom first. */
    ghost var Contents: seq<E>

    ghost predicate Valid()
      reads this, Repr
    {
      this in Repr && list in Repr && list.Repr <= Repr && this !in list.Repr &&
      list.Valid() && Contents == list.Contents &&
      0 <= |Contents| <= capacity && (capacity == 0 || list.elems.Length > 0)
    }

    constructor (theCapacity: int)
      requires theCapacity >= 0
      ensures Valid() && fresh(Repr) && Contents == [] && capacity == theCapacity
    {
      list := new ListInArray(theCapacity);
      capacity := theCapacity;
      Contents := [];
      new;
      Repr := {this} + list.Repr;
    }

    /** The default constructor: a stack of DEFAULT_CAPACITY. */
    constructor Default()
      ensures Valid() && fresh(Repr) && Contents == [] && capacity == DEFAULT_CAPACITY
    {
      list := new ListInArray(DEFAULT_CAPACITY);
      capacity := DEFAULT_CAPACITY;
      Contents := [];
      new;
      Repr := {this} + list.Repr;
    }

    function IsEmpty(): (r: bool)
      reads this, Repr
      requires Valid()
      ensures r <==> Contents == []
    {
      list.IsEmpty()
    }

    function Size(): (r: int)
      reads this, Repr
      requires Valid()
      ensures r == |Contents| && r <= capacity
    {
      list.Size()
    }

    /** top: the most recently pushed element still on the stack. */
    function Top(): (r: Result<E>)
      reads this, Repr
      requires Valid()
      ensures r.Err? <==> Contents == []
      ensures r.Err? ==> r.error == EmptyStack
      ensures r.Ok? ==> r.value == Contents[|Contents| - 1]
    {
      if IsEmpty() then Err(EmptyStack) else list.GetLast()
    }

    /** push: refused on a full stack, else the element goes on top. */
    method Push(element: E) returns (r: Outcome)
      requires Valid()
      modifies Repr
      ensures Valid() && fresh(Repr - old(Repr))
      ensures r.Fail? <==> old(|Contents|) == capacity
      ensures r.Fail? ==> r.error == FullStack && Contents == old(Contents)
      ensures r.Pass? ==> Contents == old(Contents) + [element]
    {
      if Size() == capacity {
        return Fail(FullStack);
      }
      list.AddLast(element);
      Contents := list.Contents;
      Repr := Repr + list.Repr;
      return Pass;
    }

    /** pop: removes and returns the top element. */
    method Pop() returns (r: Result<E>)
      requires Valid()
      modifies Repr
      ensures Valid() && Repr == old(Repr)
      ensures r.Err? <==> old(Contents) == []
      ensures r.Err? ==> r.error == EmptyStack && Contents == old(Contents)
      ensures r.Ok? ==> r.value == old(Contents)[|old(Contents)| - 1]
      ensures r.Ok? ==> Contents == old(Contents)[..|old(Contents)| - 1]
    {
      if IsEmpty() {
        return Err(EmptyStack);
      }
      r := list.RemoveLast();
      Contents := list.Contents;
    }
  }

  /** Popping right after a push gives back the pushed element and the stack as it was. */
  method PushThenPop<E(==)>(s: StackWithListInArray<E>, x: E) returns (r: Result<E>)
    requires s.Valid() && |s.Contents| < s.capacity
    modifies s.Repr
    ensures s.Valid() && r == Ok(x) && s.Contents == old(s.Contents)
  {
    var pushed := s.Push(x);
    r := s.Pop();
    assert (old(s.Contents) + [x])[..|old(s.Contents)|] == old(s.Contents);
  }
}

=== FILE: values_iterator.dfy ===
/**
 * ValuesIterator: the value of each entry of a wrapped entry iterator, in the same order.
 */
module ValuesIterator {
  import opened Wrappers
  import opened MapEntry
  import opened SeqIterator

  /** The values of a sequence of entries, in order. */
  function Values<K, V>(s: seq<Entry<K, V>>): (r: seq<V>)
    ensures |r| == |s| && forall i :: 0 <= i < |s| ==> r[i] == s[i].value
  {
    if s == [] then [] else [s[0].value] + Values(s[1..])
  }

  class ValuesIterator<K, V> {
    const it: SeqIterator<Entry<K, V>>

    ghost predicate Valid()
      reads this, it
    {
      it.Valid()
    }

    constructor (theIt: SeqIterator<Entry<K, V>>)
      ensures it == theIt
    {
      it := theIt;
    }

    /** hasNext: exactly the wrapped iterator's answer. */
    function HasNext(): (r: bool)
      reads this, it
      requires Valid()
      ensures r <==> it.pos < |Values(it.items)|
    {
      it.HasNext()
    }

    /** next: the value of the wrapped iterator's next entry. */
    method Next() returns (r: Result<V>)
      requires Valid()
      modifies it
      ensures Valid()
      ensures r.Err? <==> old(it.pos) == |it.items|
      ensures r.Err? ==> r.error == NoSuchElement && it.pos == old(it.pos)
      ensures r.Ok? ==> r.value == Values(it.items)[old(it.pos)] && it.pos == old(it.pos) + 1
    {
      if !HasNext() {
        return Err(NoSuchElement);
      }
      var e := it.Next();
      return Ok(e.value.value);
    }

    /** rewind: rewinds the wrapped iterator. */
    method Rewind()
      requires Valid()
      modifies it
      ensures Valid() && it.pos == 0
    {
      it.Rewind();
    }
  }
}

=== FILE: wrappers.dfy ===
/** Option and Result types shared by every component, and the exceptions of the collections. */
module Wrappers {
  /** A Java reference that may be null. */
  datatype Option<T> = None | Some(value: T)

  /** The exceptions the collection classes throw. */
  datatype Error =
    | NoSuchElement      // NoSuchElementException
    | InvalidPosition    // InvalidPositionException
    | EmptyStack         // EmptyStackException
    | FullStack          // FullStackException
    | EmptyQueue         // EmptyQueueException
    | EmptyMap           // EmptyMapException
    | NullPointer        // a NullPointerException raised by a null dereference
    | Arithmetic         // an ArithmeticException raised by a remainder by zero

  /** The outcome of a call that returns a value or throws. */
  datatype Result<T> = Ok(value: T) | Err(error: Error)

  /** The outcome of a void call that may throw. */
  datatype Outcome = Pass | Fail(error: Error)
}
